=== FILE: README.md ===
# A verified model of the transactional entity engine

This project is a Dafny model of the core of a NestJS/Mongoose back end. The core is a
transactional entity engine. Entities live in MongoDB collections. The CRUD service
writes under optimistic concurrency: its `update` is a `findOneAndUpdate` guarded by
the `__v` version it read. The abstract service's `update`, `increment`, `forceUpdate`
and `remove` are unguarded `findByIdAndUpdate`/`findByIdAndDelete` calls. Three transaction coordinators run units of work inside sessions. Each
owns its session when the caller passes none, commits or aborts, classifies errors and
retries with a linearly growing delay. Auditable entities carry a status and a trail of
audit entries. A state machine guards status changes, and a queue-driven processor
drives entities through their states. Around this engine sits a ring of pure helpers:

- query, sort and pagination building, and filter sanitisation;
- Logto bearer-token and scope checks, and the Logto client's query and page shaping;
- user onboarding and the Logto webhook;
- the seeders that fill the database;
- the global exception filter;
- the entity event emitter.

The document store is abstracted as a map from id to document. A document holds a
version, its fields in insertion order, a status and an audit trail, and
`findOneAndUpdate` is one atomic compare-and-set on it (`Store`). JSON-like values and
JavaScript object semantics (key order, assignment, spread) are in `Json`. The
exception classes and their HTTP statuses are in `Errors`. A coordinator is a recursive
function over its retry budget. Its unit of work is a scripted outcome per attempt, and
it records a trace of abstract session events: start, commit, abort, end, sleep and
execute (`Session`). The queue is a map from job id to job. Library calls the model
cannot see become parameters: `isValidObjectId`, `JSON.parse`, JWT verification, the
Logto lookups, the clock and the job handlers.

Each Dafny module follows one source file:

| module | file |
|---|---|
| `OptimisticLocking` | `src/crud/services/optimistic-locking.service.ts` |
| `CrudService` | `src/crud/services/crud.service.ts` |
| `CrudTransactionManager` | `src/crud/services/transaction.manager.ts` |
| `CommonTransactionManager` | `src/common/services/transaction.manager.ts` |
| `Errors` | `src/crud/errors/mongodb.errors.ts` and `src/crud/errors/fsm.errors.ts`; the common manager imports its classes from `src/common/errors/mongodb.errors.ts`, which is not part of this model and is taken to declare the same classes plus `TransientTransactionException` |
| `Fsm` | `src/crud/utils/fsm.utils.ts` |
| `AuditableEntity` | `src/crud/entities/auditable.entity.ts` |
| `AuditableService` | `src/crud/services/auditable.service.ts` |
| `FsmProcessor` | `src/crud/services/fsm.processor.ts` |
| `QueueListener` | `src/common/services/abstract.listener.ts` |
| `QueryBuilder` | `src/common/utils/query-builder.util.ts` |
| `CrudQueryDto` | `src/crud/dto/crud-query.dto.ts` |
| `CommonQueryDto` | `src/common/dto/query.dto.ts` |
| `AbstractService` | `src/common/services/abstract.service.ts` |
| `Logto` | `src/logto/utils/token-validation.util.ts`, `src/logto/guards/logto-auth.guard.ts` and `src/logto/services/base-logto.service.ts` |
| `Users` | `src/user/user.service.ts` and `src/user/user.controller.ts` |
| `Seeders` | `src/database/seeders/abstract.seeder.ts`, `seeder.service.ts` and `user.seeder.ts` |
| `ExceptionFilter` | `src/common/filters/all-exceptions.filter.ts` |
| `EntityEvents` | `src/crud/services/entity-event.emitter.ts` |

In two places the repository's written design and its code disagree, and the model
follows the code:

- The design says `FinalStateTransitionException` is raised on a move out of a final
  state. No code raises it: `transition` raises `InvalidTransitionException` for every
  refused move, and the model does the same.
- The design gives the first requeue delay as the base delay. The code computes
  `baseDelay * 2^(n % 10 - 1)`, which is half the base at the start of each period
  (100 ms for the default 200). The model computes what the code computes.

## Model

| member | source | states |
|---|---|---|
| OptimisticLocking.BuildVersionedFilter | src/crud/services/optimistic-locking.service.ts:19-28 | the filter always names the id, and it has a `__v` entry equal to the version exactly when a version is supplied |
| OptimisticLocking.FilterSelects | src/crud/services/optimistic-locking.service.ts:19-28 | the filter selects a document exactly when it has that id and, if a version was supplied, that version |
| OptimisticLocking.VersionedUpdateKeeps | src/crud/services/optimistic-locking.service.ts:33-47 | without a version the update is returned unchanged; with one every key but `$inc` keeps its value, every caller `$inc` key but `__v` is kept, and `$inc.__v` is exactly 1 whatever the caller set |
| OptimisticLocking.ExtractVersion | src/crud/services/optimistic-locking.service.ts:52-60 | no version exactly when the check is skipped or the entity has none; otherwise the entity's `__v` |
| OptimisticLocking.AssertNotStale | src/crud/services/optimistic-locking.service.ts:65-82 | a Conflict naming the model exactly when the result is null and a version was supplied, which is `isVersionConflict`; otherwise it passes |
| OptimisticLocking.StaleWriteRejected | src/crud/services/optimistic-locking.service.ts:19-82 | a versioned write against a document that moved on selects nothing, leaves the store unchanged and is a version conflict; at the version it read, it succeeds and moves the version by one |
| Store.FindOneAndUpdate | src/crud/services/crud.service.ts:378-383 | a matching document is replaced by its update in one step and returned; with no match the store is unchanged and the result is null |
| Errors.AncestorsFollowParent | src/crud/errors/mongodb.errors.ts:18-55 | each class's ancestor chain starts at the class, follows `extends` and ends at `HttpException`; a subclass answers with its ancestors' HTTP status |
| CrudTransactionManager.Resolve | src/crud/services/transaction.manager.ts:36-40 | absent options give retries 3, delay 20 and no expected classes; each given option replaces only its own default |
| CrudTransactionManager.TransformError | src/crud/services/transaction.manager.ts:99-104 | only a server error with code 11000 becomes a Conflict "Resource already exists"; every other value passes through unchanged |
| CrudTransactionManager.ShouldThrowIff | src/crud/services/transaction.manager.ts:106-126 | true exactly when an owner has no retries left, or the error is an instance of an expected class, NotFound or Conflict |
| CrudTransactionManager.NonOwnerPassesThrough | src/crud/services/transaction.manager.ts:42-89 | a caller with its own session gets one execution and no start, commit, abort, end or retry; an error comes back transformed |
| CrudTransactionManager.RetryStep | src/crud/services/transaction.manager.ts:74-82 | a retried owned attempt records its own events, waits `retryDelayMs * (4 - retries)`, and returns the next attempt's result with one retry fewer |
| CrudTransactionManager.FinalStep | src/crud/services/transaction.manager.ts:50-72 | the last owned attempt commits exactly when the work returned, and returns the work's value or its transformed error |
| CrudTransactionManager.Shape | src/crud/services/transaction.manager.ts:31-90 | an owned run is a sequence of retried attempts, each failing with an error of no listed class, followed by a last attempt whose outcome is the result |
| CrudTransactionManager.Attempts | src/crud/services/transaction.manager.ts:31-90 | an owner runs the work between 1 and `retries + 1` times; an error result means the last error was of a listed class or the budget was spent |
| CrudTransactionManager.EarlierRetried | src/crud/services/transaction.manager.ts:63-82 | every owned attempt but the last failed with an error of no listed class |
| CrudTransactionManager.Delays | src/crud/services/transaction.manager.ts:76 | one wait before each retry, the `k`-th being `retryDelayMs * (4 - retries + k)` |
| CrudTransactionManager.DefaultSchedule | src/crud/services/transaction.manager.ts:36-82 | with no options there are at most 4 executions, and the waits are 20, 40 and 60 ms in order |
| CrudTransactionManager.EndsEach | src/crud/services/transaction.manager.ts:85-89 | in the corrected coordinator, session `n` is started and ended exactly once when attempt `n` ran, and never otherwise |
| CrudTransactionManager.AsWrittenRetryStep | src/crud/services/transaction.manager.ts:74-89 | as written, a retried attempt waits and moves on without ending its session, because `isRetrying` suppresses the `finally` |
| CrudTransactionManager.AsWrittenFinalStep | src/crud/services/transaction.manager.ts:50-89 | as written, the last attempt behaves as in the corrected form |
| CrudTransactionManager.AsWrittenShape | src/crud/services/transaction.manager.ts:31-90 | as written, an owned run is a leaky pattern: one retried attempt per wait, then a last attempt |
| CrudTransactionManager.AsWrittenSessions | src/crud/services/transaction.manager.ts:75-89 | as written, every attempt starts its own session once, but only the last attempt's session is ended |
| CrudTransactionManager.AsWrittenLeakExample | src/crud/services/transaction.manager.ts:75-89 | with default options, a first attempt throwing a plain error and a second succeeding leave session 0 started and never ended |
| CrudTransactionManager.FixKeepsResult | src/crud/services/transaction.manager.ts:85-89 | ending the retried sessions changes only the trace: the corrected and the as-written coordinator return the same result |
| CommonTransactionManager.ExtractDuplicateKeyField | src/common/services/transaction.manager.ts:124-132 | the first key of `keyPattern`; nothing when the error has no pattern or an empty one |
| CommonTransactionManager.TransformError | src/common/services/transaction.manager.ts:93-122 | a non-server error passes through unchanged; a server error becomes an exception, never a server error again |
| CommonTransactionManager.TransformTable | src/common/services/transaction.manager.ts:98-121 | the transient label wins over the code; codes 11000, 112, 121 and 50 map to DuplicateKey (naming the field), WriteConflict, DocumentValidation and QueryTimeout; any other code maps to InternalServerError |
| CommonTransactionManager.TransformStatus | src/common/services/transaction.manager.ts:98-121 | each exception the transform builds, other than the 500 fallback, takes its status from its built-in parent: a transient-labelled error becomes `TransientTransactionException`, taken to extend `ConflictException`; with the parents of the crud error classes this gives 409 for a transient error, a duplicate key, a write conflict or a timeout, 400 for a validation failure, and 500 otherwise |
| CommonTransactionManager.TransformIdempotent | src/common/services/transaction.manager.ts:93-96 | transforming twice is the same as transforming once |
| CommonTransactionManager.IsTransientInstanceOf | src/common/services/transaction.manager.ts:134-139 | `isTransientError` holds exactly for WriteConflict and TransientTransaction instances, as no class extends either |
| CommonTransactionManager.TransientServerErrors | src/common/services/transaction.manager.ts:65-69 | a server error is retried exactly when it has the transient label, or it has no label and code 112 |
| CommonTransactionManager.NonOwnerPassesThrough | src/common/services/transaction.manager.ts:42-85 | a caller with its own session gets one execution and no start, commit, abort, end or retry; an error comes back transformed |
| CommonTransactionManager.RetryStep | src/common/services/transaction.manager.ts:65-78 | a retried owned attempt ends its session, waits `20 * attempt`, and returns the next attempt's result with one retry fewer |
| CommonTransactionManager.FinalStep | src/common/services/transaction.manager.ts:52-89 | the last owned attempt commits exactly when the work returned, ends its session, and returns the work's value or its transformed error |
| CommonTransactionManager.Shape | src/common/services/transaction.manager.ts:37-91 | an owned run is a sequence of retried attempts, each failing with a transient error, followed by a last attempt whose outcome is the result |
| CommonTransactionManager.ExecuteAttempts | src/common/services/transaction.manager.ts:37-91 | an owner runs the work between 1 and `retriesLeft + 1` times; an error result means the last error was not transient or the budget was spent |
| CommonTransactionManager.ExecuteRetriesTransient | src/common/services/transaction.manager.ts:65-69 | every owned attempt but the last failed with a transient error |
| CommonTransactionManager.ExecuteDelays | src/common/services/transaction.manager.ts:70-77 | one wait before each retry, the `k`-th being `20 * (4 - retriesLeft + k)` |
| CommonTransactionManager.DefaultSchedule | src/common/services/transaction.manager.ts:21-34 | `withTransaction` runs the work at most 4 times, and the waits are 20, 40 and 60 ms in order |
| CommonTransactionManager.ExecuteEndsEach | src/common/services/transaction.manager.ts:44-89 | session `n` is started and ended exactly once when attempt `n` ran, and never otherwise |
| CrudService.ToConflict | src/crud/services/crud.service.ts:106-113 | a server error with code 11000 becomes a Conflict "<model> already exists"; every other value is kept |
| CrudService.WithSessionNonOwner | src/crud/services/crud.service.ts:91-141 | a caller with its own session gets exactly one execution, no session handling and no retry; the value, or the error with duplicate keys turned into a Conflict |
| CrudService.RetryStep | src/crud/services/crud.service.ts:132-138 | a retried owned attempt ends its session in the corrected form, waits `20 * (3 - retries + 1)`, and returns the next attempt's result |
| CrudService.FinalStep | src/crud/services/crud.service.ts:99-130 | the last owned attempt commits exactly when the work returned, and returns the value or the error |
| CrudService.Shape | src/crud/services/crud.service.ts:81-147 | an owned run is a sequence of retried attempts, each failing with a retryable error, followed by a last attempt whose outcome is the result |
| CrudService.WithSessionAttempts | src/crud/services/crud.service.ts:119-141 | an owner runs the work between 1 and `retries + 1` times; every attempt but the last threw a retryable error, and the result is the last attempt's |
| CrudService.WithSessionDelays | src/crud/services/crud.service.ts:134-136 | one wait before each retry, growing linearly by 20 ms |
| CrudService.DefaultDelays | src/crud/services/crud.service.ts:84-89 | with the default budget of 3 the waits are exactly 20, 40 and 60 ms |
| CrudService.WithSessionEndsEach | src/crud/services/crud.service.ts:142-146 | in the corrected wrapper, session `n` is started and ended exactly once when attempt `n` ran, and never otherwise |
| CrudService.FixKeepsResult | src/crud/services/crud.service.ts:142-146 | the corrected and the as-written wrapper return the same result; only the trace differs |
| CrudService.AsWrittenRetryStep | src/crud/services/crud.service.ts:132-146 | as written, a retried attempt waits without ending its session |
| CrudService.AsWrittenFinalStep | src/crud/services/crud.service.ts:99-146 | as written, the last attempt behaves as in the corrected form |
| CrudService.AsWrittenShape | src/crud/services/crud.service.ts:81-147 | as written, an owned run is a leaky pattern: one retried attempt per wait, then a last attempt |
| CrudService.AsWrittenSessions | src/crud/services/crud.service.ts:142-146 | as written, every attempt starts its own session once, but only the last attempt's session is ended |
| CrudService.AsWrittenCounts | src/crud/services/crud.service.ts:81-147 | the as-written wrapper returns the same result, runs the work as often and waits the same delays as the corrected one |
| CrudService.AsWrittenLeakExample | src/crud/services/crud.service.ts:132-146 | a first attempt failing with a plain error and a second succeeding leave session 0 started and never ended |
| CrudService.UpdateWrite | src/crud/services/crud.service.ts:365-396 | a compare-and-set on `{_id, __v?}` with `$inc: {__v: 1}` when versioned; no match is a Conflict when versioned and a NotFound otherwise, and leaves the store unchanged |
| CrudService.Update | src/crud/services/crud.service.ts:347-405 | a missing entity is a NotFound with no write; a failed update leaves the store unchanged |
| CrudService.UpdateVersioned | src/crud/services/crud.service.ts:366-395 | without interference a versioned update succeeds: the version moves by one, the dto's plain keys and then its `$set` keys are assigned, and the dto's own `$inc` has no effect |
| CrudService.UpdateRace | src/crud/services/crud.service.ts:366-389 | two updates from the same read: the first wins and moves the version; the second is a Conflict and changes nothing |
| CrudService.UpdateEmitting | src/crud/services/crud.service.ts:347-405 | the store and result are `update`'s; exactly one `entity.<id>.updated` event carrying the id is emitted, after a successful update and only when an event bus is present |
| CrudService.UpdatedEventLikeEmitter | src/crud/services/crud.service.ts:398-402 | the service's own `updated` event has the event name and id of the emitter's `Updated` action, and no `type` |
| CrudService.UpdateRaceEmitsOnce | src/crud/services/crud.service.ts:366-402 | of two updates from the same read, only the winner emits an `updated` event |
| CrudService.UpdateErrorsNotRetried | src/crud/services/crud.service.ts:124-130 | the Conflict and the NotFound that `update` throws inside its transaction are never retried, whatever the expected list |
| CrudService.ForceUpdateWrite | src/crud/services/crud.service.ts:461-487 | no match is a Conflict when versioned and a null result otherwise; no match leaves the store unchanged |
| CrudService.ForceUpdate | src/crud/services/crud.service.ts:431-496 | a missing entity gives null and leaves the store unchanged |
| CrudService.ForceUpdateIncrement | src/crud/services/crud.service.ts:467-473 | `$inc.__v` is 1 when versioned and the caller's `$inc.__v` is not truthy, and the caller's own increment otherwise; every other caller `$inc` key is kept |
| CrudService.ForceWriteMoves | src/crud/services/crud.service.ts:461-481 | a versioned write at the version read succeeds and moves the version, when the caller sets no `$inc.__v` or a numeric one |
| CrudService.ForceUpdateRace | src/crud/services/crud.service.ts:461-487 | two force updates from the same read: the first wins; the second is a Conflict and changes nothing |
| CrudService.ForceUpdateEmitting | src/crud/services/crud.service.ts:431-496 | the store and result are `forceUpdate`'s; a model is resolved exactly when the entity exists, and it is the discriminator its key names; one `updated` event is emitted exactly when a bus is present, the entity existed and the write succeeded |
| CrudService.FindAllFilter | src/crud/services/crud.service.ts:182-230 | fails exactly when a search meets a truthy non-array `$or`; with a search and no truthy `$or` after the id conversion, the filter's `$text` is the search clause; the date bounds are spread onto `createdAt` and never throw |
| CrudService.SpreadDateFilters | src/crud/services/crud.service.ts:209-230 | the date bounds are spread over `createdAt`'s own enumerable properties and never throw; without bounds `createdAt` is unchanged, and each given bound is set |
| CrudService.SpreadDatesLikeBuilder | src/crud/services/crud.service.ts:209-230 | for an object, absent or null `createdAt`, `findAll`'s spread gives what the query builder's date filter gives |
| CrudService.SpreadDatesOfString | src/crud/services/crud.service.ts:209-230 | for a string `createdAt` the two differ: the builder throws, while the spread keeps the string's characters under `"0"`, `"1"`, … |
| CrudService.FindAllShaping | src/crud/services/crud.service.ts:238-242 | as written: no select populates everything; a non-empty select, which the DTO types as a string, throws because a string has no `join` |
| CrudService.SelectNeverReads | src/crud/services/crud.service.ts:238-242 | a select naming one field fails the read as written, where the comma-separated reading selects that field; without a select both populate |
| CrudService.FindAllShapingCorrected | src/crud/services/crud.service.ts:238-242 | with the select split on commas and trimmed, every given select selects non-empty, comma-free fields, and a single field is selected as it is |
| CrudService.FindAllMeta | src/crud/services/crud.service.ts:258-288 | the limit is positive, the page count is `ceil(total / limit)`, and the page is the requested one, with 0 and absent read as 1 |
| CrudService.FindAllDefaults | src/crud/services/crud.service.ts:170-180 | with no parameters, `findAll` sorts by `createdAt` descending, skips nothing and reads 10 documents |
| CrudService.FindAllAgreesWithBuilder | src/crud/services/crud.service.ts:246-278 | for valid page and limit, `findAll` pages exactly as the query builder does and reports the requested page |
| Fsm.InvalidTransitionError | src/crud/errors/fsm.errors.ts:3-10 | the exception is an `InvalidTransitionException` and a Forbidden with status 403 and message "Invalid transition" |
| Fsm.GetNextState | src/crud/utils/fsm.utils.ts:39-54 | a target exactly when the machine can take the event from the state; the target is the one the state's `on` entry names |
| Fsm.Transition | src/crud/utils/fsm.utils.ts:56-64 | `{from, to, event, isValid: true}` with `to` the next state; InvalidTransitionException when there is no next state or it is the empty string |
| Fsm.GetAvailableEvents | src/crud/utils/fsm.utils.ts:66-69 | `[]` for an unknown state or one without `on` |
| Fsm.CanIffAvailable | src/crud/utils/fsm.utils.ts:32-69 | the machine can take an event exactly when the event is among the state's available events |
| Fsm.Validate | src/crud/utils/fsm.utils.ts:95-99 | an InvalidTransitionException(from, to) exactly when the table does not list the move, and nothing else |
| Fsm.GetNextStates | src/crud/utils/fsm.utils.ts:101-103 | `[]` for a state with no entry |
| Fsm.TableAgrees | src/crud/utils/fsm.utils.ts:91-103 | `canTransition` holds exactly when the target is among `getNextStates`, and `validate` passes exactly then |
| Fsm.SelfEdges | src/crud/services/auditable.service.ts:143 | one `on` entry per target, in order, whose event and target are both that target |
| Fsm.StatusMachine | src/crud/services/auditable.service.ts:134-148 | one state per table entry, each with an `on` object; no state is final |
| Fsm.SelfEdgesTarget | src/crud/services/auditable.service.ts:143 | an event is in a self-edge object exactly when it is a target, and it leads to itself |
| Fsm.StatusMachineAgrees | src/crud/services/auditable.service.ts:134-148 | the status machine permits a move exactly when the table lists it, leads to the requested status, and offers as events exactly the table's next states |
| FsmProcessor.CanProcess | src/crud/services/fsm.processor.ts:23-34 | false exactly for a FINAL job |
| FsmProcessor.ShouldRequeue | src/crud/services/fsm.processor.ts:36-46 | true exactly for INITIAL and PROCESSING jobs; a job to requeue can also be processed |
| FsmProcessor.JsRem10 | src/crud/services/fsm.processor.ts:97 | JavaScript's `n % 10` lies in `0..9` for a non-negative count and in `-9..0` for a negative one, and repeats every 10 |
| FsmProcessor.GetDelay | src/crud/services/fsm.processor.ts:96-101 | the smaller of `base * 2^(n % 10 - 1)` and 15 minutes: never above either, equal to the uncapped value whenever that is within the cap, and never negative for a non-negative base |
| FsmProcessor.DelayPeriodic | src/crud/services/fsm.processor.ts:97 | the delay repeats every 10 iterations |
| FsmProcessor.DelayReset | src/crud/services/fsm.processor.ts:96-101 | at a multiple of 10 the delay is half the base, capped |
| FsmProcessor.DelayDoubles | src/crud/services/fsm.processor.ts:99-100 | within a period, the delay never shrinks from one iteration to the next |
| FsmProcessor.DefaultDelays | src/crud/services/fsm.processor.ts:96-101 | with base 200 the delays are 100, 200, ..., 51200 ms, below the cap |
| FsmProcessor.FinishAfter | src/crud/services/fsm.processor.ts:106-125 | a requeue exactly when the job should be requeued and fewer than 50 iterations are counted; its delay uses the given base, or 200 when none is given |
| FsmProcessor.FinishProcessing | src/crud/services/fsm.processor.ts:103-126 | requeues only a job that should be requeued and whose current entry counts fewer than 50 passes; gives up reporting a count of at least 50 |
| FsmProcessor.Process | src/crud/services/fsm.processor.ts:48-79 | no id is a BadRequest; a missing entity is a NotFound; an entity that cannot be processed is skipped with no write; a handler error propagates with no write |
| FsmProcessor.AfterUpdate | src/crud/services/fsm.processor.ts:69-74 | an error of `updateStatus` propagates; otherwise `finishProcessing` runs on the entity it returned |
| FsmProcessor.ProcessAdvances | src/crud/services/fsm.processor.ts:55-74 | a processable entity whose handler asks for an allowed move gains one audit entry, and `finishProcessing` runs on the updated entity |
| FsmProcessor.ProcessRejected | src/crud/services/fsm.processor.ts:67-77 | a move the machine refuses ends the job with InvalidTransitionException and leaves the store unchanged |
| FsmProcessor.ProcessIterationsStayZero | src/crud/services/fsm.processor.ts:103-119 | as written, the entry just appended has no count, so the iterations read are always 0: the job is never given up on, and the delay is always half the base |
| FsmProcessor.ProcessingAlwaysWaits100 | src/crud/services/fsm.processor.ts:106-119 | as written, an entity that stays PROCESSING is requeued after 100 ms on every pass, however many passes it has had |
| FsmProcessor.ProcessCounted | src/crud/services/fsm.processor.ts:48-79 | the corrected `process` keeps the early outcomes of `process`: no id, a missing entity and a skipped job |
| FsmProcessor.ProcessCountedCounts | src/crud/services/fsm.processor.ts:107-119 | each corrected pass raises the count by one, and the requeue decision and delay use the raised count |
| FsmProcessor.ProcessCountedGivesUp | src/crud/services/fsm.processor.ts:111-116 | a requeued job whose entry counts 49 passes gives up on its 50th pass |
| QueueListener.DefaultJobName | src/common/services/abstract.listener.ts:56-57 | `process-` followed by the queue name with its first `-queue` removed, or the whole name when it holds no `-queue` |
| QueueListener.DefaultJobNameOf | src/common/services/abstract.listener.ts:56-57 | a queue name `prefix-queuerest` whose first `-queue` follows `prefix` gives the job name `process-` + prefix + rest |
| QueueListener.JobName | src/common/services/abstract.listener.ts:58 | the given name when it is non-empty, otherwise the default name |
| QueueListener.JobOptions | src/common/services/abstract.listener.ts:60-70 | every caller option wins, and every key the caller does not set takes the listener's default |
| QueueListener.DefaultOptions | src/common/services/abstract.listener.ts:60-70 | without caller options the job keeps the given id and delay, is kept on failure, removed on completion, and backs off exponentially from 5000 ms |
| QueueListener.QueueAdd | src/common/services/abstract.listener.ts:60 | an add under a new id stores the job; an add under an id already present changes nothing |
| QueueListener.Enqueue | src/common/services/abstract.listener.ts:21-70 | the job is looked up by the request's id first; no data is a BadRequest; a waiting, delayed or active job makes the call a no-op; a failed job is removed and re-added; any other state falls through to the add, which stores the job under the `jobId` of its final options |
| QueueListener.EnqueueReplacesFailed | src/common/services/abstract.listener.ts:47-51 | a failed job whose replacement keeps the request's id is replaced in place: the queue equals the old one with that id now holding the new job, every other job untouched |
| QueueListener.EnqueueShapes | src/common/services/abstract.listener.ts:29-60 | the calls are the lookup alone, the lookup then the add, or the lookup, the removal and the add |
| QueueListener.EnqueueAdds | src/common/services/abstract.listener.ts:35-60 | at most one add, made exactly when there is data and no pending job holds the id |
| QueueListener.EnqueueRemoves | src/common/services/abstract.listener.ts:47-52 | a removal happens only when the id holds a failed job, and before the add |
| QueueListener.EnqueueTwiceAddsOnce | src/common/services/abstract.listener.ts:35-70 | enqueueing the same request twice never changes the queue the second time; under the request's own id the second call makes no add, and under an id the caller's options override it adds again and BullMQ ignores it |
| QueueListener.StoredId | src/common/services/abstract.listener.ts:60-70 | the request's id unless the caller's options set `jobId`; a caller's string `jobId` wins |
| QueueListener.EnqueueOverriddenId | src/common/services/abstract.listener.ts:60-70 | with a caller's `options.jobId`, the queue gains the job under that id and not under the request's |
| QueueListener.JobNameExamples | src/common/services/abstract.listener.ts:56-58 | `orders-queue` gives `process-orders`; an empty name counts as absent; a given name wins |
| AuditableEntity.ToJson | src/crud/entities/auditable.entity.ts:10-31 | the entry as the service builds it, before the schema's cast, is an object with no repeated key |
| AuditableEntity.CastEntry | src/crud/entities/auditable.entity.ts:14-18 | the schema's cast gives an absent `step` the value of `FsmProcessingState.START` and an absent `iterations` the value 0, keeps every other property, and leaves the count the processor reads unchanged |
| AuditableEntity.EntryFields | src/crud/entities/auditable.entity.ts:10-31 | each schema property of the stored entry holds the entry's own value |
| AuditableEntity.EntryRoundTrip | src/crud/entities/auditable.entity.ts:10-31 | storing an entry and reading it back gives the same entry |
| AuditableEntity.EntryReadBack | src/crud/entities/auditable.entity.ts:10-31 | an object that reads back as an entry agrees with the entry's stored form on every schema property |
| AuditableEntity.EntryIterations | src/crud/entities/auditable.entity.ts:17-18 | the count read back is the one written, and 0 when none was written |
| AuditableEntity.WithDefault | src/crud/entities/auditable.entity.ts:40-41 | a schema default sets the property only when it is absent, and keeps every other property |
| AuditableEntity.NewDocKeeps | src/crud/entities/auditable.entity.ts:36-50 | a new document keeps every given property, has version 0, and starts with an empty trail unless the fields bring one |
| AuditableService.MayTransitionTable | src/crud/services/auditable.service.ts:41-56 | with the status machine of a table, the service allows exactly the listed moves; with no machine it allows every move |
| AuditableService.GetCurrentState | src/crud/services/auditable.service.ts:61-63 | nothing exactly when the trail is empty; otherwise an entry of the trail |
| AuditableService.AuditEntry | src/crud/services/auditable.service.ts:86-91 | status, metadata and user are the dto's; the description is never empty; there is no step and no count |
| AuditableService.RecordStatusWork | src/crud/services/auditable.service.ts:73-101 | NotFound when the entity is absent; InvalidTransitionException with no write when the move is refused; a failed execution leaves the store as it was |
| AuditableService.UpdateStatusWork | src/crud/services/auditable.service.ts:73-101 | the same outcomes for `updateStatus`'s unit of work: NotFound when absent, InvalidTransitionException when refused, no change on failure |
| AuditableService.RecordStatus | src/crud/services/auditable.service.ts:73-101 | run through the as-written `withSession`, a failed status change leaves the store as it was, since each retry starts from the original store |
| AuditableService.UpdateStatus | src/crud/services/auditable.service.ts:68-102 | a failed `updateStatus` leaves the store as it was |
| AuditableService.StatusObjectVersioned | src/crud/services/crud.service.ts:467-473 | `forceUpdate` adds `$inc: {__v: 1}` to the status update object |
| AuditableService.StatusObjectParts | src/crud/services/auditable.service.ts:93-100 | the versioned status object assigns `status`, increments `__v` by one and pushes the entry |
| AuditableService.StatusWrite | src/crud/services/auditable.service.ts:93-100 | at the version read, the version moves by one, `status` is set, the entry as built is appended to the trail, and every other property is kept |
| AuditableService.RecordWorkWrites | src/crud/services/auditable.service.ts:74-100 | an allowed change on an existing entity writes, in one execution, the document read at the version read |
| AuditableService.UpdateStatusWorkWrites | src/crud/services/auditable.service.ts:74-100 | the same for `updateStatus`'s unit of work |
| AuditableService.RecordStatusOk | src/crud/services/auditable.service.ts:73-101 | with the session owned, the store holds the written document, and that document is the result |
| AuditableService.RecordStatusAppends | src/crud/services/auditable.service.ts:82-100 | an allowed change succeeds in one execution: version plus one, the requested status, exactly one new entry that becomes the current state, nothing else changed |
| AuditableService.UpdateStatusAppends | src/crud/services/auditable.service.ts:86-100 | `updateStatus` on an allowed move sets the status and appends the dto's audit entry as built, which becomes the current state |
| AuditableService.AuditEntryCast | src/crud/entities/auditable.entity.ts:14-18 | the entry `updateStatus` pushes is stored with step `FsmProcessingState.START` and iterations 0, its own status and description, and reads a count of 0 |
| AuditableService.RecordStatusRejected | src/crud/services/auditable.service.ts:82-84 | a refused move writes nothing and fails with InvalidTransitionException after four executions and waits of 20, 40 and 60 ms |
| AuditableService.RecordStatusRejectedLeaks | src/crud/services/crud.service.ts:132-146 | the rejected move's owner starts four sessions and ends only the last, as the as-written wrapper does |
| AuditableService.UpdateStatusRejected | src/crud/services/auditable.service.ts:82-84 | the same for `updateStatus` |
| AuditableService.InvalidTransitionRetried | src/crud/services/crud.service.ts:124-138 | InvalidTransitionException is not in the default expected list, nor a NotFound or Conflict, so an owner retries it |
| AuditableService.UpdateStatusMissing | src/crud/services/auditable.service.ts:74-77 | a missing entity is a NotFound, raised once and never retried |
| AuditableService.CreateFields | src/crud/services/crud.service.ts:155-158 | the dto's fields, with `user` set to the caller's id when there is a caller, and nothing else |
| AuditableService.CreateWork | src/crud/services/auditable.service.ts:112-126 | a taken id is a Conflict; a missing or empty status fails validation; a failed execution leaves the store as it was |
| AuditableService.Create | src/crud/services/auditable.service.ts:107-127 | a failed `create` leaves the store as it was |
| AuditableService.NewDocStatus | src/crud/entities/auditable.entity.ts:37-38 | a new document's status is the one its fields give |
| AuditableService.CreateWorkSaved | src/crud/services/auditable.service.ts:113-125 | after a successful save, the execution is the status update on the saved document followed by `findOne` |
| AuditableService.CreateWorkWrites | src/crud/services/auditable.service.ts:113-123 | a fresh document whose status may move to itself is saved and has the creation entry written over it in one execution |
| AuditableService.NewDocEmptyTrail | src/crud/entities/auditable.entity.ts:40-41 | a new document from a dto with no trail starts at version 0 with an empty trail |
| AuditableService.CreatedDoc | src/crud/services/auditable.service.ts:113-125 | the created document has version 1, its status, and a trail holding exactly the creation entry "<model> created" |
| AuditableService.CreateRecordsEntry | src/crud/services/auditable.service.ts:112-126 | a fresh document whose status may move to itself is created in one execution, with the creation entry as its only trail entry |
| AuditableService.OnceOk | src/crud/services/crud.service.ts:99-104 | a unit of work that returns is run once, whoever owns the session, and its value is the result |
| AuditableService.InvalidRetried | src/crud/services/crud.service.ts:119-138 | a unit of work that always throws InvalidTransitionException runs four times under an owner, with waits of 20, 40 and 60 ms, and the exception reaches the caller |
| AuditableService.CreateDuplicate | src/crud/services/crud.service.ts:106-130 | a taken id is a Conflict, raised once and never retried |
| AuditableService.CreateRejectedByMachine | src/crud/services/auditable.service.ts:115-123 | as written, under a machine that does not list the self-move, every execution fails, the owner retries three times, and no document is ever created |
| AuditableService.CreateWorkRejected | src/crud/services/auditable.service.ts:115-123 | one execution under such a machine fails with InvalidTransitionException and leaves nothing behind |
| AuditableService.CreateDraftRejected | src/crud/services/auditable.service.ts:115-123 | with the table `draft -> [published]`, creating a draft fails, although `draft` is the initial status |
| AuditableService.CreateCorrected | src/crud/services/auditable.service.ts:107-127 | a failed corrected `create` leaves the store as it was |
| AuditableService.CreateCorrectedRecords | src/crud/services/auditable.service.ts:112-126 | whatever the machine, the corrected `create` of a fresh document succeeds in one execution and records the creation entry |
| QueryBuilder.SortEntry | src/common/utils/query-builder.util.ts:170-171 | the order of an entry is 1 or -1 |
| QueryBuilder.SortEntries | src/common/utils/query-builder.util.ts:169-172 | one entry per field, in order |
| QueryBuilder.SortKeys | src/common/utils/query-builder.util.ts:166-174 | the sort object's keys are the fields' keys, and every value is 1 or -1 |
| QueryBuilder.SortLastWins | src/common/utils/query-builder.util.ts:169-172 | a key named by several fields takes the order of the last of them |
| QueryBuilder.BuildSortOptions | src/common/utils/query-builder.util.ts:161-175 | `{createdAt: -1}` for an absent or empty sort |
| QueryBuilder.SortEntryOf | src/common/utils/query-builder.util.ts:170-171 | `key:order` sorts `key` descending exactly when the order is `desc`; a bare `key` sorts ascending |
| QueryBuilder.DefaultSort | src/crud/services/crud.service.ts:174 | the default sort `createdAt:desc` is the object `{createdAt: -1}` |
| QueryBuilder.TotalPages | src/common/utils/query-builder.util.ts:96 | `ceil(total / limit)`: the fewest pages of `limit` items that hold `total` items |
| QueryBuilder.TotalPagesOfOnePage | src/common/utils/query-builder.util.ts:96 | nothing fills no page, and at most one page of items fills one page |
| QueryBuilder.PageRecovered | src/common/utils/query-builder.util.ts:177-186 | `floor(skip / limit) + 1` gives back the requested page; the defaults are page 1 and limit 10 |
| QueryBuilder.CopyDefined | src/common/utils/query-builder.util.ts:101-112 | every defined filter value is assigned, and every other key keeps its value |
| QueryBuilder.ConvertIds | src/common/utils/query-builder.util.ts:114-124 | each accepted string becomes an `$in` clause of the ObjectId and the string; keys and order are kept; other values are untouched |
| QueryBuilder.ConvertOnce | src/common/utils/query-builder.util.ts:114-124 | converting twice is the same as converting once |
| QueryBuilder.ApplyTextSearch | src/common/utils/query-builder.util.ts:126-138 | an empty search changes nothing; a truthy `$or` array gains the `$text` clause; otherwise `$text` is set; a non-array `$or` is a TypeError |
| QueryBuilder.ApplyDateFilters | src/common/utils/query-builder.util.ts:140-159 | with no bound nothing changes; a bound on a boolean, number or string `createdAt` is the TypeError of assigning a property to a primitive; an array, ObjectId or date keeps only its value; otherwise `createdAt` gains `$gte` and/or `$lte` and keeps its other keys |
| QueryBuilder.BuildMongoQuery | src/common/utils/query-builder.util.ts:41-59 | fails exactly when a search meets a truthy non-array `$or`, or a date bound meets a primitive `createdAt`, both as left by the filters and the id conversion |
| QueryBuilder.BuildMongoQueryContents | src/common/utils/query-builder.util.ts:41-58 | every key but `$text` and `createdAt` holds the filters-over-mongoQuery value after the id conversion; `$text` is the search clause exactly when there is a search and no truthy `$or`; `createdAt` is unchanged without bounds, and otherwise carries each given bound |
| QueryBuilder.SearchNotConverted | src/common/utils/query-builder.util.ts:53-56 | a search that looks like an id reaches `$text` as a string, because the conversion runs first; the query fails exactly when a date bound meets a primitive `createdAt` |
| QueryBuilder.BuildQuery | src/common/utils/query-builder.util.ts:28-36 | the filter, the sort object, and skip `(page - 1) * limit` with the effective limit |
| QueryBuilder.PaginationMeta | src/common/utils/query-builder.util.ts:90-98 | the total and limit as given, page `floor(skip / limit) + 1`, and `ceil(total / limit)` pages |
| CrudQueryDto.SanitizeFieldsClean | src/crud/dto/crud-query.dto.ts:35-45 | no dangerous key remains on any plain-object level |
| CrudQueryDto.SanitizeValueClean | src/crud/dto/crud-query.dto.ts:28-47 | the sanitised value of any input is clean |
| CrudQueryDto.SanitizeFiltersClean | src/crud/dto/crud-query.dto.ts:28-47 | `sanitizeFilters` returns fields with no dangerous key at any plain-object level |
| CrudQueryDto.SanitizeFieldsKeys | src/crud/dto/crud-query.dto.ts:35-45 | the output keys are exactly the input keys that are not dangerous |
| CrudQueryDto.SanitizeFieldsValues | src/crud/dto/crud-query.dto.ts:40-44 | a kept key holds its sanitised value, so primitives and arrays are kept unchanged |
| CrudQueryDto.SanitizeFieldsTwice | src/crud/dto/crud-query.dto.ts:33-47 | sanitising fields twice is the same as sanitising them once |
| CrudQueryDto.SanitizeValueTwice | src/crud/dto/crud-query.dto.ts:28-47 | sanitising a value twice is the same as sanitising it once |
| CrudQueryDto.SanitizeFiltersTwice | src/crud/dto/crud-query.dto.ts:28-47 | `sanitizeFilters` is idempotent |
| CrudQueryDto.FiltersTransform | src/crud/dto/crud-query.dto.ts:129-138 | a string that does not parse gives `{}`; otherwise the parsed or given value is sanitised, and the result is clean |
| CrudQueryDto.NestedOperatorSurvives | src/crud/dto/crud-query.dto.ts:40-44 | as written, `{$or: [{$where: ...}]}` passes the transform unchanged, with its `$where` inside the array |
| CrudQueryDto.DeepSanitizeValue | src/crud/dto/crud-query.dto.ts:28-47 | sanitising that also descends into arrays leaves no dangerous key anywhere |
| CrudQueryDto.DeepSanitizeItems | src/crud/dto/crud-query.dto.ts:40-44 | every item of a sanitised array is clean throughout, and the length is kept |
| CrudQueryDto.DeepSanitizeFields | src/crud/dto/crud-query.dto.ts:35-45 | the output is clean throughout, and its keys are the input keys that are not dangerous |
| CrudQueryDto.DeepFiltersTransform | src/crud/dto/crud-query.dto.ts:129-138 | the corrected transform's output has no dangerous key at any depth, and an unparsable string still gives `{}` |
| CommonQueryDto.NonEmpty | src/common/dto/query.dto.ts:76 | no empty string is kept, and every non-empty part is |
| CommonQueryDto.TrimAll | src/common/dto/query.dto.ts:75 | every part trimmed, in order |
| CommonQueryDto.Strs | src/common/dto/query.dto.ts:79 | exactly the string items of the array |
| CommonQueryDto.SelectTransform | src/common/dto/query.dto.ts:71-82 | undefined exactly for values that are neither strings nor arrays; a string gives non-empty parts without commas; an array gives exactly its strings |
| CommonQueryDto.TrimInside | src/common/dto/query.dto.ts:75 | trimming only removes characters from the ends |
| CommonQueryDto.SelectOfJoin | src/common/dto/query.dto.ts:72-77 | a comma-joined list of names without spaces or commas reads back as the same list |
| CommonQueryDto.NonEmptyKeeps | src/common/dto/query.dto.ts:76 | a list of non-empty parts is kept whole |
| CommonQueryDto.FiltersTransform | src/common/dto/query.dto.ts:110-119 | a string is parsed, `{}` when it does not parse; any other value passes through unchanged |
| CommonQueryDto.ValidPaging | src/common/dto/query.dto.ts:33-51 | within the validated bounds, skip is a non-negative multiple of the limit, the reported page is the requested one, and the page count covers the total without a spare page |
| AbstractService.WordEntries | src/common/services/abstract.service.ts:143-149 | one entry per word: `-f` gives `f: 0`, and `f` gives `f: 1` |
| AbstractService.ParseSelectToProjection | src/common/services/abstract.service.ts:137-152 | the projection has a key exactly for the field names of the select's white-space separated words |
| AbstractService.WordEntriesKeys | src/common/services/abstract.service.ts:143-149 | the entries' keys are the words with a leading `-` removed |
| AbstractService.ProjectionLastWins | src/common/services/abstract.service.ts:143-149 | the last word naming a field decides whether it is included or excluded |
| AbstractService.ProjectionZeroOne | src/common/services/abstract.service.ts:143-149 | every field of the projection is 1 or 0, as one of the words says |
| AbstractService.BuildLookupPipeline | src/common/services/abstract.service.ts:91-132 | exactly two stages per populate option, in order |
| AbstractService.BuildLookupAt | src/common/services/abstract.service.ts:94-129 | option `n` contributes stages `2n` and `2n + 1` |
| AbstractService.LookupStage | src/common/services/abstract.service.ts:99-128 | an even stage is the option's `$lookup`, with a projecting sub-pipeline exactly when the select is set and an `_id` join otherwise; an odd stage is the `$unwind` of the same path, keeping unmatched documents |
| AbstractService.LookupStagesPaired | src/common/services/abstract.service.ts:94-129 | the stages are only joins and unwinds, and every join is followed by the unwind of its path |
| AbstractService.OneEntries | src/common/services/abstract.service.ts:229-231 | one inclusion entry per field, in order |
| AbstractService.Inclusions | src/common/services/abstract.service.ts:228-231 | the projection includes exactly the named fields and excludes nothing |
| AbstractService.Leading | src/common/services/abstract.service.ts:218-222 | the filter stage, then the joins, then the virtuals |
| AbstractService.FindManyPipeline | src/common/services/abstract.service.ts:218-237 | as written: the filter, joins, virtuals, a projection whenever a select is given, then sort, skip and limit |
| AbstractService.FindManyOrdered | src/common/services/abstract.service.ts:218-237 | the read filters first, joins before the virtuals, projects after both, and sorts, skips and limits last, in that order |
| AbstractService.EmptySelectProjectsNothing | src/common/services/abstract.service.ts:224-233 | as written, an empty select array or a select of spaces still adds `$project: {}`, and the query DTO turns `?select=` into exactly that array |
| AbstractService.FindManyPipelineCorrected | src/common/services/abstract.service.ts:224-233 | the corrected pipeline still starts with the filter and ends with sort, skip and limit |
| AbstractService.CorrectedProjectsSomething | src/common/services/abstract.service.ts:224-233 | the corrected pipeline never carries an empty `$project` of its own |
| AbstractService.CorrectedAgrees | src/common/services/abstract.service.ts:224-233 | the correction changes nothing for a select that names a field, or for no select at all |
| AbstractService.LookupsProjectNothing | src/common/services/abstract.service.ts:91-132 | the join stages carry no `$project` of their own |
| AbstractService.PageFor | src/common/services/abstract.service.ts:218-252 | the read is the as-written pipeline: the count uses its own filter, it projects the select exactly when one is given, so an empty select leaves an empty projection, and it ends with the builder's sort, skip and limit; the pagination reports `floor(skip / limit) + 1` and `ceil(total / limit)` |
| AbstractService.WrittenProjections | src/common/services/abstract.service.ts:224-233 | as written, every projection stage names a field when the virtuals' do and the select names one; an empty select adds a projection that names none |
| AbstractService.FindMany | src/common/services/abstract.service.ts:210-254 | fails exactly when the query builder fails, with the builder's error; otherwise it counts with the builder's filter and reads the as-written pipeline over the builder's filter, sort, skip, limit and joins |
| AbstractService.PageForPaging | src/common/services/abstract.service.ts:235-251 | the read skips `(page - 1) * limit` documents and returns at most `limit` |
| AbstractService.FindManyPaging | src/common/services/abstract.service.ts:244-251 | for valid page and limit, the read skips the pages before the requested one, returns at most `limit` documents, and reports the requested page and limit |
| AbstractService.FindOneWithLookup | src/common/services/abstract.service.ts:166-191 | the document with the id, joined, with its virtuals, projected on a non-empty select; a malformed id fails |
| AbstractService.FindOneLikeFindMany | src/common/services/abstract.service.ts:171-184 | reading one document runs the same joins, virtuals and projection a `findMany` on its id would run before sorting and paging |
| AbstractService.SelectListRoundTrip | src/common/services/abstract.service.ts:265-269 | a non-empty list of field names without spaces is projected exactly, as joining and splitting again gives the list back |
| AbstractService.FindOneEmptyListSelectsAll | src/common/services/abstract.service.ts:265-273 | an empty select list joins to the empty string, which means no projection at all |
| AbstractService.FindOne | src/common/services/abstract.service.ts:256-281 | the first document the pipeline yields; NotFound "<model> not found" when it yields none |
| AbstractService.ExceptionNotRetried | src/common/services/transaction.manager.ts:65-85 | an exception that is neither a write conflict nor transient reaches an owning caller unchanged, after one execution |
| AbstractService.FindOneMissingOnce | src/common/services/abstract.service.ts:275-277 | a missing document's NotFound reaches the caller unchanged after a single execution |
| AbstractService.Create | src/common/services/abstract.service.ts:193-208 | a new document with the dto's fields and, with a user, its id as `user`; a taken id is the server's duplicate-key error |
| AbstractService.CreateKeepsDto | src/common/services/abstract.service.ts:199-202 | every dto field but `user` is kept, `user` is the caller's id, and a taken id reaches the caller as a DuplicateKeyException naming `_id` |
| AbstractService.Update | src/common/services/abstract.service.ts:283-300 | `findByIdAndUpdate` with the dto; NotFound when no document has the id |
| AbstractService.UpdateSetsFields | src/common/services/abstract.service.ts:290-292 | a dto of plain fields sets exactly those fields; every other field and the version are kept |
| AbstractService.Increment | src/common/services/abstract.service.ts:305-318 | `$inc` of the fields; null when no document has the id |
| AbstractService.IncrementAdds | src/common/services/abstract.service.ts:312-316 | each field named once is raised by its amount, a missing field counting as 0; fields not named are untouched |
| Store.ResolveDiscriminatorModel | src/common/services/abstract.service.ts:358-375 | the discriminator named by the entity's key value when the model has discriminators and that value is a non-empty string naming one; the base model otherwise |
| AbstractService.ForceUpdate | src/common/services/abstract.service.ts:324-343 | null and no write when the document is missing; otherwise the update applied through the resolved model |
| AbstractService.ForceUpdateSets | src/common/services/abstract.service.ts:320-343 | a `$set` operator passed to `forceUpdate` assigns exactly the fields it names; the version and every other field stay as they were |
| AbstractService.ForceUpdateLikeUpdate | src/common/services/abstract.service.ts:324-343 | force-updating with plain fields writes what `update` writes; only a missing document differs, giving null rather than NotFound |
| AbstractService.Remove | src/common/services/abstract.service.ts:345-353 | the removed document, or null; the id is gone afterwards |
| AbstractService.RemoveTwice | src/common/services/abstract.service.ts:345-353 | a second removal finds nothing and changes nothing, and a removed document can no longer be updated |
| Logto.ExtractToken | src/logto/utils/token-validation.util.ts:24-36 | none for an absent or empty header; a token is non-empty and holds no space |
| Logto.ExtractTokenOf | src/logto/utils/token-validation.util.ts:29-35 | `bearer` in any case, a space, a token without spaces, and any rest starting with a space yield that token |
| Logto.ExtractTokenShape | src/logto/utils/token-validation.util.ts:29-35 | a header that yields a token is the scheme, a space, the token, then the end or a space |
| Logto.ScopesMonotone | src/logto/utils/token-validation.util.ts:38-48 | a token whose scopes include another's passes every check the other passes |
| Logto.ScopesAppend | src/logto/utils/token-validation.util.ts:46-47 | appending scopes to a token never makes a passing check fail |
| Logto.ScopesOfJoin | src/logto/utils/token-validation.util.ts:38-48 | for a token listing `names`, the check passes exactly when every required scope is among the names |
| Logto.PermissionsAsScopes | src/logto/guards/logto-auth.guard.ts:94-105 | the guard's permission check and the token's scope check agree on a token listing the user's permissions |
| Logto.ControllerName | src/logto/guards/logto-auth.guard.ts:117-121 | the name never holds a `/` |
| Logto.ControllerNameOf | src/logto/guards/logto-auth.guard.ts:121 | a segment names itself, and a leading part followed by `/` is dropped |
| Logto.RequiredScopes | src/logto/guards/logto-auth.guard.ts:107-125 | `[]` without scope metadata; otherwise each scope with its first `{controllerName}` replaced |
| Logto.Substitute | src/logto/guards/logto-auth.guard.ts:122-124 | one output scope per input scope, in order |
| Logto.PlainScopeKept | src/logto/guards/logto-auth.guard.ts:122-124 | a scope without `{` is left as it is |
| Logto.LeadingPlaceholder | src/logto/guards/logto-auth.guard.ts:122-124 | a scope starting with the placeholder gets the controller name in its place |
| Logto.AsUnauthorized | src/logto/guards/logto-auth.guard.ts:85-91 | an Unauthorized passes through; anything else becomes Unauthorized "Invalid or expired token" |
| Logto.Authenticate | src/logto/guards/logto-auth.guard.ts:57-84 | success only with the payload that verification returned for the token |
| Logto.CanActivate | src/logto/guards/logto-auth.guard.ts:38-92 | a public route passes with no token read; no bearer token is Unauthorized; otherwise verification and the scope check decide, every failure ending as Unauthorized |
| Logto.CanActivateAllows | src/logto/guards/logto-auth.guard.ts:44-84 | a private route passes exactly when a token verifies and, if scopes are required, the lookup succeeds and covers them |
| Logto.VerifyFailureMapped | src/logto/guards/logto-auth.guard.ts:85-91 | a verification failure that is not Unauthorized is reported as an invalid or expired token; an Unauthorized passes unchanged |
| Logto.NoScopesNoLookup | src/logto/guards/logto-auth.guard.ts:63-82 | without required scopes, the decision does not depend on the scope lookup |
| Logto.NewLogtoService | src/logto/services/base-logto.service.ts:46-69 | the service keeps the configuration it was built with |
| Logto.AssertEnabled | src/logto/services/base-logto.service.ts:75-81 | an error exactly when the service is not enabled |
| Logto.EnabledByConfig | src/logto/services/base-logto.service.ts:71-73 | a new service is enabled exactly when its configuration is |
| Logto.BuildQueryParams | src/logto/services/base-logto.service.ts:89-103 | `{}` without parameters; otherwise `page` and `page_size` when defined and `q` for a non-empty search, each key at most once, and no other key |
| Logto.QueryParamsIgnoreOthers | src/logto/services/base-logto.service.ts:89-103 | properties other than page, page size and search never reach the query |
| Logto.ToPaginated | src/logto/services/base-logto.service.ts:105-124 | the data unchanged; total is the reported count or the data length; page 1 and size 20 by default; pages `ceil(total / pageSize)` |
| Logto.UncountedSinglePage | src/logto/services/base-logto.service.ts:105-124 | without a count, a page of 1 to `pageSize` items is one page, and an empty one is none |
| Logto.Request | src/logto/services/base-logto.service.ts:126-258 | a disabled service makes no call and fails as not configured; an enabled one makes exactly one call; an error the client throws is rethrown unchanged; on a reply, the call fails exactly when the method's check refuses it, with an InternalServerErrorException; a GET or POST succeeds only with truthy data |
| Logto.AcceptanceDiffers | src/logto/services/base-logto.service.ts:140-253 | an ok response with a body and an error is accepted by GET, POST, PUT and PATCH but refused by DELETE; an ok empty body is refused by GET and POST but accepted by PUT and DELETE |
| Users.Insert | src/user/user.service.ts:93-100 | the user is appended exactly when its required paths (`_id`, names, email, `logtoId`) are non-empty and it clashes with no stored user on `_id`, email or `logtoId`; an empty required path is a validation error, a clash a duplicate-key error, and neither changes the collection |
| Users.UpdateById | src/database/seeders/user.seeder.ts:99-102 | no match changes nothing; on the matched user the update fails, with a duplicate-key error, exactly when another user shares its `_id`, the new email or the new `logtoId`; otherwise that user gets the new names, email and `logtoId`, keeps its `_id` and admin flag, and every other user is unchanged |
| Users.InsertKeepsValid | src/user/user.service.ts:93-100 | appending a user who clashes with nobody keeps the indexes unique and `logtoId` equal to `_id` |
| Users.UpdateKeepsValid | src/database/seeders/user.seeder.ts:99-102 | an update keeping `logtoId` equal to the id keeps the collection valid and changes only the matched user |
| Users.FirstNameOf | src/user/user.service.ts:81 | the given name has precedence over the display name, and the result is empty exactly when both are |
| Users.LastNameOf | src/user/user.service.ts:82 | the family name, or empty |
| Users.FindInLogto | src/logto/services/users.service.ts:47-51 | the lookup fails exactly when the management client's GET fails, with its error, which is an InternalServerErrorException or the client's own error; it never yields "no user", since a falsy body already fails |
| Users.FindOne | src/user/user.service.ts:40-64 | a user exactly when some user's `_id` or email matches, and then a matching stored user; otherwise NotFound "User not found: <x>" |
| Users.FindOneStored | src/user/user.service.ts:48-57 | on a valid collection, a stored user is found by its id unless another's email is that id, and by its email unless another's id is that email |
| Users.Onboard | src/user/user.service.ts:69-101 | the checks run in order: id taken (Conflict), the Logto lookup's own error passed on, no Logto user (NotFound), no email (BadRequest), email taken (Conflict), a missing required name (validation error); only then the user is created; every failure leaves the collection unchanged |
| Users.OnboardNeverNotFound | src/user/user.service.ts:75-78 | with the user fetched through the management client, onboarding never fails with a NotFound unless the client itself throws one: the `!logtoUser` branch is unreachable |
| Users.OnboardCreates | src/user/user.service.ts:93-100 | a Logto user with an email and both names, whose id and email are free, is created as a non-admin with `_id` and `logtoId` both the Logto id |
| Users.OnboardKeepsValid | src/user/user.service.ts:69-101 | onboarding keeps the collection valid, whatever the outcome |
| Users.OnboardTwice | src/user/user.service.ts:70-73 | onboarding the same id a second time is a Conflict and changes nothing |
| Users.ToCurrentUser | src/user/user.service.ts:106-114 | the email is both username and email; the name is first and last name joined by a space; only a stored `true` makes an admin |
| Users.OnboardedCurrentUser | src/user/user.service.ts:69-114 | a freshly onboarded user with both names is found by its Logto id, is not an admin, and is named from its Logto profile |
| Users.WebhookUserId | src/user/user.controller.ts:70-74 | `data.id` when non-empty, else `user.id` when non-empty, else none |
| Users.Swallow | src/user/user.controller.ts:90-101 | Conflict and NotFound, with their subclasses, end the request successfully; every other failure propagates |
| Users.HandleWebhook | src/user/user.controller.ts:67-102 | no id is a BadRequest; creation events onboard with the user fetched from Logto and answer with onboarding's outcome, Conflict and NotFound swallowed; the deletion event answers with the removal's outcome and changes no user; other events call nothing; a failure that reaches the caller is never a Conflict or NotFound |
| Users.WebhookRedelivery | src/user/user.controller.ts:77-101 | delivering an onboarding event twice, with the same Logto reply, answers the second time as the first time did and changes nothing more |
| Users.WebhookOnboardRejects | src/user/user.controller.ts:77-101 | on a valid collection, an onboarding event fails only with the Logto lookup's error, the BadRequest for a user without an email, or the validation error for a user without a required name |
| Users.WebhookMissingInLogto | src/user/user.controller.ts:77-101 | a user Logto answers for with an empty body fails the webhook with the client's InternalServerErrorException, which is not swallowed, and no user is created |
| Seeders.DefaultsStayOutOfProduction | src/database/seeders/abstract.seeder.ts:17-33 | a seeder with the defaults has order 100, and it runs outside production but never in production |
| Seeders.InsertByOrder | src/database/seeders/seeder.service.ts:34 | the insertion step keeps the list sorted by order and is a permutation of the input plus the new seeder |
| Seeders.RegisterSeeders | src/database/seeders/seeder.service.ts:33-36 | the registered list is sorted by ascending order and is a permutation of the input; its stability is stated by `Seeders.RegisterStable` |
| Seeders.RegisterStable | src/database/seeders/seeder.service.ts:34 | the sort is stable: the registered seeders of each order are the given seeders of that order, in registration order |
| Seeders.RegisterSorted | src/database/seeders/seeder.service.ts:34 | seeders already sorted by order are registered as given |
| Seeders.FilterSeedersSelects | src/database/seeders/seeder.service.ts:119-138 | the three stages keep, in registration order, exactly the seeders that may run (or all when forced), are in a non-empty `only`, and are not in a non-empty `skip` |
| Seeders.FilterSeedersSubsequence | src/database/seeders/seeder.service.ts:119-138 | the selected seeders are a subsequence of the registered ones |
| Seeders.Recorded | src/database/seeders/seeder.service.ts:65-77 | a success records the seeder's own result; a failure records zero counts and the failure's message as the one error |
| Seeders.RunEach | src/database/seeders/seeder.service.ts:62-79 | successes plus failures equal the number of seeders; the successes are the seeders that succeed; the record keys are the seeders' names |
| Seeders.RunEachRecords | src/database/seeders/seeder.service.ts:62-79 | the record under a name is that of the last seeder with the name |
| Seeders.Run | src/database/seeders/seeder.service.ts:41-86 | nothing at all in production unless forced; otherwise total is the number selected, successes plus failures equal the total, and the record keys are the selected names |
| Seeders.RunRecords | src/database/seeders/seeder.service.ts:57-79 | each selected seeder that is the last of its name has its record: its result on success, else zero counts and exactly one error |
| Seeders.FindSeeder | src/database/seeders/seeder.service.ts:92 | the position of the first seeder with the name, or none when no seeder has it |
| Seeders.RunOne | src/database/seeders/seeder.service.ts:91-106 | "Seeder not found: <name>" when absent; "Seeder <name> is not allowed in production" in production unless forced or allowed; otherwise the first such seeder's outcome |
| Seeders.RunOneAgreesWithRun | src/database/seeders/seeder.service.ts:41-106 | for a unique name, a forced run restricted to it has total 1 and records exactly what `runOne` returns, or the failure record for what it throws |
| Seeders.SyncFailed | src/database/seeders/user.seeder.ts:46-49 | the same counters, with one more error naming the user's id and the failure's message |
| Seeders.SyncUser | src/database/seeders/user.seeder.ts:66-118 | exactly one counter or error is added; no email is a skip with no write; a stored user is updated exactly when a name or the email differs, otherwise skipped; a missing user is created, unless its id or a required name is empty, which records the validation error; a rejected write is an error and changes nothing |
| Seeders.SyncKeepsValid | src/database/seeders/user.seeder.ts:66-118 | syncing keeps the unique indexes and the link between `_id` and `logtoId` |
| Seeders.SyncTwiceSkips | src/database/seeders/user.seeder.ts:91-107 | after a sync with no error, syncing the same user again writes nothing and counts a skip |
| Seeders.SyncAll | src/database/seeders/user.seeder.ts:43-51 | one page adds exactly its size to the counters and errors; the counters never decrease, and errors are only appended |
| Seeders.SyncAllKeepsValid | src/database/seeders/user.seeder.ts:43-51 | syncing a page keeps the collection valid |
| Seeders.SeedPagesTally | src/database/seeders/user.seeder.ts:21-64 | every user read is counted exactly once, plus one error for a failed fetch |
| Seeders.SeedTally | src/database/seeders/user.seeder.ts:21-64 | the counters of `seed()` add up to the users read, plus one for a failed fetch |
| Seeders.SeedPagesStops | src/database/seeders/user.seeder.ts:53-55 | the pages after the first page shorter than 100 users are never fetched |
| Seeders.SeedStopsAtShortPage | src/database/seeders/user.seeder.ts:30-56 | `seed()` reads the same as if the pages after the first short page did not exist |
| Seeders.SeedPagesKeepsValid | src/database/seeders/user.seeder.ts:21-64 | seeding keeps the collection valid |
| Seeders.UserSeederRuns | src/database/seeders/user.seeder.ts:10-12 | the user seeder runs in every environment, ahead of every seeder with the default order, and always succeeds |
| ExceptionFilter.ItemTexts | src/common/filters/all-exceptions.filter.ts:78-80 | one text per array item, as `join` prints it: empty for `undefined` and `null` |
| ExceptionFilter.ExtractMessage | src/common/filters/all-exceptions.filter.ts:75-87 | an array message is joined with ", "; a string message is kept; anything else is "An error occurred" |
| ExceptionFilter.GetErrorDetails | src/common/filters/all-exceptions.filter.ts:43-73 | an HTTP exception keeps its status; a string response is the message labelled with the class name; an object response gives its message and its truthy `error`, else the class name; anything else is a 500 "Internal server error" |
| ExceptionFilter.Severity | src/common/filters/all-exceptions.filter.ts:89-107 | error exactly from 500, warning exactly from 400 to 499, and nothing below 400 |
| ExceptionFilter.LogException | src/common/filters/all-exceptions.filter.ts:89-107 | the level is the status's band; a warning adds the exception's message to the request line; an error logs the request line |
| ExceptionFilter.Catch | src/common/filters/all-exceptions.filter.ts:23-41 | the body holds the details' status, message and label, the time and the URL; the log entry is for that status |
| ExceptionFilter.UnexpectedIsOpaque | src/common/filters/all-exceptions.filter.ts:23-73 | a value that is not an HTTP exception answers 500 with the generic message and label, hiding its own text, and is logged as an error |
| ExceptionFilter.StandardDetails | src/common/filters/all-exceptions.filter.ts:43-73 | a built-in exception reaches the client with its status, its message (a list joined with ", ") and its description as the label |
| ExceptionFilter.ListedMessages | src/common/filters/all-exceptions.filter.ts:75-87 | an empty list gives "", not the fallback; one message gives itself; two are joined by ", " |
| ExceptionFilter.FailureDetails | src/common/filters/all-exceptions.filter.ts:43-73 | an exception built with a message only answers with its class's status, its message and its status phrase; a raw driver error or plain `Error` is an opaque 500 |
| EntityEvents.EventName | src/crud/services/entity-event.emitter.ts:109-111 | `entity.`, then the id, a dot, then the action |
| EntityEvents.EventNameInjective | src/crud/services/entity-event.emitter.ts:109-111 | for ids without a dot, equal names mean the same id and the same action |
| EntityEvents.EmitAction | src/crud/services/entity-event.emitter.ts:38-90 | nothing without an event bus; otherwise the entity event, then the type event `<type>.<action>` when a type is given; every payload is `{id, type, timestamp}` |
| EntityEvents.TypedEventFields | src/crud/services/entity-event.emitter.ts:38-52 | every typed event carries the entity's id, its action as `type`, and the time |
| EntityEvents.ActionsDistinct | src/crud/services/entity-event.emitter.ts:38-90 | created, updated and deleted events of one entity have different names |
| EntityEvents.EmitCustom | src/crud/services/entity-event.emitter.ts:95-107 | nothing without an event bus; otherwise one event named `entity.<id>.<eventName>` |
| EntityEvents.CustomPayloadWins | src/crud/services/entity-event.emitter.ts:95-107 | the caller's payload keys keep their values, even `id` and `timestamp`; the base fields survive only where the payload does not set them |

## Left out

- Input and output are not modelled: HTTP, MongoDB, Redis, BullMQ and the Logto API are replaced by their effect on a map or by given outcomes.
- Logging is not modelled, except the level and headline of the exception filter's entry. `logResult` is not modelled either.
- Timers are recorded as waits in a trace, and never elapse.
- The clock is a parameter. A `Date` is its text.
- The xstate runtime is modelled by the table-level semantics of the machine configuration. A state the configuration does not list cannot take any event.
- `FinalStateTransitionException` is declared but raised by no code of the core, so it appears only in the class hierarchy.
- Commit and abort are assumed to succeed. A failing commit, abort or `endSession` is not modelled.
- Floating point is not modelled. `getDelay` is computed in exact reals, and the other arithmetic on integers, which agrees with JavaScript on the values reached.
- The network and cursor-not-found codes (89, 43) are listed but map to no class, as in the source.
- Mongoose validation is reduced to the required `status` of an auditable entity and the required paths of a user (`Users.Complete`), whose failure is the plain message "User validation failed" rather than Mongoose's full text.
- Users.UpdateById: `updateOne` runs no validators, so an update with an empty name is written; this is the source's behaviour, not a gap.
- BullMQ's handling of a duplicate job id is taken to be "the existing job is kept".
- The processor's `FsmHandlerResponse` is taken to carry a status update and an optional delay; the job state is a function of the entity.
- FsmProcessor.FinishProcessing: the state name of a non-string status is not modelled.
- AbstractService.FindMany: the limit is required to be positive, because a zero limit gives JavaScript's `NaN` and `Infinity`.
- QueryBuilder.ApplyTextSearch: a truthy non-array `$or` is modelled as a TypeError, and the exact error text is not modelled.
- Only string job ids are modelled.
- QueueListener.StoredId: a caller's `options.jobId` that is not a string (a number, or `undefined`, which makes BullMQ generate an id) is read as the request's id; BullMQ's own checks on custom ids are not modelled.
- AbstractService.ForceUpdate: an update with an operator other than `$set`, `$inc` and `$push` is applied as if that operator were absent, because Store.Apply interprets only those three.
- Store.Apply: of MongoDB's update operators only `$set`, `$inc` and `$push` (one value per key) are interpreted. `$unset`, `$addToSet`, `$pull`, `$min`, `$max`, `$mul`, `$rename`, `$each` and dotted paths are read as changing nothing, so AbstractService.ForceUpdate does not model a caller's update that uses them. A key named both plainly and under `$set`, which MongoDB rejects as a conflict, takes the `$set` value.
- AbstractService.Create: the populated document is modelled by the saved document. Population and virtuals are parameters, or are left out.
- The `populate` of `update` and `forceUpdate` is not modelled, because it does not change what is written.
- ObjectId parsing, `aggregate` and `countDocuments` are parameters or map lookups.
- `findMany` and `findOne` are modelled as one execution of their unit of work inside `withTransaction`. The retry behaviour is stated once for the coordinator.
- `findOne`'s `select` and `populate` options in `user.service.ts` are not modelled.
- Logto.ExtractToken: lower-casing is ASCII only.
- Logto.Substitute: the special `$` patterns of `String.prototype.replace` are not modelled. A controller name containing `$&` or `$1` would be inserted literally.
- Logto.ToPaginated: requires a positive page size, because a zero size gives `Infinity` or `NaN` pages.
- The guard's reflector, JWT verification and scope lookup are parameters. Of the token payload only `sub` is kept.
- The description text of an `InternalServerErrorException` raised by the Logto client is not modelled.
- ExceptionFilter.FailureDetails: covers exceptions built with a message only. The Logto client's `InternalServerErrorException` is built with a description such as `GET <path> failed` (`src/logto/services/base-logto.service.ts`), which the client receives as `error` in place of "Internal Server Error"; a `Failure` does not carry that description, so for those exceptions the label the lemma states is not the one the client receives.
- `removeByLogtoId` is called by the webhook but defined in no file of the core, so its outcome is a parameter of `Users.HandleWebhook`.
- The Logto user lookup of onboarding is the management client's `GET` of the user (`Users.FindInLogto`); the client's reply, or the error it throws, is a parameter.
- Users.ReadLogtoUser: a profile field that is present but not a string is read as missing.
- Only unique-index violations are modelled as database failures of the user collection.
- Seeders.Describe: a driver error's message is modelled by its class name "MongoServerError".
- The stack trace of an error is not modelled.
- `getSeeders` is a plain projection of the registered list and has no contract of its own.
- The seeders' `seed()` outcomes are fixed per seeder.
- The Logto user pages are a sequence, and a page past its end is empty.
- The standard body and reason phrases of Nest's built-in exceptions are framework facts, written out in `ExceptionFilter.StandardBody` and `ExceptionFilter.Phrase`.
- ExceptionFilter.OfFailure: `HttpException` and the two transition exceptions are excluded, because they are built with their own description rather than the standard body.
- EntityEvents.EventNameInjective: holds only for ids without a dot. With dots, `entity.a.b.c` is ambiguous.
- Absent `only`, `skip` and `force` run options are taken as empty lists and false.
- QueryBuilder.ApplyDateFilters: the source updates the caller's `mongoQuery` in place, because the copy of it is shallow: `createdAt` gains its bounds and `$or` the pushed clause in the caller's object too. The model returns a new query and leaves the caller's value unchanged. The exact text of the TypeError is not modelled.
- CrudService.ForceUpdateEmitting: the discriminator value is modelled as a string, where the source looks up any truthy value by its string form.
- CrudService.Update: the `updated` event is stated by `CrudService.UpdateEmitting`, and the bus is a flag; the emitted payload's `_id` is the id text.
- CrudService.ForceUpdate: the discriminator model and the `updated` event are stated by `CrudService.ForceUpdateEmitting`; which model runs the write does not change the written document in this model.
- OptimisticLocking.BuildVersionedUpdate and CrudService.ForceUpdateObject: a caller's `$inc` that is a string or an array is read as `{}`, where JavaScript's `{...existingInc}` copies its index keys; no caller in the core passes such a value.
- CommonTransactionManager.TransformStatus: `src/common/errors/mongodb.errors.ts` is not part of this model. Its `DuplicateKeyException`, `WriteConflictException`, `DocumentValidationException` and `QueryTimeoutException` are taken to be those of `src/crud/errors/mongodb.errors.ts`, with the same parents, statuses and default messages. Its `TransientTransactionException` is taken to extend `ConflictException` (status 409) with the message "Transient transaction error". The statuses the lemma states rest on these assumptions.
- AuditableEntity.ToJson: the audit trail in the model holds each entry as the service builds it. Mongoose's cast of a pushed entry is stated separately by `AuditableEntity.CastEntry` (the `step` default `FsmProcessingState.START` and the `iterations` default 0) and is not applied by the status writes, so `AuditableService.StatusWrite` and `AuditableService.UpdateStatusAppends` describe the entry before the cast. No property the model reads back changes under the cast: the count the processor reads is 0 either way. The subdocument timestamps `createdAt` and `updatedAt` that the schema's `timestamps` option adds are not modelled, because they come from the clock. `FsmProcessingState` is declared in no file of the sources (src/crud/enums/fsm.enums.ts declares `FsmMode` and `JobState` only), so the value of `START` is a parameter.
- CrudTransactionManager.Resolve: the `retries` option is modelled as a natural number. In the source it is any number: a negative or fractional value with a unit of work that keeps failing never reaches `retries === 0` and recurses without end, and from `retries` 4 on the delay `retryDelayMs * (4 - retries)` is zero or negative.
- Fsm.InvalidTransitionError: the exception's description "Transition from <from> to <to> is not allowed" is not carried, only its message.
- The SSE fields, the cache service, the health checks, the controllers' routing and the Logto organisation, role and permission services are outside the core.

## Findings

| source | as written | input that shows it | evidently intended | confidence | as-written member | corrected member |
|---|---|---|---|---|---|---|
| src/crud/services/crud.service.ts:132-146 | a retried attempt sets `isRetrying`, so its `finally` never ends its session, and the recursive call opens a new one | the first attempt throws a plain `Error` and the second succeeds: session 0 is started and never ended | end each owned session exactly once, as the common manager does | high (not executed) | CrudService.AsWrittenLeakExample | CrudService.WithSessionEndsEach |
| src/crud/services/transaction.manager.ts:75-89 | the same: `isRetrying` suppresses `endSession` of every retried attempt | default options, the first attempt throws a plain `Error`, the second succeeds: session 0 is never ended | end each owned session exactly once | high (not executed) | CrudTransactionManager.AsWrittenLeakExample | CrudTransactionManager.EndsEach |
| src/common/services/abstract.service.ts:224-233 | `if (query.select)` is true for an empty array, and the stage becomes `$project: {}` | `?select=` gives `select = []`, and the pipeline gains `{ $project: {} }`, which the server refuses | add the projection only when it names a field | high (not executed) | AbstractService.EmptySelectProjectsNothing | AbstractService.CorrectedProjectsSomething |
| src/crud/dto/crud-query.dto.ts:40-44 | arrays are copied as they are, so objects inside them are not sanitised | `{"$or": [{"$where": "sleep(5000)"}]}` passes the filters transform unchanged | no dangerous operator at any depth | high (not executed) | CrudQueryDto.NestedOperatorSurvives | CrudQueryDto.DeepFiltersTransform |
| src/crud/services/auditable.service.ts:115-123 | `create` calls `updateStatus(initial -> initial)`, which the machine checks as a move | table `draft -> [published]`, `create({status: "draft"})` fails with InvalidTransitionException after 4 attempts | record the initial entry without checking a self-move | medium (not executed) | AuditableService.CreateDraftRejected | AuditableService.CreateCorrectedRecords |
| src/crud/services/fsm.processor.ts:103-119 | `finishProcessing` reads `iterations` from the entry `updateStatus` has just appended, which never carries a count, so it reads 0 | any entity that stays PROCESSING: every pass requeues after 100 ms, and pass 51 still requeues | count the passes, give up after 50, and back off with the count | high (not executed) | FsmProcessor.ProcessingAlwaysWaits100 | FsmProcessor.ProcessCountedGivesUp |
| src/crud/services/crud.service.ts:238-242 | `select.join(' ')` is called on the query's `select`, which the DTO types and documents as a comma-separated string (src/crud/dto/crud-query.dto.ts:94-102) | `?select=name` makes `findAll` throw a TypeError, since a string has no `join` | split the comma-separated list and select those fields | medium (not executed) | CrudService.SelectNeverReads | CrudService.FindAllShapingCorrected |

=== FILE: abstract_service.dfy ===
/** `AbstractService` (src/common/services/abstract.service.ts): the generic
    entity service whose reads are aggregation pipelines. Related documents
    are joined with `$lookup` stages built from the service's populator, a
    `select` becomes a `$project` stage, and writes go through the shared
    transaction manager. The pipelines are modelled as the stages they
    contain; running them is a parameter (`aggregate`, `total`). */
module AbstractService {
  import opened Wrappers
  import opened Errors
  import opened Session
  import opened Json
  import opened Strings
  import opened Store
  import opened QueryBuilder
  import opened CommonQueryDto
  import opened CommonTransactionManager
  import CrudService

  /** `LookupPopulateOptions`: the path to join, the collection it lives
      in, and an optional Mongoose-style select of the joined fields. */
  datatype Populate = Populate(path: string, collection: string, select: Option<string>)

  /** The populator every service has unless it overrides it: the owning
      user, with three of its fields. */
  const DEFAULT_POPULATOR: seq<Populate> := [Populate("user", "users", Some("firstName lastName email"))]

  /** The aggregation stages the service emits. `LookupPipeline` joins on
      `_id == $$localId` and projects the joined document; `LookupField`
      joins `localField` to `foreignField`. Overriding services add their
      virtuals as `AddFields` stages. */
  datatype Stage =
    | Match(filter: seq<Field>)
    | LookupPipeline(from: string, localId: string, projection: seq<Field>, into: string)
    | LookupField(from: string, localField: string, foreignField: string, into: string)
    | Unwind(path: string, preserveNullAndEmptyArrays: bool)
    | AddFields(fields: seq<Field>)
    | Project(projection: seq<Field>)
    | Sort(order: seq<Field>)
    | Skip(count: int)
    | Limit(count: int)

  // ---------------------------------------------------------------------
  // parseSelectToProjection

  /** The field a select word names: the word without a leading `-`. */
  function FieldName(word: string): string {
    if StartsWith(word, "-") then word[1..] else word
  }

  /** `-field` excludes the field (0), any other word includes it (1). */
  function Inclusion(word: string): int {
    if StartsWith(word, "-") then 0 else 1
  }

  /** One projection entry per word, in order. */
  function WordEntries(words: seq<string>): (es: seq<Field>)
    ensures |es| == |words|
    ensures forall i :: 0 <= i < |words| ==> es[i] == Field(FieldName(words[i]), Num(Inclusion(words[i])))
  {
    if |words| == 0 then [] else [Field(FieldName(words[0]), Num(Inclusion(words[0])))] + WordEntries(words[1..])
  }

  /** `parseSelectToProjection(select)`: the words of the select, split on
      runs of white space, each assigned in order; the projection has a key
      exactly for the fields the words name. */
  function ParseSelectToProjection(select: string): (p: seq<Field>)
    ensures forall k :: k in Keys(p) <==> exists i :: 0 <= i < |Words(select)| && FieldName(Words(select)[i]) == k
  {
    WordEntriesKeys(Words(select));
    Spread([], WordEntries(Words(select)))
  }

  lemma WordEntriesKeys(words: seq<string>)
    ensures forall k :: k in Keys(WordEntries(words)) <==> exists i :: 0 <= i < |words| && FieldName(words[i]) == k
  {
    var es := WordEntries(words);
    forall k ensures k in Keys(es) <==> exists i :: 0 <= i < |words| && FieldName(words[i]) == k {
      if k in Keys(es) {
        var i :| 0 <= i < |es| && Keys(es)[i] == k;
        assert FieldName(words[i]) == k;
      }
      if exists i :: 0 <= i < |words| && FieldName(words[i]) == k {
        var i :| 0 <= i < |words| && FieldName(words[i]) == k;
        assert Keys(es)[i] == k;
      }
    }
  }

  /** The last word naming a field decides it: `-f` after `f` excludes the
      field, `f` after `-f` includes it. */
  lemma ProjectionLastWins(select: string, i: int)
    requires 0 <= i < |Words(select)|
    requires forall j :: i < j < |Words(select)| ==> FieldName(Words(select)[j]) != FieldName(Words(select)[i])
    ensures Get(ParseSelectToProjection(select), FieldName(Words(select)[i])) == Num(Inclusion(Words(select)[i]))
  {
    var ws := Words(select);
    var es := WordEntries(ws);
    var later := es[i + 1..];
    forall m | 0 <= m < |later| ensures Keys(later)[m] != es[i].key {
      assert later[m] == es[i + 1 + m];
    }
    SpreadLastWins([], es, i);
  }

  /** Every field of a parsed projection is either included (1) or
      excluded (0), as one of the words says. */
  lemma ProjectionZeroOne(select: string, k: string)
    requires k in Keys(ParseSelectToProjection(select))
    ensures exists i :: (0 <= i < |Words(select)| && FieldName(Words(select)[i]) == k
                         && Get(ParseSelectToProjection(select), k) == Num(Inclusion(Words(select)[i])))
    ensures Get(ParseSelectToProjection(select), k) == Num(0) || Get(ParseSelectToProjection(select), k) == Num(1)
  {
    var ws := Words(select);
    var p := ParseSelectToProjection(select);
    EntryValue(ws, k);
    assert p == Spread([], WordEntries(ws));
  }

  /** A field some word names takes the inclusion of one of those words. */
  lemma EntryValue(ws: seq<string>, k: string)
    requires exists i :: 0 <= i < |ws| && FieldName(ws[i]) == k
    ensures exists i :: (0 <= i < |ws| && FieldName(ws[i]) == k
                         && Get(Spread([], WordEntries(ws)), k) == Num(Inclusion(ws[i])))
  {
    var es := WordEntries(ws);
    assert k in Keys(es) by {
      var i :| 0 <= i < |ws| && FieldName(ws[i]) == k;
      assert Keys(es)[i] == k;
    }
    SpreadValueFrom([], es, k);
    var i :| 0 <= i < |es| && es[i].key == k && Get(Spread([], es), k) == es[i].val;
    assert es[i] == Field(FieldName(ws[i]), Num(Inclusion(ws[i])));
  }

  // ---------------------------------------------------------------------
  // buildLookupPipeline

  /** The `$lookup` of one populate option: with a (non-empty) select, a
      sub-pipeline matching `_id` and projecting the select; without, a
      join of the path on `_id`. */
  function LookupOf(pop: Populate): Stage {
    if Given(pop.select) then LookupPipeline(pop.collection, "$" + pop.path, ParseSelectToProjection(pop.select.value), pop.path)
    else LookupField(pop.collection, pop.path, "_id", pop.path)
  }

  /** `buildLookupPipeline()`: for each populate option, in order, its
      `$lookup` into the path followed by an `$unwind` of the path that
      keeps documents without a match. */
  function BuildLookupPipeline(pops: seq<Populate>): (r: seq<Stage>)
    ensures |r| == 2 * |pops|
  {
    if |pops| == 0 then [] else [LookupOf(pops[0]), Unwind("$" + pops[0].path, true)] + BuildLookupPipeline(pops[1..])
  }

  /** Behind a leading pair, stages `i` and `i + 1` of the rest sit two
      places further on. */
  lemma PairThenAt(head: seq<Stage>, rest: seq<Stage>, i: int)
    requires |head| == 2 && 0 <= i && i + 1 < |rest|
    ensures (head + rest)[i + 2] == rest[i] && (head + rest)[i + 3] == rest[i + 1]
  {
  }

  /** Option `n` contributes stages `2n` and `2n + 1`. */
  lemma {:induction false} BuildLookupAt(pops: seq<Populate>, n: int)
    requires 0 <= n < |pops|
    ensures var r := BuildLookupPipeline(pops);
      r[2 * n] == LookupOf(pops[n]) && r[2 * n + 1] == Unwind("$" + pops[n].path, true)
  {
    var head := [LookupOf(pops[0]), Unwind("$" + pops[0].path, true)];
    var rest := BuildLookupPipeline(pops[1..]);
    assert BuildLookupPipeline(pops) == head + rest;
    if n > 0 {
      BuildLookupAt(pops[1..], n - 1);
      assert pops[1..][n - 1] == pops[n];
      PairThenAt(head, rest, 2 * (n - 1));
    }
  }

  /** Stage `i` of the joins: an even index holds the `$lookup` of option
      `i / 2` (a projecting sub-pipeline exactly when the option has a
      non-empty select, a plain `_id` join otherwise), an odd index the
      `$unwind` of the same path. */
  lemma LookupStage(pops: seq<Populate>, i: int)
    requires 0 <= i < |BuildLookupPipeline(pops)|
    ensures var r := BuildLookupPipeline(pops); var pop := pops[i / 2];
      && (i % 2 == 1 ==> r[i] == Unwind("$" + pop.path, true))
      && (i % 2 == 0 && Given(pop.select) ==>
            r[i] == LookupPipeline(pop.collection, "$" + pop.path, ParseSelectToProjection(pop.select.value), pop.path))
      && (i % 2 == 0 && !Given(pop.select) ==> r[i] == LookupField(pop.collection, pop.path, "_id", pop.path))
  {
    var r := BuildLookupPipeline(pops);
    var n := i / 2;
    assert i == 2 * n || i == 2 * n + 1;
    BuildLookupAt(pops, n);
  }

  /** The stages of a lookup pipeline are only joins and unwinds, and every
      join is followed by the unwind of the path it fills. */
  lemma LookupStagesPaired(pops: seq<Populate>, i: int)
    requires 0 <= i < |BuildLookupPipeline(pops)|
    ensures var r := BuildLookupPipeline(pops);
      && (r[i].LookupPipeline? || r[i].LookupField? || r[i].Unwind?)
      && (i % 2 == 0 <==> !r[i].Unwind?)
      && (i % 2 == 0 ==> r[i + 1] == Unwind("$" + r[i].into, true))
  {
    LookupStage(pops, i);
    if i % 2 == 0 {
      LookupStage(pops, i + 1);
      assert (i + 1) / 2 == i / 2;
    }
  }

  // ---------------------------------------------------------------------
  // Projections of a select

  /** The `select` of a query or of `findOne`: absent, an array of fields,
      or a space-separated string. */
  datatype SelectParam = NoSelect | SelectList(fields: seq<string>) | SelectString(text: string)

  /** `if (select)`: every array is truthy, a string only when non-empty. */
  predicate SelectGiven(s: SelectParam) {
    s.SelectList? || (s.SelectString? && s.text != "")
  }

  /** The fields a select names: the array itself, or the non-empty parts
      of the string split on single spaces. */
  function SelectFields(s: SelectParam): seq<string> {
    match s
    case NoSelect => []
    case SelectList(fields) => fields
    case SelectString(text) => NonEmpty(Split(text, ' '))
  }

  /** One inclusion entry per field, in order. */
  function OneEntries(fields: seq<string>): (es: seq<Field>)
    ensures |es| == |fields|
    ensures forall i :: 0 <= i < |fields| ==> es[i] == Field(fields[i], Num(1))
  {
    if |fields| == 0 then [] else [Field(fields[0], Num(1))] + OneEntries(fields[1..])
  }

  /** `projection[field] = 1` for each field: the projection includes
      exactly the named fields, and nothing is excluded. */
  function Inclusions(fields: seq<string>): (p: seq<Field>)
    ensures forall k :: k in Keys(p) <==> k in fields
    ensures forall k :: k in Keys(p) ==> Get(p, k) == Num(1)
    ensures |p| == 0 <==> |fields| == 0
  {
    var es := OneEntries(fields);
    assert forall k :: k in Keys(es) <==> k in fields by {
      forall k ensures k in Keys(es) <==> k in fields {
        if k in Keys(es) {
          var i :| 0 <= i < |es| && Keys(es)[i] == k;
          assert fields[i] == k;
        }
        if k in fields {
          var i :| 0 <= i < |fields| && fields[i] == k;
          assert Keys(es)[i] == k;
        }
      }
    }
    forall k | k in Keys(es) ensures Get(Spread([], es), k) == Num(1) {
      SpreadValueFrom([], es, k);
    }
    var p := Spread([], es);
    assert |fields| > 0 ==> fields[0] in Keys(p);
    p
  }

  /** The `$project` stage a select adds, when it adds one. */
  function ProjectionOf(select: SelectParam): seq<Stage> {
    if SelectGiven(select) then [Project(Inclusions(SelectFields(select)))] else []
  }

  // ---------------------------------------------------------------------
  // findMany

  /** The stages every read of `findMany` starts with: the filter, the
      joins and the virtuals. */
  function Leading(filter: seq<Field>, lookups: seq<Stage>, virtuals: seq<Stage>): (r: seq<Stage>)
    ensures |r| == 1 + |lookups| + |virtuals| && r[0] == Match(filter)
    ensures forall i :: 0 <= i < |lookups| ==> r[1 + i] == lookups[i]
    ensures forall i :: 0 <= i < |virtuals| ==> r[1 + |lookups| + i] == virtuals[i]
  {
    [Match(filter)] + lookups + virtuals
  }

  /** The stages every read of `findMany` ends with. */
  function Paging(sort: seq<Field>, skip: int, limit: int): seq<Stage> {
    [Sort(sort), Skip(skip), Limit(limit)]
  }

  /** The pipeline of `findMany` as written: the filter, the joins, the
      virtuals, the projection whenever a select is given, then sort, skip
      and limit. */
  function FindManyPipeline(filter: seq<Field>, sort: seq<Field>, skip: int, limit: int,
                            lookups: seq<Stage>, virtuals: seq<Stage>, select: SelectParam): (r: seq<Stage>)
    ensures |r| == |lookups| + |virtuals| + 4 + (if SelectGiven(select) then 1 else 0)
    ensures r[..1 + |lookups| + |virtuals|] == Leading(filter, lookups, virtuals)
    ensures r[|r| - 3] == Sort(sort) && r[|r| - 2] == Skip(skip) && r[|r| - 1] == Limit(limit)
    ensures SelectGiven(select) ==> r[|r| - 4] == Project(Inclusions(SelectFields(select)))
  {
    var lead := Leading(filter, lookups, virtuals);
    var tail := ProjectionOf(select) + Paging(sort, skip, limit);
    assert (lead + tail)[..|lead|] == lead;
    lead + tail
  }

  /** The position of a stage kind in a well-ordered read: match, joins,
      virtuals, projection, then sort, skip and limit. */
  function Rank(s: Stage): nat {
    match s
    case Match(_) => 0
    case LookupPipeline(_, _, _, _) => 1
    case LookupField(_, _, _, _) => 1
    case Unwind(_, _) => 1
    case AddFields(_) => 2
    case Project(_) => 3
    case Sort(_) => 4
    case Skip(_) => 5
    case Limit(_) => 6
  }

  predicate WellOrdered(r: seq<Stage>) {
    forall i, j :: 0 <= i < j < |r| ==> Rank(r[i]) <= Rank(r[j])
  }

  /** Every stage ranks between `lo` and `hi`. */
  predicate RanksWithin(r: seq<Stage>, lo: nat, hi: nat) {
    forall i :: 0 <= i < |r| ==> lo <= Rank(r[i]) <= hi
  }

  /** Stages all of one rank are in order. */
  lemma SameRankOrdered(r: seq<Stage>, m: nat)
    requires forall i :: 0 <= i < |r| ==> Rank(r[i]) == m
    ensures WellOrdered(r) && RanksWithin(r, m, m)
  {
  }

  /** Two ordered runs, the first ranked no higher than the second, are in
      order together. */
  lemma {:induction false} ConcatOrdered(a: seq<Stage>, b: seq<Stage>, lo: nat, m: nat, n: nat, hi: nat)
    requires WellOrdered(a) && WellOrdered(b) && RanksWithin(a, lo, m) && RanksWithin(b, n, hi) && lo <= m <= n <= hi
    ensures WellOrdered(a + b) && RanksWithin(a + b, lo, hi)
  {
    var r := a + b;
    forall i | 0 <= i < |r| ensures Rank(r[i]) == if i < |a| then Rank(a[i]) else Rank(b[i - |a|]) {
      if i >= |a| {
        assert r[i] == b[i - |a|];
      }
    }
    forall i | 0 <= i < |r| ensures lo <= Rank(r[i]) <= hi {
      if i < |a| {
        assert r[i] == a[i] && lo <= Rank(a[i]) <= m;
      } else {
        assert r[i] == b[i - |a|] && n <= Rank(b[i - |a|]) <= hi;
      }
    }
    forall i, j | 0 <= i < j < |r| ensures Rank(r[i]) <= Rank(r[j]) {
      if j < |a| {
        assert Rank(r[i]) == Rank(a[i]) && Rank(r[j]) == Rank(a[j]);
      } else if i >= |a| {
        assert Rank(r[i]) == Rank(b[i - |a|]) && Rank(r[j]) == Rank(b[j - |a|]);
      } else {
        assert Rank(r[i]) == Rank(a[i]) && Rank(r[j]) == Rank(b[j - |a|]);
      }
    }
  }

  /** Given joins and virtuals of the expected kinds, the read filters
      first, joins before computing virtuals, projects after both, and
      sorts, skips and limits last, in that order. */
  lemma FindManyOrdered(filter: seq<Field>, sort: seq<Field>, skip: int, limit: int,
                        lookups: seq<Stage>, virtuals: seq<Stage>, select: SelectParam)
    requires forall i :: 0 <= i < |lookups| ==> Rank(lookups[i]) == 1
    requires forall i :: 0 <= i < |virtuals| ==> virtuals[i].AddFields?
    ensures WellOrdered(FindManyPipeline(filter, sort, skip, limit, lookups, virtuals, select))
  {
    var proj := ProjectionOf(select);
    var paging := Paging(sort, skip, limit);
    PartsOrdered(Match(filter), lookups, virtuals, proj, paging);
    assert FindManyPipeline(filter, sort, skip, limit, lookups, virtuals, select)
      == [Match(filter)] + lookups + virtuals + (proj + paging);
  }

  /** The parts of a read, each of its own rank, in order. */
  lemma PartsOrdered(head: Stage, lookups: seq<Stage>, virtuals: seq<Stage>, proj: seq<Stage>, paging: seq<Stage>)
    requires head.Match?
    requires forall i :: 0 <= i < |lookups| ==> Rank(lookups[i]) == 1
    requires forall i :: 0 <= i < |virtuals| ==> virtuals[i].AddFields?
    requires forall i :: 0 <= i < |proj| ==> proj[i].Project?
    requires |paging| == 3 && paging[0].Sort? && paging[1].Skip? && paging[2].Limit?
    ensures WellOrdered([head] + lookups + virtuals + (proj + paging))
  {
    var lead := [head] + lookups + virtuals;
    assert WellOrdered(lead) && RanksWithin(lead, 0, 2) by {
      SameRankOrdered([head], 0);
      SameRankOrdered(lookups, 1);
      ConcatOrdered([head], lookups, 0, 0, 1, 1);
      SameRankOrdered(virtuals, 2);
      ConcatOrdered([head] + lookups, virtuals, 0, 1, 2, 2);
    }
    assert WellOrdered(proj + paging) && RanksWithin(proj + paging, 3, 6) by {
      SameRankOrdered(proj, 3);
      assert WellOrdered(paging) && RanksWithin(paging, 4, 6) by {
        assert Rank(paging[0]) == 4 && Rank(paging[1]) == 5 && Rank(paging[2]) == 6;
      }
      ConcatOrdered(proj, paging, 3, 3, 4, 6);
    }
    ConcatOrdered(lead, proj + paging, 0, 2, 3, 6);
  }

  /** MongoDB rejects a `$project` stage without fields. */
  predicate ProjectionsNonEmpty(r: seq<Stage>) {
    forall i :: 0 <= i < |r| && r[i].Project? ==> |r[i].projection| > 0
  }

  /** As written, an empty select array, or a select string of spaces only,
      still adds `$project: {}`, which the server refuses; and the query
      DTO turns `?select=` (and `?select=,`) into exactly that empty
      array. */
  lemma EmptySelectProjectsNothing(filter: seq<Field>, sort: seq<Field>, skip: int, limit: int,
                                   lookups: seq<Stage>, virtuals: seq<Stage>)
    ensures !ProjectionsNonEmpty(FindManyPipeline(filter, sort, skip, limit, lookups, virtuals, SelectList([])))
    ensures !ProjectionsNonEmpty(FindManyPipeline(filter, sort, skip, limit, lookups, virtuals, SelectString(" ")))
    ensures SelectTransform(Str("")) == Some([]) && SelectTransform(Str(",")) == Some([])
  {
    EmptyFieldsProjectNothing(filter, sort, skip, limit, lookups, virtuals, SelectList([]));
    BlankSelectNamesNothing();
    EmptyFieldsProjectNothing(filter, sort, skip, limit, lookups, virtuals, SelectString(" "));
    BlankSelectTransforms();
  }

  /** A select of one space names no field. */
  lemma BlankSelectNamesNothing()
    ensures SelectFields(SelectString(" ")) == []
  {
    assert Split(" ", ' ') == ["", ""] by { assert Split("", ' ') == [""]; }
  }

  /** The query's `select` transform drops the empty parts of "" and ",". */
  lemma BlankSelectTransforms()
    ensures SelectTransform(Str("")) == Some([]) && SelectTransform(Str(",")) == Some([])
  {
    assert SelectTransform(Str("")) == Some(NonEmpty(TrimAll(Split("", ','))));
    assert TrimAll([""]) == [""];
    var parts := Split(",", ',');
    assert parts == ["", ""] by { assert Split("", ',') == [""]; }
    assert SelectTransform(Str(",")) == Some(NonEmpty(TrimAll(parts)));
    assert TrimAll(parts) == ["", ""];
    assert NonEmpty(["", ""]) == [] by { assert NonEmpty([""]) == []; }
  }

  /** A given select naming no field gives the read an empty `$project`. */
  lemma EmptyFieldsProjectNothing(filter: seq<Field>, sort: seq<Field>, skip: int, limit: int,
                                  lookups: seq<Stage>, virtuals: seq<Stage>, select: SelectParam)
    requires SelectGiven(select) && SelectFields(select) == []
    ensures !ProjectionsNonEmpty(FindManyPipeline(filter, sort, skip, limit, lookups, virtuals, select))
  {
    var r := FindManyPipeline(filter, sort, skip, limit, lookups, virtuals, select);
    assert r[|r| - 4] == Project([]);
  }

  /** The projection a select adds once an empty field list is skipped. */
  function ProjectionOfCorrected(select: SelectParam): seq<Stage> {
    if SelectGiven(select) && |SelectFields(select)| > 0 then [Project(Inclusions(SelectFields(select)))] else []
  }

  /** `findMany`'s pipeline with the projection added only when the select
      names at least one field. */
  function FindManyPipelineCorrected(filter: seq<Field>, sort: seq<Field>, skip: int, limit: int,
                                     lookups: seq<Stage>, virtuals: seq<Stage>, select: SelectParam): (r: seq<Stage>)
    ensures |r| >= 4 && r[0] == Match(filter)
    ensures r[|r| - 3] == Sort(sort) && r[|r| - 2] == Skip(skip) && r[|r| - 1] == Limit(limit)
  {
    Leading(filter, lookups, virtuals) + (ProjectionOfCorrected(select) + Paging(sort, skip, limit))
  }

  /** The corrected pipeline never carries an empty `$project` of its
      own. */
  lemma CorrectedProjectsSomething(filter: seq<Field>, sort: seq<Field>, skip: int, limit: int,
                                   lookups: seq<Stage>, virtuals: seq<Stage>, select: SelectParam)
    ensures ProjectionsNonEmpty(lookups + virtuals) ==>
      ProjectionsNonEmpty(FindManyPipelineCorrected(filter, sort, skip, limit, lookups, virtuals, select))
  {
    var lead := Leading(filter, lookups, virtuals);
    var tail := ProjectionOfCorrected(select) + Paging(sort, skip, limit);
    var r := lead + tail;
    if ProjectionsNonEmpty(lookups + virtuals) {
      forall i | 0 <= i < |r| && r[i].Project? ensures |r[i].projection| > 0 {
        if i < |lead| {
          assert r[i] == lead[i];
          if i > 0 {
            LeadingAt(filter, lookups, virtuals, i);
          }
        } else {
          assert r[i] == tail[i - |lead|];
        }
      }
    }
  }

  /** Past the `$match`, the leading stages are the joins and then the
      virtuals. */
  lemma LeadingAt(filter: seq<Field>, lookups: seq<Stage>, virtuals: seq<Stage>, i: int)
    requires 0 < i < 1 + |lookups| + |virtuals|
    ensures |Leading(filter, lookups, virtuals)| == 1 + |lookups| + |virtuals|
    ensures Leading(filter, lookups, virtuals)[i] == (lookups + virtuals)[i - 1]
  {
    var lead := Leading(filter, lookups, virtuals);
    if i - 1 < |lookups| {
      assert lead[1 + (i - 1)] == lookups[i - 1];
    } else {
      assert lead[1 + |lookups| + (i - 1 - |lookups|)] == virtuals[i - 1 - |lookups|];
    }
  }

  /** The correction changes nothing for a select that names a field, or
      for none at all. */
  lemma CorrectedAgrees(filter: seq<Field>, sort: seq<Field>, skip: int, limit: int,
                        lookups: seq<Stage>, virtuals: seq<Stage>, select: SelectParam)
    requires !SelectGiven(select) || |SelectFields(select)| > 0
    ensures FindManyPipelineCorrected(filter, sort, skip, limit, lookups, virtuals, select)
      == FindManyPipeline(filter, sort, skip, limit, lookups, virtuals, select)
  {
  }


  /** Joins carry no `$project` of their own: joins followed by virtuals
      have an empty projection only when the virtuals do. */
  lemma LookupsProjectNothing(pops: seq<Populate>, virtuals: seq<Stage>)
    ensures ProjectionsNonEmpty(virtuals) ==> ProjectionsNonEmpty(BuildLookupPipeline(pops) + virtuals)
  {
    var lookups := BuildLookupPipeline(pops);
    if ProjectionsNonEmpty(virtuals) {
      forall i | 0 <= i < |lookups + virtuals| && (lookups + virtuals)[i].Project?
        ensures |(lookups + virtuals)[i].projection| > 0
      {
        if i < |lookups| {
          LookupStagesPaired(pops, i);
        } else {
          assert (lookups + virtuals)[i] == virtuals[i - |lookups|];
        }
      }
    }
  }

  /** The written pipeline has an empty `$project` exactly when a given
      select names no field, unless the virtuals bring one. */
  lemma WrittenProjections(filter: seq<Field>, sort: seq<Field>, skip: int, limit: int,
                           populator: seq<Populate>, virtuals: seq<Stage>, select: SelectParam)
    ensures var r := FindManyPipeline(filter, sort, skip, limit, BuildLookupPipeline(populator), virtuals, select);
      && (ProjectionsNonEmpty(virtuals) && (!SelectGiven(select) || |SelectFields(select)| > 0) ==> ProjectionsNonEmpty(r))
      && (SelectGiven(select) && |SelectFields(select)| == 0 ==> !ProjectionsNonEmpty(r))
  {
    var lookups := BuildLookupPipeline(populator);
    var r := FindManyPipeline(filter, sort, skip, limit, lookups, virtuals, select);
    if ProjectionsNonEmpty(virtuals) && (!SelectGiven(select) || |SelectFields(select)| > 0) {
      LookupsProjectNothing(populator, virtuals);
      CorrectedProjectsSomething(filter, sort, skip, limit, lookups, virtuals, select);
      CorrectedAgrees(filter, sort, skip, limit, lookups, virtuals, select);
    }
    if SelectGiven(select) && |SelectFields(select)| == 0 {
      assert r[|r| - 4].Project? && |r[|r| - 4].projection| == 0;
    }
  }

  /** One page of `findMany`: the pipeline, the filter the total is counted
      with, and the pagination metadata. */
  datatype FoundPage = FoundPage(pipeline: seq<Stage>, countFilter: seq<Field>, meta: PageMeta)

  /** The page `findMany` reads once the builder has produced the filter,
      sort and pagination, with the pipeline as written: the count uses the
      very filter the read matches with, the read ends with the builder's
      sort, skip and limit, and a given select is projected just before
      them. The read carries an empty `$project` exactly when a given select
      names no field; otherwise it has one only if the virtuals do. */
  function PageFor(filter: seq<Field>, sort: seq<Field>, skip: int, limit: int, select: SelectParam,
                   populator: seq<Populate>, virtuals: seq<Stage>, total: seq<Field> -> nat): (r: FoundPage)
    requires limit > 0
    ensures r.countFilter == filter && r.meta.total == total(filter)
    ensures r.meta == PaginationMeta(total(filter), skip, limit)
    ensures WrittenShape(r.pipeline, filter, sort, skip, limit, virtuals, select)
  {
    PipelineFacts(filter, sort, skip, limit, populator, virtuals, select);
    FoundPage(FindManyPipeline(filter, sort, skip, limit, BuildLookupPipeline(populator), virtuals, select),
              filter, PaginationMeta(total(filter), skip, limit))
  }

  /** The shape of a read as written: at least four stages, the filter's
      `$match` first, the builder's sort, skip and limit last, a given
      select projected just before them; an empty `$project` exactly when a
      given select names no field, and otherwise one only if the virtuals
      carry it. */
  predicate WrittenShape(p: seq<Stage>, filter: seq<Field>, sort: seq<Field>, skip: int, limit: int,
                         virtuals: seq<Stage>, select: SelectParam)
  {
    var n := |p|;
    && n >= 4 && p[0] == Match(filter)
    && p[n - 3] == Sort(sort) && p[n - 2] == Skip(skip) && p[n - 1] == Limit(limit)
    && (SelectGiven(select) ==> p[n - 4] == Project(Inclusions(SelectFields(select))))
    && (ProjectionsNonEmpty(virtuals) && (!SelectGiven(select) || |SelectFields(select)| > 0) ==> ProjectionsNonEmpty(p))
    && (SelectGiven(select) && |SelectFields(select)| == 0 ==> !ProjectionsNonEmpty(p))
  }

  /** The facts `PageFor` states of the written pipeline. */
  lemma PipelineFacts(filter: seq<Field>, sort: seq<Field>, skip: int, limit: int,
                      populator: seq<Populate>, virtuals: seq<Stage>, select: SelectParam)
    ensures WrittenShape(FindManyPipeline(filter, sort, skip, limit, BuildLookupPipeline(populator), virtuals, select),
                         filter, sort, skip, limit, virtuals, select)
  {
    WrittenProjections(filter, sort, skip, limit, populator, virtuals, select);
  }

  /** `findMany(query)`: the builder's filter, sort and page, or its error;
      then the page read through the pipeline as written, over exactly the
      builder's filter, sort, skip and limit. */
  function FindMany(query: Query, select: SelectParam, populator: seq<Populate>, virtuals: seq<Stage>,
                    isValidObjectId: Value -> bool, toObjectId: Value -> Value, total: seq<Field> -> nat)
    : (r: Result<FoundPage, Failure>)
    requires query.limit.GetOr(DEFAULT_LIMIT) > 0
    ensures r.Ok? <==> BuildMongoQuery(query, isValidObjectId, toObjectId).Ok?
    ensures r.Err? ==> r.error == BuildMongoQuery(query, isValidObjectId, toObjectId).error
    ensures r.Ok? ==> r.value.countFilter == BuildMongoQuery(query, isValidObjectId, toObjectId).value
    ensures r.Ok? ==>
      var (skip, limit) := BuildPagination(query.page, query.limit);
      r.value.pipeline == FindManyPipeline(BuildMongoQuery(query, isValidObjectId, toObjectId).value,
        BuildSortOptions(query.sort), skip, limit, BuildLookupPipeline(populator), virtuals, select)
  {
    match BuildQuery(query, isValidObjectId, toObjectId)
    case Err(e) => Err(e)
    case Ok(q) =>
      assert q.3 == query.limit.GetOr(DEFAULT_LIMIT);
      Ok(PageFor(q.0, q.1, q.2, q.3, select, populator, virtuals, total))
  }

  lemma PaginationGiven(page: int, limit: int)
    ensures BuildPagination(Some(page), Some(limit)) == ((page - 1) * limit, limit)
  {
  }

  lemma PageForPaging(filter: seq<Field>, sort: seq<Field>, select: SelectParam, populator: seq<Populate>,
                      virtuals: seq<Stage>, total: seq<Field> -> nat, page: int, limit: int)
    requires ValidPage(page) && ValidLimit(limit)
    ensures var p := PageFor(filter, sort, (page - 1) * limit, limit, select, populator, virtuals, total);
      var n := |p.pipeline|;
      && p.meta.page == page && p.meta.limit == limit
      && p.pipeline[n - 2] == Skip((page - 1) * limit) && p.pipeline[n - 1] == Limit(limit)
  {
    MulDiv(page - 1, limit);
  }

  /** For a page and limit within the query's bounds, the read skips the
      pages before the requested one, returns at most `limit` documents,
      and reports the requested page and limit. */
  lemma FindManyPaging(query: Query, select: SelectParam, populator: seq<Populate>, virtuals: seq<Stage>,
                       isValidObjectId: Value -> bool, toObjectId: Value -> Value, total: seq<Field> -> nat,
                       page: int, limit: int)
    requires query.page == Some(page) && query.limit == Some(limit) && ValidPage(page) && ValidLimit(limit)
    requires BuildMongoQuery(query, isValidObjectId, toObjectId).Ok?
    ensures var r := FindMany(query, select, populator, virtuals, isValidObjectId, toObjectId, total);
      var n := |r.value.pipeline|;
      && r.Ok? && r.value.meta.page == page && r.value.meta.limit == limit
      && r.value.pipeline[n - 2] == Skip((page - 1) * limit) && r.value.pipeline[n - 1] == Limit(limit)
  {
    var bq := BuildQuery(query, isValidObjectId, toObjectId);
    assert bq.Ok?;
    var q := bq.value;
    assert (q.2, q.3) == BuildPagination(query.page, query.limit);
    PaginationGiven(page, limit);
    assert FindMany(query, select, populator, virtuals, isValidObjectId, toObjectId, total)
      == Ok(PageFor(q.0, q.1, q.2, q.3, select, populator, virtuals, total));
    PageForPaging(q.0, q.1, select, populator, virtuals, total, page, limit);
  }

  // ---------------------------------------------------------------------
  // findOneWithLookup and findOne

  /** What `new Types.ObjectId(s)` throws for a string that is not an id. */
  const INVALID_OBJECT_ID: string := "input must be a 24 character hex string, 12 byte Uint8Array, or an integer"

  /** `findOneWithLookup(id, {select})`: the document with the id (converted
      by `toObjectId`, which fails on a malformed id), joined, with its
      virtuals, and projected on the space-separated select when that is
      non-empty. */
  function FindOneWithLookup(id: string, select: Option<string>, populator: seq<Populate>, virtuals: seq<Stage>,
                             toObjectId: string -> Option<Value>): (r: Result<seq<Stage>, Failure>)
    ensures r.Err? <==> toObjectId(id).None?
    ensures r.Err? ==> r.error == Plain(INVALID_OBJECT_ID)
    ensures r.Ok? ==>
      && |r.value| == 1 + 2 * |populator| + |virtuals| + (if Given(select) then 1 else 0)
      && r.value[0] == Match([Field("_id", toObjectId(id).value)])
      && (Given(select) ==> r.value[|r.value| - 1] == Project(Inclusions(NonEmpty(Split(select.value, ' ')))))
  {
    match toObjectId(id)
    case None => Err(Plain(INVALID_OBJECT_ID))
    case Some(oid) =>
      var sel := if Given(select) then SelectString(select.value) else NoSelect;
      Ok(Leading([Field("_id", oid)], BuildLookupPipeline(populator), virtuals) + ProjectionOf(sel))
  }

  /** Reading one document runs the stages a `findMany` filtered on its id
      would run before sorting and paging: the same joins, virtuals and
      projection. */
  lemma FindOneLikeFindMany(id: string, select: Option<string>, populator: seq<Populate>, virtuals: seq<Stage>,
                            toObjectId: string -> Option<Value>, sort: seq<Field>, skip: int, limit: int)
    requires toObjectId(id).Some?
    ensures FindOneWithLookup(id, select, populator, virtuals, toObjectId)
      == Ok(WithoutPaging(FindManyPipeline([Field("_id", toObjectId(id).value)], sort, skip, limit,
                                           BuildLookupPipeline(populator), virtuals,
                                           if Given(select) then SelectString(select.value) else NoSelect)))
  {
    var sel := if Given(select) then SelectString(select.value) else NoSelect;
    FindOneStages(id, select, populator, virtuals, toObjectId);
    DropPaging([Field("_id", toObjectId(id).value)], sort, skip, limit, BuildLookupPipeline(populator), virtuals, sel);
  }

  /** A valid id reads its match, the joins, the virtuals and the select's
      projection. */
  lemma FindOneStages(id: string, select: Option<string>, populator: seq<Populate>, virtuals: seq<Stage>,
                      toObjectId: string -> Option<Value>)
    requires toObjectId(id).Some?
    ensures FindOneWithLookup(id, select, populator, virtuals, toObjectId)
      == Ok(Leading([Field("_id", toObjectId(id).value)], BuildLookupPipeline(populator), virtuals)
            + ProjectionOf(if Given(select) then SelectString(select.value) else NoSelect))
  {
  }

  /** A read without its sort, skip and limit. */
  function WithoutPaging(many: seq<Stage>): seq<Stage>
    requires |many| >= 3
  {
    many[..|many| - 3]
  }

  /** Without its last three stages, a read is its match, joins, virtuals
      and projection. */
  lemma DropPaging(filter: seq<Field>, sort: seq<Field>, skip: int, limit: int,
                   lookups: seq<Stage>, virtuals: seq<Stage>, select: SelectParam)
    ensures WithoutPaging(FindManyPipeline(filter, sort, skip, limit, lookups, virtuals, select))
      == Leading(filter, lookups, virtuals) + ProjectionOf(select)
  {
    var head := Leading(filter, lookups, virtuals) + ProjectionOf(select);
    var many := FindManyPipeline(filter, sort, skip, limit, lookups, virtuals, select);
    assert many == head + Paging(sort, skip, limit);
    assert |Paging(sort, skip, limit)| == 3;
  }

  /** `options.select` as `findOne` hands it on: an array joined with
      spaces, a string as it is, nothing when absent or empty. */
  function SelectText(select: SelectParam): Option<string> {
    match select
    case NoSelect => None
    case SelectList(fields) => Some(JoinWith(fields, " "))
    case SelectString(text) => if text == "" then None else Some(text)
  }

  /** A non-empty array of field names without spaces is projected exactly:
      joining and splitting again gives the fields back. */
  lemma SelectListRoundTrip(fields: seq<string>)
    requires |fields| >= 1
    requires forall i :: 0 <= i < |fields| ==> fields[i] != "" && ' ' !in fields[i]
    ensures Given(SelectText(SelectList(fields)))
    ensures NonEmpty(Split(SelectText(SelectList(fields)).value, ' ')) == fields
  {
    JoinWithChar(fields, ' ');
    SplitOfJoin(fields, ' ');
    NonEmptyKeeps(fields);
    assert |JoinWith(fields, " ")| >= |fields[0]| > 0 by {
      if |fields| > 1 {
        assert JoinWith(fields, " ") == fields[0] + " " + JoinWith(fields[1..], " ");
      }
    }
  }

  /** An empty array joins to the empty string, which `findOneWithLookup`
      treats as no select at all: unlike `findMany`, `findOne` adds no
      empty projection. */
  lemma FindOneEmptyListSelectsAll(id: string, populator: seq<Populate>, virtuals: seq<Stage>,
                                   toObjectId: string -> Option<Value>)
    ensures FindOneWithLookup(id, SelectText(SelectList([])), populator, virtuals, toObjectId)
      == FindOneWithLookup(id, None, populator, virtuals, toObjectId)
  {
  }

  /** `findOne(id, {select})` as one execution of its unit of work: the
      first document the pipeline yields, NotFound when it yields none. */
  function FindOne(id: string, select: SelectParam, populator: seq<Populate>, virtuals: seq<Stage>,
                   toObjectId: string -> Option<Value>, aggregate: seq<Stage> -> seq<Doc>, modelName: string)
    : (r: Result<Doc, Failure>)
    ensures toObjectId(id).None? ==> r == Err(Plain(INVALID_OBJECT_ID))
    ensures toObjectId(id).Some? ==>
      var found := aggregate(FindOneWithLookup(id, SelectText(select), populator, virtuals, toObjectId).value);
      && (r.Err? <==> found == [])
      && (r.Err? ==> r.error == Raise(NotFound, CrudService.NotFoundMessage(modelName)))
      && (r.Ok? ==> r.value == found[0])
  {
    var pipeline :- FindOneWithLookup(id, SelectText(select), populator, virtuals, toObjectId);
    var found := aggregate(pipeline);
    if |found| == 0 then Err(Raise(NotFound, CrudService.NotFoundMessage(modelName))) else Ok(found[0])
  }

  /** An exception that is not a write conflict or a transient error is
      handed to an owning caller as it is, after one execution. */
  lemma ExceptionNotRetried<R>(e: Failure)
    requires e.Exception? && !IsTransient(e)
    ensures var run := WithTransaction(true, ConstWork(Outcome<R>.Threw(e)));
      run.result == Err(e) && Execs(run.trace) == 1
  {
    FinalStep(ConstWork(Outcome<R>.Threw(e)), MAX_RETRIES, 0);
    ClosedExecs(0, false);
  }

  /** A missing document is reported once: the NotFound of `findOne`
      reaches the caller unchanged after a single execution. */
  lemma FindOneMissingOnce(id: string, select: SelectParam, populator: seq<Populate>, virtuals: seq<Stage>,
                           toObjectId: string -> Option<Value>, aggregate: seq<Stage> -> seq<Doc>, modelName: string)
    requires toObjectId(id).Some?
    requires aggregate(FindOneWithLookup(id, SelectText(select), populator, virtuals, toObjectId).value) == []
    ensures var r := FindOne(id, select, populator, virtuals, toObjectId, aggregate, modelName);
      var run := WithTransaction(true, ConstWork(AsOutcome(r)));
      run.result == Err(Raise(NotFound, CrudService.NotFoundMessage(modelName))) && Execs(run.trace) == 1
  {
    ExceptionNotRetried<Doc>(Raise(NotFound, CrudService.NotFoundMessage(modelName)));
  }

  // ---------------------------------------------------------------------
  // Writes

  /** `create(dto, user)`: a new document with the dto's fields and, when a
      user is given, its id as `user`, saved under the fresh id `id`. An id
      already taken fails with the server's duplicate-key error. */
  function Create(c: Collection, id: string, dto: seq<Field>, user: Option<string>): (r: (Collection, Result<Doc, Failure>))
    ensures id in c ==> r == (c, Err(MongoServer(DUPLICATE_KEY, [], Some(["_id"]))))
    ensures id !in c ==> r.1.Ok? && r.0 == c[id := r.1.value] && r.1.value.version == 0
    ensures r.1.Ok? && user.Some? ==> Get(r.1.value.fields, "user") == Str(user.value)
    ensures r.1.Ok? && user.None? ==> r.1.value.fields == dto
  {
    if id in c then (c, Err(MongoServer(DUPLICATE_KEY, [], Some(["_id"]))))
    else
      var owner := if user.Some? then [Field("user", Str(user.value))] else [];
      var d := Doc(0, Spread(dto, owner));
      (c[id := d], Ok(d))
  }

  /** A created document keeps every dto field except `user`, which the
      caller's id overrides; and a taken id reaches the caller as a
      DuplicateKeyException naming `_id`. */
  lemma CreateKeepsDto(c: Collection, id: string, dto: seq<Field>, user: Option<string>, k: string)
    requires k != "user"
    ensures var r := Create(c, id, dto, user); r.1.Ok? ==> Get(r.1.value.fields, k) == Get(dto, k)
    ensures id in c ==> TransformError(Create(c, id, dto, user).1.error) == Exception(DuplicateKey, DUPLICATE_MESSAGE, Some("_id"))
  {
  }

  /** `update(id, dto)` as one execution: `findByIdAndUpdate` with the dto,
      NotFound when no document has the id. */
  function Update(c: Collection, id: string, dto: seq<Field>, modelName: string): (r: (Collection, Result<Doc, Failure>))
    ensures r.1.Err? <==> id !in c
    ensures id !in c ==> r == (c, Err(Raise(NotFound, CrudService.NotFoundMessage(modelName))))
    ensures id in c ==> id in r.0 && r.1 == Ok(r.0[id]) && r.0.Keys == c.Keys
    ensures forall k :: k in c && k != id ==> k in r.0 && r.0[k] == c[k]
  {
    if id !in c then (c, Err(Raise(NotFound, CrudService.NotFoundMessage(modelName))))
    else
      var d := Apply(c[id], dto);
      (c[id := d], Ok(d))
  }

  /** A dto of plain fields (no update operators) sets exactly its fields:
      each named field takes the dto's value, every other field and the
      version stay as they were. */
  lemma UpdateSetsFields(c: Collection, id: string, dto: seq<Field>, modelName: string, k: string)
    requires id in c && DistinctKeys(dto)
    requires forall i :: 0 <= i < |dto| ==> !IsOperator(dto[i].key)
    requires !IsOperator(k)
    ensures var d := Update(c, id, dto, modelName).1.value;
      && d.version == c[id].version
      && Get(d.fields, k) == if k in Keys(dto) then Get(dto, k) else Get(c[id].fields, k)
  {
    assert "$inc" !in Keys(dto) && "$push" !in Keys(dto) by {
      forall i | 0 <= i < |dto| ensures Keys(dto)[i] != "$inc" && Keys(dto)[i] != "$push" {
        assert IsOperator("$inc") && IsOperator("$push");
      }
    }
    assert Incs(dto) == [] && Pushes(dto) == [];
    PlainKeepsDistinct(dto);
    var mid := Spread(c[id].fields, PlainFields(dto));
    assert IncFields(mid, []) == mid;
    assert PushFields(mid, []) == mid;
  }

  /** `increment(id, fields)`: `$inc` of the fields, `null` when no document
      has the id. */
  function Increment(c: Collection, id: string, fields: seq<Field>): (r: (Collection, Option<Doc>))
    ensures r.1.None? <==> id !in c
    ensures id !in c ==> r.0 == c
    ensures id in c ==> id in r.0 && r.1 == Some(r.0[id]) && r.0 == c[id := r.0[id]]
  {
    if id !in c then (c, None)
    else
      var d := Apply(c[id], [Field("$inc", Obj(fields))]);
      (c[id := d], Some(d))
  }

  /** Each numeric field named once is raised by its amount (a missing
      field counting as 0); fields not named are untouched. */
  lemma IncrementAdds(c: Collection, id: string, fields: seq<Field>, k: string, amount: int)
    requires id in c && DistinctKeys(fields) && k != VERSION_KEY
    ensures var d := Increment(c, id, fields).1.value;
      && (k !in Keys(fields) ==> Get(d.fields, k) == Get(c[id].fields, k))
      && (Get(fields, k) == Num(amount) ==> Get(d.fields, k).Num? && Get(d.fields, k).n == NumOr0(Get(c[id].fields, k)) + amount)
  {
    assert Increment(c, id, fields).1.value == Apply(c[id], [Field("$inc", Obj(fields))]);
    IncOnlyField(c[id], fields, k, amount);
  }

  /** The outcome of `forceUpdate`: the store, the document returned and
      the model the update went through, when one was made. */
  datatype ForceUpdated = ForceUpdated(store: Collection, doc: Option<Doc>, model: Option<ModelRef>)

  /** `forceUpdate(id, update)`: `null` without any write when the document
      does not exist; otherwise the update applied through the model its
      discriminator selects. */
  function ForceUpdate(c: Collection, id: string, update: seq<Field>, discriminators: Option<set<string>>, key: string)
    : (r: ForceUpdated)
    ensures id !in c ==> r == ForceUpdated(c, None, None)
    ensures id in c ==>
      && r.doc == Some(Apply(c[id], update)) && r.store == c[id := Apply(c[id], update)]
      && r.model == Some(ResolveDiscriminatorModel(discriminators, key, c[id]))
  {
    if id !in c then ForceUpdated(c, None, None)
    else
      var d := Apply(c[id], update);
      ForceUpdated(c[id := d], Some(d), Some(ResolveDiscriminatorModel(discriminators, key, c[id])))
  }

  /** Force-updating with plain fields writes what `update` writes; the two
      differ only in that a missing document is `null`, not NotFound. */
  lemma ForceUpdateLikeUpdate(c: Collection, id: string, dto: seq<Field>, discriminators: Option<set<string>>,
                              key: string, modelName: string)
    ensures var f := ForceUpdate(c, id, dto, discriminators, key);
      var u := Update(c, id, dto, modelName);
      && f.store == u.0
      && (f.doc.Some? <==> u.1.Ok?)
      && (f.doc.Some? ==> f.doc.value == u.1.value)
  {
  }

  /** A `$set` operator, sent through `forceUpdate`, assigns exactly the
      fields it names and leaves the version and every other field as they
      were. */
  lemma ForceUpdateSets(c: Collection, id: string, sets: seq<Field>, discriminators: Option<set<string>>,
                        key: string, k: string)
    requires id in c && DistinctKeys(sets)
    ensures var d := ForceUpdate(c, id, [Field("$set", Obj(sets))], discriminators, key).doc.value;
      && d.version == c[id].version
      && Get(d.fields, k) == if k in Keys(sets) then Get(sets, k) else Get(c[id].fields, k)
  {
    ApplySetOnly(c[id], sets);
  }

  /** `remove(id)`: `findByIdAndDelete`, the removed document or `null`. */
  function Remove(c: Collection, id: string): (r: (Collection, Option<Doc>))
    ensures id !in r.0 && r.0.Keys == c.Keys - {id}
    ensures forall k :: k in r.0 ==> r.0[k] == c[k]
    ensures r.1.Some? <==> id in c
    ensures r.1.Some? ==> r.1.value == c[id]
  {
    (c - {id}, if id in c then Some(c[id]) else None)
  }

  /** Removing is idempotent: a second removal finds nothing and changes
      nothing, and a removed document can no longer be updated. */
  lemma RemoveTwice(c: Collection, id: string, dto: seq<Field>, modelName: string)
    ensures var r := Remove(c, id);
      && Remove(r.0, id) == (r.0, None)
      && Update(r.0, id, dto, modelName).1 == Err(Raise(NotFound, CrudService.NotFoundMessage(modelName)))
  {
    var r := Remove(c, id);
    assert r.0 - {id} == r.0;
  }
}

=== FILE: auditable.dfy ===
/** `AuditState` and `AuditableEntity` (src/crud/entities/auditable.entity.ts):
    the audit-trail entry, how it sits in a stored document, and the view of
    a stored document as an auditable entity. */
module AuditableEntity {
  import opened Wrappers
  import opened Json
  import opened Store

  /** One entry of the audit trail. `step` and `iterations` are `None` when
      the entry was written without them; the schema's defaults for them,
      `FsmProcessingState.START` and 0, are applied by `CastEntry`. */
  datatype AuditState = AuditState(status: string, step: Option<string>, iterations: Option<int>,
                                   description: string, metadata: Option<seq<Field>>, user: Option<string>)

  function StrOr(o: Option<string>): Value {
    if o.Some? then Str(o.value) else Undefined
  }

  function NumOr(o: Option<int>): Value {
    if o.Some? then Num(o.value) else Undefined
  }

  function ObjOr(o: Option<seq<Field>>): Value {
    if o.Some? then Obj(o.value) else Undefined
  }

  /** The entry as the object stored in `stateTransitions`; an absent
      optional property is `undefined`. */
  function ToJson(a: AuditState): (v: Value)
    ensures v.Obj? && DistinctKeys(v.fields)
  {
    var fs := [Field("status", Str(a.status)), Field("description", Str(a.description)),
               Field("metadata", ObjOr(a.metadata)), Field("user", StrOr(a.user)),
               Field("step", StrOr(a.step)), Field("iterations", NumOr(a.iterations))];
    Obj(fs)
  }

  /** A stored object read back as an entry: `status` and `description` are
      strings, and each optional property is absent or of its schema type. */
  function FromJson(v: Value): Option<AuditState> {
    if !v.Obj? then None
    else
      var status, description := Get(v.fields, "status"), Get(v.fields, "description");
      var metadata, user := Get(v.fields, "metadata"), Get(v.fields, "user");
      var step, iterations := Get(v.fields, "step"), Get(v.fields, "iterations");
      if && status.Str? && description.Str?
         && (metadata.Undefined? || metadata.Obj?) && (user.Undefined? || user.Str?)
         && (step.Undefined? || step.Str?) && (iterations.Undefined? || iterations.Num?)
      then Some(AuditState(status.s, if step.Str? then Some(step.s) else None,
                           if iterations.Num? then Some(iterations.n) else None, description.s,
                           if metadata.Obj? then Some(metadata.fields) else None,
                           if user.Str? then Some(user.s) else None))
      else None
  }

  /** The stored form of an entry holds, under each schema property, the
      entry's value (`undefined` for an absent optional one). */
  lemma EntryFields(a: AuditState)
    ensures var fs := ToJson(a).fields;
      && Get(fs, "status") == Str(a.status) && Get(fs, "description") == Str(a.description)
      && Get(fs, "metadata") == ObjOr(a.metadata) && Get(fs, "user") == StrOr(a.user)
      && Get(fs, "step") == StrOr(a.step) && Get(fs, "iterations") == NumOr(a.iterations)
  {
    var fs := ToJson(a).fields;
    GetAt(fs, 0); GetAt(fs, 1); GetAt(fs, 2); GetAt(fs, 3); GetAt(fs, 4); GetAt(fs, 5);
  }

  /** Storing an entry and reading it back gives the same entry. */
  lemma EntryRoundTrip(a: AuditState)
    ensures FromJson(ToJson(a)) == Some(a)
  {
    EntryFields(a);
  }

  /** An object that reads back as an entry agrees with that entry's stored
      form on every schema property. */
  lemma EntryReadBack(v: Value, a: AuditState)
    requires FromJson(v) == Some(a)
    ensures v.Obj?
    ensures Get(v.fields, "status") == Str(a.status) && Get(v.fields, "description") == Str(a.description)
    ensures Get(v.fields, "metadata") == ObjOr(a.metadata) && Get(v.fields, "user") == StrOr(a.user)
    ensures Get(v.fields, "step") == StrOr(a.step) && Get(v.fields, "iterations") == NumOr(a.iterations)
  {
  }

  /** `entity.status`. */
  function StatusOf(d: Doc): Value {
    Get(d.fields, "status")
  }

  /** `entity.status` as the string the service compares; a document
      without a string status reads as the empty status. */
  function StatusText(d: Doc): string {
    if StatusOf(d).Str? then StatusOf(d).s else ""
  }

  /** `entity.stateTransitions`, oldest first; absent reads as empty. */
  function Trail(d: Doc): seq<Value> {
    ItemsOf(Get(d.fields, "stateTransitions"))
  }

  /** `fsmState?.iterations || 0`: the iteration count of an entry, 0 when
      there is no entry, the property is absent, or it is not a non-zero
      number. */
  function IterationsOf(entry: Option<Value>): int {
    if entry.Some? && Truthy(Member(entry.value, "iterations")) then NumOr0(Member(entry.value, "iterations"))
    else 0
  }

  /** The iteration count read back from a stored entry is the one it was
      written with, and 0 when it was written without one. */
  lemma EntryIterations(a: AuditState)
    ensures IterationsOf(Some(ToJson(a))) == if a.iterations.Some? then a.iterations.value else 0
  {
    EntryFields(a);
    IterationsRead(ToJson(a), a.iterations);
  }

  /** An entry whose `iterations` is the number `n`, or absent, counts `n`
      iterations, or none. */
  lemma IterationsRead(entry: Value, iterations: Option<int>)
    requires entry.Obj? && Get(entry.fields, "iterations") == NumOr(iterations)
    ensures IterationsOf(Some(entry)) == if iterations.Some? then iterations.value else 0
  {
    assert Member(entry, "iterations") == NumOr(iterations);
  }

  /** How Mongoose stores an entry pushed onto `stateTransitions`: the
      `AuditState` schema gives an absent `step` the value `start` of
      `FsmProcessingState.START` and an absent `iterations` the value 0.
      The enum is imported from src/crud/enums/fsm.enums.ts, whose text
      declares no `FsmProcessingState`, so its value is a parameter. */
  function CastEntry(a: AuditState, start: string): (v: Value)
    ensures v.Obj?
    ensures FromJson(v) == Some(a.(step := Some(a.step.GetOr(start)), iterations := Some(a.iterations.GetOr(0))))
    ensures IterationsOf(Some(v)) == IterationsOf(Some(ToJson(a)))
  {
    var d := a.(step := Some(a.step.GetOr(start)), iterations := Some(a.iterations.GetOr(0)));
    EntryRoundTrip(d);
    EntryIterations(d);
    EntryIterations(a);
    ToJson(d)
  }

  /** Mongoose's schema default: the property is set to `v` when the
      fields do not have it. */
  function WithDefault(fs: seq<Field>, k: string, v: Value): (r: seq<Field>)
    ensures Get(r, k) == if k in Keys(fs) then Get(fs, k) else v
    ensures forall k' :: k' != k ==> Get(r, k') == Get(fs, k')
    ensures forall k' :: k' in Keys(fs) ==> k' in Keys(r)
  {
    PutKeys(fs, k, v);
    if k in Keys(fs) then fs else Put(fs, k, v)
  }

  /** A new auditable document: version 0, with the schema defaults
      `metadata: {}` and `stateTransitions: []` where the fields give none. */
  function NewDoc(fields: seq<Field>): Doc {
    Doc(0, WithDefault(WithDefault(fields, "metadata", Obj([])), "stateTransitions", Arr([])))
  }

  /** A new document keeps every given property, has version 0, and starts
      with an empty trail unless the fields bring one. */
  lemma NewDocKeeps(fields: seq<Field>)
    ensures NewDoc(fields).version == 0
    ensures forall k :: k in Keys(fields) ==> Get(NewDoc(fields).fields, k) == Get(fields, k)
    ensures "stateTransitions" !in Keys(fields) ==> Trail(NewDoc(fields)) == []
  {
    var withMeta := WithDefault(fields, "metadata", Obj([]));
    if "stateTransitions" !in Keys(fields) {
      PutKeys(fields, "metadata", Obj([]));
      assert "stateTransitions" !in Keys(withMeta);
    }
  }
}

/** `AuditableService` and `createStatusMachine`
    (src/crud/services/auditable.service.ts): status changes that are
    checked against an optional machine and recorded in the audit trail by
    a version-checked write. */
module AuditableService {
  import opened Wrappers
  import opened Errors
  import opened Session
  import opened Json
  import opened Store
  import opened OptimisticLocking
  import opened CrudService
  import opened Fsm
  import opened AuditableEntity

  /** `StatusUpdateDto`. */
  datatype StatusUpdateDto = StatusUpdateDto(status: string, description: Option<string>,
                                             metadata: Option<seq<Field>>, user: Option<string>)

  /** The service's `canTransition(from, to)`: without a machine every move
      is allowed; with one, the move's target is the event the machine must
      be able to take in `from`. */
  predicate MayTransition(machine: Option<FsmConfig>, from: string, to: string) {
    machine.None? || CanTransition(machine.value, from, to)
  }

  /** With the status machine of a table, the service allows exactly the
      moves the table lists; without a machine it allows every move. */
  lemma MayTransitionTable(id: string, initial: string, t: TransitionTable, from: string, to: string)
    ensures MayTransition(Some(StatusMachine(id, initial, t)), from, to) <==> TableAllows(t, from, to)
    ensures MayTransition(None, from, to)
  {
    StatusMachineAgrees(id, initial, t, from, to);
  }

  /** `getCurrentState(entity)`: the last entry of the trail, if any. */
  function GetCurrentState(d: Doc): (r: Option<Value>)
    ensures r.None? <==> Trail(d) == []
    ensures r.Some? ==> r.value in Trail(d)
  {
    if |Trail(d)| == 0 then None else Some(Trail(d)[|Trail(d)| - 1])
  }

  /** The audit entry `updateStatus` records: the new status, the caller's
      description unless empty (then "Status changed to <status>"), the
      caller's metadata and user, and no step or iteration count. */
  function AuditEntry(dto: StatusUpdateDto): (a: AuditState)
    ensures a.status == dto.status && a.metadata == dto.metadata && a.user == dto.user
    ensures a.step.None? && a.iterations.None? && a.description != ""
  {
    var description := if dto.description.Some? && dto.description.value != "" then dto.description.value
                       else "Status changed to " + dto.status;
    AuditState(dto.status, None, None, description, dto.metadata, dto.user)
  }

  /** The entry `updateStatus` pushes is stored with the schema's step
      `start` and an iteration count of 0, and otherwise as built. */
  lemma AuditEntryCast(dto: StatusUpdateDto, start: string)
    ensures var v := CastEntry(AuditEntry(dto), start);
      && Member(v, "step") == Str(start) && Member(v, "iterations") == Num(0)
      && Member(v, "status") == Str(dto.status) && Member(v, "description") == Str(AuditEntry(dto).description)
      && IterationsOf(Some(v)) == 0
  {
    var a := AuditEntry(dto);
    var d := a.(step := Some(start), iterations := Some(0));
    EntryReadBack(CastEntry(a, start), d);
    EntryIterations(a);
  }

  /** `{status, $push: {stateTransitions: entry}}`. */
  function StatusObject(status: string, entry: Value): seq<Field> {
    [Field("status", Str(status)), Field("$push", Obj([Field("stateTransitions", entry)]))]
  }

  /** The update object of `updateStatus`, carrying the audit entry. */
  function StatusUpdateObject(dto: StatusUpdateDto): seq<Field> {
    StatusObject(dto.status, ToJson(AuditEntry(dto)))
  }


  /** One execution of a status change that records `entry`, the unit of
      work of `updateStatus`: `findOne` (NotFound when absent), the transition
      check, then a versioned `forceUpdate` setting `status` and pushing the
      entry. A failed execution leaves the store as it was. */
  function RecordStatusWork(c: Collection, id: string, status: string, entry: Value, machine: Option<FsmConfig>,
                            modelName: string): (r: (Collection, Result<Option<Doc>, Failure>))
    ensures r.1.Err? ==> r.0 == c
    ensures id !in c ==> r == (c, Err(Raise(NotFound, NotFoundMessage(modelName))))
    ensures id in c && !MayTransition(machine, StatusText(c[id]), status) ==>
      r == (c, Err(InvalidTransitionError(StatusText(c[id]), status)))
  {
    if id !in c then (c, Err(Raise(NotFound, NotFoundMessage(modelName))))
    else if !MayTransition(machine, StatusText(c[id]), status) then
      (c, Err(InvalidTransitionError(StatusText(c[id]), status)))
    else ForceUpdate(c, c, id, StatusObject(status, entry), false, modelName)
  }

  /** One execution of `updateStatus`'s unit of work: the status change
      recording the audit entry of the dto. */
  function UpdateStatusWork(c: Collection, id: string, dto: StatusUpdateDto, machine: Option<FsmConfig>,
                            modelName: string): (r: (Collection, Result<Option<Doc>, Failure>))
    ensures r.1.Err? ==> r.0 == c
    ensures id !in c ==> r == (c, Err(Raise(NotFound, NotFoundMessage(modelName))))
    ensures id in c && !MayTransition(machine, StatusText(c[id]), dto.status) ==>
      r == (c, Err(InvalidTransitionError(StatusText(c[id]), dto.status)))
  {
    RecordStatusWork(c, id, dto.status, ToJson(AuditEntry(dto)), machine, modelName)
  }

  /** A status change recording `entry`, run by `withSession`, which owns
      the session when the caller passes none, as written: a retried
      attempt's session is left open (`WithSessionAsWritten`). A failed
      execution is rolled back, so every retry sees the store `c` again and
      fails the same way. */
  function RecordStatus(c: Collection, id: string, status: string, entry: Value, machine: Option<FsmConfig>,
                        owner: bool, modelName: string): (r: (Collection, Run<Option<Doc>>))
    ensures r.1.result.Err? ==> r.0 == c
  {
    var (c', res) := RecordStatusWork(c, id, status, entry, machine, modelName);
    var run := WithSessionAsWritten(owner, ConstWork(AsOutcome(res)), DEFAULT_EXPECTED, DEFAULT_RETRIES, 0, modelName);
    (if run.result.Ok? then c' else c, run)
  }

  /** `updateStatus(id, dto, session?)`: the status change recording the
      dto's audit entry. */
  function UpdateStatus(c: Collection, id: string, dto: StatusUpdateDto, machine: Option<FsmConfig>,
                        owner: bool, modelName: string): (r: (Collection, Run<Option<Doc>>))
    ensures r.1.result.Err? ==> r.0 == c
  {
    RecordStatus(c, id, dto.status, ToJson(AuditEntry(dto)), machine, owner, modelName)
  }

  /** `forceUpdate` adds `$inc: {__v: 1}` to a status update object. */
  lemma StatusObjectVersioned(status: string, entry: Value, version: int)
    ensures ForceUpdateObject(StatusObject(status, entry), Some(version))
      == StatusObject(status, entry) + [Field("$inc", Obj([Field(VERSION_KEY, Num(1))]))]
  {
    var u := StatusObject(status, entry);
    assert Keys(u) == ["status", "$push"];
    assert "$inc"[0] != "status"[0] && "$inc"[1] != "$push"[1];
    PutNew(u, "$inc", Obj([Field(VERSION_KEY, Num(1))]));
    IncAdded(u, version);
  }

  /** An update without `$inc` gains `$inc: {__v: 1}`. */
  lemma IncAdded(u: seq<Field>, version: int)
    requires Get(u, "$inc") == Undefined
    ensures ForceUpdateObject(u, Some(version)) == Put(u, "$inc", Obj([Field(VERSION_KEY, Num(1))]))
  {
    assert Put([], VERSION_KEY, Num(1)) == [Field(VERSION_KEY, Num(1))];
  }

  /** An update `{k: x, $push: p, $inc: i}` with a plain key `k` assigns
      only `k`. */
  lemma SetPushIncPlain(a: Field, b: Field, c: Field)
    requires !IsOperator(a.key) && IsOperator(b.key) && IsOperator(c.key)
    ensures PlainFields([a, b, c]) == [a]
  {
    assert [a, b, c][1..] == [b, c] && [b, c][1..] == [c] && [c][1..] == [];
  }

  /** Its `$inc` and `$push` parts are the objects under those keys, and it
      has no `$set`. */
  lemma SetPushIncParts(a: Field, b: Field, c: Field)
    requires !IsOperator(a.key) && b.key == "$push" && c.key == "$inc"
    ensures Incs([a, b, c]) == FieldsOf(c.val) && Pushes([a, b, c]) == FieldsOf(b.val)
    ensures Sets([a, b, c]) == []
  {
    assert [a, b, c][1..] == [b, c] && [b, c][1..] == [c];
    assert IsOperator("$set") && a.key != "$set";
    assert Get([a, b, c], "$set") == Get([b, c], "$set") == Get([c], "$set") == Get([], "$set") == Undefined;
    assert Get([a, b, c], "$inc") == Get([b, c], "$inc") == Get([c], "$inc") == c.val;
    assert Get([a, b, c], "$push") == Get([b, c], "$push") == b.val;
  }

  /** The versioned status update object assigns `status`, increments
      `__v` by one and pushes the entry. */
  lemma StatusObjectParts(status: string, entry: Value, version: int)
    ensures var u := ForceUpdateObject(StatusObject(status, entry), Some(version));
      && PlainFields(u) == [Field("status", Str(status))]
      && Incs(u) == [Field(VERSION_KEY, Num(1))]
      && Pushes(u) == [Field("stateTransitions", entry)]
      && Sets(u) == []
  {
    StatusObjectVersioned(status, entry, version);
    var inc := Field("$inc", Obj([Field(VERSION_KEY, Num(1))]));
    var u := StatusObject(status, entry);
    assert u + [inc] == [u[0], u[1], inc];
    assert !IsOperator("status");
    SetPushIncPlain(u[0], u[1], inc);
    SetPushIncParts(u[0], u[1], inc);
  }

  /** The status write on a document at the version it was read: the
      version moves by one, `status` is set, exactly the entry is appended to
      the trail, and every other property is kept. */
  lemma StatusWrite(d: Doc, status: string, entry: Value)
    ensures var d' := Apply(d, ForceUpdateObject(StatusObject(status, entry), Some(d.version)));
      && d'.version == d.version + 1
      && StatusOf(d') == Str(status)
      && Trail(d') == Trail(d) + [entry]
      && forall k :: k != "status" && k != "stateTransitions" ==> Get(d'.fields, k) == Get(d.fields, k)
  {
    StatusApplied(d, status, entry);
  }

  /** The status write as one document: version plus one, `status` put,
      then the entry pushed onto the trail. */
  lemma StatusApplied(d: Doc, status: string, entry: Value)
    ensures var mid := Put(d.fields, "status", Str(status));
      Apply(d, ForceUpdateObject(StatusObject(status, entry), Some(d.version)))
        == Doc(d.version + 1, Put(mid, "stateTransitions", Arr(ItemsOf(Get(mid, "stateTransitions")) + [entry])))
  {
    var u := ForceUpdateObject(StatusObject(status, entry), Some(d.version));
    StatusObjectParts(status, entry, d.version);
    var mid := Put(d.fields, "status", Str(status));
    assert Assigned(d.fields, u) == Spread(mid, []);
    assert IncFields(mid, Incs(u)) == IncFields(mid, []);
    var pushed := Put(mid, "stateTransitions", Arr(ItemsOf(Get(mid, "stateTransitions")) + [entry]));
    assert PushFields(mid, Pushes(u)) == PushFields(pushed, []);
  }

  /** The document after a status write on `d`, at the version read. */
  function StatusWrittenWith(d: Doc, status: string, entry: Value): Doc {
    Apply(d, ForceUpdateObject(StatusObject(status, entry), Some(d.version)))
  }

  /** The document after `updateStatus`'s write on `d`. */
  function StatusWritten(d: Doc, dto: StatusUpdateDto): Doc {
    StatusWrittenWith(d, dto.status, ToJson(AuditEntry(dto)))
  }

  /** An allowed status change on an existing entity: one execution writes
      the document read, at the version read. */
  lemma RecordWorkWrites(c: Collection, id: string, status: string, entry: Value, machine: Option<FsmConfig>,
                         modelName: string)
    requires id in c && MayTransition(machine, StatusText(c[id]), status)
    ensures RecordStatusWork(c, id, status, entry, machine, modelName)
      == (c[id := StatusWrittenWith(c[id], status, entry)], Ok(Some(StatusWrittenWith(c[id], status, entry))))
  {
  }

  /** The same for `updateStatus`'s unit of work. */
  lemma UpdateStatusWorkWrites(c: Collection, id: string, dto: StatusUpdateDto, machine: Option<FsmConfig>,
                               modelName: string)
    requires id in c && MayTransition(machine, StatusText(c[id]), dto.status)
    ensures UpdateStatusWork(c, id, dto, machine, modelName)
      == (c[id := StatusWritten(c[id], dto)], Ok(Some(StatusWritten(c[id], dto))))
  {
    RecordWorkWrites(c, id, dto.status, ToJson(AuditEntry(dto)), machine, modelName);
  }

  /** An allowed status change, with the session owned: the store holds
      the written document, which is also the result. */
  lemma RecordStatusOk(c: Collection, id: string, status: string, entry: Value, machine: Option<FsmConfig>,
                       modelName: string)
    requires id in c && MayTransition(machine, StatusText(c[id]), status)
    ensures var d' := StatusWrittenWith(c[id], status, entry);
      RecordStatus(c, id, status, entry, machine, true, modelName).0 == c[id := d']
      && RecordStatus(c, id, status, entry, machine, true, modelName).1.result == Ok(Some(d'))
  {
    RecordWorkWrites(c, id, status, entry, machine, modelName);
    OnceOk(true, Some(StatusWrittenWith(c[id], status, entry)), modelName);
  }

  /** An allowed status change on an existing entity succeeds in one
      execution: the version moves by one, `status` is the requested one, the
      trail gains exactly the entry, which becomes the current state, and
      nothing else changes. */
  lemma RecordStatusAppends(c: Collection, id: string, status: string, entry: Value, machine: Option<FsmConfig>,
                            owner: bool, modelName: string)
    requires id in c && MayTransition(machine, StatusText(c[id]), status)
    ensures var (c', run) := RecordStatus(c, id, status, entry, machine, owner, modelName);
      && run.result.Ok? && run.result.value.Some? && Execs(run.trace) == 1
      && var d' := run.result.value.value;
      && c' == c[id := d']
      && d'.version == c[id].version + 1
      && StatusOf(d') == Str(status)
      && Trail(d') == Trail(c[id]) + [entry]
      && GetCurrentState(d') == Some(entry)
      && forall k :: k != "status" && k != "stateTransitions" ==> Get(d'.fields, k) == Get(c[id].fields, k)
  {
    StatusWrite(c[id], status, entry);
    RecordWorkWrites(c, id, status, entry, machine, modelName);
    var work := ConstWork(AsOutcome(RecordStatusWork(c, id, status, entry, machine, modelName).1));
    if owner {
      AsWrittenFinalStep(work, DEFAULT_EXPECTED, DEFAULT_RETRIES, 0, modelName);
      ClosedExecs(0, true);
    } else {
      WithSessionNonOwner(work, DEFAULT_EXPECTED, DEFAULT_RETRIES, 0, modelName);
    }
  }

  /** `updateStatus` on an allowed move: one execution, `status` set, and
      the trail gains exactly the audit entry of the dto, which becomes the
      current state. */
  lemma UpdateStatusAppends(c: Collection, id: string, dto: StatusUpdateDto, machine: Option<FsmConfig>,
                            owner: bool, modelName: string)
    requires id in c && MayTransition(machine, StatusText(c[id]), dto.status)
    ensures var (c', run) := UpdateStatus(c, id, dto, machine, owner, modelName);
      && run.result.Ok? && run.result.value.Some? && Execs(run.trace) == 1
      && var d' := run.result.value.value;
      && c' == c[id := d']
      && d'.version == c[id].version + 1
      && StatusOf(d') == Str(dto.status)
      && Trail(d') == Trail(c[id]) + [ToJson(AuditEntry(dto))]
      && GetCurrentState(d') == Some(ToJson(AuditEntry(dto)))
      && forall k :: k != "status" && k != "stateTransitions" ==> Get(d'.fields, k) == Get(c[id].fields, k)
  {
    RecordStatusAppends(c, id, dto.status, ToJson(AuditEntry(dto)), machine, owner, modelName);
  }

  /** A move the machine does not allow writes nothing and fails with
      InvalidTransitionException; the owner retries it, as it is neither an
      expected class nor a NotFound or Conflict, so the work runs four times
      with waits of 20, 40 and 60 ms before the error reaches the caller. */
  lemma RecordStatusRejected(c: Collection, id: string, status: string, entry: Value, machine: Option<FsmConfig>,
                             modelName: string)
    requires id in c && !MayTransition(machine, StatusText(c[id]), status)
    ensures var (c', run) := RecordStatus(c, id, status, entry, machine, true, modelName);
      && c' == c
      && run.result == Err(InvalidTransitionError(StatusText(c[id]), status))
      && Execs(run.trace) == 4
      && Sleeps(run.trace) == [20, 40, 60]
  {
    var e := InvalidTransitionError(StatusText(c[id]), status);
    InvalidTransitionRetried(e, modelName);
    var res: Result<Option<Doc>, Failure> := Err(e);
    var work := ConstWork(AsOutcome(res));
    assert forall k: nat :: work(k) == Threw(e);
    WithSessionAttempts(work, DEFAULT_EXPECTED, DEFAULT_RETRIES, 0, modelName);
    DefaultDelays(work, modelName);
    AsWrittenCounts(true, work, DEFAULT_EXPECTED, DEFAULT_RETRIES, 0, modelName);
  }

  /** The rejected move's retries leave their sessions open: of the four
      sessions the owner starts, only the last one is ended. */
  lemma RecordStatusRejectedLeaks(c: Collection, id: string, status: string, entry: Value,
                                  machine: Option<FsmConfig>, modelName: string, n: nat)
    requires id in c && !MayTransition(machine, StatusText(c[id]), status)
    ensures var run := RecordStatus(c, id, status, entry, machine, true, modelName).1;
      && Count(run.trace, StartSession(n)) == (if n < 4 then 1 else 0)
      && Count(run.trace, EndSession(n)) == (if n == 3 then 1 else 0)
  {
    RecordStatusRejected(c, id, status, entry, machine, modelName);
    var res: Result<Option<Doc>, Failure> := Err(InvalidTransitionError(StatusText(c[id]), status));
    AsWrittenSessions(ConstWork(AsOutcome(res)), DEFAULT_EXPECTED, DEFAULT_RETRIES, 0, modelName, n);
  }

  /** The same for `updateStatus`. */
  lemma UpdateStatusRejected(c: Collection, id: string, dto: StatusUpdateDto, machine: Option<FsmConfig>,
                             modelName: string)
    requires id in c && !MayTransition(machine, StatusText(c[id]), dto.status)
    ensures var (c', run) := UpdateStatus(c, id, dto, machine, true, modelName);
      && c' == c
      && run.result == Err(InvalidTransitionError(StatusText(c[id]), dto.status))
      && Execs(run.trace) == 4
      && Sleeps(run.trace) == [20, 40, 60]
  {
    RecordStatusRejected(c, id, dto.status, ToJson(AuditEntry(dto)), machine, modelName);
  }

  /** InvalidTransitionException is retried by an owning `withSession`. */
  lemma InvalidTransitionRetried(e: Failure, modelName: string)
    requires e.Exception? && e.cls == InvalidTransition
    ensures !NonRetryable(ToConflict(e, modelName), DEFAULT_EXPECTED)
  {
    var all := DEFAULT_EXPECTED + [NotFound, Conflict];
    assert all == [InternalServerError, Conflict, BadRequest, NotFound, Conflict];
    assert Ancestors(InvalidTransition) == [InvalidTransition, Forbidden, HttpException];
  }

  /** A missing entity is a NotFound, raised once and never retried. */
  lemma UpdateStatusMissing(c: Collection, id: string, dto: StatusUpdateDto, machine: Option<FsmConfig>,
                            owner: bool, modelName: string)
    requires id !in c
    ensures var (c', run) := UpdateStatus(c, id, dto, machine, owner, modelName);
      c' == c && run.result == Err(Raise(NotFound, NotFoundMessage(modelName))) && Execs(run.trace) == 1
  {
    var e := Raise(NotFound, NotFoundMessage(modelName));
    UpdateErrorsNotRetried(DEFAULT_EXPECTED, modelName);
    var res: Result<Option<Doc>, Failure> := Err(e);
    var work := ConstWork(AsOutcome(res));
    if owner {
      AsWrittenFinalStep(work, DEFAULT_EXPECTED, DEFAULT_RETRIES, 0, modelName);
      ClosedExecs(0, false);
    } else {
      WithSessionNonOwner(work, DEFAULT_EXPECTED, DEFAULT_RETRIES, 0, modelName);
    }
  }

  // ---------------------------------------------------------------------
  // create: the document is saved, then its initial status is recorded
  // through `updateStatus`, all in one transaction.

  /** The fields `super.create` saves: the dto, with `user` set to the
      caller's id when there is a caller. */
  function CreateFields(dto: seq<Field>, user: Option<string>): (fs: seq<Field>)
    ensures user.Some? ==> Get(fs, "user") == Str(user.value)
    ensures forall k :: k != "user" || user.None? ==> Get(fs, k) == Get(dto, k)
  {
    if user.Some? then Put(dto, "user", Str(user.value)) else dto
  }

  /** The error Mongoose's validation raises for a missing or empty
      required `status`: a plain error, not an HTTP exception. */
  function ValidationFailed(modelName: string): Failure {
    Plain(modelName + " validation failed")
  }

  /** The status update `create` records: the saved status, "<model>
      created" and the caller. */
  function CreationUpdate(status: string, user: Option<string>, modelName: string): StatusUpdateDto {
    StatusUpdateDto(status, Some(modelName + " created"), None, user)
  }

  /** One execution of `create`'s unit of work, `newId` being the id the
      new document gets: the save (a duplicate id is the driver's
      duplicate-key error, which becomes a Conflict; a missing or empty status
      fails validation), `updateStatus` from the saved status to itself, and
      `findOne`. A failed execution leaves nothing behind. */
  function CreateWork(c: Collection, newId: string, dto: seq<Field>, user: Option<string>,
                      machine: Option<FsmConfig>, modelName: string): (r: (Collection, Result<Doc, Failure>))
    ensures r.1.Err? ==> r.0 == c
    ensures newId in c ==> r == (c, Err(Raise(Conflict, modelName + " already exists")))
    ensures newId !in c && !(Get(CreateFields(dto, user), "status").Str? && Get(CreateFields(dto, user), "status").s != "")
      ==> r == (c, Err(ValidationFailed(modelName)))
  {
    if newId in c then (c, Err(ToConflict(MongoServer(DUPLICATE_KEY, [], Some(["_id"])), modelName)))
    else
      var fields := CreateFields(dto, user);
      var status := Get(fields, "status");
      if !(status.Str? && status.s != "") then (c, Err(ValidationFailed(modelName)))
      else
        var (c2, r) := UpdateStatusWork(c[newId := NewDoc(fields)], newId, CreationUpdate(status.s, user, modelName),
                                        machine, modelName);
        if r.Err? then (c, Err(r.error))
        else if newId in c2 then (c2, Ok(c2[newId]))
        else (c, Err(Raise(NotFound, NotFoundMessage(modelName))))
  }

  /** `create(dto, user, session?)`: the unit of work run by `withSession`,
      which owns the session when the caller passes none. */
  function Create(c: Collection, newId: string, dto: seq<Field>, user: Option<string>,
                  machine: Option<FsmConfig>, owner: bool, modelName: string): (r: (Collection, Run<Doc>))
    ensures r.1.result.Err? ==> r.0 == c
  {
    var (c', res) := CreateWork(c, newId, dto, user, machine, modelName);
    var run := WithSessionAsWritten(owner, ConstWork(AsOutcome(res)), DEFAULT_EXPECTED, DEFAULT_RETRIES, 0, modelName);
    (if run.result.Ok? then c' else c, run)
  }

  /** The status of a new document is the one its fields give. */
  lemma NewDocStatus(fields: seq<Field>, s: string)
    requires Get(fields, "status") == Str(s)
    ensures StatusText(NewDoc(fields)) == s
  {
    NewDocKeeps(fields);
    assert "status" in Keys(fields);
  }

  /** After a successful save, `create`'s execution is the status update on
      the saved document followed by `findOne`. */
  lemma CreateWorkSaved(c: Collection, newId: string, dto: seq<Field>, user: Option<string>,
                        machine: Option<FsmConfig>, modelName: string, s: string)
    requires newId !in c && Get(CreateFields(dto, user), "status") == Str(s) && s != ""
    ensures var (c2, r) := UpdateStatusWork(c[newId := NewDoc(CreateFields(dto, user))], newId,
                                            CreationUpdate(s, user, modelName), machine, modelName);
      r.Ok? && newId in c2 ==> CreateWork(c, newId, dto, user, machine, modelName) == (c2, Ok(c2[newId]))
  {
  }

  /** A fresh document with a status `s` the machine lets move to itself:
      one execution saves it and writes the creation entry over it. */
  lemma CreateWorkWrites(c: Collection, newId: string, dto: seq<Field>, user: Option<string>,
                         machine: Option<FsmConfig>, modelName: string, s: string)
    requires newId !in c && Get(CreateFields(dto, user), "status") == Str(s) && s != ""
    requires MayTransition(machine, s, s)
    ensures var d := StatusWritten(NewDoc(CreateFields(dto, user)), CreationUpdate(s, user, modelName));
      CreateWork(c, newId, dto, user, machine, modelName) == (c[newId := d], Ok(d))
  {
    var c1 := c[newId := NewDoc(CreateFields(dto, user))];
    NewDocStatus(CreateFields(dto, user), s);
    UpdateStatusWorkWrites(c1, newId, CreationUpdate(s, user, modelName), machine, modelName);
    CreateWorkSaved(c, newId, dto, user, machine, modelName, s);
    var d := StatusWritten(NewDoc(CreateFields(dto, user)), CreationUpdate(s, user, modelName));
    Overwrite(c, newId, NewDoc(CreateFields(dto, user)), d);
  }

  /** Writing a key twice keeps the second value only. */
  lemma Overwrite(c: Collection, id: string, first: Doc, second: Doc)
    ensures c[id := first][id := second] == c[id := second]
  {
  }

  /** A new document from a dto that brings no trail starts at version 0
      with an empty trail. */
  lemma NewDocEmptyTrail(dto: seq<Field>, user: Option<string>)
    requires "stateTransitions" !in Keys(dto)
    ensures NewDoc(CreateFields(dto, user)).version == 0 && Trail(NewDoc(CreateFields(dto, user))) == []
  {
    var fields := CreateFields(dto, user);
    assert "stateTransitions" !in Keys(fields) by {
      if user.Some? { PutKeys(dto, "user", Str(user.value)); }
    }
    NewDocKeeps(fields);
  }

  /** The created document: version 1, its status, and a trail holding
      exactly the creation entry when the dto brings no trail. */
  lemma CreatedDoc(dto: seq<Field>, user: Option<string>, modelName: string, s: string)
    requires "stateTransitions" !in Keys(dto)
    ensures var d := StatusWritten(NewDoc(CreateFields(dto, user)), CreationUpdate(s, user, modelName));
      && d.version == 1 && StatusOf(d) == Str(s)
      && Trail(d) == [ToJson(AuditEntry(CreationUpdate(s, user, modelName)))]
  {
    var d0 := NewDoc(CreateFields(dto, user));
    var u := CreationUpdate(s, user, modelName);
    NewDocEmptyTrail(dto, user);
    StatusWrite(d0, s, ToJson(AuditEntry(u)));
    assert StatusWritten(d0, u) == StatusWrittenWith(d0, s, ToJson(AuditEntry(u)));
  }

  /** A fresh document whose status `s` the machine lets move to itself:
      one execution creates it at version 1, with status `s` and a trail
      holding exactly the creation entry. */
  lemma CreateRecordsEntry(c: Collection, newId: string, dto: seq<Field>, user: Option<string>,
                           machine: Option<FsmConfig>, owner: bool, modelName: string, s: string)
    requires newId !in c && Get(CreateFields(dto, user), "status") == Str(s) && s != ""
    requires "stateTransitions" !in Keys(dto) && MayTransition(machine, s, s)
    ensures var (c', run) := Create(c, newId, dto, user, machine, owner, modelName);
      && run.result.Ok? && Execs(run.trace) == 1
      && var d := run.result.value;
      && c' == c[newId := d]
      && d.version == 1 && StatusOf(d) == Str(s)
      && Trail(d) == [ToJson(AuditEntry(CreationUpdate(s, user, modelName)))]
  {
    var d := StatusWritten(NewDoc(CreateFields(dto, user)), CreationUpdate(s, user, modelName));
    CreateWorkWrites(c, newId, dto, user, machine, modelName, s);
    CreatedDoc(dto, user, modelName, s);
    OnceOk(owner, d, modelName);
  }

  /** A unit of work that returns `v` is run once, whoever owns the
      session, and its value is the result. */
  lemma OnceOk<R>(owner: bool, v: R, modelName: string)
    ensures var run := WithSessionAsWritten(owner, ConstWork(AsOutcome(Ok(v))), DEFAULT_EXPECTED, DEFAULT_RETRIES, 0, modelName);
      run.result == Ok(v) && Execs(run.trace) == 1
  {
    var work := ConstWork(AsOutcome(Ok(v)));
    if owner {
      AsWrittenFinalStep(work, DEFAULT_EXPECTED, DEFAULT_RETRIES, 0, modelName);
      ClosedExecs(0, true);
    } else {
      WithSessionNonOwner(work, DEFAULT_EXPECTED, DEFAULT_RETRIES, 0, modelName);
    }
  }

  /** A unit of work that always throws InvalidTransitionException is run
      four times by an owner, with waits of 20, 40 and 60 ms, and the
      exception reaches the caller unchanged. */
  lemma InvalidRetried<R>(from: string, to: string, modelName: string)
    ensures var e := InvalidTransitionError(from, to);
      var run := WithSessionAsWritten(true, ConstWork(AsOutcome<R>(Err(e))), DEFAULT_EXPECTED, DEFAULT_RETRIES, 0, modelName);
      run.result == Err(e) && Execs(run.trace) == 4 && Sleeps(run.trace) == [20, 40, 60]
  {
    var e := InvalidTransitionError(from, to);
    InvalidTransitionRetried(e, modelName);
    var work := ConstWork(AsOutcome<R>(Err(e)));
    assert forall k: nat :: work(k) == Threw(e);
    WithSessionAttempts(work, DEFAULT_EXPECTED, DEFAULT_RETRIES, 0, modelName);
    DefaultDelays(work, modelName);
    AsWrittenCounts(true, work, DEFAULT_EXPECTED, DEFAULT_RETRIES, 0, modelName);
  }

  /** A duplicate id is a Conflict, raised once and never retried. */
  lemma CreateDuplicate(c: Collection, newId: string, dto: seq<Field>, user: Option<string>,
                        machine: Option<FsmConfig>, owner: bool, modelName: string)
    requires newId in c
    ensures var (c', run) := Create(c, newId, dto, user, machine, owner, modelName);
      c' == c && run.result == Err(Raise(Conflict, modelName + " already exists")) && Execs(run.trace) == 1
  {
    var e := Raise(Conflict, modelName + " already exists");
    assert NonRetryable(e, DEFAULT_EXPECTED) by {
      var all := DEFAULT_EXPECTED + [NotFound, Conflict];
      assert all[1] == Conflict;
    }
    var res: Result<Doc, Failure> := Err(e);
    var work := ConstWork(AsOutcome(res));
    if owner {
      AsWrittenFinalStep(work, DEFAULT_EXPECTED, DEFAULT_RETRIES, 0, modelName);
      ClosedExecs(0, false);
    } else {
      WithSessionNonOwner(work, DEFAULT_EXPECTED, DEFAULT_RETRIES, 0, modelName);
    }
  }

  /** As written, `create` asks the machine to move the saved status to
      itself: with a machine that does not list that move, every execution
      fails with InvalidTransitionException, the owner retries it three times,
      and no document is ever created. */
  lemma CreateRejectedByMachine(c: Collection, newId: string, dto: seq<Field>, user: Option<string>,
                                m: FsmConfig, modelName: string, s: string)
    requires newId !in c && Get(CreateFields(dto, user), "status") == Str(s) && s != ""
    requires !CanTransition(m, s, s)
    ensures var (c', run) := Create(c, newId, dto, user, Some(m), true, modelName);
      && c' == c
      && run.result == Err(InvalidTransitionError(s, s))
      && Execs(run.trace) == 4
  {
    CreateWorkRejected(c, newId, dto, user, m, modelName, s);
    InvalidRetried<Doc>(s, s, modelName);
  }

  /** One execution of `create` under such a machine fails with
      InvalidTransitionException and leaves nothing behind. */
  lemma CreateWorkRejected(c: Collection, newId: string, dto: seq<Field>, user: Option<string>,
                           m: FsmConfig, modelName: string, s: string)
    requires newId !in c && Get(CreateFields(dto, user), "status") == Str(s) && s != ""
    requires !CanTransition(m, s, s)
    ensures CreateWork(c, newId, dto, user, Some(m), modelName) == (c, Err(InvalidTransitionError(s, s)))
  {
    NewDocStatus(CreateFields(dto, user), s);
  }

  /** A concrete case: with the table `draft -> [published]`, creating a
      draft fails, although `draft` is the machine's initial status. */
  lemma CreateDraftRejected(c: Collection, newId: string)
    requires newId !in c
    ensures var m := StatusMachine("post", "draft", map["draft" := ["published"]]);
      Create(c, newId, [Field("status", Str("draft"))], None, Some(m), true, "Post").1.result
        == Err(InvalidTransitionError("draft", "draft"))
  {
    var t := map["draft" := ["published"]];
    var m := StatusMachine("post", "draft", t);
    StatusMachineAgrees("post", "draft", t, "draft", "draft");
    assert !TableAllows(t, "draft", "draft");
    CreateRejectedByMachine(c, newId, [Field("status", Str("draft"))], None, m, "Post", "draft");
  }

  /** `create` with the creation entry recorded as the initial state rather
      than checked as a move: the machine governs later status changes
      only. */
  function CreateCorrected(c: Collection, newId: string, dto: seq<Field>, user: Option<string>,
                           machine: Option<FsmConfig>, owner: bool, modelName: string): (r: (Collection, Run<Doc>))
    ensures r.1.result.Err? ==> r.0 == c
  {
    Create(c, newId, dto, user, None, owner, modelName)
  }

  /** Whatever the machine, the corrected `create` of a fresh document with
      a status succeeds in one execution and records the creation entry. */
  lemma CreateCorrectedRecords(c: Collection, newId: string, dto: seq<Field>, user: Option<string>,
                               machine: Option<FsmConfig>, owner: bool, modelName: string, s: string)
    requires newId !in c && Get(CreateFields(dto, user), "status") == Str(s) && s != ""
    requires "stateTransitions" !in Keys(dto)
    ensures var (c', run) := CreateCorrected(c, newId, dto, user, machine, owner, modelName);
      && run.result.Ok? && Execs(run.trace) == 1
      && var d := run.result.value;
      && c' == c[newId := d]
      && d.version == 1 && StatusOf(d) == Str(s)
      && Trail(d) == [ToJson(AuditEntry(CreationUpdate(s, user, modelName)))]
  {
    CreateRecordsEntry(c, newId, dto, user, None, owner, modelName, s);
  }
}

=== FILE: common_tx.dfy ===
/** The shared `TransactionManager` (src/common/services/transaction.manager.ts):
    MongoDB server errors become typed exceptions, and an owning caller
    retries transient failures with a fresh session, ending each session
    exactly once. */
module CommonTransactionManager {
  import opened Wrappers
  import opened Errors
  import opened Session

  const MAX_RETRIES: nat := 3
  const BASE_RETRY_DELAY_MS: nat := 20

  /** The message of `TransientTransactionException`. The class is
      declared in src/common/errors/mongodb.errors.ts, which is not part of
      this model: its parent `ConflictException` (see `Errors.Parent`) and
      this message are assumed. Only its type matters to the manager. */
  const TRANSIENT_MESSAGE: string := "Transient transaction error"

  /** The default messages of the exceptions the manager raises. */
  const DUPLICATE_MESSAGE: string := "Resource already exists"
  const WRITE_CONFLICT_MESSAGE: string := "Write conflict occurred, please retry"
  const VALIDATION_MESSAGE: string := "Document validation failed"
  const TIMEOUT_MESSAGE: string := "Query exceeded time limit"
  const UNEXPECTED_MESSAGE: string := "An unexpected database error occurred"

  /** The field of the violated unique index: the first key of `keyPattern`,
      nothing when the error carries no pattern or an empty one. */
  function ExtractDuplicateKeyField(keyPattern: Option<seq<string>>): (r: Option<string>)
    ensures r.Some? <==> keyPattern.Some? && |keyPattern.value| > 0
    ensures r.Some? ==> r.value == keyPattern.value[0]
  {
    match keyPattern
    case None => None
    case Some(keys) => if |keys| == 0 then None else Some(keys[0])
  }

  /** Server errors become exceptions; anything else is rethrown as is. */
  function TransformError(e: Failure): (r: Failure)
    ensures !r.MongoServer?
    ensures !e.MongoServer? ==> r == e
  {
    match e
    case MongoServer(code, labels, keyPattern) =>
      if TRANSIENT_LABEL in labels then Raise(TransientTransaction, TRANSIENT_MESSAGE)
      else if code == DUPLICATE_KEY then
        Exception(DuplicateKey, DUPLICATE_MESSAGE, ExtractDuplicateKeyField(keyPattern))
      else if code == WRITE_CONFLICT then Raise(WriteConflict, WRITE_CONFLICT_MESSAGE)
      else if code == DOCUMENT_VALIDATION_FAILURE then Raise(DocumentValidation, VALIDATION_MESSAGE)
      else if code == EXCEEDED_TIME_LIMIT then Raise(QueryTimeout, TIMEOUT_MESSAGE)
      else Raise(InternalServerError, UNEXPECTED_MESSAGE)
    case _ => e
  }

  /** The classification table: a transient label wins over the code; the
      four known codes map to their exceptions (a duplicate key naming the
      violated field), every other code to an internal server error. */
  lemma TransformTable(e: Failure)
    requires e.MongoServer?
    ensures var r := TransformError(e);
      && (TRANSIENT_LABEL in e.labels ==> r == Raise(TransientTransaction, TRANSIENT_MESSAGE))
      && (TRANSIENT_LABEL !in e.labels ==>
            if e.code == DUPLICATE_KEY then
              r == Exception(DuplicateKey, DUPLICATE_MESSAGE, ExtractDuplicateKeyField(e.keyPattern))
            else if e.code == WRITE_CONFLICT then r == Raise(WriteConflict, WRITE_CONFLICT_MESSAGE)
            else if e.code == DOCUMENT_VALIDATION_FAILURE then r == Raise(DocumentValidation, VALIDATION_MESSAGE)
            else if e.code == EXCEEDED_TIME_LIMIT then r == Raise(QueryTimeout, TIMEOUT_MESSAGE)
            else r == Raise(InternalServerError, UNEXPECTED_MESSAGE))
  {
  }

  /** The HTTP status a server error ends up with. Every class the manager
      raises, other than `InternalServerErrorException` itself, inherits its
      status from its built-in parent: 409 for a transient error, a
      duplicate key, a write conflict or a timeout (parents
      `ConflictException`), 400 for a validation failure (parent
      `BadRequestException`), 500 for anything else. The parents are those
      of src/crud/errors/mongodb.errors.ts; the common manager imports its
      classes from src/common/errors/mongodb.errors.ts, which is not part of
      this model and is assumed to declare the same classes, with
      `TransientTransactionException` extending `ConflictException`. */
  lemma TransformStatus(code: int, labels: seq<string>, keyPattern: Option<seq<string>>)
    ensures var r := TransformError(MongoServer(code, labels, keyPattern));
      r.cls != InternalServerError ==> Parent(r.cls).Some? && Status(r.cls) == Status(Parent(r.cls).value)
    ensures var r := TransformError(MongoServer(code, labels, keyPattern));
      TRANSIENT_LABEL in labels ==> r.cls == TransientTransaction && Parent(r.cls) == Some(Conflict)
    ensures var r := TransformError(MongoServer(code, labels, keyPattern));
      Status(r.cls) ==
        if TRANSIENT_LABEL in labels || code in {DUPLICATE_KEY, WRITE_CONFLICT, EXCEEDED_TIME_LIMIT} then 409
        else if code == DOCUMENT_VALIDATION_FAILURE then 400
        else 500
  {
  }

  /** Transforming twice is transforming once: the output is never a server
      error, and exceptions pass through. */
  lemma TransformIdempotent(e: Failure)
    ensures TransformError(TransformError(e)) == TransformError(e)
  {
  }

  /** Errors worth another attempt: write conflicts and transient
      transaction errors. */
  predicate IsTransient(e: Failure) {
    e.Exception? && (e.cls == WriteConflict || e.cls == TransientTransaction)
  }

  /** `isTransientError` is the `instanceof` test on the two classes: no
      class of the model extends either of them. */
  lemma IsTransientInstanceOf(e: Failure)
    ensures IsTransient(e) <==> InstanceOf(e, WriteConflict) || InstanceOf(e, TransientTransaction)
  {
  }

  /** Which server errors are retried: exactly those labelled transient and,
      without the label, those with the write-conflict code. */
  lemma TransientServerErrors(code: int, labels: seq<string>, keyPattern: Option<seq<string>>)
    ensures IsTransient(TransformError(MongoServer(code, labels, keyPattern)))
      <==> TRANSIENT_LABEL in labels || code == WRITE_CONFLICT
  {
    var r := TransformError(MongoServer(code, labels, keyPattern));
    if TRANSIENT_LABEL !in labels && code != WRITE_CONFLICT {
      assert !SubclassOf(r.cls, WriteConflict) && !SubclassOf(r.cls, TransientTransaction);
    }
  }

  /** The wait before the retry made with `retriesLeft` left: the base delay
      times the number of the retry. */
  function RetryDelay(retriesLeft: int): int {
    BASE_RETRY_DELAY_MS * (MAX_RETRIES - retriesLeft + 1)
  }

  /** An owner's attempt fails with an error that is retried. */
  predicate Retried<R>(o: Outcome<R>) {
    o.Threw? && IsTransient(TransformError(o.error))
  }

  /** `executeWithRetry`: `owner` is "no session was passed"; attempt
      `attempt` runs `work(attempt)` on the fresh session `attempt`. A
      retried attempt ends its session itself before waiting; every other
      owned attempt ends it in `finally`. */
  function ExecuteWithRetry<R>(owner: bool, work: nat -> Outcome<R>, retriesLeft: nat, attempt: nat): Run<R>
    decreases retriesLeft
  {
    var open := Opening(owner, attempt);
    match work(attempt)
    case Returned(v) =>
      Run(Ok(v), open + (if owner then [Commit(attempt), EndSession(attempt)] else []))
    case Threw(e) =>
      var error := TransformError(e);
      var aborted := open + (if owner then [Abort(attempt)] else []);
      if owner && retriesLeft > 0 && IsTransient(error) then
        var next := ExecuteWithRetry(owner, work, retriesLeft - 1, attempt + 1);
        Run(next.result, aborted + [EndSession(attempt), Sleep(RetryDelay(retriesLeft))] + next.trace)
      else Run(Err(error), aborted + (if owner then [EndSession(attempt)] else []))
  }

  /** `withTransaction`: the full budget, from the first attempt. */
  function WithTransaction<R>(owner: bool, work: nat -> Outcome<R>): Run<R> {
    ExecuteWithRetry(owner, work, MAX_RETRIES, 0)
  }

  /** The outcome a single attempt hands to the caller. */
  function Direct<R>(o: Outcome<R>): Result<R, Failure> {
    match o
    case Returned(v) => Ok(v)
    case Threw(e) => Err(TransformError(e))
  }

  /** A caller that passes its own session gets one execution and nothing
      else: no start, commit, abort, end or retry, and the error only
      transformed. */
  lemma NonOwnerPassesThrough<R>(work: nat -> Outcome<R>, retriesLeft: nat, attempt: nat)
    ensures var run := ExecuteWithRetry(false, work, retriesLeft, attempt);
      run == Run(Direct(work(attempt)), [Exec(Outer)]) && !TouchesSessions(run.trace)
  {
  }

  /** An owner's attempt that is retried: its own events, then the next
      attempt's run, whose result it returns. */
  lemma RetryStep<R>(work: nat -> Outcome<R>, retriesLeft: nat, attempt: nat)
    requires retriesLeft > 0 && Retried(work(attempt))
    ensures var next := ExecuteWithRetry(true, work, retriesLeft - 1, attempt + 1);
      ExecuteWithRetry(true, work, retriesLeft, attempt)
        == Run(next.result, RetriedAttempt(attempt, RetryDelay(retriesLeft)) + next.trace)
  {
  }

  /** An owner's last attempt: it commits iff the work returned, and it
      returns the work's value or its transformed error. */
  lemma FinalStep<R>(work: nat -> Outcome<R>, retriesLeft: nat, attempt: nat)
    requires !(retriesLeft > 0 && Retried(work(attempt)))
    ensures ExecuteWithRetry(true, work, retriesLeft, attempt)
      == Run(Direct(work(attempt)), Closed(attempt, work(attempt).Returned?))
  {
  }

  /** The shape of an owner's run: one retried attempt per returned delay,
      each failing with a transient error, the `k`-th waiting
      `20 * (4 - retriesLeft + k)`, then a last attempt whose outcome is the
      result; it fails only when the budget is spent or its error is not
      transient. */
  lemma {:induction false} Shape<R>(work: nat -> Outcome<R>, retriesLeft: nat, attempt: nat) returns (delays: seq<int>)
    ensures var run := ExecuteWithRetry(true, work, retriesLeft, attempt);
      var last := attempt + |delays|;
      && |delays| <= retriesLeft
      && run.trace == Pattern(attempt, delays, work(last).Returned?)
      && run.result == Direct(work(last))
      && (run.result.Err? ==> |delays| == retriesLeft || !Retried(work(last)))
      && (forall k :: 0 <= k < |delays| ==> delays[k] == 20 * (4 - retriesLeft + k))
      && (forall k :: attempt <= k < last ==> Retried(work(k)))
    decreases retriesLeft
  {
    if retriesLeft > 0 && Retried(work(attempt)) {
      RetryStep(work, retriesLeft, attempt);
      var rest := Shape(work, retriesLeft - 1, attempt + 1);
      delays := [RetryDelay(retriesLeft)] + rest;
      assert delays[1..] == rest;
    } else {
      FinalStep(work, retriesLeft, attempt);
      delays := [];
    }
  }

  /** An owner runs the work between 1 and `retriesLeft + 1` times; the
      result is the last attempt's, and an error means that attempt's error
      was not transient or the budget was spent. */
  lemma ExecuteAttempts<R>(work: nat -> Outcome<R>, retriesLeft: nat, attempt: nat)
    ensures var run := ExecuteWithRetry(true, work, retriesLeft, attempt);
      var n := Execs(run.trace);
      && 1 <= n <= retriesLeft + 1
      && run.result == Direct(work(attempt + n - 1))
      && (run.result.Err? ==> n == retriesLeft + 1 || !Retried(work(attempt + n - 1)))
  {
    var delays := Shape(work, retriesLeft, attempt);
    PatternExecs(attempt, delays, work(attempt + |delays|).Returned?);
  }

  /** Every attempt of an owner but the last failed with a transient error. */
  lemma ExecuteRetriesTransient<R>(work: nat -> Outcome<R>, retriesLeft: nat, attempt: nat, k: nat)
    ensures attempt <= k < attempt + Execs(ExecuteWithRetry(true, work, retriesLeft, attempt).trace) - 1
      ==> Retried(work(k))
  {
    var delays := Shape(work, retriesLeft, attempt);
    PatternExecs(attempt, delays, work(attempt + |delays|).Returned?);
  }

  /** One wait before each retry, growing by the base delay: the `k`-th wait
      is `20 * (4 - retriesLeft + k)`. */
  lemma ExecuteDelays<R>(work: nat -> Outcome<R>, retriesLeft: nat, attempt: nat)
    ensures var run := ExecuteWithRetry(true, work, retriesLeft, attempt);
      && |Sleeps(run.trace)| == Execs(run.trace) - 1
      && forall k :: 0 <= k < |Sleeps(run.trace)| ==> Sleeps(run.trace)[k] == 20 * (4 - retriesLeft + k)
  {
    var delays := Shape(work, retriesLeft, attempt);
    PatternExecs(attempt, delays, work(attempt + |delays|).Returned?);
    PatternSleeps(attempt, delays, work(attempt + |delays|).Returned?);
  }

  /** `withTransaction` as called: at most 4 executions, waiting exactly
      20, 40 and 60 ms before the retries that happen. */
  lemma DefaultSchedule<R>(work: nat -> Outcome<R>)
    ensures var run := WithTransaction(true, work);
      var n := Execs(run.trace);
      1 <= n <= 4 && Sleeps(run.trace) == [20, 40, 60][..n - 1]
  {
    var run := WithTransaction(true, work);
    ExecuteDelays(work, MAX_RETRIES, 0);
    ExecuteAttempts(work, MAX_RETRIES, 0);
    var n := Execs(run.trace);
    assert forall k :: 0 <= k < n - 1 ==> Sleeps(run.trace)[k] == [20, 40, 60][k];
  }

  /** Every owned attempt ends its session exactly once, and no session is
      started or ended that no attempt used: session `n` is started and
      ended once when attempt `n` ran, and never otherwise. */
  lemma ExecuteEndsEach<R>(work: nat -> Outcome<R>, retriesLeft: nat, attempt: nat, n: nat)
    ensures var run := ExecuteWithRetry(true, work, retriesLeft, attempt);
      Count(run.trace, EndSession(n)) == Count(run.trace, StartSession(n))
        == (if attempt <= n < attempt + Execs(run.trace) then 1 else 0)
  {
    var delays := Shape(work, retriesLeft, attempt);
    PatternExecs(attempt, delays, work(attempt + |delays|).Returned?);
    PatternSessions(attempt, delays, work(attempt + |delays|).Returned?, n);
  }
}

=== FILE: crud_service.dfy ===
/** `AbstractCrudService` (src/crud/services/crud.service.ts): the
    session-owning retry wrapper `withSession`, the version-checked `update`
    and `forceUpdate` with the event they emit, and the filter, shaping and
    arithmetic of `findAll`. */
module CrudService {
  import opened Wrappers
  import opened Errors
  import opened Session
  import opened Json
  import opened Store
  import opened OptimisticLocking
  import opened Strings
  import opened QueryBuilder
  import EntityEvents
  import CommonQueryDto

  /** Default `expectedExceptions` of `withSession`. */
  const DEFAULT_EXPECTED: seq<ExceptionClass> := [InternalServerError, Conflict, BadRequest]

  /** Default retry budget of `withSession`. */
  const DEFAULT_RETRIES: nat := 3

  /** A duplicate-key server error becomes a Conflict naming the model; any
      other thrown value is kept. */
  function ToConflict(e: Failure, modelName: string): (r: Failure)
    ensures e.MongoServer? && e.code == DUPLICATE_KEY ==>
      r == Raise(Conflict, modelName + " already exists")
    ensures !(e.MongoServer? && e.code == DUPLICATE_KEY) ==> r == e
  {
    if e.MongoServer? && e.code == DUPLICATE_KEY then Raise(Conflict, modelName + " already exists") else e
  }

  /** Errors `withSession` rethrows at once: the expected classes, NotFound
      and Conflict (with their subclasses). */
  predicate NonRetryable(e: Failure, expected: seq<ExceptionClass>) {
    InstanceOfAny(e, expected + [NotFound, Conflict])
  }

  /** An owner's attempt `n` that fails with a retryable error and has budget
      left is retried. */
  predicate RetriesAfter<R>(o: Outcome<R>, expected: seq<ExceptionClass>, modelName: string) {
    o.Threw? && !NonRetryable(ToConflict(o.error, modelName), expected)
  }

  /** The wait before the retry made with `retries` left: `20 * (3 - retries + 1)`. */
  function RetryDelay(retries: int): int {
    20 * (3 - retries + 1)
  }

  /** `withSession` as written. `owner` is `session === undefined`; attempt
      `attempt` runs `work(attempt)` on the fresh session `attempt`. A retried
      attempt sets `isRetrying`, so its `finally` does not end its session,
      and nothing else ends it either. */
  function WithSessionAsWritten<R>(owner: bool, work: nat -> Outcome<R>, expected: seq<ExceptionClass>,
                                   retries: nat, attempt: nat, modelName: string): Run<R>
    decreases retries
  {
    var open := Opening(owner, attempt);
    match work(attempt)
    case Returned(v) =>
      Run(Ok(v), open + (if owner then [Commit(attempt), EndSession(attempt)] else []))
    case Threw(e) =>
      var error := ToConflict(e, modelName);
      var aborted := open + (if owner then [Abort(attempt)] else []);
      if retries == 0 && owner then Run(Err(error), aborted + [EndSession(attempt)])
      else if NonRetryable(error, expected) then
        Run(Err(error), aborted + (if owner then [EndSession(attempt)] else []))
      else if owner then
        var next := WithSessionAsWritten(owner, work, expected, retries - 1, attempt + 1, modelName);
        Run(next.result, aborted + [Sleep(RetryDelay(retries))] + next.trace)
      else Run(Err(error), aborted)
  }

  /** `withSession` with the session of a retried attempt ended before the
      wait, as the common `TransactionManager` does; otherwise identical. */
  function WithSession<R>(owner: bool, work: nat -> Outcome<R>, expected: seq<ExceptionClass>,
                          retries: nat, attempt: nat, modelName: string): Run<R>
    decreases retries
  {
    var open := Opening(owner, attempt);
    match work(attempt)
    case Returned(v) =>
      Run(Ok(v), open + (if owner then [Commit(attempt), EndSession(attempt)] else []))
    case Threw(e) =>
      var error := ToConflict(e, modelName);
      var aborted := open + (if owner then [Abort(attempt)] else []);
      if retries == 0 && owner then Run(Err(error), aborted + [EndSession(attempt)])
      else if NonRetryable(error, expected) then
        Run(Err(error), aborted + (if owner then [EndSession(attempt)] else []))
      else if owner then
        var next := WithSession(owner, work, expected, retries - 1, attempt + 1, modelName);
        Run(next.result, aborted + [EndSession(attempt), Sleep(RetryDelay(retries))] + next.trace)
      else Run(Err(error), aborted)
  }

  /** The outcome a single attempt hands to the caller. */
  function Direct<R>(o: Outcome<R>, modelName: string): Result<R, Failure> {
    match o
    case Returned(v) => Ok(v)
    case Threw(e) => Err(ToConflict(e, modelName))
  }

  /** A caller that passes its own session gets exactly one execution, no
      session or transaction handling and no retry: the work's value, or its
      error with duplicate keys turned into Conflict. */
  lemma WithSessionNonOwner<R>(work: nat -> Outcome<R>, expected: seq<ExceptionClass>,
                               retries: nat, attempt: nat, modelName: string)
    ensures WithSession(false, work, expected, retries, attempt, modelName)
      == Run(Direct(work(attempt), modelName), [Exec(Outer)])
    ensures WithSessionAsWritten(false, work, expected, retries, attempt, modelName)
      == Run(Direct(work(attempt), modelName), [Exec(Outer)])
  {
  }

  /** An owner's attempt that is retried: its own events, then the next
      attempt's run, whose result it returns. */
  lemma RetryStep<R>(work: nat -> Outcome<R>, expected: seq<ExceptionClass>,
                     retries: nat, attempt: nat, modelName: string)
    requires retries > 0 && RetriesAfter(work(attempt), expected, modelName)
    ensures var next := WithSession(true, work, expected, retries - 1, attempt + 1, modelName);
      WithSession(true, work, expected, retries, attempt, modelName)
        == Run(next.result, RetriedAttempt(attempt, RetryDelay(retries)) + next.trace)
  {
  }

  /** An owner's last attempt: it commits iff the work returned, and it
      returns the work's value or its error. */
  lemma FinalStep<R>(work: nat -> Outcome<R>, expected: seq<ExceptionClass>,
                     retries: nat, attempt: nat, modelName: string)
    requires !(retries > 0 && RetriesAfter(work(attempt), expected, modelName))
    ensures WithSession(true, work, expected, retries, attempt, modelName)
      == Run(Direct(work(attempt), modelName), Closed(attempt, work(attempt).Returned?))
  {
  }

  /** The shape of an owner's run: one retried attempt per returned delay,
      each failing with a retryable error, the `k`-th waiting
      `20 * (4 - retries + k)`, then a last attempt whose outcome is the
      result; it fails only when the budget is spent or its error is not
      retryable. */
  lemma {:induction false} Shape<R>(work: nat -> Outcome<R>, expected: seq<ExceptionClass>,
                                   retries: nat, attempt: nat, modelName: string) returns (delays: seq<int>)
    ensures var run := WithSession(true, work, expected, retries, attempt, modelName);
      var last := attempt + |delays|;
      && |delays| <= retries
      && run.trace == Pattern(attempt, delays, work(last).Returned?)
      && run.result == Direct(work(last), modelName)
      && (run.result.Err? ==> |delays| == retries || !RetriesAfter(work(last), expected, modelName))
      && (forall k :: 0 <= k < |delays| ==> delays[k] == 20 * (4 - retries + k))
      && (forall k :: attempt <= k < last ==> RetriesAfter(work(k), expected, modelName))
    decreases retries
  {
    if retries > 0 && RetriesAfter(work(attempt), expected, modelName) {
      RetryStep(work, expected, retries, attempt, modelName);
      var rest := Shape(work, expected, retries - 1, attempt + 1, modelName);
      delays := [RetryDelay(retries)] + rest;
      assert delays[1..] == rest;
    } else {
      FinalStep(work, expected, retries, attempt, modelName);
      delays := [];
    }
  }

  /** An owner runs the work between 1 and `retries + 1` times; every attempt
      but the last threw a retryable error; the result is the last attempt's
      value, or its error when that error is not retryable or the budget is
      spent. */
  lemma WithSessionAttempts<R>(work: nat -> Outcome<R>, expected: seq<ExceptionClass>,
                               retries: nat, attempt: nat, modelName: string)
    ensures var run := WithSession(true, work, expected, retries, attempt, modelName);
      var n := Execs(run.trace);
      && 1 <= n <= retries + 1
      && (forall k :: attempt <= k < attempt + n - 1 ==> RetriesAfter(work(k), expected, modelName))
      && run.result == Direct(work(attempt + n - 1), modelName)
      && (run.result.Err? ==> n == retries + 1 || !RetriesAfter(work(attempt + n - 1), expected, modelName))
  {
    var delays := Shape(work, expected, retries, attempt, modelName);
    PatternExecs(attempt, delays, work(attempt + |delays|).Returned?);
  }

  /** The waits of an owner: one before each retry, growing linearly —
      20, 40 and 60 ms for the default budget of 3. */
  lemma WithSessionDelays<R>(work: nat -> Outcome<R>, expected: seq<ExceptionClass>,
                             retries: nat, attempt: nat, modelName: string)
    ensures var run := WithSession(true, work, expected, retries, attempt, modelName);
      && |Sleeps(run.trace)| == Execs(run.trace) - 1
      && forall k :: 0 <= k < |Sleeps(run.trace)| ==> Sleeps(run.trace)[k] == 20 * (4 - retries + k)
  {
    var delays := Shape(work, expected, retries, attempt, modelName);
    PatternExecs(attempt, delays, work(attempt + |delays|).Returned?);
    PatternSleeps(attempt, delays, work(attempt + |delays|).Returned?);
  }

  /** With the default budget the waits are exactly 20, 40 and 60 ms. */
  lemma DefaultDelays<R>(work: nat -> Outcome<R>, modelName: string)
    ensures var run := WithSession(true, work, DEFAULT_EXPECTED, DEFAULT_RETRIES, 0, modelName);
      var n := Execs(run.trace);
      1 <= n <= 4 && Sleeps(run.trace) == [20, 40, 60][..n - 1]
  {
    var run := WithSession(true, work, DEFAULT_EXPECTED, DEFAULT_RETRIES, 0, modelName);
    WithSessionDelays(work, DEFAULT_EXPECTED, DEFAULT_RETRIES, 0, modelName);
    WithSessionAttempts(work, DEFAULT_EXPECTED, DEFAULT_RETRIES, 0, modelName);
    var n := Execs(run.trace);
    assert forall k :: 0 <= k < n - 1 ==> Sleeps(run.trace)[k] == [20, 40, 60][k];
  }

  /** Every session an owner starts is ended exactly once, and no other
      session is started or ended: session `n` is started and ended once when
      attempt `n` ran, and never otherwise. */
  lemma WithSessionEndsEach<R>(work: nat -> Outcome<R>, expected: seq<ExceptionClass>,
                               retries: nat, attempt: nat, modelName: string, n: nat)
    ensures var run := WithSession(true, work, expected, retries, attempt, modelName);
      Count(run.trace, EndSession(n)) == Count(run.trace, StartSession(n))
        == (if attempt <= n < attempt + Execs(run.trace) then 1 else 0)
  {
    var delays := Shape(work, expected, retries, attempt, modelName);
    PatternExecs(attempt, delays, work(attempt + |delays|).Returned?);
    PatternSessions(attempt, delays, work(attempt + |delays|).Returned?, n);
  }

  /** Ending the retried sessions changes only the trace: the corrected and
      the as-written wrapper return the same result. */
  lemma {:induction false} FixKeepsResult<R>(owner: bool, work: nat -> Outcome<R>, expected: seq<ExceptionClass>,
                                            retries: nat, attempt: nat, modelName: string)
    ensures WithSession(owner, work, expected, retries, attempt, modelName).result
      == WithSessionAsWritten(owner, work, expected, retries, attempt, modelName).result
    decreases retries
  {
    var r, a := retries - 1, attempt + 1;
    match work(attempt)
    case Returned(v) =>
    case Threw(e) =>
      if owner && retries > 0 && !NonRetryable(ToConflict(e, modelName), expected) {
        FixKeepsResult(owner, work, expected, r, a, modelName);
      }
  }

  /** As written, a retried attempt waits without ending its session before
      the next attempt's run. */
  lemma AsWrittenRetryStep<R>(work: nat -> Outcome<R>, expected: seq<ExceptionClass>,
                              retries: nat, attempt: nat, modelName: string)
    requires retries > 0 && RetriesAfter(work(attempt), expected, modelName)
    ensures var next := WithSessionAsWritten(true, work, expected, retries - 1, attempt + 1, modelName);
      WithSessionAsWritten(true, work, expected, retries, attempt, modelName)
        == Run(next.result, LeakedAttempt(attempt, RetryDelay(retries)) + next.trace)
  {
  }

  /** As written, the last attempt is the same as in the corrected form. */
  lemma AsWrittenFinalStep<R>(work: nat -> Outcome<R>, expected: seq<ExceptionClass>,
                              retries: nat, attempt: nat, modelName: string)
    requires !(retries > 0 && RetriesAfter(work(attempt), expected, modelName))
    ensures WithSessionAsWritten(true, work, expected, retries, attempt, modelName)
      == Run(Direct(work(attempt), modelName), Closed(attempt, work(attempt).Returned?))
  {
  }

  /** As written, an owner's run is a leaky pattern with one retried attempt
      per returned delay. */
  lemma {:induction false} AsWrittenShape<R>(work: nat -> Outcome<R>, expected: seq<ExceptionClass>,
                                            retries: nat, attempt: nat, modelName: string) returns (delays: seq<int>)
    ensures var run := WithSessionAsWritten(true, work, expected, retries, attempt, modelName);
      run.trace == LeakyPattern(attempt, delays, work(attempt + |delays|).Returned?)
    decreases retries
  {
    if retries > 0 && RetriesAfter(work(attempt), expected, modelName) {
      AsWrittenRetryStep(work, expected, retries, attempt, modelName);
      var rest := AsWrittenShape(work, expected, retries - 1, attempt + 1, modelName);
      delays := [RetryDelay(retries)] + rest;
      assert delays[1..] == rest;
    } else {
      AsWrittenFinalStep(work, expected, retries, attempt, modelName);
      delays := [];
    }
  }

  /** Leaking the retried sessions changes neither the result nor how often
      the work runs nor the waits: every count proved of the corrected wrapper
      holds of the as-written one. */
  lemma {:induction false} AsWrittenCounts<R>(owner: bool, work: nat -> Outcome<R>, expected: seq<ExceptionClass>,
                                             retries: nat, attempt: nat, modelName: string)
    ensures var fixed := WithSession(owner, work, expected, retries, attempt, modelName);
      var written := WithSessionAsWritten(owner, work, expected, retries, attempt, modelName);
      && written.result == fixed.result
      && Execs(written.trace) == Execs(fixed.trace)
      && Sleeps(written.trace) == Sleeps(fixed.trace)
    decreases retries
  {
    FixKeepsResult(owner, work, expected, retries, attempt, modelName);
    if !owner {
      WithSessionNonOwner(work, expected, retries, attempt, modelName);
    } else if retries > 0 && RetriesAfter(work(attempt), expected, modelName) {
      var d := RetryDelay(retries);
      var next := WithSession(true, work, expected, retries - 1, attempt + 1, modelName);
      var nextWritten := WithSessionAsWritten(true, work, expected, retries - 1, attempt + 1, modelName);
      RetryStep(work, expected, retries, attempt, modelName);
      AsWrittenRetryStep(work, expected, retries, attempt, modelName);
      AsWrittenCounts(true, work, expected, retries - 1, attempt + 1, modelName);
      ExecsAppend(RetriedAttempt(attempt, d), next.trace);
      ExecsAppend(LeakedAttempt(attempt, d), nextWritten.trace);
      SleepsAppend(RetriedAttempt(attempt, d), next.trace);
      SleepsAppend(LeakedAttempt(attempt, d), nextWritten.trace);
      RetriedExecs(attempt, d);
      LeakedExecs(attempt, d);
      RetriedSleeps(attempt, d);
      LeakedSleeps(attempt, d);
    } else {
      FinalStep(work, expected, retries, attempt, modelName);
      AsWrittenFinalStep(work, expected, retries, attempt, modelName);
    }
  }

  /** As written, every attempt starts its own session once, but only the
      last attempt's session is ended: a retried attempt's session leaks. */
  lemma AsWrittenSessions<R>(work: nat -> Outcome<R>, expected: seq<ExceptionClass>,
                             retries: nat, attempt: nat, modelName: string, n: nat)
    ensures var run := WithSessionAsWritten(true, work, expected, retries, attempt, modelName);
      && Count(run.trace, StartSession(n)) == (if attempt <= n < attempt + Execs(run.trace) then 1 else 0)
      && Count(run.trace, EndSession(n)) == (if n == attempt + Execs(run.trace) - 1 then 1 else 0)
  {
    var delays := AsWrittenShape(work, expected, retries, attempt, modelName);
    LeakyExecs(attempt, delays, work(attempt + |delays|).Returned?);
    LeakySessions(attempt, delays, work(attempt + |delays|).Returned?, n);
  }

  /** A concrete leak: the first attempt fails with a plain error, the second
      succeeds; session 0 is started and never ended. */
  lemma AsWrittenLeakExample()
    ensures var work := (k: nat) => if k == 0 then Threw(Plain("boom")) else Returned(1);
      var run := WithSessionAsWritten(true, work, DEFAULT_EXPECTED, DEFAULT_RETRIES, 0, "Order");
      run.result == Ok(1) && StartSession(0) in run.trace && EndSession(0) !in run.trace
  {
    var work := (k: nat) => if k == 0 then Threw(Plain("boom")) else Returned(1);
    assert !NonRetryable(Plain("boom"), DEFAULT_EXPECTED);
    var run := WithSessionAsWritten(true, work, DEFAULT_EXPECTED, DEFAULT_RETRIES, 0, "Order");
    assert run.trace == [StartSession(0), StartTransaction(0), Exec(Owned(0)), Abort(0), Sleep(20),
                         StartSession(1), StartTransaction(1), Exec(Owned(1)), Commit(1), EndSession(1)];
  }

  // ---------------------------------------------------------------------
  // update and forceUpdate: the read, then one versioned write. The write
  // is given the store as it is when the write happens, which may differ
  // from the store the entity was read from when another process wrote in
  // between.

  function NotFoundMessage(modelName: string): string {
    modelName + " not found"
  }

  /** The version `update` and `forceUpdate` check against: the one read,
      unless the check is skipped. */
  function ReadVersion(d: Doc, skipVersionCheck: bool): Option<int> {
    if skipVersionCheck then None else Some(d.version)
  }

  /** The update object of `update`: the caller's dto, with `$inc` replaced
      by `{__v: 1}` when versioned. */
  function UpdateObject(dto: seq<Field>, currentVersion: Option<int>): seq<Field> {
    if currentVersion.Some? then Put(dto, "$inc", Obj([Field(VERSION_KEY, Num(1))])) else dto
  }

  /** The write of `update` on the store `c`: a compare-and-set on
      `{_id, __v?}`; nothing selected is a Conflict when versioned and a
      NotFound otherwise, and the store is then left as it is. */
  function UpdateWrite(c: Collection, id: string, dto: seq<Field>, currentVersion: Option<int>,
                       modelName: string): (r: (Collection, Result<Doc, Failure>))
    ensures r.1.Ok? <==> id in c && (currentVersion.None? || c[id].version == currentVersion.value)
    ensures r.1.Err? ==> r.0 == c
    ensures r.1.Err? && currentVersion.Some? ==> r.1.error == Raise(Conflict, StaleMessage(modelName))
    ensures r.1.Err? && currentVersion.None? ==> r.1.error == Raise(NotFound, NotFoundMessage(modelName))
    ensures r.1.Ok? ==> r.0 == c[id := r.1.value]
    ensures r.1.Ok? && currentVersion.Some? ==> r.1.value.version == c[id].version + 1
  {
    var (c', written) := FindOneAndUpdate(c, BuildVersionedFilter(id, currentVersion),
                                          UpdateObject(dto, currentVersion));
    if written.None? && currentVersion.Some? then (c', Err(Raise(Conflict, StaleMessage(modelName))))
    else if written.None? then (c', Err(Raise(NotFound, NotFoundMessage(modelName))))
    else (c', Ok(written.value))
  }

  /** `update(id, dto, session, {skipVersionCheck})`: the entity is read from
      `seen`, and the write goes to `c`. A missing entity is a NotFound
      before any write. */
  function Update(seen: Collection, c: Collection, id: string, dto: seq<Field>, skipVersionCheck: bool,
                  modelName: string): (r: (Collection, Result<Doc, Failure>))
    ensures id !in seen ==> r == (c, Err(Raise(NotFound, NotFoundMessage(modelName))))
    ensures r.1.Err? ==> r.0 == c
  {
    if id !in seen then (c, Err(Raise(NotFound, NotFoundMessage(modelName))))
    else UpdateWrite(c, id, dto, ReadVersion(seen[id], skipVersionCheck), modelName)
  }

  /** Without interference a versioned `update` of an existing entity always
      succeeds: the version moves by one, the dto's plain keys are assigned
      and its own `$inc` has no effect. */
  lemma UpdateVersioned(c: Collection, id: string, dto: seq<Field>, modelName: string)
    requires id in c && Pushes(dto) == []
    ensures var (c', r) := Update(c, c, id, dto, false, modelName);
      && r == Ok(Doc(c[id].version + 1, Assigned(c[id].fields, dto)))
      && c' == c[id := r.value]
  {
    var u := UpdateObject(dto, Some(c[id].version));
    PlainIgnoresOperator(dto, "$inc", Obj([Field(VERSION_KEY, Num(1))]));
    assert Pushes(u) == Pushes(dto) && Sets(u) == Sets(dto);
    assert Assigned(c[id].fields, u) == Assigned(c[id].fields, dto);
    ApplyVersioned(c[id], u);
  }

  /** Two processes read the same version and both update: the first write
      wins and moves the version, the second is a Conflict and changes
      nothing — its changes are never silently lost. */
  lemma UpdateRace(c: Collection, id: string, dtoA: seq<Field>, dtoB: seq<Field>, modelName: string)
    requires id in c
    ensures var (c1, ra) := Update(c, c, id, dtoA, false, modelName);
      var (c2, rb) := Update(c, c1, id, dtoB, false, modelName);
      && ra.Ok? && c1[id].version == c[id].version + 1
      && rb == Err(Raise(Conflict, StaleMessage(modelName))) && c2 == c1
  {
  }

  /** The Conflict and the NotFound that `update` throws inside its
      transaction are never retried, whatever the expected list. */
  lemma UpdateErrorsNotRetried(expected: seq<ExceptionClass>, modelName: string)
    ensures NonRetryable(Raise(Conflict, StaleMessage(modelName)), expected)
    ensures NonRetryable(Raise(NotFound, NotFoundMessage(modelName)), expected)
  {
    var all := expected + [NotFound, Conflict];
    assert all[|expected|] == NotFound && all[|expected| + 1] == Conflict;
  }

  /** The update object of `forceUpdate`: `{__v: 1}` is added to the caller's
      `$inc` when versioned and the caller's `$inc.__v` is not truthy. */
  function ForceUpdateObject(update: seq<Field>, currentVersion: Option<int>): seq<Field> {
    var existingInc := Get(update, "$inc");
    if currentVersion.Some? && !Truthy(Member(existingInc, VERSION_KEY)) then
      Put(update, "$inc", Obj(Put(FieldsOf(existingInc), VERSION_KEY, Num(1))))
    else update
  }

  /** The write of `forceUpdate`: nothing selected is a Conflict when
      versioned and a `null` result otherwise. */
  function ForceUpdateWrite(c: Collection, id: string, update: seq<Field>, currentVersion: Option<int>,
                            modelName: string): (r: (Collection, Result<Option<Doc>, Failure>))
    ensures r.1 == Ok(None) || r.1.Err? <==> !(id in c && (currentVersion.None? || c[id].version == currentVersion.value))
    ensures r.1.Err? <==> r.1 != Ok(None) && !(id in c && (currentVersion.None? || c[id].version == currentVersion.value))
    ensures r.1.Err? ==> currentVersion.Some? && r.1.error == Raise(Conflict, StaleMessage(modelName))
    ensures (r.1.Err? || r.1 == Ok(None)) ==> r.0 == c
    ensures r.1.Ok? && r.1.value.Some? ==> r.0 == c[id := r.1.value.value]
  {
    var (c', written) := FindOneAndUpdate(c, BuildVersionedFilter(id, currentVersion),
                                          ForceUpdateObject(update, currentVersion));
    if written.None? && currentVersion.Some? then (c', Err(Raise(Conflict, StaleMessage(modelName))))
    else (c', Ok(written))
  }

  /** `forceUpdate(id, update, session, {skipVersionCheck})`: a missing
      entity gives `null` and no write. */
  function ForceUpdate(seen: Collection, c: Collection, id: string, update: seq<Field>, skipVersionCheck: bool,
                       modelName: string): (r: (Collection, Result<Option<Doc>, Failure>))
    ensures id !in seen ==> r == (c, Ok(None))
  {
    if id !in seen then (c, Ok(None))
    else ForceUpdateWrite(c, id, update, ReadVersion(seen[id], skipVersionCheck), modelName)
  }

  // ---------------------------------------------------------------------
  // The event of update and forceUpdate

  /** The event `update` and `forceUpdate` emit themselves, straight on the
      bus: `entity.<id>.updated` with the payload `{ id }`. */
  function UpdatedEvent(id: EntityEvents.EntityId): EntityEvents.Emission {
    EntityEvents.Emission(EntityEvents.EventName(id, "updated"), [Field("id", EntityEvents.IdValue(id))])
  }

  /** A write of `update` or `forceUpdate` with what it hands back: the
      store, the result, the events emitted and, for `forceUpdate`, the
      model the write went through. */
  datatype Written<T> = Written(store: Collection, result: Result<T, Failure>,
                                events: seq<EntityEvents.Emission>, model: Option<ModelRef>)

  /** `update` with its event: the write of `Update` on the entity's id,
      then one `updated` event when there is a bus and the write returned a
      document; a failed update emits nothing. */
  function UpdateEmitting(seen: Collection, c: Collection, id: EntityEvents.EntityId, dto: seq<Field>,
                          skipVersionCheck: bool, modelName: string, bus: bool): (r: Written<Doc>)
    ensures (r.store, r.result) == Update(seen, c, EntityEvents.IdText(id), dto, skipVersionCheck, modelName)
    ensures |r.events| <= 1
    ensures |r.events| == 1 <==> bus && r.result.Ok?
    ensures |r.events| == 1 ==> r.events[0] == UpdatedEvent(id)
    ensures r.model.None?
  {
    var (c', result) := Update(seen, c, EntityEvents.IdText(id), dto, skipVersionCheck, modelName);
    Written(c', result, if bus && result.Ok? then [UpdatedEvent(id)] else [], None)
  }

  /** The events after a `forceUpdate` write. */
  function ForcedEvents(result: Result<Option<Doc>, Failure>, id: EntityEvents.EntityId, bus: bool): seq<EntityEvents.Emission> {
    if bus && result.Ok? && result.value.Some? then [UpdatedEvent(id)] else []
  }

  /** The model `forceUpdate` writes through, once the entity was found. */
  function ForceUpdateModel(seen: Collection, id: string, discriminators: Option<set<string>>, key: string): Option<ModelRef> {
    if id in seen then Some(ResolveDiscriminatorModel(discriminators, key, seen[id])) else None
  }

  /** `forceUpdate` with its discriminator and its event: a missing entity
      selects no model and emits nothing; otherwise the write goes through
      the model the stored entity's discriminator value selects, and one
      `updated` event follows when there is a bus and the write returned a
      document. A Conflict is thrown before the event. */
  function ForceUpdateEmitting(seen: Collection, c: Collection, id: EntityEvents.EntityId, update: seq<Field>,
                               skipVersionCheck: bool, modelName: string, bus: bool,
                               discriminators: Option<set<string>>, key: string): (r: Written<Option<Doc>>)
    ensures (r.store, r.result) == ForceUpdate(seen, c, EntityEvents.IdText(id), update, skipVersionCheck, modelName)
    ensures r.model.Some? <==> EntityEvents.IdText(id) in seen
    ensures r.model.Some? ==> r.model.value == ResolveDiscriminatorModel(discriminators, key, seen[EntityEvents.IdText(id)])
    ensures |r.events| <= 1
    ensures |r.events| == 1 <==> bus && r.result.Ok? && r.result.value.Some?
    ensures |r.events| == 1 ==> r.events[0] == UpdatedEvent(id)
  {
    var written := ForceUpdate(seen, c, EntityEvents.IdText(id), update, skipVersionCheck, modelName);
    Written(written.0, written.1, ForcedEvents(written.1, id, bus), ForceUpdateModel(seen, EntityEvents.IdText(id), discriminators, key))
  }

  /** The direct event carries the entity emitter's name for an update but
      not its payload: only `id`, without `type` or `timestamp`. */
  lemma UpdatedEventLikeEmitter(id: EntityEvents.EntityId, now: string)
    ensures var typed := EntityEvents.EmitAction(true, EntityEvents.Updated, id, None, now);
      && UpdatedEvent(id).name == typed[0].name
      && Get(UpdatedEvent(id).payload, "id") == Get(typed[0].payload, "id")
      && Get(UpdatedEvent(id).payload, "type") == Undefined
      && Get(typed[0].payload, "type") == Str("updated")
  {
  }

  /** Two processes read the same version and both update with a bus: only
      the winner's write is announced, once. */
  lemma UpdateRaceEmitsOnce(c: Collection, id: EntityEvents.EntityId, dtoA: seq<Field>, dtoB: seq<Field>, modelName: string)
    requires EntityEvents.IdText(id) in c
    ensures var a := UpdateEmitting(c, c, id, dtoA, false, modelName, true);
      var b := UpdateEmitting(c, a.store, id, dtoB, false, modelName, true);
      a.events == [UpdatedEvent(id)] && b.events == [] && b.store == a.store
  {
    UpdateRace(c, EntityEvents.IdText(id), dtoA, dtoB, modelName);
  }

  /** The version increment of `forceUpdate`'s object: 1 when versioned and
      the caller's `$inc.__v` is not truthy, the caller's own increment
      otherwise; every other `$inc` key of the caller is kept. */
  lemma ForceUpdateIncrement(update: seq<Field>, currentVersion: Option<int>, k: string)
    ensures var u := ForceUpdateObject(update, currentVersion);
      var callerInc := Member(Get(update, "$inc"), VERSION_KEY);
      && Get(Incs(u), VERSION_KEY) == (if currentVersion.Some? && !Truthy(callerInc) then Num(1) else callerInc)
      && (k != VERSION_KEY ==> Get(Incs(u), k) == Member(Get(update, "$inc"), k))
      && (k != "$inc" ==> Get(u, k) == Get(update, k))
  {
  }

  /** A versioned `forceUpdate` write at the version it read succeeds and
      moves the version, when the caller sets no `$inc.__v` of its own or a
      numeric one. */
  lemma ForceWriteMoves(c: Collection, id: string, a: seq<Field>, modelName: string)
    requires id in c
    requires var own := Member(Get(a, "$inc"), VERSION_KEY); own.Undefined? || own.Num?
    ensures var (c1, ra) := ForceUpdateWrite(c, id, a, Some(c[id].version), modelName);
      ra.Ok? && ra.value.Some? && id in c1 && c1[id].version != c[id].version
  {
    var v := Some(c[id].version);
    var ua := ForceUpdateObject(a, v);
    ForceUpdateIncrement(a, v, "$push");
    var inc := Get(Incs(ua), VERSION_KEY);
    assert inc.Num? && inc.n != 0;
    assert Apply(c[id], ua).version == c[id].version + inc.n;
  }

  /** Two processes read the same version and both force an update; the
      first sets no `$inc.__v` of its own or a numeric one: the first wins
      and moves the version, the second is a Conflict and changes nothing. */
  lemma ForceUpdateRace(c: Collection, id: string, a: seq<Field>, b: seq<Field>, modelName: string)
    requires id in c
    requires var own := Member(Get(a, "$inc"), VERSION_KEY); own.Undefined? || own.Num?
    ensures var (c1, ra) := ForceUpdate(c, c, id, a, false, modelName);
      var (c2, rb) := ForceUpdate(c, c1, id, b, false, modelName);
      && ra.Ok? && ra.value.Some? && c1[id].version != c[id].version
      && rb == Err(Raise(Conflict, StaleMessage(modelName))) && c2 == c1
  {
    ForceWriteMoves(c, id, a, modelName);
  }

  // ---------------------------------------------------------------------
  // findAll: the filter, sort and page it asks the store for, and the
  // pagination it reports.

  /** `createdAt = { ...(createdAt ?? {}), [key]: bound }`. */
  function SpreadBound(q: seq<Field>, key: string, bound: Value): (r: seq<Field>)
    ensures forall k :: k != "createdAt" ==> Get(r, k) == Get(q, k)
    ensures Get(r, "createdAt").Obj? && Member(Get(r, "createdAt"), key) == bound
    ensures forall k :: k != key ==>
      Member(Get(r, "createdAt"), k) == Get(SpreadOf(Coalesce(Get(q, "createdAt"), Obj([]))), k)
  {
    Put(q, "createdAt", Obj(Put(SpreadOf(Coalesce(Get(q, "createdAt"), Obj([]))), key, bound)))
  }

  /** The date bounds of `findAll`: each given bound replaces `createdAt`
      by a fresh object spread from the previous one. Unlike the query
      builder this never throws: a string `createdAt` is spread into its
      characters, and an array, ObjectId or `Date` gives way to a plain
      object. */
  function SpreadDateFilters(q: seq<Field>, after: Option<string>, before: Option<string>): (r: seq<Field>)
    ensures !Given(after) && !Given(before) ==> r == q
    ensures forall k :: k != "createdAt" ==> Get(r, k) == Get(q, k)
    ensures Given(after) || Given(before) ==>
      var prior := SpreadOf(Coalesce(Get(q, "createdAt"), Obj([])));
      && Get(r, "createdAt").Obj?
      && Member(Get(r, "createdAt"), "$gte") == (if Given(after) then Date(after.value) else Get(prior, "$gte"))
      && Member(Get(r, "createdAt"), "$lte") == (if Given(before) then Date(before.value) else Get(prior, "$lte"))
      && forall k :: k != "$gte" && k != "$lte" ==> Member(Get(r, "createdAt"), k) == Get(prior, k)
  {
    SpreadBounds(q, after, before);
    SpreadBoundsOf(q, after, before)
  }

  /** The spreads `findAll` makes, one per given bound. */
  function SpreadBoundsOf(q: seq<Field>, after: Option<string>, before: Option<string>): seq<Field> {
    if Given(after) && Given(before) then
      SpreadBound(SpreadBound(q, "$gte", Date(after.value)), "$lte", Date(before.value))
    else if Given(after) then SpreadBound(q, "$gte", Date(after.value))
    else if Given(before) then SpreadBound(q, "$lte", Date(before.value))
    else q
  }

  /** What the spreads leave: every key but `createdAt` kept, and
      `createdAt` the prior value's properties with the given bounds. */
  lemma SpreadBounds(q: seq<Field>, after: Option<string>, before: Option<string>)
    ensures var r := SpreadBoundsOf(q, after, before);
      && (!Given(after) && !Given(before) ==> r == q)
      && (forall k :: k != "createdAt" ==> Get(r, k) == Get(q, k))
      && (Given(after) || Given(before) ==>
        var prior := SpreadOf(Coalesce(Get(q, "createdAt"), Obj([])));
        && Get(r, "createdAt").Obj?
        && Member(Get(r, "createdAt"), "$gte") == (if Given(after) then Date(after.value) else Get(prior, "$gte"))
        && Member(Get(r, "createdAt"), "$lte") == (if Given(before) then Date(before.value) else Get(prior, "$lte"))
        && forall k :: k != "$gte" && k != "$lte" ==> Member(Get(r, "createdAt"), k) == Get(prior, k))
  {
    if Given(after) && Given(before) {
      SpreadBoundTwice(q, Date(after.value), Date(before.value));
    }
  }

  /** Two spreads in a row keep the other keys of the first `createdAt`
      and set both bounds. */
  lemma SpreadBoundTwice(q: seq<Field>, gte: Value, lte: Value)
    ensures var r := SpreadBound(SpreadBound(q, "$gte", gte), "$lte", lte);
      var prior := SpreadOf(Coalesce(Get(q, "createdAt"), Obj([])));
      && (forall k :: k != "createdAt" ==> Get(r, k) == Get(q, k))
      && Get(r, "createdAt").Obj?
      && Member(Get(r, "createdAt"), "$gte") == gte && Member(Get(r, "createdAt"), "$lte") == lte
      && forall k :: k != "$gte" && k != "$lte" ==> Member(Get(r, "createdAt"), k) == Get(prior, k)
  {
    var q1 := SpreadBound(q, "$gte", gte);
    assert SpreadOf(Coalesce(Get(q1, "createdAt"), Obj([]))) == Get(q1, "createdAt").fields;
  }

  /** On a plain-object or missing `createdAt` the spread of `findAll` and
      the assignments of the query builder give the same filter. */
  lemma SpreadDatesLikeBuilder(q: seq<Field>, after: Option<string>, before: Option<string>)
    requires var v := Get(q, "createdAt"); v.Obj? || v.Undefined? || v.Null?
    ensures ApplyDateFilters(q, after, before) == Ok(SpreadDateFilters(q, after, before))
  {
    var v := Get(q, "createdAt");
    var prior := FieldsOf(Coalesce(v, Obj([])));
    assert SpreadOf(Coalesce(v, Obj([]))) == prior;
    assert !Primitive(v) && !Exotic(v);
    if Given(after) && Given(before) {
      var g := Date(after.value);
      var l := Date(before.value);
      assert ApplyDateFilters(q, after, before) == Ok(Put(q, "createdAt", Obj(Put(Put(prior, "$gte", g), "$lte", l))));
      BothBounds(q, prior, g, l);
    } else if Given(after) {
      assert ApplyDateFilters(q, after, before) == Ok(Put(q, "createdAt", Obj(Put(prior, "$gte", Date(after.value)))));
    } else if Given(before) {
      assert ApplyDateFilters(q, after, before) == Ok(Put(q, "createdAt", Obj(Put(prior, "$lte", Date(before.value)))));
    }
  }

  /** Two spreads in a row write `createdAt` once with both bounds. */
  lemma BothBounds(q: seq<Field>, prior: seq<Field>, gte: Value, lte: Value)
    requires SpreadOf(Coalesce(Get(q, "createdAt"), Obj([]))) == prior
    ensures SpreadBound(SpreadBound(q, "$gte", gte), "$lte", lte)
      == Put(q, "createdAt", Obj(Put(Put(prior, "$gte", gte), "$lte", lte)))
  {
    var g := Put(prior, "$gte", gte);
    var q1 := Put(q, "createdAt", Obj(g));
    assert Get(q1, "createdAt") == Obj(g);
    PutTwice(q, "createdAt", Obj(g), Obj(Put(g, "$lte", lte)));
  }

  /** A string `createdAt` with a bound: the query builder throws, while
      `findAll` spreads the string into indexed characters. */
  lemma SpreadDatesOfString(q: seq<Field>, text: string, after: string)
    requires Get(q, "createdAt") == Str(text) && |text| > 0 && after != ""
    ensures ApplyDateFilters(q, Some(after), None) == Err(NoProperty("$gte"))
    ensures Member(Get(SpreadDateFilters(q, Some(after), None), "createdAt"), "0") == Str([text[0]])
  {
    var prior := SpreadOf(Str(text));
    assert prior[0] == Field("0", Str([text[0]]));
    assert Get(prior, "0") == Str([text[0]]);
  }

  /** The filter of `findAll`: as the query builder's, except that every
      value `isValidObjectId` accepts is converted, strings or not, and the
      date bounds are spread rather than assigned. */
  function FindAllFilter(query: Query, isValidObjectId: Value -> bool, toObjectId: Value -> Value)
    : (r: Result<seq<Field>, Failure>)
    ensures var c := ConvertIds(ApplyFilters(query.mongoQuery.GetOr([]), query.filters), isValidObjectId, toObjectId);
      r.Err? <==> Given(query.search) && Truthy(Get(c, "$or")) && !Get(c, "$or").Arr?
    ensures r.Ok? && Given(query.search) && !Truthy(Get(ConvertIds(ApplyFilters(query.mongoQuery.GetOr([]), query.filters),
                                                                   isValidObjectId, toObjectId), "$or")) ==>
      Get(r.value, "$text") == TextClause(query.search.value)
  {
    var filtered := ApplyFilters(query.mongoQuery.GetOr([]), query.filters);
    var converted := ConvertIds(filtered, isValidObjectId, toObjectId);
    var searched :- ApplyTextSearch(converted, query.search);
    Ok(SpreadDateFilters(searched, query.createdAfter, query.createdBefore))
  }

  /** How `findAll` shapes the documents it reads: a projection of the named
      fields, or the populator's joins. */
  datatype Shaping = SelectOnly(fields: seq<string>) | PopulateAll

  /** The TypeError of calling `join` on a string. */
  const NO_JOIN: Failure := Plain("select.join is not a function")

  /** `findAll`'s shaping as written: `select.join(' ')` whenever the select
      is non-empty. The query's select is a string, which has no `join`, so
      every non-empty select throws and only an absent or empty one reads,
      with the populator. */
  function FindAllShaping(select: Option<string>): (r: Result<Shaping, Failure>)
    ensures r.Ok? <==> !Given(select)
    ensures r.Ok? ==> r.value == PopulateAll
    ensures r.Err? ==> r.error == NO_JOIN
  {
    if Given(select) then Err(NO_JOIN) else Ok(PopulateAll)
  }

  /** `findAll`'s shaping with the select read as the comma-separated list
      its description promises, as the common query's transform reads it:
      the trimmed non-empty fields are projected, and a select that names
      none falls back to the populator. It never throws. */
  function FindAllShapingCorrected(select: Option<string>): (r: Shaping)
    ensures !Given(select) ==> r == PopulateAll
    ensures r.SelectOnly? ==> |r.fields| > 0 && forall i :: 0 <= i < |r.fields| ==> r.fields[i] != "" && ',' !in r.fields[i]
    ensures Given(select) && ',' !in select.value && Trim(select.value) != "" ==> r == SelectOnly([Trim(select.value)])
  {
    if !Given(select) then PopulateAll
    else
      var fields := CommonQueryDto.SelectTransform(Str(select.value)).value;
      SingleField(select.value);
      if |fields| > 0 then SelectOnly(fields) else PopulateAll
  }

  /** A select without a comma names its trimmed self, if anything. */
  lemma SingleField(select: string)
    ensures ',' !in select && Trim(select) != "" ==> CommonQueryDto.SelectTransform(Str(select)).value == [Trim(select)]
  {
    if ',' !in select && Trim(select) != "" {
      SplitNoSep(select, ',');
      assert CommonQueryDto.TrimAll([select]) == [Trim(select)];
      assert CommonQueryDto.NonEmpty([Trim(select)]) == [Trim(select)];
    }
  }

  /** As written every select that names a field fails the whole read,
      while the corrected shaping projects it; without a select the two
      agree. */
  lemma SelectNeverReads(select: string)
    requires ',' !in select && Trim(select) != ""
    ensures FindAllShaping(Some(select)) == Err(NO_JOIN)
    ensures FindAllShapingCorrected(Some(select)) == SelectOnly([Trim(select)])
    ensures FindAllShaping(None) == Ok(FindAllShapingCorrected(None))
  {
  }

  /** The sort of `findAll`: `sort` defaults to `createdAt:desc`, and an
      empty one means no sort at all. */
  function FindAllSort(sort: Option<string>): Option<seq<Field>> {
    var s := sort.GetOr("createdAt:desc");
    if s == "" then None else Some(SortFrom(Split(s, ',')))
  }

  /** `(skip, limit)` of `findAll`: page and limit default to 1 and 10; a
      zero page skips nothing and a zero limit falls back to 10. */
  function FindAllPaging(page: Option<int>, limit: Option<int>): (int, int) {
    var p := page.GetOr(1);
    var l := limit.GetOr(10);
    if p != 0 && l != 0 then ((p - 1) * l, l)
    else if l != 0 then (0, l)
    else (0, 10)
  }

  /** The pagination `findAll` reports for `total` matching documents. */
  function FindAllMeta(total: int, page: Option<int>, limit: Option<int>): (m: PageMeta)
    requires limit.GetOr(10) >= 0
    ensures m.limit == FindAllPaging(page, limit).1 && m.limit > 0
    ensures (m.totalPages - 1) * m.limit < total <= m.totalPages * m.limit
    ensures m.page == if page.GetOr(1) == 0 then 1 else page.GetOr(1)
  {
    var (_, l) := FindAllPaging(page, limit);
    var p := page.GetOr(1);
    PageMeta(total, if p != 0 then p else 1, l, TotalPages(total, l))
  }

  /** With no parameters `findAll` asks for the 10 newest documents
      (`createdAt` descending) from the start. */
  lemma FindAllDefaults()
    ensures FindAllPaging(None, None) == (0, 10)
    ensures FindAllSort(None) == Some([Field("createdAt", Num(-1))])
  {
    DefaultSort();
  }

  /** For a page and limit within the query's bounds, `findAll` pages
      exactly as the query builder does, and the reported page is the
      requested one; the two differ on an empty sort, which `findAll` drops
      and the builder replaces by `createdAt` descending. */
  lemma FindAllAgreesWithBuilder(page: int, limit: int, total: int)
    requires page >= 1 && 1 <= limit
    ensures FindAllPaging(Some(page), Some(limit)) == BuildPagination(Some(page), Some(limit))
    ensures var (skip, l) := FindAllPaging(Some(page), Some(limit));
      skip == (page - 1) * limit && PageOf(skip, l) == page && FindAllMeta(total, Some(page), Some(limit)).page == page
    ensures FindAllSort(Some("")) == None && BuildSortOptions(Some("")) == [Field("createdAt", Num(-1))]
  {
    PageRecovered(Some(page), Some(limit));
  }
}

=== FILE: crud_tx.dfy ===
/** The CRUD module's own `TransactionManager`
    (src/crud/services/transaction.manager.ts): configurable expected
    exceptions, retry budget and delay; only duplicate keys are
    transformed. */
module CrudTransactionManager {
  import opened Wrappers
  import opened Errors
  import opened Session

  const DEFAULT_RETRIES: nat := 3
  const DEFAULT_RETRY_DELAY_MS: int := 20
  const DUPLICATE_MESSAGE: string := "Resource already exists"

  /** `TransactionOptions`; an absent field takes its default. */
  datatype TransactionOptions = TransactionOptions(
    expectedExceptions: Option<seq<ExceptionClass>>,
    retries: Option<nat>,
    retryDelayMs: Option<int>)

  /** The options after destructuring with defaults. */
  datatype Settings = Settings(expected: seq<ExceptionClass>, retries: nat, retryDelayMs: int)

  /** `const { expectedExceptions = [], retries = 3, retryDelayMs = 20 } = options ?? {}`. */
  function Resolve(options: Option<TransactionOptions>): (s: Settings)
    ensures options.None? ==> s == Settings([], DEFAULT_RETRIES, DEFAULT_RETRY_DELAY_MS)
    ensures options.Some? ==>
      && s.expected == options.value.expectedExceptions.GetOr([])
      && s.retries == options.value.retries.GetOr(DEFAULT_RETRIES)
      && s.retryDelayMs == options.value.retryDelayMs.GetOr(DEFAULT_RETRY_DELAY_MS)
  {
    match options
    case None => Settings([], DEFAULT_RETRIES, DEFAULT_RETRY_DELAY_MS)
    case Some(o) =>
      Settings(o.expectedExceptions.GetOr([]), o.retries.GetOr(DEFAULT_RETRIES),
               o.retryDelayMs.GetOr(DEFAULT_RETRY_DELAY_MS))
  }

  /** Only a duplicate-key server error is transformed, into a Conflict;
      every other value passes through. */
  function TransformError(e: Failure): (r: Failure)
    ensures e.MongoServer? && e.code == DUPLICATE_KEY ==> r == Raise(Conflict, DUPLICATE_MESSAGE)
    ensures !(e.MongoServer? && e.code == DUPLICATE_KEY) ==> r == e
  {
    if e.MongoServer? && e.code == DUPLICATE_KEY then Raise(Conflict, DUPLICATE_MESSAGE) else e
  }

  /** An owner with no retries left gives up; otherwise the expected
      classes, NotFound and Conflict are never retried. */
  predicate ShouldThrowImmediately(error: Failure, expected: seq<ExceptionClass>, retries: int, owner: bool) {
    if retries == 0 && owner then true
    else InstanceOfAny(error, expected + [NotFound, Conflict])
  }

  /** `shouldThrowImmediately` in words: it holds exactly when the owner's
      budget is spent or the error is an instance of an expected class,
      NotFound or Conflict. */
  lemma ShouldThrowIff(error: Failure, expected: seq<ExceptionClass>, retries: int, owner: bool)
    ensures ShouldThrowImmediately(error, expected, retries, owner) <==>
      (retries == 0 && owner)
      || InstanceOf(error, NotFound) || InstanceOf(error, Conflict)
      || exists i :: 0 <= i < |expected| && InstanceOf(error, expected[i])
  {
    var all := expected + [NotFound, Conflict];
    assert all[|expected|] == NotFound && all[|expected| + 1] == Conflict;
    if exists i :: 0 <= i < |all| && InstanceOf(error, all[i]) {
      var i :| 0 <= i < |all| && InstanceOf(error, all[i]);
      if i < |expected| {
        assert all[i] == expected[i];
      }
    }
    if exists i :: 0 <= i < |expected| && InstanceOf(error, expected[i]) {
      var i :| 0 <= i < |expected| && InstanceOf(error, expected[i]);
      assert all[i] == expected[i];
    }
  }

  /** The wait before the retry made with `retries` left. */
  function RetryDelay(s: Settings): int {
    s.retryDelayMs * (4 - s.retries)
  }

  /** The settings the retry is called with: the same, one retry fewer. */
  function Fewer(s: Settings): Settings
    requires s.retries > 0
  {
    s.(retries := s.retries - 1)
  }

  /** An owner's attempt that fails with an error of no listed class is
      retried while budget is left. */
  predicate Retried<R>(o: Outcome<R>, expected: seq<ExceptionClass>) {
    o.Threw? && !InstanceOfAny(TransformError(o.error), expected + [NotFound, Conflict])
  }

  /** `withTransaction` as written, with resolved settings. A retried
      attempt sets `isRetrying`, so its `finally` does not end its session,
      and nothing else ends it. */
  function WithTransactionAsWritten<R>(owner: bool, work: nat -> Outcome<R>, s: Settings, attempt: nat): Run<R>
    decreases s.retries
  {
    var open := Opening(owner, attempt);
    match work(attempt)
    case Returned(v) =>
      Run(Ok(v), open + (if owner then [Commit(attempt), EndSession(attempt)] else []))
    case Threw(e) =>
      var error := TransformError(e);
      var aborted := open + (if owner then [Abort(attempt)] else []);
      if ShouldThrowImmediately(error, s.expected, s.retries, owner) then
        Run(Err(error), aborted + (if owner then [EndSession(attempt)] else []))
      else if owner then
        var next := WithTransactionAsWritten(owner, work, Fewer(s), attempt + 1);
        Run(next.result, aborted + [Sleep(RetryDelay(s))] + next.trace)
      else Run(Err(error), aborted)
  }

  /** `withTransaction` with the session of a retried attempt ended before
      the wait; otherwise identical. */
  function WithTransaction<R>(owner: bool, work: nat -> Outcome<R>, s: Settings, attempt: nat): Run<R>
    decreases s.retries
  {
    var open := Opening(owner, attempt);
    match work(attempt)
    case Returned(v) =>
      Run(Ok(v), open + (if owner then [Commit(attempt), EndSession(attempt)] else []))
    case Threw(e) =>
      var error := TransformError(e);
      var aborted := open + (if owner then [Abort(attempt)] else []);
      if ShouldThrowImmediately(error, s.expected, s.retries, owner) then
        Run(Err(error), aborted + (if owner then [EndSession(attempt)] else []))
      else if owner then
        var next := WithTransaction(owner, work, Fewer(s), attempt + 1);
        Run(next.result, aborted + [EndSession(attempt), Sleep(RetryDelay(s))] + next.trace)
      else Run(Err(error), aborted)
  }

  /** The outcome a single attempt hands to the caller. */
  function Direct<R>(o: Outcome<R>): Result<R, Failure> {
    match o
    case Returned(v) => Ok(v)
    case Threw(e) => Err(TransformError(e))
  }

  /** A caller with its own session: one execution, the error transformed
      and rethrown, and no commit, abort, end or retry. */
  lemma NonOwnerPassesThrough<R>(work: nat -> Outcome<R>, s: Settings, attempt: nat)
    ensures WithTransaction(false, work, s, attempt) == Run(Direct(work(attempt)), [Exec(Outer)])
    ensures WithTransactionAsWritten(false, work, s, attempt) == Run(Direct(work(attempt)), [Exec(Outer)])
  {
  }

  /** An owner's attempt that is retried: its own events, then the next
      attempt's run, whose result it returns. */
  lemma RetryStep<R>(work: nat -> Outcome<R>, s: Settings, attempt: nat)
    requires s.retries > 0 && Retried(work(attempt), s.expected)
    ensures var next := WithTransaction(true, work, Fewer(s), attempt + 1);
      WithTransaction(true, work, s, attempt) == Run(next.result, RetriedAttempt(attempt, RetryDelay(s)) + next.trace)
  {
  }

  /** An owner's last attempt: it commits iff the work returned, and it
      returns the work's value or its transformed error. */
  lemma FinalStep<R>(work: nat -> Outcome<R>, s: Settings, attempt: nat)
    requires !(s.retries > 0 && Retried(work(attempt), s.expected))
    ensures WithTransaction(true, work, s, attempt) == Run(Direct(work(attempt)), Closed(attempt, work(attempt).Returned?))
  {
  }

  /** The shape of an owner's run: one retried attempt per returned delay,
      each failing with an error of no listed class, the `k`-th waiting
      `retryDelayMs * (4 - retries + k)`, then a last attempt whose outcome
      is the result; it fails only when the budget is spent or its error is
      of a listed class. */
  lemma {:induction false} Shape<R>(work: nat -> Outcome<R>, s: Settings, attempt: nat) returns (delays: seq<int>)
    ensures var run := WithTransaction(true, work, s, attempt);
      var last := attempt + |delays|;
      && |delays| <= s.retries
      && run.trace == Pattern(attempt, delays, work(last).Returned?)
      && run.result == Direct(work(last))
      && (run.result.Err? ==> |delays| == s.retries || !Retried(work(last), s.expected))
      && (forall k :: 0 <= k < |delays| ==> delays[k] == s.retryDelayMs * (4 - s.retries + k))
      && (forall k :: attempt <= k < last ==> Retried(work(k), s.expected))
    decreases s.retries
  {
    if s.retries > 0 && Retried(work(attempt), s.expected) {
      RetryStep(work, s, attempt);
      var rest := Shape(work, Fewer(s), attempt + 1);
      delays := [RetryDelay(s)] + rest;
      assert delays[1..] == rest;
    } else {
      FinalStep(work, s, attempt);
      delays := [];
    }
  }

  /** An owner runs the work between 1 and `retries + 1` times; the result
      is the last attempt's, and an error means that attempt's error was of
      a listed class or the budget was spent. */
  lemma Attempts<R>(work: nat -> Outcome<R>, s: Settings, attempt: nat)
    ensures var run := WithTransaction(true, work, s, attempt);
      var n := Execs(run.trace);
      && 1 <= n <= s.retries + 1
      && run.result == Direct(work(attempt + n - 1))
      && (run.result.Err? ==> n == s.retries + 1 || !Retried(work(attempt + n - 1), s.expected))
  {
    var delays := Shape(work, s, attempt);
    PatternExecs(attempt, delays, work(attempt + |delays|).Returned?);
  }

  /** Every attempt of an owner but the last failed with an error of no
      listed class. */
  lemma EarlierRetried<R>(work: nat -> Outcome<R>, s: Settings, attempt: nat, k: nat)
    ensures attempt <= k < attempt + Execs(WithTransaction(true, work, s, attempt).trace) - 1
      ==> Retried(work(k), s.expected)
  {
    var delays := Shape(work, s, attempt);
    PatternExecs(attempt, delays, work(attempt + |delays|).Returned?);
  }

  /** One wait before each retry: the `k`-th is `retryDelayMs * (4 - retries + k)`. */
  lemma Delays<R>(work: nat -> Outcome<R>, s: Settings, attempt: nat)
    ensures var run := WithTransaction(true, work, s, attempt);
      && |Sleeps(run.trace)| == Execs(run.trace) - 1
      && forall k :: 0 <= k < |Sleeps(run.trace)| ==>
           Sleeps(run.trace)[k] == s.retryDelayMs * (4 - s.retries + k)
  {
    var delays := Shape(work, s, attempt);
    PatternExecs(attempt, delays, work(attempt + |delays|).Returned?);
    PatternSleeps(attempt, delays, work(attempt + |delays|).Returned?);
  }

  /** With no options: at most 4 executions, waiting 20, 40 and 60 ms. */
  lemma DefaultSchedule<R>(work: nat -> Outcome<R>)
    ensures var run := WithTransaction(true, work, Resolve(None), 0);
      var n := Execs(run.trace);
      1 <= n <= 4 && Sleeps(run.trace) == [20, 40, 60][..n - 1]
  {
    var s := Resolve(None);
    var run := WithTransaction(true, work, s, 0);
    Delays(work, s, 0);
    Attempts(work, s, 0);
    var n := Execs(run.trace);
    assert forall k :: 0 <= k < n - 1 ==> Sleeps(run.trace)[k] == [20, 40, 60][k];
  }

  /** Corrected: session `n` is started and ended once when attempt `n`
      ran, and never otherwise. */
  lemma EndsEach<R>(work: nat -> Outcome<R>, s: Settings, attempt: nat, n: nat)
    ensures var run := WithTransaction(true, work, s, attempt);
      Count(run.trace, EndSession(n)) == Count(run.trace, StartSession(n))
        == (if attempt <= n < attempt + Execs(run.trace) then 1 else 0)
  {
    var delays := Shape(work, s, attempt);
    PatternExecs(attempt, delays, work(attempt + |delays|).Returned?);
    PatternSessions(attempt, delays, work(attempt + |delays|).Returned?, n);
  }

  /** As written, an owner's retried attempt waits without ending its
      session before the next attempt's run. */
  lemma AsWrittenRetryStep<R>(work: nat -> Outcome<R>, s: Settings, attempt: nat)
    requires s.retries > 0 && Retried(work(attempt), s.expected)
    ensures var next := WithTransactionAsWritten(true, work, Fewer(s), attempt + 1);
      WithTransactionAsWritten(true, work, s, attempt) == Run(next.result, LeakedAttempt(attempt, RetryDelay(s)) + next.trace)
  {
  }

  /** As written, the last attempt is the same as in the corrected form. */
  lemma AsWrittenFinalStep<R>(work: nat -> Outcome<R>, s: Settings, attempt: nat)
    requires !(s.retries > 0 && Retried(work(attempt), s.expected))
    ensures WithTransactionAsWritten(true, work, s, attempt) == Run(Direct(work(attempt)), Closed(attempt, work(attempt).Returned?))
  {
  }

  /** As written, an owner's run is a leaky pattern with one retried attempt
      per returned delay. */
  lemma {:induction false} AsWrittenShape<R>(work: nat -> Outcome<R>, s: Settings, attempt: nat) returns (delays: seq<int>)
    ensures var run := WithTransactionAsWritten(true, work, s, attempt);
      run.trace == LeakyPattern(attempt, delays, work(attempt + |delays|).Returned?)
    decreases s.retries
  {
    if s.retries > 0 && Retried(work(attempt), s.expected) {
      AsWrittenRetryStep(work, s, attempt);
      var rest := AsWrittenShape(work, Fewer(s), attempt + 1);
      delays := [RetryDelay(s)] + rest;
      assert delays[1..] == rest;
    } else {
      AsWrittenFinalStep(work, s, attempt);
      delays := [];
    }
  }

  /** As written, every attempt still starts its own session once, but only
      the last attempt's session is ended. */
  lemma AsWrittenSessions<R>(work: nat -> Outcome<R>, s: Settings, attempt: nat, n: nat)
    ensures var run := WithTransactionAsWritten(true, work, s, attempt);
      && Count(run.trace, StartSession(n)) == (if attempt <= n < attempt + Execs(run.trace) then 1 else 0)
      && Count(run.trace, EndSession(n)) == (if n == attempt + Execs(run.trace) - 1 then 1 else 0)
  {
    var delays := AsWrittenShape(work, s, attempt);
    LeakyExecs(attempt, delays, work(attempt + |delays|).Returned?);
    LeakySessions(attempt, delays, work(attempt + |delays|).Returned?, n);
  }

  /** A concrete leak: with no options, the first attempt throws a plain
      error and the second succeeds; session 0 is never ended. */
  lemma AsWrittenLeakExample()
    ensures var work := (k: nat) => if k == 0 then Threw(Plain("boom")) else Returned(1);
      var run := WithTransactionAsWritten(true, work, Resolve(None), 0);
      run.result == Ok(1) && StartSession(0) in run.trace && EndSession(0) !in run.trace
  {
    var work := (k: nat) => if k == 0 then Threw(Plain("boom")) else Returned(1);
    assert !InstanceOfAny(Plain("boom"), [NotFound, Conflict]);
    var run := WithTransactionAsWritten(true, work, Resolve(None), 0);
    assert run.trace == [StartSession(0), StartTransaction(0), Exec(Owned(0)), Abort(0), Sleep(20),
                         StartSession(1), StartTransaction(1), Exec(Owned(1)), Commit(1), EndSession(1)];
  }

  /** Ending the retried sessions changes only the trace. */
  lemma {:induction false} FixKeepsResult<R>(owner: bool, work: nat -> Outcome<R>, s: Settings, attempt: nat)
    ensures WithTransaction(owner, work, s, attempt).result == WithTransactionAsWritten(owner, work, s, attempt).result
    decreases s.retries
  {
    match work(attempt)
    case Returned(v) =>
    case Threw(e) =>
      if owner && !ShouldThrowImmediately(TransformError(e), s.expected, s.retries, owner) {
        FixKeepsResult(owner, work, Fewer(s), attempt + 1);
      }
  }
}

=== FILE: entity_events.dfy ===
/** The entity event emitter (src/crud/services/entity-event.emitter.ts):
    after a write, events named after the entity and, optionally, its type.
    The event bus is modelled by the emissions it receives, in order; the
    clock is a parameter. */
module EntityEvents {
  import opened Wrappers
  import opened Json
  import opened QueryBuilder

  /** An entity id: a string or an ObjectId, whose `String()` is its hex
      form. */
  datatype EntityId = StrId(s: string) | ObjectId(hex: string)

  function IdText(id: EntityId): string {
    match id
    case StrId(s) => s
    case ObjectId(hex) => hex
  }

  function IdValue(id: EntityId): Value {
    match id
    case StrId(s) => Str(s)
    case ObjectId(hex) => Oid(hex)
  }

  /** The lifecycle actions with a typed event. */
  datatype Action = Created | Updated | Deleted

  function ActionName(a: Action): string {
    match a
    case Created => "created"
    case Updated => "updated"
    case Deleted => "deleted"
  }

  /** One `emit(name, payload)` call. */
  datatype Emission = Emission(name: string, payload: seq<Field>)

  const PREFIX: string := "entity."

  /** `buildEventName(entityId, action)`: `entity.<id>.<action>`. */
  function EventName(id: EntityId, action: string): (n: string)
    ensures |n| == |PREFIX| + |IdText(id)| + 1 + |action|
    ensures n[..|PREFIX|] == PREFIX
    ensures n[|PREFIX|..|PREFIX| + |IdText(id)|] == IdText(id)
    ensures n[|PREFIX| + |IdText(id)|] == '.'
    ensures n[|PREFIX| + |IdText(id)| + 1..] == action
  {
    PREFIX + IdText(id) + "." + action
  }

  /** Event names tell their entity and action apart: two names are equal
      only for the same id and action, as long as ids hold no dot. */
  lemma EventNameInjective(id1: EntityId, a1: string, id2: EntityId, a2: string)
    requires '.' !in IdText(id1) && '.' !in IdText(id2)
    requires EventName(id1, a1) == EventName(id2, a2)
    ensures IdText(id1) == IdText(id2) && a1 == a2
  {
  }

  /** The payload of a typed event: `{ id, type, timestamp }`. */
  function TypedEvent(id: EntityId, a: Action, now: string): seq<Field> {
    [Field("id", IdValue(id)), Field("type", Str(ActionName(a))), Field("timestamp", Date(now))]
  }

  /** `emitCreated` / `emitUpdated` / `emitDeleted(entityId, entityType)`:
      nothing without an event bus; otherwise the entity-scoped event, then
      the type-scoped one when a type is given. */
  function EmitAction(enabled: bool, a: Action, id: EntityId, entityType: Option<string>, now: string): (r: seq<Emission>)
    ensures !enabled ==> r == []
    ensures enabled ==> |r| == (if Given(entityType) then 2 else 1)
    ensures enabled ==> r[0].name == EventName(id, ActionName(a))
    ensures enabled && Given(entityType) ==> r[1].name == entityType.value + "." + ActionName(a)
    ensures forall i :: 0 <= i < |r| ==> r[i].payload == TypedEvent(id, a, now)
  {
    if !enabled then []
    else
      var event := TypedEvent(id, a, now);
      [Emission(EventName(id, ActionName(a)), event)]
        + (if Given(entityType) then [Emission(entityType.value + "." + ActionName(a), event)] else [])
  }

  /** Every typed event carries its entity's id and its action as `type`. */
  lemma TypedEventFields(enabled: bool, a: Action, id: EntityId, entityType: Option<string>, now: string, i: int)
    requires 0 <= i < |EmitAction(enabled, a, id, entityType, now)|
    ensures var p := EmitAction(enabled, a, id, entityType, now)[i].payload;
      && Get(p, "type") == Str(ActionName(a))
      && Get(p, "id") == IdValue(id)
      && Get(p, "timestamp") == Date(now)
  {
  }

  /** The three actions name their events apart: a listener of one
      entity's `created` never hears its `deleted`. */
  lemma ActionsDistinct(a: Action, b: Action, id: EntityId)
    requires a != b
    ensures EventName(id, ActionName(a)) != EventName(id, ActionName(b))
  {
    var na, nb := EventName(id, ActionName(a)), EventName(id, ActionName(b));
    assert na[|PREFIX| + |IdText(id)| + 1..] == ActionName(a);
    assert nb[|PREFIX| + |IdText(id)| + 1..] == ActionName(b);
  }

  /** `emitCustom(entityId, eventName, payload)`: one event named
      `entity.<id>.<eventName>` whose payload is `{ id, timestamp }` with the
      caller's payload spread over it. */
  function EmitCustom(enabled: bool, id: EntityId, eventName: string, payload: Option<seq<Field>>, now: string): (r: seq<Emission>)
    ensures !enabled ==> r == []
    ensures enabled ==> |r| == 1 && r[0].name == EventName(id, eventName)
  {
    if !enabled then []
    else [Emission(EventName(id, eventName), Spread([Field("id", IdValue(id)), Field("timestamp", Date(now))], payload.GetOr([])))]
  }

  /** In a custom event the caller's payload wins: its keys keep their
      values, even `id` and `timestamp`, and the base fields survive only
      where the payload does not set them. */
  lemma CustomPayloadWins(id: EntityId, eventName: string, payload: seq<Field>, now: string, k: string)
    requires DistinctKeys(payload)
    ensures var p := EmitCustom(true, id, eventName, Some(payload), now)[0].payload;
      && (k in Keys(payload) ==> Get(p, k) == Get(payload, k))
      && (k !in Keys(payload) && k == "id" ==> Get(p, k) == IdValue(id))
      && (k !in Keys(payload) && k == "timestamp" ==> Get(p, k) == Date(now))
  {
  }
}

=== FILE: errors.dfy ===
/** The exception vocabulary of the core: the MongoDB server error codes it
    recognises, the HTTP exception classes with their inheritance, and the
    values an operation can throw. */
module Errors {
  import opened Wrappers

  const DUPLICATE_KEY: int := 11000
  const WRITE_CONFLICT: int := 112
  const DOCUMENT_VALIDATION_FAILURE: int := 121
  const EXCEEDED_TIME_LIMIT: int := 50
  const NETWORK_TIMEOUT: int := 89
  const CURSOR_NOT_FOUND: int := 43

  /** The label the driver attaches to errors worth retrying as a whole. */
  const TRANSIENT_LABEL: string := "TransientTransactionError"

  /** The exception classes the core throws or tests with `instanceof`. */
  datatype ExceptionClass =
    | HttpException
    | BadRequest
    | Unauthorized
    | Forbidden
    | NotFound
    | Conflict
    | InternalServerError
    | DuplicateKey
    | WriteConflict
    | DocumentValidation
    | QueryTimeout
      /** Declared in src/common/errors/mongodb.errors.ts, which is not part
          of this model; taken to extend `ConflictException`. */
    | TransientTransaction
    | InvalidTransition
    | FinalStateTransition

  /** The direct superclass (`extends`), `None` for the root. */
  function Parent(c: ExceptionClass): Option<ExceptionClass> {
    match c
    case HttpException => None
    case BadRequest => Some(HttpException)
    case Unauthorized => Some(HttpException)
    case Forbidden => Some(HttpException)
    case NotFound => Some(HttpException)
    case Conflict => Some(HttpException)
    case InternalServerError => Some(HttpException)
    case DuplicateKey => Some(Conflict)
    case WriteConflict => Some(Conflict)
    case DocumentValidation => Some(BadRequest)
    case QueryTimeout => Some(Conflict)
    case TransientTransaction => Some(Conflict)
    case InvalidTransition => Some(Forbidden)
    case FinalStateTransition => Some(Forbidden)
  }

  /** The class followed by its superclasses up to the root. */
  function Ancestors(c: ExceptionClass): seq<ExceptionClass> {
    match c
    case HttpException => [HttpException]
    case DuplicateKey => [DuplicateKey, Conflict, HttpException]
    case WriteConflict => [WriteConflict, Conflict, HttpException]
    case DocumentValidation => [DocumentValidation, BadRequest, HttpException]
    case QueryTimeout => [QueryTimeout, Conflict, HttpException]
    case TransientTransaction => [TransientTransaction, Conflict, HttpException]
    case InvalidTransition => [InvalidTransition, Forbidden, HttpException]
    case FinalStateTransition => [FinalStateTransition, Forbidden, HttpException]
    case _ => [c, HttpException]
  }

  /** `instanceof` on classes: `c` is `a` or inherits from it. */
  predicate SubclassOf(c: ExceptionClass, a: ExceptionClass) {
    a in Ancestors(c)
  }

  /** The HTTP status of each class, inherited from the built-in parent. */
  function Status(c: ExceptionClass): int {
    match c
    case HttpException => 500
    case BadRequest => 400
    case Unauthorized => 401
    case Forbidden => 403
    case NotFound => 404
    case Conflict => 409
    case InternalServerError => 500
    case DuplicateKey => 409
    case WriteConflict => 409
    case DocumentValidation => 400
    case QueryTimeout => 409
    case TransientTransaction => 409
    case InvalidTransition => 403
    case FinalStateTransition => 403
  }

  /** A thrown value. */
  datatype Failure =
      /** A `MongoServerError` from the driver. `keyPattern` lists the keys of
          the violated index, `None` when the error carries none. */
    | MongoServer(code: int, labels: seq<string>, keyPattern: Option<seq<string>>)
      /** An instance of one of the exception classes; `field` is the
          duplicate-key field of a `DuplicateKeyException`. */
    | Exception(cls: ExceptionClass, message: string, field: Option<string>)
      /** Any other `Error`. */
    | Plain(message: string)

  /** `e instanceof A`. */
  predicate InstanceOf(e: Failure, a: ExceptionClass) {
    e.Exception? && SubclassOf(e.cls, a)
  }

  /** `classes.some(C => e instanceof C)`. */
  predicate InstanceOfAny(e: Failure, classes: seq<ExceptionClass>) {
    exists i :: 0 <= i < |classes| && InstanceOf(e, classes[i])
  }

  /** An exception of class `c` built with only a message. */
  function Raise(c: ExceptionClass, message: string): (e: Failure)
    ensures InstanceOf(e, c) && e.message == message
  {
    Exception(c, message, None)
  }

  /** The ancestor chain follows `extends`: it starts at the class itself,
      continues with its parent's chain and ends at `HttpException`; every
      class answers with the status of each ancestor below the root. */
  lemma AncestorsFollowParent(c: ExceptionClass)
    ensures Ancestors(c)[0] == c && Ancestors(c)[|Ancestors(c)| - 1] == HttpException
    ensures Parent(c).None? ==> Ancestors(c) == [c]
    ensures Parent(c).Some? ==> Ancestors(c) == [c] + Ancestors(Parent(c).value)
    ensures forall i :: 0 <= i < |Ancestors(c)| - 1 ==> Status(Ancestors(c)[i]) == Status(c)
  {
  }

  /** The MongoDB codes are pairwise distinct. */
  lemma CodesDistinct()
    ensures |{DUPLICATE_KEY, WRITE_CONFLICT, DOCUMENT_VALIDATION_FAILURE,
              EXCEEDED_TIME_LIMIT, NETWORK_TIMEOUT, CURSOR_NOT_FOUND}| == 6
  {
  }

  /** The classes of the MongoDB error file: duplicate key, write conflict and
      query timeout are conflicts (409), document validation is a bad request
      (400), and a query timeout is not a bad request. */
  lemma MongoExceptionKinds()
    ensures SubclassOf(DuplicateKey, Conflict) && Status(DuplicateKey) == 409
    ensures SubclassOf(WriteConflict, Conflict) && Status(WriteConflict) == 409
    ensures SubclassOf(DocumentValidation, BadRequest) && Status(DocumentValidation) == 400
    ensures SubclassOf(QueryTimeout, Conflict) && !SubclassOf(QueryTimeout, BadRequest)
    ensures SubclassOf(InvalidTransition, Forbidden) && !SubclassOf(InvalidTransition, Conflict)
  {
  }
}

=== FILE: exceptions_filter.dfy ===
/** The global exception filter (src/common/filters/all-exceptions.filter.ts):
    every exception that leaves a request handler becomes a JSON error body
    with a status, a message and an error label, and is logged at a severity
    fixed by the status. The clock and the request are parameters; the
    logger is modelled by the entry it would write. */
module ExceptionFilter {
  import opened Wrappers
  import opened Json
  import opened Strings
  import opened Errors

  /** What reaches the filter: an `HttpException` (its status, its class
      name, its `message` and the response it was built with, a string or
      an object), or anything else with the text it would print. */
  datatype Thrown =
    | Http(status: int, name: string, message: string, response: Value)
    | Other(text: string)

  /** `String(n)` for an integer. */
  function IntText(n: int): string {
    if n < 0 then "-" + NatToString(-n) else NatToString(n)
  }

  /** `String(v)` as `Array.prototype.join` applies it to an element:
      `undefined` and `null` become empty, arrays join with commas. */
  function ItemText(v: Value): string
    decreases v, 1
  {
    match v
    case Undefined => ""
    case Null => ""
    case Bool(b) => if b then "true" else "false"
    case Num(n) => IntText(n)
    case Str(s) => s
    case Arr(items) => JoinWith(ItemTexts(items), ",")
    case Obj(_) => "[object Object]"
    case Oid(hex) => hex
    case Date(text) => text
  }

  function ItemTexts(items: seq<Value>): (ts: seq<string>)
    ensures |ts| == |items|
    ensures forall i :: 0 <= i < |items| ==> ts[i] == ItemText(items[i])
    decreases items, 0
  {
    if |items| == 0 then [] else [ItemText(items[0])] + ItemTexts(items[1..])
  }

  const FALLBACK_MESSAGE: string := "An error occurred"

  /** `extractMessage(response)`: an array of messages joined with ", ", a
      string message as it is, anything else the fallback. */
  function ExtractMessage(response: Value): (m: string)
    ensures Member(response, "message").Arr? ==> m == JoinWith(ItemTexts(Member(response, "message").items), ", ")
    ensures Member(response, "message").Str? ==> m == Member(response, "message").s
    ensures !Member(response, "message").Arr? && !Member(response, "message").Str? ==> m == FALLBACK_MESSAGE
  {
    match Member(response, "message")
    case Arr(items) => JoinWith(ItemTexts(items), ", ")
    case Str(s) => s
    case _ => FALLBACK_MESSAGE
  }

  /** The status, message and error label of the body. The label is a
      string except when a response object carries a truthy non-string
      `error`, which is passed through. */
  datatype Details = Details(status: int, message: string, error: Value)

  const INTERNAL_STATUS: int := 500
  const INTERNAL_MESSAGE: string := "Internal server error"
  const INTERNAL_ERROR: string := "InternalServerError"

  /** `getErrorDetails(exception)`: an HTTP exception keeps its status; a
      string response is the message, labelled with the class name; an
      object response gives its extracted message and its own `error`
      unless that is falsy. Anything else is an opaque 500. */
  function GetErrorDetails(e: Thrown): (d: Details)
    ensures e.Other? ==> d == Details(INTERNAL_STATUS, INTERNAL_MESSAGE, Str(INTERNAL_ERROR))
    ensures e.Http? ==> d.status == e.status
    ensures e.Http? && e.response.Str? ==> d.message == e.response.s && d.error == Str(e.name)
    ensures e.Http? && !e.response.Str? ==> d.message == ExtractMessage(e.response)
    ensures e.Http? && !e.response.Str? ==>
      d.error == (if Truthy(Member(e.response, "error")) then Member(e.response, "error") else Str(e.name))
  {
    match e
    case Other(_) => Details(INTERNAL_STATUS, INTERNAL_MESSAGE, Str(INTERNAL_ERROR))
    case Http(status, name, _, response) =>
      if response.Str? then Details(status, response.s, Str(name))
      else
        var tag := Member(response, "error");
        Details(status, ExtractMessage(response), if Truthy(tag) then tag else Str(name))
  }

  /** The logger's severities. */
  datatype Level = LogError | LogWarn | Silent

  /** The severity band of a status: server errors are errors, client
      errors warnings, and anything below 400 is not logged. */
  function Severity(status: int): (l: Level)
    ensures l == LogError <==> status >= 500
    ensures l == LogWarn <==> 400 <= status < 500
    ensures l == Silent <==> status < 400
  {
    if status >= 500 then LogError else if status >= 400 then LogWarn else Silent
  }

  /** One log entry: its severity and its headline. */
  datatype LogEntry = LogEntry(level: Level, line: string)

  /** The text a warning prints for the exception: an `Error`'s message. */
  function ThrownText(e: Thrown): string {
    match e
    case Http(_, _, message, _) => message
    case Other(text) => text
  }

  /** `logException(exception, request, status)`. */
  function LogException(e: Thrown, verb: string, url: string, status: int): (entry: LogEntry)
    ensures entry.level == Severity(status)
    ensures entry.level == Silent ==> entry.line == ""
    ensures entry.level == LogWarn ==> entry.line == verb + " " + url + " - " + IntText(status) + ": " + ThrownText(e)
    ensures entry.level == LogError ==> entry.line == verb + " " + url + " - " + IntText(status)
  {
    var head := verb + " " + url + " - " + IntText(status);
    if status >= 500 then LogEntry(LogError, head)
    else if status >= 400 then LogEntry(LogWarn, head + ": " + ThrownText(e))
    else LogEntry(Silent, "")
  }

  /** The JSON body sent to the client. */
  datatype ErrorResponse = ErrorResponse(statusCode: int, message: string, error: Value, timestamp: string, path: string)

  /** `catch(exception, host)` for a request with the given method and URL at
      the given time: the body sent with the details' status, and the log
      entry written for that status. */
  function Catch(e: Thrown, verb: string, url: string, now: string): (r: (ErrorResponse, LogEntry))
    ensures var d := GetErrorDetails(e);
      r.0 == ErrorResponse(d.status, d.message, d.error, now, url)
    ensures r.1 == LogException(e, verb, url, r.0.statusCode)
  {
    var d := GetErrorDetails(e);
    (ErrorResponse(d.status, d.message, d.error, now, url), LogException(e, verb, url, d.status))
  }

  /** Anything that is not an HTTP exception answers 500 with the generic
      message and label, hiding its own text, and is logged as an error. */
  lemma UnexpectedIsOpaque(text: string, verb: string, url: string, now: string)
    ensures var r := Catch(Other(text), verb, url, now);
      && r.0 == ErrorResponse(500, "Internal server error", Str("InternalServerError"), now, url)
      && r.1.level == LogError && r.1.line == verb + " " + url + " - 500"
  {
    assert IntText(500) == "500" by {
      assert NatToString(50) == "50";
      assert NatToString(5) == "5";
    }
  }

  /** The response body a built-in Nest exception carries:
      `{ message, error: description, statusCode }`. */
  function StandardBody(message: Value, description: string, status: int): Value {
    Obj([Field("message", message), Field("error", Str(description)), Field("statusCode", Num(status))])
  }

  /** A built-in exception reaches the client with its status, its message
      and its description as the label; validation failures, whose message
      is a list, are reported joined with ", ". */
  lemma StandardDetails(status: int, name: string, msg: string, message: Value, description: string)
    requires description != ""
    ensures var d := GetErrorDetails(Http(status, name, msg, StandardBody(message, description, status)));
      && d.status == status && d.error == Str(description)
      && (message.Str? ==> d.message == message.s)
      && (message.Arr? ==> d.message == JoinWith(ItemTexts(message.items), ", "))
  {
    var body := StandardBody(message, description, status);
    assert Member(body, "message") == message;
    assert Member(body, "error") == Str(description);
  }

  /** An empty list of messages reports an empty message, not the
      fallback; one message reports itself; two are separated by ", ". */
  lemma ListedMessages(a: string, b: string)
    ensures ExtractMessage(Obj([Field("message", Arr([]))])) == ""
    ensures ExtractMessage(Obj([Field("message", Arr([Str(a)]))])) == a
    ensures ExtractMessage(Obj([Field("message", Arr([Str(a), Str(b)]))])) == a + ", " + b
  {
    assert ItemTexts([Str(a), Str(b)]) == [a, b];
    assert JoinWith([a, b], ", ") == a + ", " + JoinWith([b], ", ");
  }

  /** The class name (`exception.name`) of each exception class. */
  function ClassName(c: ExceptionClass): string {
    match c
    case HttpException => "HttpException"
    case BadRequest => "BadRequestException"
    case Unauthorized => "UnauthorizedException"
    case Forbidden => "ForbiddenException"
    case NotFound => "NotFoundException"
    case Conflict => "ConflictException"
    case InternalServerError => "InternalServerErrorException"
    case DuplicateKey => "DuplicateKeyException"
    case WriteConflict => "WriteConflictException"
    case DocumentValidation => "DocumentValidationException"
    case QueryTimeout => "QueryTimeoutException"
    case TransientTransaction => "TransientTransactionException"
    case InvalidTransition => "InvalidTransitionException"
    case FinalStateTransition => "FinalStateTransitionException"
  }

  /** The default description of a built-in class, inherited by the
      subclasses that pass only a message. */
  function Phrase(c: ExceptionClass): string {
    match Status(c)
    case 400 => "Bad Request"
    case 401 => "Unauthorized"
    case 403 => "Forbidden"
    case 404 => "Not Found"
    case 409 => "Conflict"
    case _ => "Internal Server Error"
  }

  /** A thrown value as the filter sees it. Exceptions built with only a
      message carry the standard body; the transition exceptions pass
      their own description and are not covered. */
  function OfFailure(e: Failure): Thrown
    requires e.Exception? ==> e.cls !in {HttpException, InvalidTransition, FinalStateTransition}
  {
    match e
    case Exception(cls, message, _) => Http(Status(cls), ClassName(cls), message, StandardBody(Str(message), Phrase(cls), Status(cls)))
    case MongoServer(_, _, _) => Other("MongoServerError")
    case Plain(message) => Other(message)
  }

  /** What the client sees for a thrown value built with a message only:
      the exception answers with its class's status, its message and its
      status's phrase (so a duplicate key is a 409 "Conflict"), and a raw
      driver error or plain `Error` is an opaque 500. An exception built
      with a description of its own, such as the Logto client's
      `InternalServerErrorException` with "GET <path> failed", answers with
      that description instead; a `Failure` does not carry it. */
  lemma FailureDetails(e: Failure)
    requires e.Exception? ==> e.cls !in {HttpException, InvalidTransition, FinalStateTransition}
    ensures e.Exception? ==> GetErrorDetails(OfFailure(e)) == Details(Status(e.cls), e.message, Str(Phrase(e.cls)))
    ensures !e.Exception? ==> GetErrorDetails(OfFailure(e)) == Details(500, "Internal server error", Str("InternalServerError"))
    ensures e.Exception? ==> Severity(GetErrorDetails(OfFailure(e)).status) == (if Status(e.cls) >= 500 then LogError else LogWarn)
  {
    if e.Exception? {
      StandardDetails(Status(e.cls), ClassName(e.cls), e.message, Str(e.message), Phrase(e.cls));
    }
  }
}

=== FILE: fsm.dfy ===
/** The state-machine helpers of src/crud/utils/fsm.utils.ts and the status
    machine of src/crud/services/auditable.service.ts, with the machine
    library's behaviour reduced to the transition table it is given: an
    event is possible in a state iff the state's `on` object has that event
    as a key, and it leads to the state named there. */
module Fsm {
  import opened Wrappers
  import opened Errors

  /** One entry of a state's `on` object: `event` leads to `target`. */
  datatype Edge = Edge(event: string, target: string)

  /** A state of the configuration: its `on` object when it has one, and
      whether it is declared `type: 'final'`. */
  datatype StateConfig = StateConfig(on: Option<seq<Edge>>, final: bool)

  /** `FsmConfig`: the machine id, its initial state and the states by name. */
  datatype FsmConfig = FsmConfig(id: string, initial: string, states: map<string, StateConfig>)

  /** `FsmTransitionResult`. */
  datatype TransitionResult = TransitionResult(from: string, to: string, event: string, isValid: bool)

  /** `InvalidTransitionException(from, to)`: a Forbidden exception with the
      message "Invalid transition". Its description, "Transition from
      <from> to <to> is not allowed", which the exception filter reports as
      `error`, is not carried: a `Failure` holds only a class and a
      message, so `from` and `to` do not appear in the value. */
  function InvalidTransitionError(from: string, to: string): (e: Failure)
    ensures InstanceOf(e, InvalidTransition) && InstanceOf(e, Forbidden) && Status(e.cls) == 403
    ensures e.message == "Invalid transition"
  {
    Raise(InvalidTransition, "Invalid transition")
  }

  /** The events of an `on` object, in order (`Object.keys`). */
  function Events(on: seq<Edge>): (es: seq<string>)
    ensures |es| == |on|
    ensures forall i :: 0 <= i < |on| ==> es[i] == on[i].event
  {
    if |on| == 0 then [] else [on[0].event] + Events(on[1..])
  }

  /** `on[event]`: the target of the event's entry, if the object has one.
      The entries come from a JavaScript object, whose keys are distinct, so
      the first entry for an event is its only one; were an event repeated,
      JavaScript would keep the last. */
  function TargetOf(on: seq<Edge>, event: string): (t: Option<string>)
    ensures t.Some? <==> event in Events(on)
    ensures t.Some? ==> Edge(event, t.value) in on
  {
    if |on| == 0 then None
    else if on[0].event == event then Some(on[0].target)
    else
      assert Events(on) == [on[0].event] + Events(on[1..]);
      TargetOf(on[1..], event)
  }

  /** The `on` entries of a state; a state without `on`, or one missing from
      the configuration, has none. */
  function EdgesOf(config: FsmConfig, from: string): seq<Edge> {
    if from in config.states && config.states[from].on.Some? then config.states[from].on.value else []
  }

  /** `canTransition(from, event)`: the machine, put in state `from`, can
      take the event. */
  predicate CanTransition(config: FsmConfig, from: string, event: string) {
    TargetOf(EdgesOf(config, from), event).Some?
  }

  /** `getNextState(from, event)`: `null` when the event cannot be taken,
      otherwise the state it leads to. */
  function GetNextState(config: FsmConfig, from: string, event: string): (r: Option<string>)
    ensures r.Some? <==> CanTransition(config, from, event)
    ensures r.Some? ==> from in config.states && Edge(event, r.value) in EdgesOf(config, from)
  {
    TargetOf(EdgesOf(config, from), event)
  }

  /** `transition(from, event)`: the transition taken, or
      `InvalidTransitionException` when there is none or it leads to a state
      whose name is the empty (falsy) string. */
  function Transition(config: FsmConfig, from: string, event: string): (r: Result<TransitionResult, Failure>)
    ensures !CanTransition(config, from, event) ==> r == Err(InvalidTransitionError(from, event))
    ensures r.Ok? ==>
      && r.value.from == from && r.value.event == event && r.value.isValid
      && r.value.to != "" && Edge(event, r.value.to) in EdgesOf(config, from)
    ensures r.Err? ==>
      && r.error == InvalidTransitionError(from, event)
      && (!CanTransition(config, from, event) || GetNextState(config, from, event) == Some(""))
  {
    match GetNextState(config, from, event)
    case None => Err(InvalidTransitionError(from, event))
    case Some(next) =>
      if next == "" then Err(InvalidTransitionError(from, event))
      else Ok(TransitionResult(from, next, event, true))
  }

  /** `getAvailableEvents(from)`: the keys of the state's `on` object, `[]`
      without one. */
  function GetAvailableEvents(config: FsmConfig, from: string): (es: seq<string>)
    ensures from !in config.states || config.states[from].on.None? ==> es == []
  {
    Events(EdgesOf(config, from))
  }

  /** The machine can take an event exactly when the state lists it among
      its available events. */
  lemma CanIffAvailable(config: FsmConfig, from: string, event: string)
    ensures CanTransition(config, from, event) <==> event in GetAvailableEvents(config, from)
    ensures CanTransition(config, from, event) ==> from in config.states && config.states[from].on.Some?
  {
  }

  /** `isFinalState(state)`: the state is declared with `type: 'final'`. */
  predicate IsFinalState(config: FsmConfig, state: string) {
    state in config.states && config.states[state].final
  }

  // ---------------------------------------------------------------------
  // createSimpleTransitionTable: the same question answered from a plain
  // table `from -> allowed targets`, without a machine.

  type TransitionTable = map<string, seq<string>>

  /** `canTransition(from, to)`: `to` is listed for `from`; an unlisted
      `from` allows nothing. */
  predicate TableAllows(t: TransitionTable, from: string, to: string) {
    from in t && to in t[from]
  }

  /** `validate(from, to)`: InvalidTransitionException exactly when the
      table does not allow the move. */
  function Validate(t: TransitionTable, from: string, to: string): (r: Result<(), Failure>)
    ensures r.Err? <==> !(from in t && to in t[from])
    ensures r.Err? ==> r.error == InvalidTransitionError(from, to)
  {
    if TableAllows(t, from, to) then Ok(()) else Err(InvalidTransitionError(from, to))
  }

  /** `getNextStates(from)`: the listed targets, `[]` for an unlisted state. */
  function GetNextStates(t: TransitionTable, from: string): (r: seq<string>)
    ensures from !in t ==> r == []
  {
    if from in t then t[from] else []
  }

  /** The table allows a move exactly when the target is among the next
      states, and `validate` passes exactly then. */
  lemma TableAgrees(t: TransitionTable, from: string, to: string)
    ensures TableAllows(t, from, to) <==> to in GetNextStates(t, from)
    ensures Validate(t, from, to).Ok? <==> to in GetNextStates(t, from)
  {
  }

  // ---------------------------------------------------------------------
  // createStatusMachine: a machine whose events are the target statuses.

  /** `Object.fromEntries(toStates.map(to => [to, to]))`. */
  function SelfEdges(tos: seq<string>): (on: seq<Edge>)
    ensures |on| == |tos|
    ensures forall i :: 0 <= i < |tos| ==> on[i] == Edge(tos[i], tos[i])
  {
    if |tos| == 0 then [] else [Edge(tos[0], tos[0])] + SelfEdges(tos[1..])
  }

  /** `createStatusMachine(id, initial, transitions)`: one state per table
      entry, each with an `on` entry `to -> to` per allowed target; no state
      is final. */
  function StatusMachine(id: string, initial: string, t: TransitionTable): (m: FsmConfig)
    ensures m.states.Keys == t.Keys
    ensures forall from :: from in m.states ==> !m.states[from].final && m.states[from].on.Some?
  {
    FsmConfig(id, initial, map from | from in t :: StateConfig(Some(SelfEdges(t[from])), false))
  }

  /** In a self-edge object an event is present iff it is one of the
      targets, and it leads to itself. */
  lemma {:induction false} SelfEdgesTarget(tos: seq<string>, to: string)
    ensures TargetOf(SelfEdges(tos), to) == if to in tos then Some(to) else None
  {
    if |tos| > 0 {
      SelfEdgesTarget(tos[1..], to);
      assert SelfEdges(tos)[1..] == SelfEdges(tos[1..]);
      assert to in tos <==> to == tos[0] || to in tos[1..];
    }
  }

  /** The status machine permits a move exactly when the table lists it,
      and the move leads to the requested status: it answers as the simple
      transition table does. */
  lemma StatusMachineAgrees(id: string, initial: string, t: TransitionTable, from: string, to: string)
    ensures CanTransition(StatusMachine(id, initial, t), from, to) <==> TableAllows(t, from, to)
    ensures TableAllows(t, from, to) ==> GetNextState(StatusMachine(id, initial, t), from, to) == Some(to)
    ensures GetAvailableEvents(StatusMachine(id, initial, t), from) == GetNextStates(t, from)
  {
    var m := StatusMachine(id, initial, t);
    if from in t {
      assert EdgesOf(m, from) == SelfEdges(t[from]);
      SelfEdgesTarget(t[from], to);
    }
  }
}

=== FILE: fsm_processor.dfy ===
/** `AbstractFsmProcessor` (src/crud/services/fsm.processor.ts): the policy
    of the queue worker that drives an auditable entity through its state
    machine. A job names an entity; the worker loads it, lets the concrete
    handler compute the next status, records it through `updateStatus`, and
    requeues the entity with a staggered, capped exponential delay until its
    job state says it is done or the iteration count reaches the cut-off.
    The concrete processor's `getJobState` and `handleJob` are parameters. */
module FsmProcessor {
  import opened Wrappers
  import opened Errors
  import opened Session
  import opened Json
  import opened Store
  import opened CrudService
  import opened Fsm
  import opened QueryBuilder
  import opened AuditableEntity
  import opened AuditableService

  /** `FsmJobState`: where the entity stands as a queue job. */
  datatype JobState = Initial | Processing | Stuck | Final

  /** What `finishProcessing` does: nothing more (`Done`), stop and ask for
      manual intervention after too many iterations (`GaveUp`), or call
      `handleRequeueJob` once with the delay. */
  datatype FinishAction = Done | GaveUp(iterations: int) | Requeue(delay: real)

  /** `FsmHandlerResponse` as the processor uses it: the status change to
      record and an optional base delay. */
  datatype HandlerResponse = HandlerResponse(statusUpdate: StatusUpdateDto, delay: Option<int>)

  /** How a `process` call that does not throw ends: the entity could not
      be processed, or it was processed and finished with the action. */
  datatype ProcessOutcome = Skipped | Finished(action: FinishAction)

  /** `maxRetries`. */
  const MAX_RETRIES: int := 50

  /** The default `baseDelay` of `getDelay`, in milliseconds. */
  const DEFAULT_BASE_DELAY: int := 200

  /** `max_delay`: 15 minutes in milliseconds. */
  const MAX_DELAY: int := 1000 * 60 * 15

  /** `canProcess`: every job state but FINAL may be processed. */
  function CanProcess(s: JobState): (b: bool)
    ensures b <==> s != Final
  {
    match s
    case Initial => true
    case Processing => true
    case Stuck => true
    case Final => false
  }

  /** `shouldRequeue`: only INITIAL and PROCESSING jobs go back to the
      queue; a job that is requeued may also be processed. */
  function ShouldRequeue(s: JobState): (b: bool)
    ensures b <==> s == Initial || s == Processing
    ensures b ==> CanProcess(s)
    ensures s == Stuck ==> CanProcess(s) && !b
  {
    match s
    case Initial => true
    case Processing => true
    case Stuck => false
    case Final => false
  }

  // ---------------------------------------------------------------------
  // getDelay

  /** JavaScript's `%` on integers: the remainder takes the sign of the
      dividend. */
  function JsRem(n: int, m: int): (r: int)
    requires m > 0
  {
    if n >= 0 then n % m else -((-n) % m)
  }

  /** `n % 10` in JavaScript: the position of `n` in its period of 10,
      negative for a negative count. */
  lemma JsRem10(n: int)
    ensures -10 < JsRem(n, 10) < 10
    ensures n >= 0 ==> 0 <= JsRem(n, 10) && JsRem(n + 10, 10) == JsRem(n, 10)
    ensures n < 0 ==> JsRem(n, 10) <= 0 && JsRem(n, 10) == -JsRem(-n, 10)
    ensures (n - JsRem(n, 10)) % 10 == 0
  {
  }

  /** `Math.pow(2, e)` for an integer exponent, exactly. */
  function Pow2(e: int): (p: real)
    ensures p > 0.0
    decreases if e >= 0 then e else -e
  {
    if e == 0 then 1.0
    else if e > 0 then 2.0 * Pow2(e - 1)
    else Pow2(e + 1) / 2.0
  }

  /** Each step up in the exponent doubles the power. */
  lemma Pow2Step(e: int)
    ensures Pow2(e + 1) == 2.0 * Pow2(e)
  {
  }

  /** The power grows with the exponent. */
  lemma {:induction false} Pow2Mono(a: int, b: int)
    requires a <= b
    ensures Pow2(a) <= Pow2(b)
    decreases b - a
  {
    if a < b {
      Pow2Mono(a, b - 1);
      Pow2Step(b - 1);
    }
  }

  function Min(x: real, y: real): real {
    if x <= y then x else y
  }

  /** The uncapped delay of iteration `count` within a period:
      `baseDelay * 2^(count - 1)`. */
  function RawDelay(baseDelay: int, count: int): real {
    baseDelay as real * Pow2(count - 1)
  }

  /** `getDelay(baseDelay, retryCount)`: the uncapped delay of the count's
      position in its period of 10, capped at 15 minutes. */
  function GetDelay(baseDelay: int, retryCount: int): (d: real)
    ensures d <= MAX_DELAY as real
    ensures baseDelay >= 0 ==> 0.0 <= d
    ensures d == MAX_DELAY as real || d == RawDelay(baseDelay, JsRem(retryCount, 10))
    ensures d <= RawDelay(baseDelay, JsRem(retryCount, 10))
    ensures RawDelay(baseDelay, JsRem(retryCount, 10)) <= MAX_DELAY as real ==> d == RawDelay(baseDelay, JsRem(retryCount, 10))
  {
    Min(RawDelay(baseDelay, JsRem(retryCount, 10)), MAX_DELAY as real)
  }

  /** The delay repeats every 10 iterations. */
  lemma DelayPeriodic(baseDelay: int, n: int)
    requires n >= 0
    ensures GetDelay(baseDelay, n + 10) == GetDelay(baseDelay, n)
  {
    assert JsRem(n + 10, 10) == JsRem(n, 10);
  }

  /** At the start of each period the delay is back to half the base. */
  lemma DelayReset(baseDelay: int, n: int)
    requires JsRem(n, 10) == 0
    ensures GetDelay(baseDelay, n) == Min(baseDelay as real / 2.0, MAX_DELAY as real)
  {
    assert Pow2(-1) == 0.5;
  }

  /** Within a period, each iteration doubles the uncapped delay, so the
      delay never shrinks from one iteration to the next. */
  lemma DelayDoubles(baseDelay: int, n: int)
    requires baseDelay >= 0 && n >= 0 && JsRem(n, 10) != 9
    ensures RawDelay(baseDelay, JsRem(n + 1, 10)) == 2.0 * RawDelay(baseDelay, JsRem(n, 10))
    ensures GetDelay(baseDelay, n) <= GetDelay(baseDelay, n + 1)
  {
    assert JsRem(n + 1, 10) == JsRem(n, 10) + 1;
    Pow2Step(JsRem(n, 10) - 1);
  }

  /** With the default base of 200 ms the delays run 100, 200, ..., 51200 ms
      and never reach the cap. */
  lemma DefaultDelays(n: int)
    requires n >= 0
    ensures GetDelay(DEFAULT_BASE_DELAY, n) == RawDelay(DEFAULT_BASE_DELAY, JsRem(n, 10))
    ensures 100.0 <= GetDelay(DEFAULT_BASE_DELAY, n) <= 51200.0
    ensures JsRem(n, 10) == 0 ==> GetDelay(DEFAULT_BASE_DELAY, n) == 100.0
    ensures JsRem(n, 10) == 9 ==> GetDelay(DEFAULT_BASE_DELAY, n) == 51200.0
  {
    var k := JsRem(n, 10);
    Pow2Mono(k - 1, 8);
    Pow2Mono(-1, k - 1);
    assert Pow2(8) == 256.0;
    assert Pow2(-1) == 0.5;
  }

  // ---------------------------------------------------------------------
  // finishProcessing

  /** The base delay `getDelay` uses: the handler's, or 200 ms when it gives
      none. */
  function BaseOr(delay: Option<int>): int {
    if delay.Some? then delay.value else DEFAULT_BASE_DELAY
  }

  /** The decision of `finishProcessing` once the job state and the
      iteration count are known. */
  function FinishAfter(s: JobState, iterations: int, delay: Option<int>): (a: FinishAction)
    ensures a.Done? <==> !ShouldRequeue(s)
    ensures a.GaveUp? <==> ShouldRequeue(s) && iterations >= MAX_RETRIES
    ensures a.GaveUp? ==> a.iterations == iterations
    ensures a.Requeue? ==>
      && iterations < MAX_RETRIES
      && a.delay == GetDelay(BaseOr(delay), iterations)
      && a.delay <= MAX_DELAY as real
  {
    if !ShouldRequeue(s) then Done
    else if iterations >= MAX_RETRIES then GaveUp(iterations)
    else Requeue(GetDelay(BaseOr(delay), iterations))
  }

  /** `finishProcessing(entity, baseDelay)`: the iteration count is read
      from the entity's current audit entry (0 without one). */
  function FinishProcessing(d: Doc, s: JobState, delay: Option<int>): (a: FinishAction)
    ensures a.Requeue? ==> ShouldRequeue(s) && IterationsOf(GetCurrentState(d)) < MAX_RETRIES
    ensures a.GaveUp? ==> a.iterations == IterationsOf(GetCurrentState(d)) >= MAX_RETRIES
  {
    FinishAfter(s, IterationsOf(GetCurrentState(d)), delay)
  }

  // ---------------------------------------------------------------------
  // process

  /** `process(job)`: `entityId` is `job.data[key]`, `jobState` and `handle`
      are the concrete processor's `getJobState` and `handleJob`. The lookup
      and the status update run in transactions of their own; the result
      pairs the store after the call with how the call ended. */
  function Process(c: Collection, entityId: Option<string>, jobState: Doc -> JobState,
                   handle: Doc -> Result<HandlerResponse, Failure>, machine: Option<FsmConfig>,
                   modelName: string): (r: (Collection, Result<ProcessOutcome, Failure>))
    ensures !Given(entityId) ==> r == (c, Err(Raise(BadRequest, "Entity ID is required")))
    ensures Given(entityId) && entityId.value !in c ==> r == (c, Err(Raise(NotFound, NotFoundMessage(modelName))))
    ensures Given(entityId) && entityId.value in c && !CanProcess(jobState(c[entityId.value])) ==> r == (c, Ok(Skipped))
    ensures (Given(entityId) && entityId.value in c && CanProcess(jobState(c[entityId.value]))
             && handle(c[entityId.value]).Err?) ==> r == (c, Err(handle(c[entityId.value]).error))
    ensures r.1.Ok? && r.1.value.Skipped? ==> r.0 == c
  {
    if !Given(entityId) then (c, Err(Raise(BadRequest, "Entity ID is required")))
    else
      var id := entityId.value;
      if id !in c then (c, Err(Raise(NotFound, NotFoundMessage(modelName))))
      else if !CanProcess(jobState(c[id])) then (c, Ok(Skipped))
      else
        match handle(c[id])
        case Err(e) => (c, Err(e))
        case Ok(resp) => AfterUpdate(UpdateStatus(c, id, resp.statusUpdate, machine, true, modelName), jobState, resp.delay)
  }

  /** The rest of `process` once `updateStatus` has run: its error
      propagates; otherwise `finishProcessing` runs on the entity it
      returned. */
  function AfterUpdate(u: (Collection, Run<Option<Doc>>), jobState: Doc -> JobState, delay: Option<int>)
    : (r: (Collection, Result<ProcessOutcome, Failure>))
    ensures r.0 == u.0
    ensures u.1.result.Err? ==> r.1 == Err(u.1.result.error)
    ensures u.1.result.Ok? && u.1.result.value.Some? ==>
      r.1 == Ok(Finished(FinishProcessing(u.1.result.value.value, jobState(u.1.result.value.value), delay)))
  {
    match u.1.result
    case Err(e) => (u.0, Err(e))
    case Ok(None) => (u.0, Err(Plain("Cannot read properties of null (reading '_id')")))
    case Ok(Some(d')) => (u.0, Ok(Finished(FinishProcessing(d', jobState(d'), delay))))
  }

  /** A processable entity whose handler asks for an allowed move: the
      status is recorded with one new audit entry and `finishProcessing`
      runs on the updated entity. */
  lemma ProcessAdvances(c: Collection, id: string, jobState: Doc -> JobState,
                        handle: Doc -> Result<HandlerResponse, Failure>, machine: Option<FsmConfig>,
                        modelName: string, resp: HandlerResponse)
    requires id != "" && id in c && CanProcess(jobState(c[id])) && handle(c[id]) == Ok(resp)
    requires MayTransition(machine, StatusText(c[id]), resp.statusUpdate.status)
    ensures var d' := StatusWritten(c[id], resp.statusUpdate);
      && Process(c, Some(id), jobState, handle, machine, modelName)
         == (c[id := d'], Ok(Finished(FinishProcessing(d', jobState(d'), resp.delay))))
      && StatusOf(d') == Str(resp.statusUpdate.status)
      && Trail(d') == Trail(c[id]) + [ToJson(AuditEntry(resp.statusUpdate))]
  {
    var dto := resp.statusUpdate;
    var entry := ToJson(AuditEntry(dto));
    RecordStatusOk(c, id, dto.status, entry, machine, modelName);
    StatusWrite(c[id], dto.status, entry);
  }

  /** A move the machine rejects ends the job with
      InvalidTransitionException, after four attempts of the update, and
      nothing is written or requeued. */
  lemma ProcessRejected(c: Collection, id: string, jobState: Doc -> JobState,
                        handle: Doc -> Result<HandlerResponse, Failure>, machine: Option<FsmConfig>,
                        modelName: string, resp: HandlerResponse)
    requires id != "" && id in c && CanProcess(jobState(c[id])) && handle(c[id]) == Ok(resp)
    requires !MayTransition(machine, StatusText(c[id]), resp.statusUpdate.status)
    ensures Process(c, Some(id), jobState, handle, machine, modelName)
      == (c, Err(InvalidTransitionError(StatusText(c[id]), resp.statusUpdate.status)))
  {
    var dto := resp.statusUpdate;
    UpdateStatusRejected(c, id, dto, machine, modelName);
    var u := UpdateStatus(c, id, dto, machine, true, modelName);
    assert u.0 == c && u.1.result == Err(InvalidTransitionError(StatusText(c[id]), dto.status));
    assert Process(c, Some(id), jobState, handle, machine, modelName) == AfterUpdate(u, jobState, resp.delay);
  }

  /** As written, the entry `updateStatus` has just appended carries no
      iteration count, so `finishProcessing` always reads 0: a processed
      entity is never given up on, and its requeue delay is always the first
      of the period, half the base. */
  lemma ProcessIterationsStayZero(c: Collection, id: string, jobState: Doc -> JobState,
                                  handle: Doc -> Result<HandlerResponse, Failure>, machine: Option<FsmConfig>,
                                  modelName: string, resp: HandlerResponse)
    requires id != "" && id in c && CanProcess(jobState(c[id])) && handle(c[id]) == Ok(resp)
    requires MayTransition(machine, StatusText(c[id]), resp.statusUpdate.status)
    ensures var r := Process(c, Some(id), jobState, handle, machine, modelName).1;
      && r.Ok? && r.value.Finished? && !r.value.action.GaveUp?
      && (r.value.action.Requeue? ==> r.value.action.delay == GetDelay(BaseOr(resp.delay), 0))
  {
    ProcessAdvances(c, id, jobState, handle, machine, modelName, resp);
    var d' := StatusWritten(c[id], resp.statusUpdate);
    assert GetCurrentState(d') == Some(ToJson(AuditEntry(resp.statusUpdate)));
    EntryIterations(AuditEntry(resp.statusUpdate));
  }

  /** A concrete case: an entity that stays PROCESSING under the default
      base delay is requeued after 100 ms on every pass, however many passes
      it has had. */
  lemma ProcessingAlwaysWaits100(c: Collection, id: string, handle: Doc -> Result<HandlerResponse, Failure>,
                                 modelName: string, dto: StatusUpdateDto)
    requires id != "" && id in c && handle(c[id]) == Ok(HandlerResponse(dto, None))
    ensures Process(c, Some(id), (d: Doc) => Processing, handle, None, modelName).1
      == Ok(Finished(Requeue(100.0)))
  {
    ProcessIterationsStayZero(c, id, (d: Doc) => Processing, handle, None, modelName, HandlerResponse(dto, None));
    DefaultDelays(0);
  }

  // ---------------------------------------------------------------------
  // The corrected processor: each pass records the next iteration count in
  // the entry it appends, so `finishProcessing` sees the passes so far.

  /** The audit entry of a pass after `previous` counted passes. */
  function CountedEntry(dto: StatusUpdateDto, previous: int): AuditState {
    AuditEntry(dto).(iterations := Some(previous + 1))
  }

  /** `process` with the counted entry. */
  function ProcessCounted(c: Collection, entityId: Option<string>, jobState: Doc -> JobState,
                          handle: Doc -> Result<HandlerResponse, Failure>, machine: Option<FsmConfig>,
                          modelName: string): (r: (Collection, Result<ProcessOutcome, Failure>))
    ensures !Given(entityId) ==> r == (c, Err(Raise(BadRequest, "Entity ID is required")))
    ensures Given(entityId) && entityId.value !in c ==> r == (c, Err(Raise(NotFound, NotFoundMessage(modelName))))
    ensures Given(entityId) && entityId.value in c && !CanProcess(jobState(c[entityId.value])) ==> r == (c, Ok(Skipped))
    ensures r.1.Ok? && r.1.value.Skipped? ==> r.0 == c
  {
    if !Given(entityId) then (c, Err(Raise(BadRequest, "Entity ID is required")))
    else
      var id := entityId.value;
      if id !in c then (c, Err(Raise(NotFound, NotFoundMessage(modelName))))
      else if !CanProcess(jobState(c[id])) then (c, Ok(Skipped))
      else
        match handle(c[id])
        case Err(e) => (c, Err(e))
        case Ok(resp) =>
          var entry := ToJson(CountedEntry(resp.statusUpdate, IterationsOf(GetCurrentState(c[id]))));
          AfterUpdate(RecordStatus(c, id, resp.statusUpdate.status, entry, machine, true, modelName), jobState, resp.delay)
  }

  /** Each corrected pass raises the iteration count by one, and the
      requeue decision sees the raised count: after the pass that brings it
      to 50 a job that would be requeued is given up on, and before that the
      delay follows the count through its period. */
  lemma ProcessCountedCounts(c: Collection, id: string, jobState: Doc -> JobState,
                             handle: Doc -> Result<HandlerResponse, Failure>, machine: Option<FsmConfig>,
                             modelName: string, resp: HandlerResponse)
    requires id != "" && id in c && CanProcess(jobState(c[id])) && handle(c[id]) == Ok(resp)
    requires MayTransition(machine, StatusText(c[id]), resp.statusUpdate.status)
    ensures var n := IterationsOf(GetCurrentState(c[id])) + 1;
      var (c', r) := ProcessCounted(c, Some(id), jobState, handle, machine, modelName);
      && id in c' && IterationsOf(GetCurrentState(c'[id])) == n
      && r == Ok(Finished(FinishAfter(jobState(c'[id]), n, resp.delay)))
  {
    var prev := IterationsOf(GetCurrentState(c[id]));
    var entry := ToJson(CountedEntry(resp.statusUpdate, prev));
    RecordStatusOk(c, id, resp.statusUpdate.status, entry, machine, modelName);
    StatusWrite(c[id], resp.statusUpdate.status, entry);
    EntryIterations(CountedEntry(resp.statusUpdate, prev));
  }

  /** The corrected processor does give up: a requeued job whose current
      entry counts 49 passes ends its 50th pass with GaveUp. */
  lemma ProcessCountedGivesUp(c: Collection, id: string, jobState: Doc -> JobState,
                              handle: Doc -> Result<HandlerResponse, Failure>, machine: Option<FsmConfig>,
                              modelName: string, resp: HandlerResponse)
    requires id != "" && id in c && CanProcess(jobState(c[id])) && handle(c[id]) == Ok(resp)
    requires MayTransition(machine, StatusText(c[id]), resp.statusUpdate.status)
    requires IterationsOf(GetCurrentState(c[id])) == MAX_RETRIES - 1
    requires forall d :: ShouldRequeue(jobState(d))
    ensures ProcessCounted(c, Some(id), jobState, handle, machine, modelName).1 == Ok(Finished(GaveUp(MAX_RETRIES)))
  {
    ProcessCountedCounts(c, id, jobState, handle, machine, modelName, resp);
  }
}

=== FILE: json.dfy ===
/** JavaScript values as the core handles them: plain objects keep their keys
    in insertion order (`seq<Field>`), and assignment `o[k] = v` replaces the
    value of an existing key in place or appends a new key at the end. */
module Json {
  import opened Wrappers
  import opened Strings

  /** A JSON-like value. `Oid` is a MongoDB ObjectId and `Date` a JavaScript
      `Date`; numbers are integers (fractions and NaN are not modelled). */
  datatype Value =
    | Undefined
    | Null
    | Bool(b: bool)
    | Num(n: int)
    | Str(s: string)
    | Arr(items: seq<Value>)
    | Obj(fields: seq<Field>)
    | Oid(hex: string)
    | Date(text: string)

  /** One own enumerable property of a plain object. */
  datatype Field = Field(key: string, val: Value)

  /** JavaScript truthiness (`if (v)`, `v || d`, `!v`). */
  predicate Truthy(v: Value) {
    match v
    case Undefined => false
    case Null => false
    case Bool(b) => b
    case Num(n) => n != 0
    case Str(s) => s != ""
    case _ => true
  }

  /** `v ?? d`: only `undefined` and `null` fall back. */
  function Coalesce(v: Value, d: Value): Value {
    if v.Undefined? || v.Null? then d else v
  }

  /** `Object.keys(o)`, in insertion order. */
  function Keys(fs: seq<Field>): (ks: seq<string>)
    ensures |ks| == |fs|
    ensures forall i :: 0 <= i < |fs| ==> ks[i] == fs[i].key
  {
    if |fs| == 0 then [] else [fs[0].key] + Keys(fs[1..])
  }

  /** No key occurs twice, as in every real JavaScript object. */
  predicate DistinctKeys(fs: seq<Field>) {
    forall i, j :: 0 <= i < j < |fs| ==> fs[i].key != fs[j].key
  }

  /** `o[k]`: the value of key `k`, `undefined` when absent. */
  function Get(fs: seq<Field>, k: string): (v: Value)
    ensures k !in Keys(fs) ==> v == Undefined
    ensures k in Keys(fs) ==> exists i :: 0 <= i < |fs| && fs[i] == Field(k, v)
  {
    if |fs| == 0 then Undefined
    else if fs[0].key == k then fs[0].val
    else Get(fs[1..], k)
  }

  /** `o[k] = v` on a plain object. */
  function Put(fs: seq<Field>, k: string, v: Value): (r: seq<Field>)
    ensures Get(r, k) == v
    ensures forall k' :: k' != k ==> Get(r, k') == Get(fs, k')
  {
    if |fs| == 0 then [Field(k, v)]
    else if fs[0].key == k then [Field(k, v)] + fs[1..]
    else [fs[0]] + Put(fs[1..], k, v)
  }

  /** Assignment keeps the key order: an existing key stays in place, a new
      one is appended. */
  lemma {:induction false} PutKeys(fs: seq<Field>, k: string, v: Value)
    ensures k in Keys(fs) ==> Keys(Put(fs, k, v)) == Keys(fs)
    ensures k !in Keys(fs) ==> Keys(Put(fs, k, v)) == Keys(fs) + [k]
  {
    if |fs| > 0 && fs[0].key != k {
      PutKeys(fs[1..], k, v);
      assert Keys(fs) == [fs[0].key] + Keys(fs[1..]);
    }
  }

  /** Assigning a new key appends it. */
  lemma {:induction false} PutNew(fs: seq<Field>, k: string, v: Value)
    requires k !in Keys(fs)
    ensures Put(fs, k, v) == fs + [Field(k, v)]
  {
    if |fs| > 0 {
      assert fs[0].key != k && k !in Keys(fs[1..]) by {
        assert Keys(fs) == [fs[0].key] + Keys(fs[1..]);
      }
      PutNew(fs[1..], k, v);
      assert fs + [Field(k, v)] == [fs[0]] + (fs[1..] + [Field(k, v)]) by {
        assert fs == [fs[0]] + fs[1..];
      }
    }
  }

  /** With distinct keys, reading the `i`-th key gives the `i`-th value. */
  lemma {:induction false} GetAt(fs: seq<Field>, i: int)
    requires DistinctKeys(fs) && 0 <= i < |fs|
    ensures Get(fs, fs[i].key) == fs[i].val
  {
    if i > 0 {
      assert fs[0].key != fs[i].key;
      assert fs[1..][i - 1] == fs[i];
      GetAt(fs[1..], i - 1);
    }
  }

  /** Assignment never duplicates a key. */
  lemma PutKeepsDistinct(fs: seq<Field>, k: string, v: Value)
    requires DistinctKeys(fs)
    ensures DistinctKeys(Put(fs, k, v))
  {
    var r := Put(fs, k, v);
    PutKeys(fs, k, v);
    forall i, j | 0 <= i < j < |r|
      ensures r[i].key != r[j].key
    {
      assert r[i].key == Keys(r)[i] && r[j].key == Keys(r)[j];
      if k !in Keys(fs) && j == |fs| {
        assert Keys(r)[i] == Keys(fs)[i];
      } else {
        assert Keys(r)[i] == Keys(fs)[i] && Keys(r)[j] == Keys(fs)[j];
      }
    }
  }

  /** `{ ...a, ...b }`: the keys of `a` in order, then every key of `b`
      assigned in its order. */
  function Spread(a: seq<Field>, b: seq<Field>): (r: seq<Field>)
    ensures DistinctKeys(b) ==> forall k :: k in Keys(b) ==> Get(r, k) == Get(b, k)
    ensures forall k :: k !in Keys(b) ==> Get(r, k) == Get(a, k)
    ensures forall k :: k in Keys(r) <==> k in Keys(a) || k in Keys(b)
    decreases |b|
  {
    if |b| == 0 then a
    else
      assert Keys(b) == [b[0].key] + Keys(b[1..]);
      assert DistinctKeys(b) ==> DistinctKeys(b[1..]) && b[0].key !in Keys(b[1..]);
      PutKeys(a, b[0].key, b[0].val);
      Spread(Put(a, b[0].key, b[0].val), b[1..])
  }

  /** With a key repeated in `b`, its last assignment wins. */
  lemma {:induction false} SpreadLastWins(a: seq<Field>, b: seq<Field>, i: int)
    requires 0 <= i < |b| && b[i].key !in Keys(b[i + 1..])
    ensures Get(Spread(a, b), b[i].key) == b[i].val
    decreases |b|
  {
    if i > 0 {
      assert b[1..][i - 1] == b[i] && b[1..][i..] == b[i + 1..];
      SpreadLastWins(Put(a, b[0].key, b[0].val), b[1..], i - 1);
    }
  }

  /** A key of `b` takes the value of one of its assignments in `b`. */
  lemma {:induction false} SpreadValueFrom(a: seq<Field>, b: seq<Field>, k: string)
    requires k in Keys(b)
    ensures exists i :: 0 <= i < |b| && b[i].key == k && Get(Spread(a, b), k) == b[i].val
    decreases |b|
  {
    assert Keys(b) == [b[0].key] + Keys(b[1..]);
    if k in Keys(b[1..]) {
      SpreadValueFrom(Put(a, b[0].key, b[0].val), b[1..], k);
      var i :| 0 <= i < |b[1..]| && b[1..][i].key == k && Get(Spread(Put(a, b[0].key, b[0].val), b[1..]), k) == b[1..][i].val;
      assert b[i + 1] == b[1..][i];
    } else {
      assert b[0].key == k;
    }
  }

  /** Assigning a key twice leaves the second value, in the key's place. */
  lemma {:induction false} PutTwice(fs: seq<Field>, k: string, v1: Value, v2: Value)
    ensures Put(Put(fs, k, v1), k, v2) == Put(fs, k, v2)
  {
    if |fs| > 0 && fs[0].key != k {
      PutTwice(fs[1..], k, v1, v2);
    }
  }

  /** Values under their indexes `"0"`, `"1"`, ... */
  function Indexed(items: seq<Value>): (fs: seq<Field>)
    ensures |fs| == |items|
    ensures forall i :: 0 <= i < |items| ==> fs[i] == Field(NatToString(i), items[i])
  {
    seq(|items|, i requires 0 <= i < |items| => Field(NatToString(i), items[i]))
  }

  /** `{...v}` for any value: an object's own fields, the characters of a
      string and the items of an array under their indexes, and nothing
      for any other value. */
  function SpreadOf(v: Value): (fs: seq<Field>)
    ensures v.Obj? ==> fs == v.fields
    ensures v.Str? ==> fs == Indexed(seq(|v.s|, i requires 0 <= i < |v.s| => Str([v.s[i]])))
    ensures v.Arr? ==> fs == Indexed(v.items)
    ensures !v.Obj? && !v.Str? && !v.Arr? ==> fs == []
  {
    match v
    case Obj(f) => f
    case Str(s) => Indexed(seq(|s|, i requires 0 <= i < |s| => Str([s[i]])))
    case Arr(items) => Indexed(items)
    case _ => []
  }

  /** The fields of an object value; `{...v}` of a non-object is `{}`. */
  function FieldsOf(v: Value): seq<Field> {
    if v.Obj? then v.fields else []
  }

  /** `o[k]` on an arbitrary value: only objects have keys. */
  function Member(v: Value, k: string): Value {
    if v.Obj? then Get(v.fields, k) else Undefined
  }
}

=== FILE: listener.dfy ===
/** `AbstractListener.enqueueJob` (src/common/services/abstract.listener.ts):
    adding a job to a BullMQ queue with duplicate checking by job id. The
    queue is a map from job id to the job; the calls the listener makes on
    the queue are recorded in order. */
module QueueListener {
  import opened Wrappers
  import opened Errors
  import opened Json
  import opened Strings
  import opened QueryBuilder

  /** The state BullMQ reports for a job. */
  datatype JobStatus = Waiting | Delayed | Active | Failed | Completed | Prioritized | WaitingChildren | Unknown

  datatype Job = Job(name: string, data: seq<Field>, options: seq<Field>, status: JobStatus)

  type Queue = map<string, Job>

  /** A call the listener makes on the queue. */
  datatype QueueCall = GetJob(jobId: string) | Remove(removed: string) | Add(name: string, data: seq<Field>, options: seq<Field>)

  /** `EnqueueJobOptions`; an absent optional property is `None`. */
  datatype EnqueueRequest = EnqueueRequest(jobId: string, delay: Option<int>, data: Option<seq<Field>>,
                                           jobName: Option<string>, options: Option<seq<Field>>)

  /** The queue after the call, the calls made, and how the call ended. */
  datatype EnqueueRun = EnqueueRun(queue: Queue, calls: seq<QueueCall>, result: Result<(), Failure>)

  /** Jobs in these states are still to run: a second job with the same id
      is not added. */
  predicate IsPending(s: JobStatus) {
    s == Waiting || s == Delayed || s == Active
  }

  /** `process-` and the queue name with its first `-queue` removed. */
  function DefaultJobName(queueName: string): (n: string)
    ensures IndexOf(queueName, "-queue").None? ==> n == "process-" + queueName
    ensures IndexOf(queueName, "-queue").Some? ==>
      var i := IndexOf(queueName, "-queue").value;
      n == "process-" + queueName[..i] + queueName[i + 6..]
  {
    "process-" + ReplaceFirst(queueName, "-queue", "")
  }

  /** `jobName || defaultJobName`: an empty name counts as absent. */
  function JobName(queueName: string, jobName: Option<string>): (n: string)
    ensures Given(jobName) ==> n == jobName.value
    ensures !Given(jobName) ==> n == DefaultJobName(queueName)
  {
    if Given(jobName) then jobName.value else DefaultJobName(queueName)
  }

  /** The options the listener sets before the caller's. */
  function DefaultJobOptions(jobId: string, delay: int): seq<Field> {
    [Field("jobId", Str(jobId)), Field("removeOnFail", Bool(false)), Field("removeOnComplete", Bool(true)),
     Field("backoff", Obj([Field("type", Str("exponential")), Field("delay", Num(5000))])),
     Field("delay", Num(delay))]
  }

  /** `{jobId, removeOnFail: false, removeOnComplete: true, backoff, delay,
      ...options}`: every caller option wins over the listener's. */
  function JobOptions(jobId: string, delay: int, options: seq<Field>): (r: seq<Field>)
    ensures DistinctKeys(options) ==> forall k :: k in Keys(options) ==> Get(r, k) == Get(options, k)
    ensures forall k :: k !in Keys(options) ==> Get(r, k) == Get(DefaultJobOptions(jobId, delay), k)
  {
    Spread(DefaultJobOptions(jobId, delay), options)
  }

  /** Without caller options the job keeps the given id and delay, is kept
      when it fails, removed when it completes, and backs off exponentially
      from 5 seconds. */
  lemma DefaultOptions(jobId: string, delay: int)
    ensures var o := JobOptions(jobId, delay, []);
      && Get(o, "jobId") == Str(jobId) && Get(o, "delay") == Num(delay)
      && Get(o, "removeOnFail") == Bool(false) && Get(o, "removeOnComplete") == Bool(true)
      && Get(o, "backoff") == Obj([Field("type", Str("exponential")), Field("delay", Num(5000))])
  {
    var d := DefaultJobOptions(jobId, delay);
    assert JobOptions(jobId, delay, []) == d;
    assert DistinctKeys(d);
    GetAt(d, 0); GetAt(d, 1); GetAt(d, 2); GetAt(d, 3); GetAt(d, 4);
  }

  /** The state a freshly added job takes: delayed when its final options
      ask for a positive delay, waiting otherwise. A `priority` option, which
      BullMQ files under its own prioritized state, is not read: no caller in
      the core passes one. */
  function NewStatus(options: seq<Field>): JobStatus {
    if Get(options, "delay").Num? && Get(options, "delay").n > 0 then Delayed else Waiting
  }

  /** `queue.add` with the job's id: BullMQ ignores an add whose id is
      already in the queue, so an existing job is kept as it is. */
  function QueueAdd(q: Queue, jobId: string, job: Job): (q': Queue)
    ensures jobId in q'
    ensures jobId !in q ==> q' == q[jobId := job]
    ensures jobId in q ==> q' == q
  {
    if jobId in q then q else q[jobId := job]
  }

  /** The options the listener passes to `queue.add` for a request. */
  function AddOptions(req: EnqueueRequest): seq<Field> {
    var delay := if req.delay.Some? then req.delay.value else 0;
    JobOptions(req.jobId, delay, if req.options.Some? then req.options.value else [])
  }

  /** The id BullMQ stores the added job under: the `jobId` of the options
      passed to `queue.add`. A caller's `options.jobId` overrides the
      request's, which the listener still uses to look the job up. */
  function StoredId(req: EnqueueRequest): (id: string)
    ensures req.options.None? || "jobId" !in Keys(req.options.value) ==> id == req.jobId
    ensures req.options.Some? && DistinctKeys(req.options.value) && Get(req.options.value, "jobId").Str? ==>
      id == Get(req.options.value, "jobId").s
  {
    var delay := if req.delay.Some? then req.delay.value else 0;
    assert Get(DefaultJobOptions(req.jobId, delay), "jobId") == Str(req.jobId) by {
      GetAt(DefaultJobOptions(req.jobId, delay), 0);
    }
    var j := Get(AddOptions(req), "jobId");
    if j.Str? then j.s else req.jobId
  }

  /** The add the listener makes for a request that carries data. */
  function AddCall(queueName: string, req: EnqueueRequest): QueueCall
    requires req.data.Some?
  {
    Add(JobName(queueName, req.jobName), req.data.value, AddOptions(req))
  }

  /** The job that add puts in the queue. */
  function AddedJob(queueName: string, req: EnqueueRequest): Job
    requires req.data.Some?
  {
    var a := AddCall(queueName, req);
    Job(a.name, a.data, a.options, NewStatus(a.options))
  }

  /** `enqueueJob(request)` on the queue `q` named `queueName`. The existing
      job is looked up first; a request without data is a BadRequest; a
      pending job with the same id makes the call a no-op; a failed one is
      removed and a new job added; in any other state the new job is
      added under the id of its final options. */
  function Enqueue(q: Queue, queueName: string, req: EnqueueRequest): (r: EnqueueRun)
    ensures |r.calls| >= 1 && r.calls[0] == GetJob(req.jobId)
    ensures req.data.None? ==>
      r == EnqueueRun(q, [GetJob(req.jobId)], Err(Raise(BadRequest, "No data provided for job: " + req.jobId)))
    ensures req.data.Some? ==> r.result.Ok?
    ensures req.data.Some? && req.jobId in q && IsPending(q[req.jobId].status) ==>
      r == EnqueueRun(q, [GetJob(req.jobId)], Ok(()))
    ensures req.data.Some? && req.jobId in q && q[req.jobId].status == Failed ==>
      && r.calls == [GetJob(req.jobId), Remove(req.jobId), AddCall(queueName, req)]
      && r.queue == QueueAdd(q - {req.jobId}, StoredId(req), AddedJob(queueName, req))
    ensures req.data.Some? && !(req.jobId in q && (IsPending(q[req.jobId].status) || q[req.jobId].status == Failed)) ==>
      && r.calls == [GetJob(req.jobId), AddCall(queueName, req)]
      && r.queue == QueueAdd(q, StoredId(req), AddedJob(queueName, req))
  {
    var id := req.jobId;
    if req.data.None? then EnqueueRun(q, [GetJob(id)], Err(Raise(BadRequest, "No data provided for job: " + id)))
    else if id in q && IsPending(q[id].status) then EnqueueRun(q, [GetJob(id)], Ok(()))
    else if id in q && q[id].status == Failed then
      EnqueueRun(QueueAdd(q - {id}, StoredId(req), AddedJob(queueName, req)),
                 [GetJob(id), Remove(id), AddCall(queueName, req)], Ok(()))
    else EnqueueRun(QueueAdd(q, StoredId(req), AddedJob(queueName, req)), [GetJob(id), AddCall(queueName, req)], Ok(()))
  }

  /** A failed job stored again under its own id is replaced in place:
      the rest of the queue is untouched. */
  lemma EnqueueReplacesFailed(q: Queue, queueName: string, req: EnqueueRequest)
    requires req.data.Some? && req.jobId in q && q[req.jobId].status == Failed && StoredId(req) == req.jobId
    ensures Enqueue(q, queueName, req).queue == q[req.jobId := AddedJob(queueName, req)]
  {
    assert req.jobId !in q - {req.jobId};
  }

  /** The number of adds among the calls. */
  function Adds(calls: seq<QueueCall>): nat {
    if |calls| == 0 then 0 else (if calls[0].Add? then 1 else 0) + Adds(calls[1..])
  }

  /** Removing precedes adding: the calls never remove after an add. */
  predicate RemoveBeforeAdd(calls: seq<QueueCall>) {
    forall i, j :: 0 <= i < j < |calls| && calls[i].Add? ==> !calls[j].Remove?
  }

  /** The calls of an enqueue are one of three shapes: the lookup alone,
      lookup then add, or lookup, removal of the failed job, then add. */
  lemma EnqueueShapes(q: Queue, queueName: string, req: EnqueueRequest)
    ensures var r := Enqueue(q, queueName, req);
      || r.calls == [GetJob(req.jobId)]
      || (req.data.Some? && r.calls == [GetJob(req.jobId), AddCall(queueName, req)])
      || (req.data.Some? && r.calls == [GetJob(req.jobId), Remove(req.jobId), AddCall(queueName, req)])
  {
  }

  /** Every enqueue adds at most once, and adds exactly when it has data and
      no pending job holds the id. */
  lemma EnqueueAdds(q: Queue, queueName: string, req: EnqueueRequest)
    ensures Adds(Enqueue(q, queueName, req).calls)
      == if req.data.Some? && !(req.jobId in q && IsPending(q[req.jobId].status)) then 1 else 0
  {
    var g := GetJob(req.jobId);
    assert Adds([g]) == 0 by { assert [g][1..] == []; }
    if req.data.Some? {
      var a := AddCall(queueName, req);
      assert Adds([a]) == 1 by { assert [a][1..] == []; }
      assert Adds([g, a]) == 1 by { assert [g, a][1..] == [a]; }
      assert Adds([g, Remove(req.jobId), a]) == 1 by {
        assert [g, Remove(req.jobId), a][1..] == [Remove(req.jobId), a];
        assert [Remove(req.jobId), a][1..] == [a];
      }
    }
  }

  /** An enqueue removes a job only when the id holds a failed job, and
      then before it adds. */
  lemma EnqueueRemoves(q: Queue, queueName: string, req: EnqueueRequest)
    ensures var r := Enqueue(q, queueName, req);
      && (Remove(req.jobId) in r.calls <==> req.data.Some? && req.jobId in q && q[req.jobId].status == Failed)
      && RemoveBeforeAdd(r.calls)
  {
    EnqueueShapes(q, queueName, req);
  }

  /** Enqueueing the same request twice adds the job once: the second call
      never changes the queue. When the job is stored under the request's
      id, the first call has added it, it is pending, and the second call
      makes no add; when a caller's `options.jobId` overrides the id, the
      second call's lookup misses and it adds again, which BullMQ ignores. */
  lemma EnqueueTwiceAddsOnce(q: Queue, queueName: string, req: EnqueueRequest)
    requires req.data.Some? && (req.jobId !in q || q[req.jobId].status == Failed)
    ensures var r1 := Enqueue(q, queueName, req);
      var r2 := Enqueue(r1.queue, queueName, req);
      && r2.queue == r1.queue
      && StoredId(req) in r1.queue
      && (StoredId(req) == req.jobId ==>
            && r1.queue[req.jobId] == AddedJob(queueName, req)
            && r2 == EnqueueRun(r1.queue, [GetJob(req.jobId)], Ok(())))
      && (StoredId(req) != req.jobId ==> Adds(r2.calls) == 1)
  {
    var r1 := Enqueue(q, queueName, req);
    assert IsPending(AddedJob(queueName, req).status);
    if StoredId(req) == req.jobId {
      assert r1.queue[req.jobId] == AddedJob(queueName, req);
    } else {
      assert req.jobId !in r1.queue;
      EnqueueAdds(r1.queue, queueName, req);
    }
  }

  /** A caller's string `options.jobId` decides where the job is stored:
      the queue gains the job under that id, not under the request's. */
  lemma EnqueueOverriddenId(q: Queue, queueName: string, req: EnqueueRequest, other: string)
    requires req.data.Some? && req.jobId !in q && other != req.jobId && other !in q
    requires req.options == Some([Field("jobId", Str(other))])
    ensures var r := Enqueue(q, queueName, req);
      r.queue == q[other := AddedJob(queueName, req)] && req.jobId !in r.queue
  {
    assert Keys([Field("jobId", Str(other))]) == ["jobId"];
    GetAt([Field("jobId", Str(other))], 0);
  }

  /** A queue name whose first `-queue` follows `prefix` is named after
      `prefix` and whatever follows that `-queue`. */
  lemma DefaultJobNameOf(prefix: string, rest: string)
    requires forall j :: 0 <= j < |prefix| ==> !OccursAt(prefix + "-queue" + rest, "-queue", j)
    ensures DefaultJobName(prefix + "-queue" + rest) == "process-" + prefix + rest
  {
    var s := prefix + "-queue" + rest;
    assert s[|prefix|..|prefix| + 6] == "-queue";
    assert OccursAt(s, "-queue", |prefix|);
    assert IndexOf(s, "-queue") == Some(|prefix|);
    assert s[..|prefix|] == prefix && s[|prefix| + 6..] == rest;
  }

  /** Concrete job names: the first `-queue` is the one removed. */
  lemma JobNameExamples()
    ensures JobName("orders-queue", None) == "process-orders"
    ensures JobName("orders-queue", Some("")) == "process-orders"
    ensures JobName("orders-queue", Some("sync")) == "sync"
  {
    var s := "orders-queue";
    assert OccursAt(s, "-queue", 6);
    forall j | 0 <= j < 6 ensures !OccursAt(s, "-queue", j) {
      assert s[j] != '-';
    }
    assert IndexOf(s, "-queue") == Some(6);
    assert s[..6] + "" + s[12..] == "orders";
  }
}

=== FILE: logto.dfy ===
/** The Logto side of the core: reading a bearer token and checking scopes
    (src/logto/utils/token-validation.util.ts), the authentication guard's
    decision (src/logto/guards/logto-auth.guard.ts), and how the base Logto
    management client shapes queries, pages and API responses
    (src/logto/services/base-logto.service.ts). JWT verification, the
    user-scope lookup and the HTTP calls are outside the model and are
    passed in: a verifier, a scope lookup and the response each call gets. */
module Logto {
  import opened Wrappers
  import opened Errors
  import opened Json
  import opened Strings
  import opened QueryBuilder

  // ---------------------------------------------------------------------
  // Bearer tokens

  /** `extractTokenFromHeader(header)`: the header is split on single
      spaces; the token is the second piece when the first reads `bearer`
      in any letter case and the second is not empty. Further pieces are
      ignored. */
  function ExtractToken(header: Option<string>): (r: Option<string>)
    ensures !Given(header) ==> r.None?
    ensures r.Some? ==> |r.value| > 0 && ' ' !in r.value
  {
    if !Given(header) then None
    else
      var parts := Split(header.value, ' ');
      if ToLowerAscii(parts[0]) != "bearer" || |parts| < 2 || parts[1] == "" then None
      else Some(parts[1])
  }

  /** What may follow the token in the header: nothing, or a space and
      anything. */
  predicate TokenEnd(rest: string) {
    rest == "" || rest[0] == ' '
  }

  /** A header made of a `bearer` scheme, a space, a non-empty token without
      spaces, and anything that starts with a space yields that token. */
  lemma ExtractTokenOf(scheme: string, token: string, rest: string)
    requires ' ' !in scheme && ToLowerAscii(scheme) == "bearer"
    requires ' ' !in token && token != ""
    requires TokenEnd(rest)
    ensures ExtractToken(Some(scheme + " " + token + rest)) == Some(token)
  {
    var h := scheme + " " + token + rest;
    assert h == scheme + [' '] + (token + rest);
    SplitAroundSep(scheme, token + rest, ' ');
    SplitNoSep(scheme, ' ');
    TokenFirst(token, rest);
    var parts := Split(h, ' ');
    assert parts == [scheme] + Split(token + rest, ' ');
    assert parts[0] == scheme && parts[1] == token;
  }

  /** A token without spaces followed by the end of the header is the first
      piece of the split. */
  lemma TokenFirst(token: string, rest: string)
    requires ' ' !in token && TokenEnd(rest)
    ensures Split(token + rest, ' ')[0] == token
  {
    SplitNoSep(token, ' ');
    if rest == "" {
      assert token + rest == token;
    } else {
      assert token + rest == token + [' '] + rest[1..];
      SplitAroundSep(token, rest[1..], ' ');
    }
  }

  /** Conversely, a header that yields a token has exactly that shape: its
      first piece is the `bearer` scheme, followed by a space, the token,
      and the end of the header or a space. */
  lemma ExtractTokenShape(h: string)
    requires ExtractToken(Some(h)).Some?
    ensures var t := ExtractToken(Some(h)).value;
      var scheme := Split(h, ' ')[0];
      && ' ' !in scheme && ToLowerAscii(scheme) == "bearer"
      && |scheme| + 1 + |t| <= |h|
      && h[..|scheme|] == scheme && h[|scheme|] == ' '
      && h[|scheme| + 1..|scheme| + 1 + |t|] == t
      && TokenEnd(h[|scheme| + 1 + |t|..])
  {
    var parts := Split(h, ' ');
    JoinOfSplit(h, ' ');
    var scheme, t := parts[0], parts[1];
    var tail := Join(parts[1..], ' ');
    assert h == scheme + [' '] + tail;
    var more := if |parts| > 2 then [' '] + Join(parts[2..], ' ') else "";
    assert tail == t + more by {
      if |parts| > 2 {
        assert parts[1..][1..] == parts[2..];
      }
    }
    assert h == scheme + [' '] + t + more;
    assert h[|scheme| + 1 + |t|..] == more;
  }

  /** `hasRequiredScopes(tokenScopes, required)`: no requirement always
      passes; otherwise every required scope is one of the space-separated
      scopes of the token. */
  predicate HasRequiredScopes(tokenScopes: string, required: seq<string>) {
    |required| == 0 || forall i :: 0 <= i < |required| ==> required[i] in Split(tokenScopes, ' ')
  }

  /** A token whose scopes include those of another passes every check the
      other passes. */
  lemma ScopesMonotone(fewer: string, more: string, required: seq<string>)
    requires forall s :: s in Split(fewer, ' ') ==> s in Split(more, ' ')
    requires HasRequiredScopes(fewer, required)
    ensures HasRequiredScopes(more, required)
  {
  }

  /** Appending scopes to a token never makes a passing check fail. */
  lemma ScopesAppend(scopes: string, extra: string, required: seq<string>)
    requires HasRequiredScopes(scopes, required)
    ensures HasRequiredScopes(scopes + " " + extra, required)
  {
    assert scopes + " " + extra == scopes + [' '] + extra;
    SplitAroundSep(scopes, extra, ' ');
    ScopesMonotone(scopes, scopes + " " + extra, required);
  }

  /** For a token listing the scopes `names` (none containing a space), the
      check passes exactly when every required scope is among the names. */
  lemma ScopesOfJoin(names: seq<string>, required: seq<string>)
    requires |names| >= 1 && forall i :: 0 <= i < |names| ==> ' ' !in names[i]
    ensures HasRequiredScopes(Join(names, ' '), required) <==> forall i :: 0 <= i < |required| ==> required[i] in names
  {
    SplitOfJoin(names, ' ');
  }

  // ---------------------------------------------------------------------
  // The authentication guard

  /** The verified token payload; only the subject is used. */
  datatype Payload = Payload(sub: string)

  /** `hasRequiredPermissions(userPermissions, required)`. */
  predicate HasRequiredPermissions(userPermissions: seq<string>, required: seq<string>) {
    |required| == 0 || forall i :: 0 <= i < |required| ==> required[i] in userPermissions
  }

  /** The guard's permission check and the token's scope check agree on a
      token that lists the user's permissions. */
  lemma PermissionsAsScopes(userPermissions: seq<string>, required: seq<string>)
    requires |userPermissions| >= 1 && forall i :: 0 <= i < |userPermissions| ==> ' ' !in userPermissions[i]
    ensures HasRequiredPermissions(userPermissions, required) <==> HasRequiredScopes(Join(userPermissions, ' '), required)
  {
    ScopesOfJoin(userPermissions, required);
  }

  /** The last `/`-separated segment of the controller path (`''` when the
      controller has no path). */
  function ControllerName(pathMeta: Option<string>): (r: string)
    ensures '/' !in r
  {
    var parts := Split(pathMeta.GetOr(""), '/');
    parts[|parts| - 1]
  }

  /** A path segment names itself, and a leading part followed by `/` is
      dropped. */
  lemma ControllerNameOf(prefix: string, name: string)
    requires '/' !in name
    ensures ControllerName(Some(name)) == name
    ensures ControllerName(Some(prefix + "/" + name)) == name
  {
    SplitNoSep(name, '/');
    assert prefix + "/" + name == prefix + ['/'] + name;
    SplitAroundSep(prefix, name, '/');
  }

  const CONTROLLER_PLACEHOLDER: string := "{controllerName}"

  /** `getRequiredScopes(context)`: the scopes of the handler (or else the
      class), each with its first `{controllerName}` replaced by the
      controller's name; `[]` without scope metadata. */
  function RequiredScopes(scopeMeta: Option<seq<string>>, pathMeta: Option<string>): (r: seq<string>)
    ensures scopeMeta.None? || |scopeMeta.value| == 0 ==> r == []
    ensures scopeMeta.Some? ==> |r| == |scopeMeta.value|
    ensures scopeMeta.Some? ==> forall i :: 0 <= i < |r| ==>
      r[i] == ReplaceFirst(scopeMeta.value[i], CONTROLLER_PLACEHOLDER, ControllerName(pathMeta))
  {
    if scopeMeta.None? || |scopeMeta.value| == 0 then []
    else Substitute(scopeMeta.value, ControllerName(pathMeta))
  }

  function Substitute(scopes: seq<string>, name: string): (r: seq<string>)
    ensures |r| == |scopes|
    ensures forall i :: 0 <= i < |r| ==> r[i] == ReplaceFirst(scopes[i], CONTROLLER_PLACEHOLDER, name)
  {
    if |scopes| == 0 then [] else [ReplaceFirst(scopes[0], CONTROLLER_PLACEHOLDER, name)] + Substitute(scopes[1..], name)
  }

  /** A scope without a `{` is left as it is. */
  lemma PlainScopeKept(scope: string, name: string)
    requires '{' !in scope
    ensures ReplaceFirst(scope, CONTROLLER_PLACEHOLDER, name) == scope
  {
    forall j | 0 <= j ensures !OccursAt(scope, CONTROLLER_PLACEHOLDER, j) {
      if j + |CONTROLLER_PLACEHOLDER| <= |scope| {
        assert scope[j..j + |CONTROLLER_PLACEHOLDER|][0] == scope[j];
      }
    }
  }

  /** A scope that starts with the placeholder gets the controller name in
      its place. */
  lemma LeadingPlaceholder(suffix: string, name: string)
    ensures ReplaceFirst(CONTROLLER_PLACEHOLDER + suffix, CONTROLLER_PLACEHOLDER, name) == name + suffix
  {
    var s := CONTROLLER_PLACEHOLDER + suffix;
    assert OccursAt(s, CONTROLLER_PLACEHOLDER, 0) by {
      assert s[0..|CONTROLLER_PLACEHOLDER|] == CONTROLLER_PLACEHOLDER;
    }
    assert IndexOf(s, CONTROLLER_PLACEHOLDER) == Some(0);
    assert s[|CONTROLLER_PLACEHOLDER|..] == suffix;
  }

  /** `error instanceof UnauthorizedException ? error : new
      UnauthorizedException('Invalid or expired token')`. */
  function AsUnauthorized(e: Failure): (r: Failure)
    ensures InstanceOf(r, Unauthorized)
    ensures InstanceOf(e, Unauthorized) ==> r == e
  {
    if InstanceOf(e, Unauthorized) then e else Raise(Unauthorized, "Invalid or expired token")
  }

  /** The body of the guard's `try`: verify the token, then, when scopes are
      required, look up the user's scopes and check them. */
  function Authenticate(token: string, verify: string -> Result<Payload, Failure>, required: seq<string>,
                        userScopes: string -> Result<seq<string>, Failure>): (r: Result<Payload, Failure>)
    ensures r.Ok? ==> verify(token) == Ok(r.value)
  {
    match verify(token)
    case Err(e) => Err(e)
    case Ok(payload) =>
      if |required| == 0 then Ok(payload)
      else
        match userScopes(payload.sub)
        case Err(e) => Err(e)
        case Ok(names) =>
          if HasRequiredPermissions(names, required) then Ok(payload)
          else Err(Raise(Unauthorized, "Insufficient permissions. Required: " + JoinWith(required, ", ")))
  }

  /** `canActivate(context)`: a public route passes with no token read; a
      request without a bearer token is refused; otherwise the token is
      verified and the required scopes checked, any failure that is not
      already an `UnauthorizedException` becoming one. The result is the
      payload set as `request.auth`, `None` on a public route. */
  function CanActivate(isPublic: bool, header: Option<string>, verify: string -> Result<Payload, Failure>,
                       scopeMeta: Option<seq<string>>, pathMeta: Option<string>,
                       userScopes: string -> Result<seq<string>, Failure>): (r: Result<Option<Payload>, Failure>)
    ensures isPublic ==> r == Ok(None)
    ensures r.Err? ==> InstanceOf(r.error, Unauthorized)
    ensures !isPublic && ExtractToken(header).None? ==>
      r == Err(Raise(Unauthorized, "Missing or invalid authorization token"))
    ensures !isPublic && r.Ok? ==> r.value.Some? && verify(ExtractToken(header).value) == Ok(r.value.value)
  {
    if isPublic then Ok(None)
    else
      match ExtractToken(header)
      case None => Err(Raise(Unauthorized, "Missing or invalid authorization token"))
      case Some(token) =>
        match Authenticate(token, verify, RequiredScopes(scopeMeta, pathMeta), userScopes)
        case Ok(payload) => Ok(Some(payload))
        case Err(e) => Err(AsUnauthorized(e))
  }

  /** A private route is let through exactly when the header carries a
      token that verifies and, if scopes are required, the lookup of the
      user's scopes succeeds and covers them. */
  lemma CanActivateAllows(header: Option<string>, verify: string -> Result<Payload, Failure>,
                          scopeMeta: Option<seq<string>>, pathMeta: Option<string>,
                          userScopes: string -> Result<seq<string>, Failure>)
    ensures var required := RequiredScopes(scopeMeta, pathMeta);
      CanActivate(false, header, verify, scopeMeta, pathMeta, userScopes).Ok? <==>
        && ExtractToken(header).Some?
        && verify(ExtractToken(header).value).Ok?
        && (|required| == 0 ||
            var sub := verify(ExtractToken(header).value).value.sub;
            userScopes(sub).Ok? && HasRequiredPermissions(userScopes(sub).value, required))
  {
  }

  /** A verification failure that is not an `UnauthorizedException` is
      reported as an invalid or expired token; one that is passes through
      unchanged. */
  lemma VerifyFailureMapped(header: Option<string>, verify: string -> Result<Payload, Failure>,
                            scopeMeta: Option<seq<string>>, pathMeta: Option<string>,
                            userScopes: string -> Result<seq<string>, Failure>)
    requires ExtractToken(header).Some? && verify(ExtractToken(header).value).Err?
    ensures var e := verify(ExtractToken(header).value).error;
      var r := CanActivate(false, header, verify, scopeMeta, pathMeta, userScopes);
      && (InstanceOf(e, Unauthorized) ==> r == Err(e))
      && (!InstanceOf(e, Unauthorized) ==> r == Err(Raise(Unauthorized, "Invalid or expired token")))
  {
  }

  /** Without required scopes the user's scopes are never looked up: the
      decision does not depend on the lookup. */
  lemma NoScopesNoLookup(header: Option<string>, verify: string -> Result<Payload, Failure>,
                         pathMeta: Option<string>,
                         lookup1: string -> Result<seq<string>, Failure>, lookup2: string -> Result<seq<string>, Failure>)
    ensures CanActivate(false, header, verify, None, pathMeta, lookup1)
         == CanActivate(false, header, verify, None, pathMeta, lookup2)
  {
  }

  // ---------------------------------------------------------------------
  // The base management client

  /** The part of `LogtoConfig` the base service reads. */
  datatype LogtoConfig = LogtoConfig(enabled: bool, endpoint: string)

  /** The service's state: its configuration and whether an API client was
      created. */
  datatype LogtoService = LogtoService(config: LogtoConfig, hasClient: bool)

  /** The constructor: a disabled configuration creates no client. */
  function NewLogtoService(config: LogtoConfig): (s: LogtoService)
    ensures s.config == config
  {
    if !config.enabled then LogtoService(config, false) else LogtoService(config, true)
  }

  /** `isEnabled`: enabled and holding a client. */
  predicate IsEnabled(s: LogtoService) {
    s.config.enabled && s.hasClient
  }

  const NOT_CONFIGURED: string :=
    "Logto is not configured. Set LOGTO_ENDPOINT, LOGTO_APP_ID, LOGTO_APP_SECRET, and LOGTO_API_RESOURCE_ID environment variables."

  /** `assertEnabled()`. */
  function AssertEnabled(s: LogtoService): (r: Result<(), Failure>)
    ensures r.Err? <==> !IsEnabled(s)
    ensures r.Err? ==> r.error == Raise(InternalServerError, NOT_CONFIGURED)
  {
    if !s.config.enabled || !s.hasClient then Err(Raise(InternalServerError, NOT_CONFIGURED)) else Ok(())
  }

  /** A freshly constructed service is enabled exactly when its
      configuration is. */
  lemma EnabledByConfig(config: LogtoConfig)
    ensures IsEnabled(NewLogtoService(config)) <==> config.enabled
    ensures AssertEnabled(NewLogtoService(config)).Ok? <==> config.enabled
  {
  }

  /** `LogtoQueryParams`: the three properties the builder reads, and the
      others. */
  datatype LogtoQueryParams = LogtoQueryParams(page: Option<int>, pageSize: Option<int>, search: Option<string>,
                                               others: seq<Field>)

  function NumOrUndefined(n: Option<int>): Value {
    if n.Some? then Num(n.value) else Undefined
  }

  /** `buildQueryParams(params)`: `page` and `page_size` when defined and
      `q` for a non-empty search, in that order; `{}` without parameters. */
  function BuildQueryParams(params: Option<LogtoQueryParams>): (r: seq<Field>)
    ensures params.None? ==> r == []
    ensures DistinctKeys(r)
    ensures forall i :: 0 <= i < |r| ==> r[i].key in ["page", "page_size", "q"]
    ensures params.Some? ==> Get(r, "page") == NumOrUndefined(params.value.page)
    ensures params.Some? ==> Get(r, "page_size") == NumOrUndefined(params.value.pageSize)
    ensures params.Some? ==> Get(r, "q") == if Given(params.value.search) then Str(params.value.search.value) else Undefined
  {
    if params.None? then []
    else
      var p := params.value;
      var allowed := ["page", "page_size", "q"];
      var page := Assign([], p.page.Some?, "page", NumOrUndefined(p.page));
      AssignKeysIn([], p.page.Some?, "page", NumOrUndefined(p.page), allowed);
      var size := Assign(page, p.pageSize.Some?, "page_size", NumOrUndefined(p.pageSize));
      AssignKeysIn(page, p.pageSize.Some?, "page_size", NumOrUndefined(p.pageSize), allowed);
      var q := if Given(p.search) then Str(p.search.value) else Undefined;
      AssignKeysIn(size, Given(p.search), "q", q, allowed);
      Assign(size, Given(p.search), "q", q)
  }

  /** Every key of `fs` is one of `allowed`. */
  predicate KeysIn(fs: seq<Field>, allowed: seq<string>) {
    forall i :: 0 <= i < |fs| ==> fs[i].key in allowed
  }

  /** Assigning an allowed key keeps every key allowed. */
  lemma AssignKeysIn(fs: seq<Field>, c: bool, k: string, v: Value, allowed: seq<string>)
    requires KeysIn(fs, allowed) && k in allowed
    ensures KeysIn(Assign(fs, c, k, v), allowed)
  {
    var r := Assign(fs, c, k, v);
    if c {
      PutKeys(fs, k, v);
      forall i | 0 <= i < |r| ensures r[i].key in allowed {
        assert r[i].key == Keys(r)[i];
        if i < |fs| {
          assert Keys(r)[i] == Keys(fs)[i] == fs[i].key;
        }
      }
    }
  }

  /** One conditional assignment `if (c) o[k] = v`. */
  function Assign(fs: seq<Field>, c: bool, k: string, v: Value): (r: seq<Field>)
    ensures Get(r, k) == if c then v else Get(fs, k)
    ensures forall k' :: k' != k ==> Get(r, k') == Get(fs, k')
    ensures DistinctKeys(fs) ==> DistinctKeys(r)
  {
    if c then
      assert DistinctKeys(fs) ==> DistinctKeys(Put(fs, k, v)) by {
        if DistinctKeys(fs) { PutKeepsDistinct(fs, k, v); }
      }
      Put(fs, k, v)
    else fs
  }

  /** The properties other than page, size and search never reach the
      query. */
  lemma QueryParamsIgnoreOthers(page: Option<int>, pageSize: Option<int>, search: Option<string>,
                                others1: seq<Field>, others2: seq<Field>)
    ensures BuildQueryParams(Some(LogtoQueryParams(page, pageSize, search, others1)))
         == BuildQueryParams(Some(LogtoQueryParams(page, pageSize, search, others2)))
  {
  }

  /** A Logto list response: the items and, when the API reports it, the
      total count. */
  datatype ListResponse<T> = ListResponse(data: seq<T>, totalCount: Option<int>)

  datatype PaginatedResponse<T> = PaginatedResponse(data: seq<T>, pagination: PageMeta)

  const DEFAULT_LOGTO_PAGE: int := 1
  const DEFAULT_LOGTO_PAGE_SIZE: int := 20

  /** `transformToPaginatedResponse(response, page = 1, pageSize = 20)`. */
  function ToPaginated<T>(response: ListResponse<T>, page: Option<int>, pageSize: Option<int>): (r: PaginatedResponse<T>)
    requires pageSize.GetOr(DEFAULT_LOGTO_PAGE_SIZE) > 0
    ensures r.data == response.data
    ensures r.pagination.total == response.totalCount.GetOr(|response.data|)
    ensures r.pagination.page == page.GetOr(DEFAULT_LOGTO_PAGE)
    ensures r.pagination.limit == pageSize.GetOr(DEFAULT_LOGTO_PAGE_SIZE)
    ensures var m := r.pagination;
      (m.totalPages - 1) * m.limit < m.total <= m.totalPages * m.limit
  {
    var size := pageSize.GetOr(DEFAULT_LOGTO_PAGE_SIZE);
    var total := response.totalCount.GetOr(|response.data|);
    PaginatedResponse(response.data, PageMeta(total, page.GetOr(DEFAULT_LOGTO_PAGE), size, TotalPages(total, size)))
  }

  /** Without a reported count, a page of items is counted as the whole
      list: one page when it holds between 1 and `pageSize` items, none when
      it is empty. */
  lemma UncountedSinglePage<T>(data: seq<T>, pageSize: int)
    requires pageSize > 0 && |data| <= pageSize
    ensures var m := ToPaginated(ListResponse(data, None), None, Some(pageSize)).pagination;
      m.total == |data| && m.totalPages == (if |data| == 0 then 0 else 1)
  {
    TotalPagesOfOnePage(|data|, pageSize);
  }

  /** The HTTP methods of the management client. */
  datatype Method = GET | POST | PUT | PATCH | DELETE

  datatype ApiError = ApiError(code: string, message: Option<string>)

  /** What the API client returns: the parsed body, the error body, and
      `response.ok`. */
  datatype ApiResponse = ApiResponse(data: Value, error: Option<ApiError>, ok: bool)

  /** A call made to the management API. */
  datatype ApiCall = ApiCall(verb: Method, path: string)

  /** The acceptance rule of each method: `GET` and `POST` need a truthy
      body, `PUT` and `PATCH` an ok status, `DELETE` the absence of an error
      body. */
  predicate Rejected(m: Method, response: ApiResponse) {
    match m
    case GET => !Truthy(response.data)
    case POST => !Truthy(response.data)
    case PUT => !response.ok
    case PATCH => !response.ok
    case DELETE => response.error.Some?
  }

  /** `response.error?.message ?? 'Unknown error'`. */
  function ErrorMessage(error: Option<ApiError>): string {
    if error.Some? && error.value.message.Some? then error.value.message.value else "Unknown error"
  }

  /** `get`/`post`/`put`/`patch`/`delete(path)` given the client's reply,
      which is either the response or the error the client call threw: the
      calls made and the result. A disabled service makes no call; an error
      thrown by the client is logged and rethrown unchanged; a rejected
      response becomes an `InternalServerErrorException` with the API's
      message; `DELETE` returns nothing. */
  function Request(s: LogtoService, m: Method, path: string, reply: Result<ApiResponse, Failure>): (r: (seq<ApiCall>, Result<Value, Failure>))
    ensures !IsEnabled(s) ==> r == ([], Err(Raise(InternalServerError, NOT_CONFIGURED)))
    ensures IsEnabled(s) ==> r.0 == [ApiCall(m, path)]
    ensures IsEnabled(s) && reply.Err? ==> r.1 == Err(reply.error)
    ensures IsEnabled(s) && reply.Ok? ==> (r.1.Err? <==> Rejected(m, reply.value))
    ensures r.1.Err? ==> InstanceOf(r.1.error, InternalServerError) || (reply.Err? && r.1.error == reply.error)
    ensures reply.Ok? && r.1.Err? ==> r.1.error == Raise(InternalServerError, if IsEnabled(s) then ErrorMessage(reply.value.error) else NOT_CONFIGURED)
    ensures r.1.Ok? && (m == GET || m == POST) ==> Truthy(r.1.value)
  {
    match AssertEnabled(s)
    case Err(e) => ([], Err(e))
    case Ok(_) =>
      match reply
      case Err(thrown) => ([ApiCall(m, path)], Err(thrown))
      case Ok(response) =>
        if Rejected(m, response) then ([ApiCall(m, path)], Err(Raise(InternalServerError, ErrorMessage(response.error))))
        else ([ApiCall(m, path)], Ok(if m == DELETE then Undefined else response.data))
  }

  /** The methods disagree on what counts as failure: an error body with an
      ok status and a body is accepted by `GET`, `POST`, `PUT` and `PATCH`
      but refused by `DELETE`; an ok status with an empty body is refused
      by `GET` and `POST` only. */
  lemma AcceptanceDiffers(s: LogtoService, path: string, body: Value, error: ApiError)
    requires IsEnabled(s) && Truthy(body)
    ensures var withError := Ok(ApiResponse(body, Some(error), true));
      && Request(s, GET, path, withError).1 == Ok(body)
      && Request(s, POST, path, withError).1 == Ok(body)
      && Request(s, PUT, path, withError).1 == Ok(body)
      && Request(s, PATCH, path, withError).1 == Ok(body)
      && Request(s, DELETE, path, withError).1.Err?
    ensures var empty := Ok(ApiResponse(Null, None, true));
      && Request(s, GET, path, empty).1 == Err(Raise(InternalServerError, "Unknown error"))
      && Request(s, POST, path, empty).1.Err?
      && Request(s, PUT, path, empty).1 == Ok(Null)
      && Request(s, DELETE, path, empty).1 == Ok(Undefined)
  {
  }
}

=== FILE: occ.dfy ===
/** `OptimisticLockingService` (src/crud/services/optimistic-locking.service.ts):
    version-checked filters and updates, and the detection of a write that
    lost the race. */
module OptimisticLocking {
  import opened Wrappers
  import opened Json
  import opened Errors
  import opened Store

  /** The message of the Conflict raised for a stale write. */
  function StaleMessage(modelName: string): string {
    modelName + " was modified by another process. Please retry."
  }

  /** `buildVersionedFilter(id, currentVersion)`: `{_id}` plus `__v` when a
      version is supplied. */
  function BuildVersionedFilter(id: string, currentVersion: Option<int>): (f: seq<Field>)
    ensures FilterId(f) == Some(id)
    ensures currentVersion.None? ==> Get(f, VERSION_KEY) == Undefined
    ensures currentVersion.Some? ==> Get(f, VERSION_KEY) == Num(currentVersion.value)
    ensures Keys(f) == if currentVersion.Some? then ["_id", VERSION_KEY] else ["_id"]
  {
    [Field("_id", Str(id))] + (if currentVersion.Some? then [Field(VERSION_KEY, Num(currentVersion.value))] else [])
  }

  /** The versioned filter selects the document with that id, at exactly
      the supplied version when there is one. */
  lemma FilterSelects(id: string, currentVersion: Option<int>, d: Doc)
    ensures VersionMatches(BuildVersionedFilter(id, currentVersion), d)
      <==> currentVersion.None? || currentVersion.value == d.version
  {
  }

  /** `buildVersionedUpdate(update, currentVersion)`: unchanged without a
      version; otherwise `{...update, $inc: {...existingInc, __v: 1}}`. */
  function BuildVersionedUpdate(update: seq<Field>, currentVersion: Option<int>): seq<Field> {
    if currentVersion.None? then update
    else
      var existingInc := Coalesce(Get(update, "$inc"), Obj([]));
      Put(update, "$inc", Obj(Put(FieldsOf(existingInc), VERSION_KEY, Num(1))))
  }

  /** With a version, every key but `$inc` is kept, every key of the
      caller's `$inc` object but `__v` is kept, and `$inc.__v` is exactly 1;
      without one the update is returned as it is. */
  lemma VersionedUpdateKeeps(update: seq<Field>, currentVersion: Option<int>, k: string)
    ensures currentVersion.None? ==> BuildVersionedUpdate(update, currentVersion) == update
    ensures var r := BuildVersionedUpdate(update, currentVersion);
      currentVersion.Some? ==>
        && (k != "$inc" ==> Get(r, k) == Get(update, k))
        && Get(Incs(r), VERSION_KEY) == Num(1)
        && (k != VERSION_KEY ==> Get(Incs(r), k) == Member(Get(update, "$inc"), k))
  {
  }

  /** `extractVersion(entity, skipVersionCheck)`: no version when the check is
      skipped, the entity's `__v` otherwise. */
  function ExtractVersion(entityVersion: Option<int>, skipVersionCheck: bool): (v: Option<int>)
    ensures v.None? <==> skipVersionCheck || entityVersion.None?
    ensures v.Some? ==> v == entityVersion
  {
    if skipVersionCheck then None else entityVersion
  }

  /** `isVersionConflict(result, currentVersion)`. */
  predicate IsVersionConflict<D>(result: Option<D>, currentVersion: Option<int>) {
    result.None? && currentVersion.Some?
  }

  /** `assertNotStale(result, currentVersion, modelName)`: a Conflict when
      nothing was written although a version was supplied. */
  function AssertNotStale<D>(result: Option<D>, currentVersion: Option<int>, modelName: string): (r: Result<(), Failure>)
    ensures r.Err? <==> IsVersionConflict(result, currentVersion)
    ensures r.Err? ==> InstanceOf(r.error, Conflict) && r.error.message == StaleMessage(modelName)
  {
    if result.None? && currentVersion.Some? then Err(Raise(Conflict, StaleMessage(modelName))) else Ok(())
  }

  /** A versioned write against a document that moved on since it was read
      selects nothing, so the write is reported stale and the store is left
      as it is; against the version it read, it succeeds and moves the
      version by one. */
  lemma StaleWriteRejected(c: Collection, id: string, read: int, update: seq<Field>)
    requires id in c
    requires Get(update, "$inc").Undefined? && Pushes(update) == []
    ensures var (c', r) := FindOneAndUpdate(c, BuildVersionedFilter(id, Some(read)),
                                            BuildVersionedUpdate(update, Some(read)));
      && (c[id].version != read ==> r.None? && c' == c && IsVersionConflict(r, Some(read)))
      && (c[id].version == read ==> r.Some? && r.value.version == read + 1)
  {
    var u := BuildVersionedUpdate(update, Some(read));
    VersionedUpdateKeeps(update, Some(read), "$push");
    assert Incs(u) == [Field(VERSION_KEY, Num(1))];
    ApplyVersioned(c[id], u);
  }
}

=== FILE: query_builder.dfy ===
/** The query builder (src/common/utils/query-builder.util.ts): the MongoDB
    filter built from a `QueryDto`, the sort object, and the pagination
    arithmetic. Filters and sort objects are data; nothing is executed.
    `isValidObjectId` and `new Types.ObjectId(v)` are library calls, passed
    in as functions. */
module QueryBuilder {
  import opened Wrappers
  import opened Json
  import opened Strings
  import opened Errors

  /** The query parameters the builder reads. An absent `filters` is
      `Undefined`. */
  datatype Query = Query(
    search: Option<string>,
    page: Option<int>,
    limit: Option<int>,
    sort: Option<string>,
    createdAfter: Option<string>,
    createdBefore: Option<string>,
    filters: Value,
    mongoQuery: Option<seq<Field>>)

  /** A string parameter that is present and not empty (`if (s)`). */
  predicate Given(s: Option<string>) {
    s.Some? && s.value != ""
  }

  // ---------------------------------------------------------------------
  // Sorting

  /** One comma-separated sort field, trimmed and split on `:`: its key, and
      `-1` exactly when its order is `desc`. */
  function SortEntry(field: string): (e: Field)
    ensures e.val == Num(1) || e.val == Num(-1)
  {
    var parts := Split(Trim(field), ':');
    Field(parts[0], Num(if |parts| > 1 && parts[1] == "desc" then -1 else 1))
  }

  /** The entry of each field, in order. */
  function SortEntries(fields: seq<string>): (es: seq<Field>)
    ensures |es| == |fields|
    ensures forall i :: 0 <= i < |fields| ==> es[i] == SortEntry(fields[i])
  {
    if |fields| == 0 then [] else [SortEntry(fields[0])] + SortEntries(fields[1..])
  }

  /** The sort object: the entries assigned in turn to `{}`. */
  function SortFrom(fields: seq<string>): seq<Field> {
    Spread([], SortEntries(fields))
  }

  /** The sort object's keys are the fields' keys, and every value is `1`
      or `-1`. */
  lemma SortKeys(fields: seq<string>, k: string)
    ensures k in Keys(SortFrom(fields)) <==> k in Keys(SortEntries(fields))
    ensures k in Keys(SortFrom(fields)) ==> Get(SortFrom(fields), k) == Num(1) || Get(SortFrom(fields), k) == Num(-1)
  {
    if k in Keys(SortEntries(fields)) {
      SpreadValueFrom([], SortEntries(fields), k);
    }
  }

  /** A key named by several fields takes the order of the last of them. */
  lemma SortLastWins(fields: seq<string>, i: int)
    requires 0 <= i < |fields|
    requires SortEntry(fields[i]).key !in Keys(SortEntries(fields)[i + 1..])
    ensures Get(SortFrom(fields), SortEntry(fields[i]).key) == SortEntry(fields[i]).val
  {
    SpreadLastWins([], SortEntries(fields), i);
  }

  /** `buildSortOptions(sort)`: `{createdAt: -1}` for an absent or empty
      sort; otherwise the comma-separated fields in turn. */
  function BuildSortOptions(sort: Option<string>): (r: seq<Field>)
    ensures !Given(sort) ==> r == [Field("createdAt", Num(-1))]
  {
    if !Given(sort) then [Field("createdAt", Num(-1))] else SortFrom(Split(sort.value, ','))
  }

  /** A field written `key:order`, with neither part holding white space, a
      colon or a comma, sorts `key` descending exactly when the order is
      `desc`; a bare `key` sorts ascending. */
  lemma SortEntryOf(key: string, order: Option<string>)
    requires ':' !in key && forall i :: 0 <= i < |key| ==> !IsSpace(key[i])
    requires order.Some? ==> ':' !in order.value && forall i :: 0 <= i < |order.value| ==> !IsSpace(order.value[i])
    ensures var field := if order.Some? then key + [':'] + order.value else key;
      SortEntry(field) == Field(key, Num(if order == Some("desc") then -1 else 1))
  {
    if order.Some? {
      SortEntryPair(key, order.value);
    } else {
      SortEntryBare(key);
    }
  }

  lemma SortEntryPair(key: string, order: string)
    requires ':' !in key && forall i :: 0 <= i < |key| ==> !IsSpace(key[i])
    requires ':' !in order && forall i :: 0 <= i < |order| ==> !IsSpace(order[i])
    ensures SortEntry(key + [':'] + order) == Field(key, Num(if order == "desc" then -1 else 1))
  {
    PairParts(key, order);
    SortEntryFromParts(key + [':'] + order, key, order);
  }

  /** A field whose trimmed parts are a key and an order. */
  lemma SortEntryFromParts(field: string, key: string, order: string)
    requires Split(Trim(field), ':') == [key, order]
    ensures SortEntry(field) == Field(key, Num(if order == "desc" then -1 else 1))
  {
  }

  /** `key:order` trims to itself and splits into its two parts. */
  lemma PairParts(key: string, order: string)
    requires ':' !in key && forall i :: 0 <= i < |key| ==> !IsSpace(key[i])
    requires ':' !in order && forall i :: 0 <= i < |order| ==> !IsSpace(order[i])
    ensures Split(Trim(key + [':'] + order), ':') == [key, order]
  {
    NoSpaceAround(key, order);
    TrimNoSpace(key + [':'] + order);
    SplitPair(key, order);
  }

  /** A string without white space trims to itself. */
  lemma TrimNoSpace(s: string)
    requires forall i :: 0 <= i < |s| ==> !IsSpace(s[i])
    ensures Trim(s) == s
  {
  }

  /** `key:order` splits on the colon into its two parts. */
  lemma SplitPair(key: string, order: string)
    requires ':' !in key && ':' !in order
    ensures Split(key + [':'] + order, ':') == [key, order]
  {
    SplitAroundSep(key, order, ':');
    SplitNoSep(key, ':');
    SplitNoSep(order, ':');
  }

  lemma SortEntryBare(key: string)
    requires ':' !in key && forall i :: 0 <= i < |key| ==> !IsSpace(key[i])
    ensures SortEntry(key) == Field(key, Num(1))
  {
    assert Trim(key) == key;
    SplitNoSep(key, ':');
  }

  /** A colon between two strings without white space adds none. */
  lemma NoSpaceAround(key: string, order: string)
    requires forall i :: 0 <= i < |key| ==> !IsSpace(key[i])
    requires forall i :: 0 <= i < |order| ==> !IsSpace(order[i])
    ensures forall i :: 0 <= i < |key + [':'] + order| ==> !IsSpace((key + [':'] + order)[i])
  {
    var field := key + [':'] + order;
    forall i | 0 <= i < |field| ensures !IsSpace(field[i]) {
      if i < |key| { assert field[i] == key[i]; }
      else if i > |key| { assert field[i] == order[i - |key| - 1]; }
    }
  }

  /** `createdAt:desc` is the sort object `{createdAt: -1}`. */
  lemma DefaultSort()
    ensures Split("createdAt:desc", ',') == ["createdAt:desc"]
    ensures SortFrom(["createdAt:desc"]) == [Field("createdAt", Num(-1))]
  {
    var key, order := "createdAt", "desc";
    assert ':' !in key && ',' !in key + [':'] + order;
    assert forall i :: 0 <= i < |key| ==> !IsSpace(key[i]);
    assert forall i :: 0 <= i < |order| ==> !IsSpace(order[i]);
    SortEntryOf(key, Some(order));
    assert key + [':'] + order == "createdAt:desc";
    SplitNoSep("createdAt:desc", ',');
    assert SortEntries(["createdAt:desc"]) == [Field("createdAt", Num(-1))];
  }

  // ---------------------------------------------------------------------
  // Pagination

  const DEFAULT_LIMIT: int := 10
  const DEFAULT_PAGE: int := 1

  /** `buildPagination(page, limit)`: `(skip, limit)` with `limit ?? 10` and
      `page ?? 1`. */
  function BuildPagination(page: Option<int>, limit: Option<int>): (int, int) {
    var l := limit.GetOr(DEFAULT_LIMIT);
    ((page.GetOr(DEFAULT_PAGE) - 1) * l, l)
  }

  /** `Math.floor(skip / limit) + 1` for a positive limit. */
  function PageOf(skip: int, limit: int): int
    requires limit > 0
  {
    skip / limit + 1
  }

  /** `Math.ceil(total / limit)` for a positive limit: the fewest pages of
      `limit` items that hold `total` items. */
  function TotalPages(total: int, limit: int): (r: int)
    requires limit > 0
    ensures total <= r * limit
    ensures (r - 1) * limit < total
  {
    var q := (-total) / limit;
    var m := (-total) % limit;
    assert -total == q * limit + m && 0 <= m < limit;
    assert -q * limit == total + m;
    -q
  }

  /** Division undoes multiplication by a positive number. */
  lemma MulDiv(a: int, l: int)
    requires l > 0
    ensures (a * l) / l == a
  {
    var q := (a * l) / l;
    var m := (a * l) % l;
    assert (a - q) * l == m;
    if a - q >= 1 {
      assert false;
    } else if a - q <= -1 {
      assert false;
    }
  }

  /** Nothing fills no page, and up to one page of items fills one. */
  lemma TotalPagesOfOnePage(total: int, limit: int)
    requires 0 <= total <= limit && limit > 0
    ensures TotalPages(total, limit) == if total == 0 then 0 else 1
  {
  }

  /** The reported page `floor(skip / limit) + 1` recovers the requested
      page, and the defaults are page 1 of 10 items. */
  lemma PageRecovered(page: Option<int>, limit: Option<int>)
    requires limit.GetOr(DEFAULT_LIMIT) > 0
    ensures var (skip, l) := BuildPagination(page, limit);
      PageOf(skip, l) == page.GetOr(1)
    ensures BuildPagination(None, None) == (0, 10)
  {
    MulDiv(page.GetOr(DEFAULT_PAGE) - 1, limit.GetOr(DEFAULT_LIMIT));
  }

  // ---------------------------------------------------------------------
  // The filter

  /** Assigns each field of `fs` whose value is not `undefined`, in order. */
  function CopyDefined(q: seq<Field>, fs: seq<Field>): (r: seq<Field>)
    ensures forall k :: k !in Keys(fs) ==> Get(r, k) == Get(q, k)
    ensures DistinctKeys(fs) ==> forall k :: k in Keys(fs) ==>
      Get(r, k) == if Get(fs, k).Undefined? then Get(q, k) else Get(fs, k)
    decreases |fs|
  {
    if |fs| == 0 then q
    else
      assert Keys(fs) == [fs[0].key] + Keys(fs[1..]);
      assert DistinctKeys(fs) ==> DistinctKeys(fs[1..]) && fs[0].key !in Keys(fs[1..]);
      CopyDefined(if fs[0].val.Undefined? then q else Put(q, fs[0].key, fs[0].val), fs[1..])
  }

  /** `applyFilters(q, filters)`: nothing for a falsy `filters`; otherwise
      every defined value is assigned over the same-named key. */
  function ApplyFilters(q: seq<Field>, filters: Value): seq<Field> {
    if !Truthy(filters) then q else CopyDefined(q, FieldsOf(filters))
  }

  /** `{ $in: [new ObjectId(v), v] }`. */
  function InClause(v: Value, toObjectId: Value -> Value): Value {
    Obj([Field("$in", Arr([toObjectId(v), v]))])
  }

  /** Every value the guard accepts is replaced by its `$in` clause, in
      place; keys and their order are kept. */
  function ConvertIds(q: seq<Field>, accept: Value -> bool, toObjectId: Value -> Value): (r: seq<Field>)
    ensures Keys(r) == Keys(q)
    ensures forall i :: 0 <= i < |q| ==> r[i].val == if accept(q[i].val) then InClause(q[i].val, toObjectId) else q[i].val
  {
    if |q| == 0 then []
    else
      var v := q[0].val;
      [Field(q[0].key, if accept(v) then InClause(v, toObjectId) else v)] + ConvertIds(q[1..], accept, toObjectId)
  }

  /** `convertObjectIdValues`: only strings that are valid ids are
      converted. */
  function ConvertObjectIdValues(q: seq<Field>, isValidObjectId: Value -> bool, toObjectId: Value -> Value): seq<Field> {
    ConvertIds(q, (v: Value) => v.Str? && isValidObjectId(v), toObjectId)
  }

  /** Converting twice is converting once: a converted value is an object,
      never a string again. */
  lemma ConvertOnce(q: seq<Field>, isValidObjectId: Value -> bool, toObjectId: Value -> Value)
    ensures var once := ConvertObjectIdValues(q, isValidObjectId, toObjectId);
      ConvertObjectIdValues(once, isValidObjectId, toObjectId) == once
  {
    var once := ConvertObjectIdValues(q, isValidObjectId, toObjectId);
    var twice := ConvertObjectIdValues(once, isValidObjectId, toObjectId);
    assert Keys(twice) == Keys(once);
    assert forall i :: 0 <= i < |twice| ==> twice[i] == Field(Keys(twice)[i], twice[i].val);
  }

  /** `{ $text: { $search: search } }`'s inner value. */
  function TextClause(search: string): Value {
    Obj([Field("$search", Str(search))])
  }

  /** `applyTextSearch(q, search)`: nothing for an absent or empty search;
      a `$text` clause pushed onto a truthy `$or` (a TypeError when that
      `$or` is not an array), or set as `$text` otherwise. */
  function ApplyTextSearch(q: seq<Field>, search: Option<string>): (r: Result<seq<Field>, Failure>)
    ensures !Given(search) ==> r == Ok(q)
    ensures r.Ok? ==> forall k :: k != "$or" && k != "$text" ==> Get(r.value, k) == Get(q, k)
    ensures r.Err? <==> Given(search) && Truthy(Get(q, "$or")) && !Get(q, "$or").Arr?
    ensures r.Ok? && Given(search) && Truthy(Get(q, "$or")) ==>
      Get(r.value, "$or") == Arr(Get(q, "$or").items + [Obj([Field("$text", TextClause(search.value))])])
      && Get(r.value, "$text") == Get(q, "$text")
    ensures r.Ok? && Given(search) && !Truthy(Get(q, "$or")) ==>
      Get(r.value, "$text") == TextClause(search.value) && Get(r.value, "$or") == Get(q, "$or")
  {
    if !Given(search) then Ok(q)
    else
      var or := Get(q, "$or");
      if Truthy(or) then
        if or.Arr? then Ok(Put(q, "$or", Arr(or.items + [Obj([Field("$text", TextClause(search.value))])])))
        else Err(Plain("query.$or.push is not a function"))
      else Ok(Put(q, "$text", TextClause(search.value)))
  }

  /** A primitive, which cannot take a property: assigning `$gte` or
      `$lte` to it throws a TypeError in module (strict) code. */
  predicate Primitive(v: Value) {
    v.Bool? || v.Num? || v.Str?
  }

  /** An object that is not a plain object (an array, an ObjectId, a
      `Date`): it takes the bounds as extra properties, which its BSON
      encoding does not carry, so the query keeps its value. */
  predicate Exotic(v: Value) {
    v.Arr? || v.Oid? || v.Date?
  }

  /** The TypeError of assigning bound `key` to a primitive `createdAt`. */
  function NoProperty(key: string): Failure {
    Plain("Cannot create property '" + key + "'")
  }

  /** `applyDateFilters(q, after, before)`: nothing when neither bound is
      given; otherwise `createdAt` (or `{}`) gains `$gte` and/or `$lte`,
      keeping its other keys. A primitive `createdAt` throws on the first
      assignment; an array, ObjectId or `Date` keeps its value. */
  function ApplyDateFilters(q: seq<Field>, after: Option<string>, before: Option<string>): (r: Result<seq<Field>, Failure>)
    ensures !Given(after) && !Given(before) ==> r == Ok(q)
    ensures r.Err? <==> (Given(after) || Given(before)) && Primitive(Get(q, "createdAt"))
    ensures r.Err? ==> r.error == NoProperty(if Given(after) then "$gte" else "$lte")
    ensures Exotic(Get(q, "createdAt")) ==> r == Ok(q)
    ensures r.Ok? ==> forall k :: k != "createdAt" ==> Get(r.value, k) == Get(q, k)
    ensures (Given(after) || Given(before)) && !Primitive(Get(q, "createdAt")) && !Exotic(Get(q, "createdAt")) ==>
      var prior := FieldsOf(Coalesce(Get(q, "createdAt"), Obj([])));
      && r.Ok? && Get(r.value, "createdAt").Obj?
      && Member(Get(r.value, "createdAt"), "$gte") == (if Given(after) then Date(after.value) else Get(prior, "$gte"))
      && Member(Get(r.value, "createdAt"), "$lte") == (if Given(before) then Date(before.value) else Get(prior, "$lte"))
      && forall k :: k != "$gte" && k != "$lte" ==> Member(Get(r.value, "createdAt"), k) == Get(prior, k)
  {
    if !Given(after) && !Given(before) then Ok(q)
    else
      var existing := Get(q, "createdAt");
      if Primitive(existing) then Err(NoProperty(if Given(after) then "$gte" else "$lte"))
      else if Exotic(existing) then Ok(q)
      else
        Ok(Put(q, "createdAt", Obj(WithBounds(FieldsOf(Coalesce(existing, Obj([]))), after, before))))
  }

  /** `createdAt`'s properties once `$gte` is assigned the date after (when
      given) and then `$lte` the date before (when given). */
  function WithBounds(prior: seq<Field>, after: Option<string>, before: Option<string>): (o: seq<Field>)
    ensures Get(o, "$gte") == (if Given(after) then Date(after.value) else Get(prior, "$gte"))
    ensures Get(o, "$lte") == (if Given(before) then Date(before.value) else Get(prior, "$lte"))
    ensures forall k :: k != "$gte" && k != "$lte" ==> Get(o, k) == Get(prior, k)
  {
    var withGte := if Given(after) then Put(prior, "$gte", Date(after.value)) else prior;
    if Given(before) then Put(withGte, "$lte", Date(before.value)) else withGte
  }

  /** The preset `mongoQuery` with the filters applied and the ObjectIds
      converted: what the text search and the dates start from. */
  function Converted(query: Query, isValidObjectId: Value -> bool, toObjectId: Value -> Value): seq<Field> {
    ConvertObjectIdValues(ApplyFilters(query.mongoQuery.GetOr([]), query.filters), isValidObjectId, toObjectId)
  }

  /** `buildMongoQuery(query)`: a copy of the preset `mongoQuery`, then the
      filters, the ObjectId conversion, the text search and the dates, in
      this order. It throws when the search meets a truthy `$or` that is
      not an array, or a bound meets a primitive `createdAt`. */
  function BuildMongoQuery(query: Query, isValidObjectId: Value -> bool, toObjectId: Value -> Value): (r: Result<seq<Field>, Failure>)
    ensures var c := Converted(query, isValidObjectId, toObjectId);
      r.Err? <==>
        || (Given(query.search) && Truthy(Get(c, "$or")) && !Get(c, "$or").Arr?)
        || ((Given(query.createdAfter) || Given(query.createdBefore)) && Primitive(Get(c, "createdAt")))
  {
    var searched :- ApplyTextSearch(Converted(query, isValidObjectId, toObjectId), query.search);
    ApplyDateFilters(searched, query.createdAfter, query.createdBefore)
  }

  /** What the filter holds: every key other than `$or`, `$text` and
      `createdAt` as the filters and the conversion left it; the search as
      `$text` exactly when there is no truthy `$or`, and pushed onto `$or`
      otherwise; and the bounds on `createdAt`. */
  lemma BuildMongoQueryContents(query: Query, isValidObjectId: Value -> bool, toObjectId: Value -> Value)
    requires BuildMongoQuery(query, isValidObjectId, toObjectId).Ok?
    ensures var c := Converted(query, isValidObjectId, toObjectId);
      var r := BuildMongoQuery(query, isValidObjectId, toObjectId).value;
      && (forall k :: k != "$or" && k != "$text" && k != "createdAt" ==> Get(r, k) == Get(c, k))
      && (Given(query.search) && !Truthy(Get(c, "$or")) ==>
            Get(r, "$text") == TextClause(query.search.value) && Get(r, "$or") == Get(c, "$or"))
      && (Given(query.search) && Truthy(Get(c, "$or")) ==>
            Get(r, "$or") == Arr(Get(c, "$or").items + [Obj([Field("$text", TextClause(query.search.value))])])
            && Get(r, "$text") == Get(c, "$text"))
      && (!Given(query.search) ==> Get(r, "$or") == Get(c, "$or") && Get(r, "$text") == Get(c, "$text"))
      && ((!Given(query.createdAfter) && !Given(query.createdBefore)) || Exotic(Get(c, "createdAt")) ==>
            Get(r, "createdAt") == Get(c, "createdAt"))
      && (Given(query.createdAfter) && !Exotic(Get(c, "createdAt")) ==>
            Member(Get(r, "createdAt"), "$gte") == Date(query.createdAfter.value))
      && (Given(query.createdBefore) && !Exotic(Get(c, "createdAt")) ==>
            Member(Get(r, "createdAt"), "$lte") == Date(query.createdBefore.value))
  {
    var c := Converted(query, isValidObjectId, toObjectId);
    var searched := ApplyTextSearch(c, query.search);
    assert searched.Ok?;
    var r := BuildMongoQuery(query, isValidObjectId, toObjectId).value;
    assert BuildMongoQuery(query, isValidObjectId, toObjectId)
      == ApplyDateFilters(searched.value, query.createdAfter, query.createdBefore);
    SearchedKeeps(c, query.search);
    DatedKeeps(searched.value, query.createdAfter, query.createdBefore);
    SearchedThenDated(c, searched.value, r, query.search, query.createdAfter, query.createdBefore);
    SearchedThenDatedBounds(c, searched.value, r, query.search, query.createdAfter, query.createdBefore);
  }

  /** What the search leaves of filter `c` in `searched`. */
  ghost predicate SearchedFrom(c: seq<Field>, searched: seq<Field>, search: Option<string>) {
    && (forall k :: k != "$or" && k != "$text" ==> Get(searched, k) == Get(c, k))
    && (!Given(search) ==> Get(searched, "$or") == Get(c, "$or") && Get(searched, "$text") == Get(c, "$text"))
    && (Given(search) && !Truthy(Get(c, "$or")) ==>
          Get(searched, "$text") == TextClause(search.value) && Get(searched, "$or") == Get(c, "$or"))
    && (Given(search) && Truthy(Get(c, "$or")) ==>
          && Get(c, "$or").Arr?
          && Get(searched, "$or") == Arr(Get(c, "$or").items + [Obj([Field("$text", TextClause(search.value))])])
          && Get(searched, "$text") == Get(c, "$text"))
  }

  /** What the dates leave of filter `searched` in `r`. */
  ghost predicate DatedFrom(searched: seq<Field>, r: seq<Field>, after: Option<string>, before: Option<string>) {
    && (forall k :: k != "createdAt" ==> Get(r, k) == Get(searched, k))
    && (((!Given(after) && !Given(before)) || Exotic(Get(searched, "createdAt"))) ==>
          Get(r, "createdAt") == Get(searched, "createdAt"))
    && (Given(after) && !Exotic(Get(searched, "createdAt")) ==> Member(Get(r, "createdAt"), "$gte") == Date(after.value))
    && (Given(before) && !Exotic(Get(searched, "createdAt")) ==> Member(Get(r, "createdAt"), "$lte") == Date(before.value))
  }

  lemma SearchedKeeps(c: seq<Field>, search: Option<string>)
    requires ApplyTextSearch(c, search).Ok?
    ensures SearchedFrom(c, ApplyTextSearch(c, search).value, search)
  {
  }

  lemma DatedKeeps(searched: seq<Field>, after: Option<string>, before: Option<string>)
    requires ApplyDateFilters(searched, after, before).Ok?
    ensures DatedFrom(searched, ApplyDateFilters(searched, after, before).value, after, before)
  {
  }

  /** The keys of a filter searched and then dated, other than
      `createdAt`, in terms of the filter before both. */
  lemma SearchedThenDated(c: seq<Field>, searched: seq<Field>, r: seq<Field>,
                          search: Option<string>, after: Option<string>, before: Option<string>)
    requires SearchedFrom(c, searched, search) && DatedFrom(searched, r, after, before)
    ensures forall k :: k != "$or" && k != "$text" && k != "createdAt" ==> Get(r, k) == Get(c, k)
    ensures Given(search) && !Truthy(Get(c, "$or")) ==>
      Get(r, "$text") == TextClause(search.value) && Get(r, "$or") == Get(c, "$or")
    ensures Given(search) && Truthy(Get(c, "$or")) ==>
      Get(r, "$or") == Arr(Get(c, "$or").items + [Obj([Field("$text", TextClause(search.value))])])
      && Get(r, "$text") == Get(c, "$text")
    ensures !Given(search) ==> Get(r, "$or") == Get(c, "$or") && Get(r, "$text") == Get(c, "$text")
  {
    assert Get(r, "$or") == Get(searched, "$or") && Get(r, "$text") == Get(searched, "$text");
  }

  /** The `createdAt` of a filter searched and then dated, in terms of the
      filter before both. */
  lemma SearchedThenDatedBounds(c: seq<Field>, searched: seq<Field>, r: seq<Field>,
                                search: Option<string>, after: Option<string>, before: Option<string>)
    requires SearchedFrom(c, searched, search) && DatedFrom(searched, r, after, before)
    ensures ((!Given(after) && !Given(before)) || Exotic(Get(c, "createdAt"))) ==> Get(r, "createdAt") == Get(c, "createdAt")
    ensures Given(after) && !Exotic(Get(c, "createdAt")) ==> Member(Get(r, "createdAt"), "$gte") == Date(after.value)
    ensures Given(before) && !Exotic(Get(c, "createdAt")) ==> Member(Get(r, "createdAt"), "$lte") == Date(before.value)
  {
    assert Get(searched, "createdAt") == Get(c, "createdAt");
  }

  /** The order matters: the search text and the date bounds are added after
      the ObjectId conversion, so a search that looks like an id still
      reaches `$text` as a string. */
  lemma SearchNotConverted(query: Query, isValidObjectId: Value -> bool, toObjectId: Value -> Value)
    requires Given(query.search)
    requires !Truthy(Get(Converted(query, isValidObjectId, toObjectId), "$or"))
    ensures var r := BuildMongoQuery(query, isValidObjectId, toObjectId);
      && (r.Err? <==> (Given(query.createdAfter) || Given(query.createdBefore))
                      && Primitive(Get(Converted(query, isValidObjectId, toObjectId), "createdAt")))
      && (r.Ok? ==> Get(r.value, "$text") == Obj([Field("$search", Str(query.search.value))]))
  {
  }

  /** `buildQuery(query)`: the filter, the sort object and the pagination. */
  function BuildQuery(query: Query, isValidObjectId: Value -> bool, toObjectId: Value -> Value)
    : (r: Result<(seq<Field>, seq<Field>, int, int), Failure>)
    ensures r.Err? <==> BuildMongoQuery(query, isValidObjectId, toObjectId).Err?
    ensures r.Err? ==> r.error == BuildMongoQuery(query, isValidObjectId, toObjectId).error
    ensures r.Ok? ==>
      && r.value.0 == BuildMongoQuery(query, isValidObjectId, toObjectId).value
      && (r.value.2, r.value.3) == BuildPagination(query.page, query.limit)
  {
    var filter :- BuildMongoQuery(query, isValidObjectId, toObjectId);
    var (skip, limit) := BuildPagination(query.page, query.limit);
    Ok((filter, BuildSortOptions(query.sort), skip, limit))
  }

  /** The pagination metadata of `executePaginatedQuery`. */
  datatype PageMeta = PageMeta(total: int, page: int, limit: int, totalPages: int)

  /** `{ total, page: floor(skip / limit) + 1, limit, totalPages: ceil(total / limit) }`. */
  function PaginationMeta(total: int, skip: int, limit: int): (m: PageMeta)
    requires limit > 0
    ensures m.total == total && m.limit == limit
    ensures (m.page - 1) * limit <= skip < m.page * limit
    ensures (m.totalPages - 1) * limit < total <= m.totalPages * limit
  {
    var page := PageOf(skip, limit);
    assert (page - 1) * limit <= skip < page * limit by {
      assert skip == (skip / limit) * limit + skip % limit;
    }
    PageMeta(total, page, limit, TotalPages(total, limit))
  }
}

=== FILE: query_dto.dfy ===
/** The query DTO of the CRUD module (src/crud/dto/crud-query.dto.ts): user
    filters are stripped of the MongoDB operators that run code or bypass
    indexes before they reach a query. `JSON.parse` is a library call,
    passed in as a function that fails with `None`. */
module CrudQueryDto {
  import opened Wrappers
  import opened Json
  import opened Strings

  /** The operators removed from user filters. */
  const DANGEROUS_OPERATORS: seq<string> := ["$where", "$expr", "$function", "$accumulator", "$jsonSchema"]

  /** `typeof v === 'object' && v !== null && !Array.isArray(v)`. */
  predicate IsPlainObject(v: Value) {
    v.Obj? || v.Oid? || v.Date?
  }

  /** A nested value as written: plain objects are sanitised, everything
      else (arrays included) is kept as it is. */
  function SanitizeValue(v: Value): Value
    decreases v, 1
  {
    match v
    case Obj(fields) => Obj(SanitizeFields(fields))
    case Oid(_) => Obj([])
    case Date(_) => Obj([])
    case _ => v
  }

  /** The loop of `sanitizeFilters`: dangerous keys are skipped, the rest
      copied with their values sanitised. */
  function SanitizeFields(fs: seq<Field>): seq<Field>
    decreases fs, 0
  {
    if |fs| == 0 then []
    else
      (if fs[0].key in DANGEROUS_OPERATORS then [] else [Field(fs[0].key, SanitizeValue(fs[0].val))])
      + SanitizeFields(fs[1..])
  }

  /** `sanitizeFilters(obj)`: `{}` for anything that is not an object; an
      array is read as the object `Object.entries` sees, keyed by its
      indices. */
  function SanitizeFilters(v: Value): seq<Field> {
    match v
    case Obj(fields) => SanitizeFields(fields)
    case Arr(items) => SanitizeFields(Indexed(items))
    case _ => []
  }

  /** No dangerous key on any plain-object level reached without passing
      through an array. */
  predicate CleanFields(fs: seq<Field>)
    decreases fs, 0
  {
    forall i :: 0 <= i < |fs| ==> fs[i].key !in DANGEROUS_OPERATORS && CleanValue(fs[i].val)
  }

  predicate CleanValue(v: Value)
    decreases v, 1
  {
    match v
    case Obj(fields) => CleanFields(fields)
    case _ => true
  }

  /** Sanitising never leaves a dangerous key on a plain-object level. */
  lemma {:induction false} SanitizeFieldsClean(fs: seq<Field>)
    ensures CleanFields(SanitizeFields(fs))
    decreases fs, 0
  {
    if |fs| > 0 {
      SanitizeValueClean(fs[0].val);
      SanitizeFieldsClean(fs[1..]);
      var head := if fs[0].key in DANGEROUS_OPERATORS then [] else [Field(fs[0].key, SanitizeValue(fs[0].val))];
      var out := head + SanitizeFields(fs[1..]);
      forall i | 0 <= i < |out| ensures out[i].key !in DANGEROUS_OPERATORS && CleanValue(out[i].val) {
        if i >= |head| { assert out[i] == SanitizeFields(fs[1..])[i - |head|]; }
      }
    }
  }

  lemma {:induction false} SanitizeValueClean(v: Value)
    ensures CleanValue(SanitizeValue(v))
    decreases v, 1
  {
    if v.Obj? {
      SanitizeFieldsClean(v.fields);
    }
  }

  /** The output of `sanitizeFilters` is clean, whatever the input. */
  lemma SanitizeFiltersClean(v: Value)
    ensures CleanFields(SanitizeFilters(v))
  {
    match v
    case Obj(fields) => SanitizeFieldsClean(fields);
    case Arr(items) => SanitizeFieldsClean(Indexed(items));
    case _ =>
  }

  /** The output's keys are the input's keys that are not dangerous. */
  lemma {:induction false} SanitizeFieldsKeys(fs: seq<Field>, k: string)
    ensures k in Keys(SanitizeFields(fs)) <==> k in Keys(fs) && k !in DANGEROUS_OPERATORS
  {
    if |fs| > 0 {
      SanitizeFieldsKeys(fs[1..], k);
      assert Keys(fs) == [fs[0].key] + Keys(fs[1..]);
      var rest := SanitizeFields(fs[1..]);
      if fs[0].key !in DANGEROUS_OPERATORS {
        var f := Field(fs[0].key, SanitizeValue(fs[0].val));
        assert SanitizeFields(fs) == [f] + rest;
        assert Keys([f] + rest) == [fs[0].key] + Keys(rest);
      } else {
        assert SanitizeFields(fs) == rest;
      }
    }
  }

  /** A kept key holds its sanitised value, so primitives and arrays are kept
      unchanged; a dangerous key is gone. */
  lemma {:induction false} SanitizeFieldsValues(fs: seq<Field>, k: string)
    ensures k !in DANGEROUS_OPERATORS ==> Get(SanitizeFields(fs), k) == SanitizeValue(Get(fs, k))
    ensures k !in DANGEROUS_OPERATORS && !IsPlainObject(Get(fs, k)) ==> Get(SanitizeFields(fs), k) == Get(fs, k)
    ensures k in DANGEROUS_OPERATORS ==> Get(SanitizeFields(fs), k) == Undefined
  {
    SanitizeFieldsKeys(fs, k);
    if |fs| > 0 {
      SanitizeFieldsValues(fs[1..], k);
      var rest := SanitizeFields(fs[1..]);
      if fs[0].key !in DANGEROUS_OPERATORS {
        var f := Field(fs[0].key, SanitizeValue(fs[0].val));
        assert SanitizeFields(fs) == [f] + rest;
      } else {
        assert SanitizeFields(fs) == rest;
      }
    }
  }

  /** Sanitising twice is sanitising once. */
  lemma {:induction false} SanitizeFieldsTwice(fs: seq<Field>)
    ensures SanitizeFields(SanitizeFields(fs)) == SanitizeFields(fs)
    decreases fs, 0
  {
    if |fs| > 0 {
      SanitizeFieldsTwice(fs[1..]);
      var rest := SanitizeFields(fs[1..]);
      if fs[0].key !in DANGEROUS_OPERATORS {
        var f := Field(fs[0].key, SanitizeValue(fs[0].val));
        SanitizeValueTwice(fs[0].val);
        assert SanitizeFields(fs) == [f] + rest;
        assert ([f] + rest)[1..] == rest;
        assert SanitizeFields([f] + rest) == [Field(f.key, SanitizeValue(f.val))] + SanitizeFields(rest);
      } else {
        assert SanitizeFields(fs) == rest;
      }
    }
  }

  lemma {:induction false} SanitizeValueTwice(v: Value)
    ensures SanitizeValue(SanitizeValue(v)) == SanitizeValue(v)
    decreases v, 1
  {
    if v.Obj? {
      SanitizeFieldsTwice(v.fields);
    }
  }

  /** `sanitizeFilters` is idempotent: its output sanitises to itself. */
  lemma SanitizeFiltersTwice(v: Value)
    ensures SanitizeFilters(Obj(SanitizeFilters(v))) == SanitizeFilters(v)
  {
    match v
    case Obj(fields) => SanitizeFieldsTwice(fields);
    case Arr(items) => SanitizeFieldsTwice(Indexed(items));
    case _ =>
  }

  /** The `filters` transform: a string is parsed and sanitised, `{}` when it
      does not parse; anything else is sanitised as it is. */
  function FiltersTransform(value: Value, parse: string -> Option<Value>): (r: Value)
    ensures r.Obj? && CleanFields(r.fields)
    ensures value.Str? && parse(value.s).None? ==> r == Obj([])
  {
    var parsed := if value.Str? then parse(value.s).GetOr(Null) else value;
    SanitizeFiltersClean(parsed);
    Obj(SanitizeFilters(parsed))
  }

  // ---------------------------------------------------------------------
  // Arrays are not descended into, so an operator nested in a `$or` list
  // survives.

  /** No dangerous key anywhere, through arrays as well. */
  predicate DeepCleanFields(fs: seq<Field>)
    decreases fs, 0
  {
    forall i :: 0 <= i < |fs| ==> fs[i].key !in DANGEROUS_OPERATORS && DeepCleanValue(fs[i].val)
  }

  predicate DeepCleanValue(v: Value)
    decreases v, 1
  {
    match v
    case Obj(fields) => DeepCleanFields(fields)
    case Arr(items) => forall i :: 0 <= i < |items| ==> DeepCleanValue(items[i])
    case _ => true
  }

  /** `{ $or: [ { $where: "sleep(5000)" } ] }` passes the filter transform
      with its `$where` in place. */
  lemma NestedOperatorSurvives(parse: string -> Option<Value>)
    ensures var input := Obj([Field("$or", Arr([Obj([Field("$where", Str("sleep(5000)"))])]))]);
      FiltersTransform(input, parse) == input && !DeepCleanValue(FiltersTransform(input, parse))
  {
    var inner := Obj([Field("$where", Str("sleep(5000)"))]);
    var input := Obj([Field("$or", Arr([inner]))]);
    assert "$or" !in DANGEROUS_OPERATORS;
    assert SanitizeFields(input.fields) == input.fields;
    assert DANGEROUS_OPERATORS[0] == "$where";
    assert inner.fields[0].key == DANGEROUS_OPERATORS[0];
    assert !DeepCleanFields(inner.fields);
    assert [inner][0] == inner;
    assert !DeepCleanValue(Arr([inner]));
  }

  /** Sanitising that also descends into arrays, cleaning the objects they
      hold. */
  function DeepSanitizeValue(v: Value): (r: Value)
    ensures DeepCleanValue(r)
    decreases v, 2
  {
    match v
    case Obj(fields) => Obj(DeepSanitizeFields(fields))
    case Arr(items) => Arr(DeepSanitizeItems(items))
    case Oid(_) => Obj([])
    case Date(_) => Obj([])
    case _ => v
  }

  function DeepSanitizeItems(items: seq<Value>): (r: seq<Value>)
    ensures |r| == |items|
    ensures forall i :: 0 <= i < |r| ==> DeepCleanValue(r[i])
    decreases items, 1
  {
    if |items| == 0 then [] else [DeepSanitizeValue(items[0])] + DeepSanitizeItems(items[1..])
  }

  function DeepSanitizeFields(fs: seq<Field>): (r: seq<Field>)
    ensures DeepCleanFields(r)
    ensures forall k :: k in Keys(r) <==> k in Keys(fs) && k !in DANGEROUS_OPERATORS
    decreases fs, 0
  {
    if |fs| == 0 then []
    else
      var rest := DeepSanitizeFields(fs[1..]);
      assert Keys(fs) == [fs[0].key] + Keys(fs[1..]);
      if fs[0].key in DANGEROUS_OPERATORS then rest
      else
        var r := [Field(fs[0].key, DeepSanitizeValue(fs[0].val))] + rest;
        assert Keys(r) == [fs[0].key] + Keys(rest);
        assert forall i :: 1 <= i < |r| ==> r[i] == rest[i - 1];
        r
  }

  /** The filters transform with arrays descended into. */
  function DeepFiltersTransform(value: Value, parse: string -> Option<Value>): (r: Value)
    ensures DeepCleanValue(r)
    ensures value.Str? && parse(value.s).None? ==> r == Obj([])
  {
    var parsed := if value.Str? then parse(value.s).GetOr(Null) else value;
    match parsed
    case Obj(fields) => Obj(DeepSanitizeFields(fields))
    case Arr(items) => Obj(DeepSanitizeFields(Indexed(items)))
    case _ => Obj([])
  }
}

/** The query DTO of the common services (src/common/dto/query.dto.ts): the
    `select` and `filters` transforms and the bounds validated on `page`
    and `limit`. */
module CommonQueryDto {
  import opened Wrappers
  import opened Json
  import opened Strings
  import opened QueryBuilder

  /** The non-empty strings of `parts`, in order. */
  function NonEmpty(parts: seq<string>): (r: seq<string>)
    ensures forall i :: 0 <= i < |r| ==> r[i] != ""
    ensures forall s :: s in r <==> s in parts && s != ""
  {
    if |parts| == 0 then []
    else (if parts[0] == "" then [] else [parts[0]]) + NonEmpty(parts[1..])
  }

  /** Every part trimmed. */
  function TrimAll(parts: seq<string>): (r: seq<string>)
    ensures |r| == |parts|
    ensures forall i :: 0 <= i < |parts| ==> r[i] == Trim(parts[i])
  {
    if |parts| == 0 then [] else [Trim(parts[0])] + TrimAll(parts[1..])
  }

  /** The string items of an array, in order. */
  function Strs(items: seq<Value>): (r: seq<string>)
    ensures forall s :: s in r <==> Str(s) in items
  {
    if |items| == 0 then []
    else (if items[0].Str? then [items[0].s] else []) + Strs(items[1..])
  }

  /** The `select` transform: a string is split on commas, its parts trimmed
      and the empty ones dropped; an array keeps its strings; anything else
      is undefined. */
  function SelectTransform(value: Value): (r: Option<seq<string>>)
    ensures r.None? <==> !value.Str? && !value.Arr?
    ensures value.Str? ==> forall i :: 0 <= i < |r.value| ==> r.value[i] != "" && ',' !in r.value[i]
    ensures value.Arr? ==> forall s :: s in r.value <==> Str(s) in value.items
  {
    match value
    case Str(s) =>
      var parts := Split(s, ',');
      assert forall i :: 0 <= i < |parts| ==> ',' !in Trim(parts[i]) by {
        forall i | 0 <= i < |parts| ensures ',' !in Trim(parts[i]) {
          TrimInside(parts[i]);
        }
      }
      var trimmed := TrimAll(parts);
      assert forall x :: x in trimmed ==> ',' !in x;
      Some(NonEmpty(trimmed))
    case Arr(items) => Some(Strs(items))
    case _ => None
  }

  /** Trimming only removes characters. */
  lemma TrimInside(s: string)
    ensures forall c :: c in Trim(s) ==> c in s
  {
    var a := TrimStart(s);
    var r := TrimEnd(a);
    forall c | c in r ensures c in s {
      var j :| 0 <= j < |r| && r[j] == c;
      assert a[j] == c;
      assert s[|s| - |a| + j] == c;
    }
  }

  /** A comma-joined list of names without white space or commas reads back
      as the same list. */
  lemma SelectOfJoin(names: seq<string>)
    requires |names| >= 1
    requires forall i :: 0 <= i < |names| ==> names[i] != "" && ',' !in names[i] && NoSpace(names[i])
    ensures SelectTransform(Str(Join(names, ','))) == Some(names)
  {
    SplitOfJoin(names, ',');
    forall i | 0 <= i < |names| ensures TrimAll(names)[i] == names[i] {
      assert NoSpace(names[i]);
    }
    assert TrimAll(names) == names;
    NonEmptyKeeps(names);
  }

  /** A string without white space. */
  predicate NoSpace(s: string) {
    forall j :: 0 <= j < |s| ==> !IsSpace(s[j])
  }

  lemma {:induction false} NonEmptyKeeps(parts: seq<string>)
    requires forall i :: 0 <= i < |parts| ==> parts[i] != ""
    ensures NonEmpty(parts) == parts
  {
    if |parts| > 0 {
      NonEmptyKeeps(parts[1..]);
    }
  }

  /** The `filters` transform: a string is parsed, `{}` when it does not
      parse; anything else passes through. */
  function FiltersTransform(value: Value, parse: string -> Option<Value>): (r: Value)
    ensures !value.Str? ==> r == value
    ensures value.Str? ==> r == parse(value.s).GetOr(Obj([]))
  {
    if value.Str? then parse(value.s).GetOr(Obj([])) else value
  }

  /** `page` is an integer of at least 1. */
  predicate ValidPage(page: int) {
    page >= 1
  }

  /** `limit` is an integer between 1 and 100. */
  predicate ValidLimit(limit: int) {
    1 <= limit <= 100
  }

  /** Within the validated bounds the builder's skip is a non-negative
      multiple of the limit, the reported page is the requested one, and the
      page count covers the total without a spare page. */
  lemma ValidPaging(page: int, limit: int, total: nat)
    requires ValidPage(page) && ValidLimit(limit)
    ensures var (skip, l) := BuildPagination(Some(page), Some(limit));
      && l == limit && 0 <= skip && skip % limit == 0
      && PageOf(skip, l) == page
      && 0 <= TotalPages(total, l) && (total > 0 ==> (TotalPages(total, l) - 1) * l < total)
  {
    PageRecovered(Some(page), Some(limit));
    var skip := (page - 1) * limit;
    assert skip >= 0;
    MulMod(page - 1, limit);
  }

  lemma MulMod(a: int, l: int)
    requires l > 0
    ensures (a * l) % l == 0
  {
    MulDiv(a, l);
  }
}

=== FILE: seeders.dfy ===
/** The database seeders (src/database/seeders/): the seeder base class's
    defaults and production gate, the registry that orders, selects and runs
    seeders and tallies their outcomes, and the user seeder that mirrors the
    Logto user directory into the users collection page by page. What a
    seeder's `seed()` yields is given as its outcome; the Logto pages are
    given as the sequence the management API would return. */
module Seeders {
  import opened Wrappers
  import opened Errors
  import opened QueryBuilder
  import opened Users

  /** What one seeder reports. */
  datatype SeederResult = SeederResult(created: nat, updated: nat, skipped: nat, errors: seq<string>)

  /** `emptyResult()`: nothing created, updated or skipped, and no errors. */
  const EMPTY_RESULT: SeederResult := SeederResult(0, 0, 0, [])

  /** The number of items a result accounts for: each item a seeder looks
      at lands in exactly one of the four. */
  function Tally(r: SeederResult): nat {
    r.created + r.updated + r.skipped + |r.errors|
  }

  /** The message of a thrown value (`error.message`); a driver error is
      known by its class name only. */
  function Describe(e: Failure): string {
    match e
    case MongoServer(_, _, _) => "MongoServerError"
    case Exception(_, message, _) => message
    case Plain(message) => message
  }

  // ---------------------------------------------------------------------
  // The base class

  const DEFAULT_ORDER: int := 100
  const DEFAULT_RUN_IN_PRODUCTION: bool := false

  /** A registered seeder: its name, its place in the run order, whether it
      may run in production, and what its `seed()` yields. */
  datatype Seeder = Seeder(name: string, order: int, runInProduction: bool, outcome: Result<SeederResult, Failure>)

  /** A seeder that keeps the base class's defaults. */
  function WithDefaults(name: string, outcome: Result<SeederResult, Failure>): Seeder {
    Seeder(name, DEFAULT_ORDER, DEFAULT_RUN_IN_PRODUCTION, outcome)
  }

  /** `shouldRun()`: outside production always, in production only when the
      seeder opts in. */
  predicate ShouldRun(s: Seeder, production: bool) {
    !production || s.runInProduction
  }

  /** A seeder that keeps the defaults runs last among seeders with a
      smaller order and never runs in production unless forced. */
  lemma DefaultsStayOutOfProduction(name: string, outcome: Result<SeederResult, Failure>, production: bool)
    ensures WithDefaults(name, outcome).order == 100
    ensures ShouldRun(WithDefaults(name, outcome), production) <==> !production
  {
  }

  // ---------------------------------------------------------------------
  // Registration: ordering by `order`

  predicate SortedByOrder(s: seq<Seeder>) {
    forall i, j :: 0 <= i < j < |s| ==> s[i].order <= s[j].order
  }

  /** Places `x` after every seeder whose order is not larger than its own,
      which keeps seeders of equal order in registration order. */
  function InsertByOrder(x: Seeder, s: seq<Seeder>): (r: seq<Seeder>)
    requires SortedByOrder(s)
    ensures SortedByOrder(r)
    ensures multiset(r) == multiset(s) + multiset{x}
    decreases |s|
  {
    if |s| == 0 then [x]
    else if x.order < s[|s| - 1].order then
      var init := s[..|s| - 1];
      var placed := InsertByOrder(x, init);
      assert s == init + [s[|s| - 1]];
      PlacedBelow(x, init, placed, s[|s| - 1]);
      placed + [s[|s| - 1]]
    else s + [x]
  }

  /** A sorted rearrangement of `init` and `x`, all ordered no later than
      `last`, stays sorted with `last` appended. */
  lemma PlacedBelow(x: Seeder, init: seq<Seeder>, placed: seq<Seeder>, last: Seeder)
    requires SortedByOrder(init + [last]) && x.order < last.order
    requires SortedByOrder(placed) && multiset(placed) == multiset(init) + multiset{x}
    ensures SortedByOrder(placed + [last])
  {
    forall y | y in placed
      ensures y.order <= last.order
    {
      assert y in multiset(placed);
      if y != x {
        assert y in multiset(init);
        var k :| 0 <= k < |init| && init[k] == y;
        assert (init + [last])[k] == y && (init + [last])[|init|] == last;
      }
    }
    var r := placed + [last];
    forall i, j | 0 <= i < j < |r|
      ensures r[i].order <= r[j].order
    {
      if j == |placed| {
        assert r[i] in placed;
      }
    }
  }

  /** `registerSeeders(seeders)`: `seeders.sort((a, b) => a.order - b.order)`,
      a stable sort by ascending order. */
  function RegisterSeeders(s: seq<Seeder>): (r: seq<Seeder>)
    ensures SortedByOrder(r)
    ensures multiset(r) == multiset(s)
  {
    if |s| == 0 then []
    else
      assert s == s[..|s| - 1] + [s[|s| - 1]];
      InsertByOrder(s[|s| - 1], RegisterSeeders(s[..|s| - 1]))
  }

  /** Seeders already in order are registered as given: the sort moves no
      seeder past one of equal order. */
  lemma {:induction false} RegisterSorted(s: seq<Seeder>)
    requires SortedByOrder(s)
    ensures RegisterSeeders(s) == s
  {
    if |s| > 0 {
      var init, last := s[..|s| - 1], s[|s| - 1];
      SortedSplit(s);
      RegisterSorted(init);
      assert RegisterSeeders(s) == InsertByOrder(last, init);
    }
  }

  /** The seeders of `s` whose order is `o`, in their order in `s`. */
  function WithOrder(s: seq<Seeder>, o: int): seq<Seeder> {
    if |s| == 0 then []
    else WithOrder(s[..|s| - 1], o) + (if s[|s| - 1].order == o then [s[|s| - 1]] else [])
  }

  /** Inserting `x` puts it after every seeder of its own order, and moves
      no seeder past another of equal order. */
  lemma {:induction false} InsertStable(x: Seeder, s: seq<Seeder>, o: int)
    requires SortedByOrder(s)
    ensures WithOrder(InsertByOrder(x, s), o) == WithOrder(s, o) + (if x.order == o then [x] else [])
    decreases |s|
  {
    if |s| == 0 {
      assert InsertByOrder(x, s) == [x] && [x][..0] == [];
    } else if x.order < s[|s| - 1].order {
      SortedSplit(s);
      InsertStable(x, s[..|s| - 1], o);
      InsertStableBelow(x, s, o);
    } else {
      assert InsertByOrder(x, s) == s + [x];
      assert (s + [x])[..|s|] == s;
    }
  }

  /** The step of `InsertStable` where `x` goes before the last seeder. */
  lemma InsertStableBelow(x: Seeder, s: seq<Seeder>, o: int)
    requires |s| > 0 && SortedByOrder(s) && SortedByOrder(s[..|s| - 1]) && x.order < s[|s| - 1].order
    requires WithOrder(InsertByOrder(x, s[..|s| - 1]), o) == WithOrder(s[..|s| - 1], o) + (if x.order == o then [x] else [])
    ensures WithOrder(InsertByOrder(x, s), o) == WithOrder(s, o) + (if x.order == o then [x] else [])
  {
    var init, last := s[..|s| - 1], s[|s| - 1];
    var placed := InsertByOrder(x, init);
    assert InsertByOrder(x, s) == placed + [last];
    assert (placed + [last])[..|placed|] == placed;
    if x.order == o {
      assert WithOrder(s, o) == WithOrder(init, o);
      assert WithOrder(placed + [last], o) == WithOrder(placed, o);
    } else {
      assert WithOrder(placed, o) == WithOrder(init, o);
    }
  }

  /** `Array.prototype.sort` is stable: the registered seeders of each order
      are the given ones of that order, in registration order. */
  lemma {:induction false} RegisterStable(s: seq<Seeder>, o: int)
    ensures WithOrder(RegisterSeeders(s), o) == WithOrder(s, o)
  {
    if |s| > 0 {
      var init := s[..|s| - 1];
      RegisterStable(init, o);
      InsertStable(s[|s| - 1], RegisterSeeders(init), o);
    }
  }

  /** A sorted sequence is its sorted prefix with a last element ordered no
      earlier than the prefix's last, and inserting that element puts it at
      the end. */
  lemma SortedSplit(s: seq<Seeder>)
    requires SortedByOrder(s) && |s| > 0
    ensures SortedByOrder(s[..|s| - 1])
    ensures InsertByOrder(s[|s| - 1], s[..|s| - 1]) == s
  {
    var init, last := s[..|s| - 1], s[|s| - 1];
    forall i, j | 0 <= i < j < |init| ensures init[i].order <= init[j].order {
      assert init[i] == s[i] && init[j] == s[j];
    }
    assert |init| > 0 ==> init[|init| - 1] == s[|s| - 2];
    assert s == init + [last];
  }

  // ---------------------------------------------------------------------
  // Selection

  /** The run options. An absent `only` or `skip` list is the empty list
      and an absent `force` is `false`. */
  datatype RunOptions = RunOptions(only: seq<string>, skip: seq<string>, force: bool)

  /** `seeders.filter(p)`. */
  function Filter(s: seq<Seeder>, p: Seeder -> bool): (r: seq<Seeder>)
    ensures |r| <= |s|
    ensures forall x :: x in r <==> x in s && p(x)
  {
    if |s| == 0 then []
    else (if p(s[0]) then [s[0]] else []) + Filter(s[1..], p)
  }

  function Runnable(production: bool): Seeder -> bool {
    (s: Seeder) => ShouldRun(s, production)
  }

  function Listed(only: seq<string>): Seeder -> bool {
    (s: Seeder) => s.name in only
  }

  function NotSkipped(skip: seq<string>): Seeder -> bool {
    (s: Seeder) => s.name !in skip
  }

  /** `filterSeeders(options)`: the `shouldRun` seeders unless forced, then
      those named in a non-empty `only`, then those not named in a non-empty
      `skip`. */
  function FilterSeeders(seeders: seq<Seeder>, o: RunOptions, production: bool): seq<Seeder> {
    var gated := if !o.force then Filter(seeders, Runnable(production)) else seeders;
    var listed := if |o.only| > 0 then Filter(gated, Listed(o.only)) else gated;
    if |o.skip| > 0 then Filter(listed, NotSkipped(o.skip)) else listed
  }

  /** The selection as one condition. */
  predicate Selected(s: Seeder, o: RunOptions, production: bool) {
    && (o.force || ShouldRun(s, production))
    && (|o.only| == 0 || s.name in o.only)
    && s.name !in o.skip
  }

  function SelectedBy(o: RunOptions, production: bool): Seeder -> bool {
    (s: Seeder) => Selected(s, o, production)
  }

  function Both(p: Seeder -> bool, q: Seeder -> bool): Seeder -> bool {
    (s: Seeder) => p(s) && q(s)
  }

  /** Filtering by a condition every seeder meets changes nothing. */
  lemma {:induction false} FilterKeepsAll(s: seq<Seeder>, p: Seeder -> bool)
    requires forall x :: x in s ==> p(x)
    ensures Filter(s, p) == s
  {
    if |s| > 0 {
      FilterKeepsAll(s[1..], p);
    }
  }

  /** Two filters in a row are one filter by both conditions. */
  lemma {:induction false} FilterTwice(s: seq<Seeder>, p: Seeder -> bool, q: Seeder -> bool)
    ensures Filter(Filter(s, p), q) == Filter(s, Both(p, q))
  {
    if |s| > 0 {
      FilterTwice(s[1..], p, q);
      var head := if p(s[0]) then [s[0]] else [];
      assert Filter(s, p) == head + Filter(s[1..], p);
      FilterAppend(head, Filter(s[1..], p), q);
    }
  }

  lemma {:induction false} FilterAppend(a: seq<Seeder>, b: seq<Seeder>, p: Seeder -> bool)
    ensures Filter(a + b, p) == Filter(a, p) + Filter(b, p)
  {
    if |a| > 0 {
      assert (a + b)[1..] == a[1..] + b;
      FilterAppend(a[1..], b, p);
    } else {
      assert a + b == b;
    }
  }

  /** Filters by conditions that agree on every element agree. */
  lemma {:induction false} FilterAgree(s: seq<Seeder>, p: Seeder -> bool, q: Seeder -> bool)
    requires forall x :: x in s ==> p(x) == q(x)
    ensures Filter(s, p) == Filter(s, q)
  {
    if |s| > 0 {
      FilterAgree(s[1..], p, q);
    }
  }

  function Always(): Seeder -> bool {
    (s: Seeder) => true
  }

  /** A stage that is switched off filters by a condition that always
      holds. */
  lemma StageOff(s: seq<Seeder>, on: bool, p: Seeder -> bool)
    ensures (if on then Filter(s, p) else s) == Filter(s, if on then p else Always())
  {
    if !on {
      FilterKeepsAll(s, Always());
    }
  }

  /** The three stages select exactly the seeders that meet all three
      conditions, in registration order. */
  lemma FilterSeedersSelects(seeders: seq<Seeder>, o: RunOptions, production: bool)
    ensures FilterSeeders(seeders, o, production) == Filter(seeders, SelectedBy(o, production))
  {
    var p := if !o.force then Runnable(production) else Always();
    var q := if |o.only| > 0 then Listed(o.only) else Always();
    var r := if |o.skip| > 0 then NotSkipped(o.skip) else Always();
    StageOff(seeders, !o.force, Runnable(production));
    var gated := Filter(seeders, p);
    StageOff(gated, |o.only| > 0, Listed(o.only));
    var listed := Filter(gated, q);
    StageOff(listed, |o.skip| > 0, NotSkipped(o.skip));
    assert FilterSeeders(seeders, o, production) == Filter(listed, r);
    FilterTwice(seeders, p, q);
    FilterTwice(seeders, Both(p, q), r);
    FilterAgree(seeders, Both(Both(p, q), r), SelectedBy(o, production));
  }

  /** `a` is `b` with some elements left out, the rest in order. */
  predicate Embeds(idx: seq<int>, a: seq<Seeder>, b: seq<Seeder>) {
    && |idx| == |a|
    && (forall k :: 0 <= k < |idx| ==> 0 <= idx[k] < |b| && a[k] == b[idx[k]])
    && (forall k, l :: 0 <= k < l < |idx| ==> idx[k] < idx[l])
  }

  ghost predicate Subsequence(a: seq<Seeder>, b: seq<Seeder>) {
    exists idx :: Embeds(idx, a, b)
  }

  /** Each position moved one place on. */
  function Shift(idx: seq<int>): (r: seq<int>)
    ensures |r| == |idx| && forall k :: 0 <= k < |idx| ==> r[k] == idx[k] + 1
  {
    seq(|idx|, k requires 0 <= k < |idx| => idx[k] + 1)
  }

  /** An embedding into the tail is an embedding into the whole, one place
      on, and one that also keeps the head starts with position 0. */
  lemma ShiftEmbeds(idx: seq<int>, a: seq<Seeder>, s: seq<Seeder>)
    requires |s| > 0 && Embeds(idx, a, s[1..])
    ensures Embeds(Shift(idx), a, s)
    ensures Embeds([0] + Shift(idx), [s[0]] + a, s)
  {
    forall k | 0 <= k < |idx|
      ensures a[k] == s[Shift(idx)[k]]
    {
      assert s[1..][idx[k]] == s[idx[k] + 1];
    }
  }

  /** The positions in `s` that `Filter` keeps. */
  function KeptAt(s: seq<Seeder>, p: Seeder -> bool): (idx: seq<int>)
    ensures Embeds(idx, Filter(s, p), s)
  {
    if |s| == 0 then []
    else
      var rest := KeptAt(s[1..], p);
      ShiftEmbeds(rest, Filter(s[1..], p), s);
      if p(s[0]) then
        assert Filter(s, p) == [s[0]] + Filter(s[1..], p);
        [0] + Shift(rest)
      else
        assert Filter(s, p) == [] + Filter(s[1..], p);
        Shift(rest)
  }

  /** The seeders a run selects are a subsequence of the registered ones. */
  lemma FilterSeedersSubsequence(seeders: seq<Seeder>, o: RunOptions, production: bool)
    ensures Subsequence(FilterSeeders(seeders, o, production), seeders)
  {
    FilterSeedersSelects(seeders, o, production);
    var idx := KeptAt(seeders, SelectedBy(o, production));
    assert Embeds(idx, FilterSeeders(seeders, o, production), seeders);
  }

  // ---------------------------------------------------------------------
  // Running

  /** The summary of a run: how many seeders were selected, succeeded and
      failed, and the result recorded under each name. */
  datatype RunResult = RunResult(total: nat, successful: nat, failed: nat, results: map<string, SeederResult>)

  const NO_RUN: RunResult := RunResult(0, 0, 0, map[])

  /** What a run records for one seeder: its own result, or for a failure
      zero counts and the failure's message as the one error. */
  function Recorded(o: Result<SeederResult, Failure>): (r: SeederResult)
    ensures o.Ok? ==> r == o.value
    ensures o.Err? ==> r.created == 0 && r.updated == 0 && r.skipped == 0 && r.errors == [Describe(o.error)]
  {
    if o.Ok? then o.value else SeederResult(0, 0, 0, [Describe(o.error)])
  }

  /** How many of the seeders succeed. */
  function Succeeding(s: seq<Seeder>): (n: nat)
    ensures n <= |s|
  {
    if |s| == 0 then 0
    else Succeeding(s[..|s| - 1]) + (if s[|s| - 1].outcome.Ok? then 1 else 0)
  }

  function Names(s: seq<Seeder>): set<string> {
    set i | 0 <= i < |s| :: s[i].name
  }

  /** The `for` loop: each seeder in turn, counted as a success or a
      failure, its record stored under its name (a later seeder of the same
      name overwrites an earlier one). */
  function RunEach(s: seq<Seeder>): (r: RunResult)
    ensures r.total == 0
    ensures r.successful == Succeeding(s) && r.successful + r.failed == |s|
    ensures r.results.Keys == Names(s)
  {
    if |s| == 0 then NO_RUN
    else
      var prev := RunEach(s[..|s| - 1]);
      var last := s[|s| - 1];
      assert Names(s) == Names(s[..|s| - 1]) + {last.name} by {
        assert forall i :: 0 <= i < |s| - 1 ==> s[..|s| - 1][i] == s[i];
      }
      if last.outcome.Ok? then
        prev.(successful := prev.successful + 1, results := prev.results[last.name := Recorded(last.outcome)])
      else
        prev.(failed := prev.failed + 1, results := prev.results[last.name := Recorded(last.outcome)])
  }

  /** `i` is the last seeder of its name in `s`. */
  predicate LastOfName(s: seq<Seeder>, i: int)
    requires 0 <= i < |s|
  {
    forall j :: i < j < |s| ==> s[j].name != s[i].name
  }

  /** The record stored under a name is that of the last seeder of the
      name. */
  lemma {:induction false} RunEachRecords(s: seq<Seeder>, i: int)
    requires 0 <= i < |s| && LastOfName(s, i)
    ensures s[i].name in RunEach(s).results
    ensures RunEach(s).results[s[i].name] == Recorded(s[i].outcome)
  {
    if i < |s| - 1 {
      var init := s[..|s| - 1];
      assert init[i] == s[i];
      assert LastOfName(init, i);
      RunEachRecords(init, i);
    }
  }

  /** `run(options)`: nothing at all in production unless forced; otherwise
      the selected seeders in order, with the totals. */
  function Run(seeders: seq<Seeder>, o: RunOptions, production: bool): (r: RunResult)
    ensures production && !o.force ==> r == NO_RUN
    ensures r.successful + r.failed == r.total
    ensures !(production && !o.force) ==>
      && r.total == |FilterSeeders(seeders, o, production)|
      && r.successful == Succeeding(FilterSeeders(seeders, o, production))
      && r.results.Keys == Names(FilterSeeders(seeders, o, production))
  {
    if production && !o.force then NO_RUN
    else
      var toRun := FilterSeeders(seeders, o, production);
      RunEach(toRun).(total := |toRun|)
  }

  /** After a run, each selected seeder that is the last of its name has
      its record: its result when it succeeded, otherwise zero counts and
      exactly one error, the failure's message. */
  lemma RunRecords(seeders: seq<Seeder>, o: RunOptions, production: bool, i: int)
    requires !(production && !o.force)
    requires 0 <= i < |FilterSeeders(seeders, o, production)| && LastOfName(FilterSeeders(seeders, o, production), i)
    ensures var s := FilterSeeders(seeders, o, production)[i];
      var rec := Run(seeders, o, production).results[s.name];
      && (s.outcome.Ok? ==> rec == s.outcome.value)
      && (s.outcome.Err? ==> rec.created == 0 && rec.updated == 0 && rec.skipped == 0 && |rec.errors| == 1)
  {
    RunEachRecords(FilterSeeders(seeders, o, production), i);
  }

  /** The first seeder with the name. */
  function FindSeeder(seeders: seq<Seeder>, name: string): (r: Option<nat>)
    ensures r.Some? ==> r.value < |seeders| && seeders[r.value].name == name
    ensures r.Some? ==> forall j :: 0 <= j < r.value ==> seeders[j].name != name
    ensures r.None? <==> forall j :: 0 <= j < |seeders| ==> seeders[j].name != name
  {
    if |seeders| == 0 then None
    else if seeders[0].name == name then Some(0)
    else match FindSeeder(seeders[1..], name)
      case None => None
      case Some(i) => Some(i + 1)
  }

  /** `runOne(name, force)`: the first seeder of the name, refused when
      there is none and, in production, unless forced or allowed; both
      refusals happen before anything is seeded. */
  function RunOne(seeders: seq<Seeder>, name: string, force: bool, production: bool): (r: Result<SeederResult, Failure>)
    ensures FindSeeder(seeders, name).None? ==> r == Err(Plain("Seeder not found: " + name))
    ensures FindSeeder(seeders, name).Some? && production && !force && !seeders[FindSeeder(seeders, name).value].runInProduction
      ==> r == Err(Plain("Seeder " + name + " is not allowed in production"))
    ensures r.Ok? ==> exists i ::
      && 0 <= i < |seeders| && seeders[i].name == name && seeders[i].outcome == r
      && (!production || force || seeders[i].runInProduction)
  {
    match FindSeeder(seeders, name)
    case None => Err(Plain("Seeder not found: " + name))
    case Some(i) =>
      if production && !force && !seeders[i].runInProduction then
        Err(Plain("Seeder " + name + " is not allowed in production"))
      else seeders[i].outcome
  }

  /** Filtering keeps exactly the one element that meets the condition. */
  lemma {:induction false} FilterSingle(s: seq<Seeder>, p: Seeder -> bool, i: int)
    requires 0 <= i < |s| && p(s[i])
    requires forall j :: 0 <= j < |s| && j != i ==> !p(s[j])
    ensures Filter(s, p) == [s[i]]
  {
    if i == 0 {
      FilterKeepsNone(s[1..], p);
    } else {
      assert !p(s[0]);
      FilterSingle(s[1..], p, i - 1);
    }
  }

  lemma {:induction false} FilterKeepsNone(s: seq<Seeder>, p: Seeder -> bool)
    requires forall j :: 0 <= j < |s| ==> !p(s[j])
    ensures Filter(s, p) == []
  {
    if |s| > 0 {
      FilterKeepsNone(s[1..], p);
    }
  }

  /** Running one seeder by its (unique) name and a forced run restricted to
      that name agree: the run records what `runOne` returns on success, or
      the failure record for the failure `runOne` throws. */
  lemma RunOneAgreesWithRun(seeders: seq<Seeder>, i: int, production: bool)
    requires 0 <= i < |seeders|
    requires forall j :: 0 <= j < |seeders| && j != i ==> seeders[j].name != seeders[i].name
    ensures var name := seeders[i].name;
      var run := Run(seeders, RunOptions([name], [], true), production);
      && run.total == 1
      && run.results == map[name := Recorded(RunOne(seeders, name, true, production))]
  {
    var name := seeders[i].name;
    OnlyNameSelects(seeders, i, production);
    RunSingle(seeders[i]);
    assert FindSeeder(seeders, name) == Some(i);
  }

  /** A forced run restricted to a unique name selects exactly that seeder. */
  lemma OnlyNameSelects(seeders: seq<Seeder>, i: int, production: bool)
    requires 0 <= i < |seeders|
    requires forall j :: 0 <= j < |seeders| && j != i ==> seeders[j].name != seeders[i].name
    ensures FilterSeeders(seeders, RunOptions([seeders[i].name], [], true), production) == [seeders[i]]
  {
    var o := RunOptions([seeders[i].name], [], true);
    FilterSeedersSelects(seeders, o, production);
    FilterSingle(seeders, SelectedBy(o, production), i);
  }

  /** Running one seeder records its outcome under its name. */
  lemma RunSingle(s: Seeder)
    ensures RunEach([s]).results == map[s.name := Recorded(s.outcome)]
  {
    assert [s][..0] == [];
  }

  // ---------------------------------------------------------------------
  // The user seeder

  const USER_SEEDER_NAME: string := "UserSeeder"
  const USER_SEEDER_ORDER: int := 10

  /** The Logto page size the user seeder requests. */
  const PAGE_SIZE: nat := 100

  /** A stored user whose names or email differ from the Logto user's. */
  predicate Differs(stored: User, u: LogtoUser, email: string) {
    stored.firstName != FirstNameOf(u) || stored.lastName != LastNameOf(u) || stored.email != email
  }

  /** The result with one more error: the user's id and the failure's
      message. */
  function SyncFailed(result: SeederResult, id: string, e: Failure): (r: SeederResult)
    ensures r.created == result.created && r.updated == result.updated && r.skipped == result.skipped
    ensures r.errors == result.errors + ["Failed to sync user " + id + ": " + Describe(e)]
  {
    result.(errors := result.errors + ["Failed to sync user " + id + ": " + Describe(e)])
  }

  /** `syncUser(logtoUser, result)`: a user without an email is skipped and
      nothing is written; a stored user is updated when a name or the
      email differs and skipped otherwise; a missing user is created as a
      non-admin, which fails validation when the profile lacks a name. A
      rejected write is recorded as an error. The update runs no
      validators. */
  function SyncUser(users: seq<User>, u: LogtoUser, result: SeederResult): (r: (seq<User>, SeederResult))
    ensures Tally(r.1) == Tally(result) + 1
    ensures !Given(u.primaryEmail) ==> r == (users, result.(skipped := result.skipped + 1))
    ensures r.1.skipped == result.skipped + 1 <==>
      !Given(u.primaryEmail)
      || (FindById(users, u.id).Some? && !Differs(users[FindById(users, u.id).value], u, u.primaryEmail.value))
    ensures r.1.updated == result.updated + 1 ==>
      && Given(u.primaryEmail) && FindById(users, u.id).Some?
      && Differs(users[FindById(users, u.id).value], u, u.primaryEmail.value)
      && UpdateById(users, u.id, FirstNameOf(u), LastNameOf(u), u.primaryEmail.value, u.id) == Ok(r.0)
    ensures r.1.created == result.created + 1 ==>
      && Given(u.primaryEmail) && FindById(users, u.id).None?
      && r.0 == users + [User(u.id, FirstNameOf(u), LastNameOf(u), u.primaryEmail.value, u.id, Some(false))]
    ensures Given(u.primaryEmail) && FindById(users, u.id).None? && (u.id == "" || !Named(u))
      ==> r == (users, SyncFailed(result, u.id, INVALID))
    ensures |r.1.errors| == |result.errors| + 1 ==> r.0 == users
  {
    if !Given(u.primaryEmail) then (users, result.(skipped := result.skipped + 1))
    else
      var email := u.primaryEmail.value;
      match FindById(users, u.id)
      case Some(i) =>
        if Differs(users[i], u, email) then
          match UpdateById(users, u.id, FirstNameOf(u), LastNameOf(u), email, u.id)
          case Ok(next) => (next, result.(updated := result.updated + 1))
          case Err(e) => (users, SyncFailed(result, u.id, e))
        else (users, result.(skipped := result.skipped + 1))
      case None =>
        match Insert(users, User(u.id, FirstNameOf(u), LastNameOf(u), email, u.id, Some(false)))
        case Ok(next) => (next, result.(created := result.created + 1))
        case Err(e) => (users, SyncFailed(result, u.id, e))
  }

  /** Syncing keeps the collection's unique indexes and its link between
      `_id` and `logtoId`. */
  lemma SyncKeepsValid(users: seq<User>, u: LogtoUser, result: SeederResult)
    requires Valid(users)
    ensures Valid(SyncUser(users, u, result).0)
  {
    if Given(u.primaryEmail) {
      var email := u.primaryEmail.value;
      InsertKeepsValid(users, User(u.id, FirstNameOf(u), LastNameOf(u), email, u.id, Some(false)));
      UpdateKeepsValid(users, u.id, FirstNameOf(u), LastNameOf(u), email);
    }
  }

  /** After a sync that recorded no error, syncing the same Logto user
      again writes nothing and counts a skip. */
  lemma SyncTwiceSkips(users: seq<User>, u: LogtoUser, result: SeederResult, again: SeederResult)
    requires Valid(users)
    requires |SyncUser(users, u, result).1.errors| == |result.errors|
    ensures var next := SyncUser(users, u, result).0;
      SyncUser(next, u, again) == (next, again.(skipped := again.skipped + 1))
  {
    if Given(u.primaryEmail) {
      var email := u.primaryEmail.value;
      var next := SyncUser(users, u, result).0;
      match FindById(users, u.id)
      case Some(i) =>
        if Differs(users[i], u, email) {
          var stored := users[i].(firstName := FirstNameOf(u), lastName := LastNameOf(u), email := email, logtoId := u.id);
          assert next == users[i := stored];
          assert ById(u.id)(next[i]);
          assert forall j :: 0 <= j < i ==> next[j] == users[j];
          assert FindById(next, u.id) == Some(i);
        }
      case None =>
        assert next[|users|].id == u.id;
        assert forall j :: 0 <= j < |users| ==> next[j] == users[j];
        assert FindById(next, u.id) == Some(|users|);
    }
  }

  /** One page of users, synced in order. */
  function SyncAll(users: seq<User>, batch: seq<LogtoUser>, result: SeederResult): (r: (seq<User>, SeederResult))
    ensures Tally(r.1) == Tally(result) + |batch|
    ensures r.1.created >= result.created && r.1.updated >= result.updated && r.1.skipped >= result.skipped
    ensures |r.1.errors| >= |result.errors| && r.1.errors[..|result.errors|] == result.errors
    decreases |batch|
  {
    if |batch| == 0 then (users, result)
    else
      var step := SyncUser(users, batch[0], result);
      var r := SyncAll(step.0, batch[1..], step.1);
      assert r.1.errors[..|step.1.errors|] == step.1.errors;
      assert step.1.errors[..|result.errors|] == result.errors;
      r
  }

  /** Every page keeps the collection valid. */
  lemma {:induction false} SyncAllKeepsValid(users: seq<User>, batch: seq<LogtoUser>, result: SeederResult)
    requires Valid(users)
    ensures Valid(SyncAll(users, batch, result).0)
    decreases |batch|
  {
    if |batch| > 0 {
      SyncKeepsValid(users, batch[0], result);
      var step := SyncUser(users, batch[0], result);
      SyncAllKeepsValid(step.0, batch[1..], step.1);
    }
  }

  /** The message recorded when fetching a page fails. */
  function FetchFailed(result: SeederResult, e: Failure): SeederResult {
    result.(errors := result.errors + ["Failed to fetch users from Logto: " + Describe(e)])
  }

  /** The paging loop from page `i + 1` on: an empty page (every page past
      the last is empty) ends it, a failed fetch ends it with one error, and
      a page shorter than `PAGE_SIZE` is the last one read. */
  function SeedPages(users: seq<User>, pages: seq<Result<seq<LogtoUser>, Failure>>, i: nat, result: SeederResult)
    : (r: (seq<User>, SeederResult))
    decreases |pages| - i
  {
    if i >= |pages| then (users, result)
    else match pages[i]
      case Err(e) => (users, FetchFailed(result, e))
      case Ok(batch) =>
        if |batch| == 0 then (users, result)
        else
          var synced := SyncAll(users, batch, result);
          if |batch| == PAGE_SIZE then SeedPages(synced.0, pages, i + 1, synced.1) else synced
  }

  /** `seed()`: the paging loop from page 1 and the empty result. */
  function Seed(users: seq<User>, pages: seq<Result<seq<LogtoUser>, Failure>>): (r: (seq<User>, SeederResult)) {
    SeedPages(users, pages, 0, EMPTY_RESULT)
  }

  /** The Logto users the loop reads from page `i + 1` on. */
  function Fetched(pages: seq<Result<seq<LogtoUser>, Failure>>, i: nat): seq<LogtoUser>
    decreases |pages| - i
  {
    if i >= |pages| || pages[i].Err? || |pages[i].value| == 0 then []
    else if |pages[i].value| == PAGE_SIZE then pages[i].value + Fetched(pages, i + 1)
    else pages[i].value
  }

  /** Whether the loop from page `i + 1` on ends on a failed fetch. */
  predicate EndsOnFailure(pages: seq<Result<seq<LogtoUser>, Failure>>, i: nat)
    decreases |pages| - i
  {
    if i >= |pages| then false
    else if pages[i].Err? then true
    else |pages[i].value| == PAGE_SIZE && EndsOnFailure(pages, i + 1)
  }

  /** Every user read is accounted for exactly once (created, updated,
      skipped or an error), plus one error for a failed fetch. */
  lemma {:induction false} SeedPagesTally(users: seq<User>, pages: seq<Result<seq<LogtoUser>, Failure>>, i: nat, result: SeederResult)
    ensures Tally(SeedPages(users, pages, i, result).1)
         == Tally(result) + |Fetched(pages, i)| + (if EndsOnFailure(pages, i) then 1 else 0)
    decreases |pages| - i
  {
    if i < |pages| && pages[i].Ok? && |pages[i].value| == PAGE_SIZE {
      var synced := SyncAll(users, pages[i].value, result);
      SeedPagesTally(synced.0, pages, i + 1, synced.1);
    }
  }

  /** The counters of `seed()` add up to the users read, plus one for a
      failed fetch. */
  lemma SeedTally(users: seq<User>, pages: seq<Result<seq<LogtoUser>, Failure>>)
    ensures Tally(Seed(users, pages).1) == |Fetched(pages, 0)| + (if EndsOnFailure(pages, 0) then 1 else 0)
  {
    SeedPagesTally(users, pages, 0, EMPTY_RESULT);
  }

  /** The pages after the first page shorter than `PAGE_SIZE` are never
      fetched. */
  lemma {:induction false} SeedPagesStops(users: seq<User>, pages: seq<Result<seq<LogtoUser>, Failure>>, k: nat, i: nat, result: SeederResult)
    requires i <= k < |pages| && pages[k].Ok? && |pages[k].value| < PAGE_SIZE
    ensures SeedPages(users, pages, i, result) == SeedPages(users, pages[..k + 1], i, result)
    decreases k - i
  {
    var cut := pages[..k + 1];
    assert cut[i] == pages[i];
    if i < k && pages[i].Ok? && |pages[i].value| == PAGE_SIZE {
      var synced := SyncAll(users, pages[i].value, result);
      SeedPagesStops(synced.0, pages, k, i + 1, synced.1);
    }
  }

  lemma SeedStopsAtShortPage(users: seq<User>, pages: seq<Result<seq<LogtoUser>, Failure>>, k: nat)
    requires k < |pages| && pages[k].Ok? && |pages[k].value| < PAGE_SIZE
    ensures Seed(users, pages) == Seed(users, pages[..k + 1])
  {
    SeedPagesStops(users, pages, k, 0, EMPTY_RESULT);
  }

  /** Seeding keeps the collection valid. */
  lemma {:induction false} SeedPagesKeepsValid(users: seq<User>, pages: seq<Result<seq<LogtoUser>, Failure>>, i: nat, result: SeederResult)
    requires Valid(users)
    ensures Valid(SeedPages(users, pages, i, result).0)
    decreases |pages| - i
  {
    if i < |pages| && pages[i].Ok? && |pages[i].value| > 0 {
      SyncAllKeepsValid(users, pages[i].value, result);
      var synced := SyncAll(users, pages[i].value, result);
      SeedPagesKeepsValid(synced.0, pages, i + 1, synced.1);
    }
  }

  /** The user seeder: order 10, allowed in production, and its `seed()`
      never throws (a failed fetch is caught into the result). */
  function UserSeeder(users: seq<User>, pages: seq<Result<seq<LogtoUser>, Failure>>): Seeder {
    Seeder(USER_SEEDER_NAME, USER_SEEDER_ORDER, true, Ok(Seed(users, pages).1))
  }

  /** The user seeder runs in every environment, ahead of every seeder that
      keeps the default order, and always succeeds. */
  lemma UserSeederRuns(users: seq<User>, pages: seq<Result<seq<LogtoUser>, Failure>>, other: Seeder, production: bool)
    requires other.order == DEFAULT_ORDER
    ensures ShouldRun(UserSeeder(users, pages), production)
    ensures UserSeeder(users, pages).order < other.order
    ensures UserSeeder(users, pages).outcome.Ok?
  {
  }
}

=== FILE: session.dfy ===
/** What a transaction coordinator does with MongoDB sessions, recorded as an
    abstract trace of events, and the scripted outcomes of the unit of work it
    runs. Attempt `k` of an owning coordinator uses the fresh session `k`;
    a caller-supplied session is `Outer`. */
module Session {
  import opened Wrappers
  import opened Errors

  datatype SessionRef = Owned(n: nat) | Outer

  datatype Event =
    | StartSession(n: nat)
    | StartTransaction(n: nat)
      /** One execution of the unit of work `fn` on the given session. */
    | Exec(s: SessionRef)
    | Commit(n: nat)
    | Abort(n: nat)
    | EndSession(n: nat)
      /** A wait before a retry, in milliseconds as requested. */
    | Sleep(ms: int)

  /** What one execution of the unit of work did: returned or threw. */
  datatype Outcome<+R> = Returned(value: R) | Threw(error: Failure)

  /** The outcome of one execution of work that returns a result. */
  function AsOutcome<R>(r: Result<R, Failure>): Outcome<R> {
    if r.Ok? then Returned(r.value) else Threw(r.error)
  }

  /** A unit of work that ends the same way on every execution. */
  function ConstWork<R>(o: Outcome<R>): nat -> Outcome<R> {
    (k: nat) => o
  }

  /** The result a coordinator hands back, and the events it caused. */
  datatype Run<+R> = Run(result: Result<R, Failure>, trace: seq<Event>)

  /** Number of executions of the unit of work. */
  function Execs(t: seq<Event>): nat {
    if |t| == 0 then 0 else (if t[0].Exec? then 1 else 0) + Execs(t[1..])
  }

  /** Number of occurrences of the event `e`. */
  function Count(t: seq<Event>, e: Event): nat {
    if |t| == 0 then 0 else (if t[0] == e then 1 else 0) + Count(t[1..], e)
  }

  /** The requested waits, in order. */
  function Sleeps(t: seq<Event>): seq<int> {
    if |t| == 0 then []
    else (if t[0].Sleep? then [t[0].ms] else []) + Sleeps(t[1..])
  }

  /** The trace touches session state: it starts, commits, aborts or ends a
      session, or starts a transaction. */
  predicate TouchesSessions(t: seq<Event>) {
    exists i :: 0 <= i < |t| && !t[i].Exec? && !t[i].Sleep?
  }

  lemma {:induction false} ExecsAppend(a: seq<Event>, b: seq<Event>)
    ensures Execs(a + b) == Execs(a) + Execs(b)
  {
    if |a| > 0 {
      assert (a + b)[1..] == a[1..] + b;
      ExecsAppend(a[1..], b);
    } else {
      assert a + b == b;
    }
  }

  lemma {:induction false} SleepsAppend(a: seq<Event>, b: seq<Event>)
    ensures Sleeps(a + b) == Sleeps(a) + Sleeps(b)
  {
    if |a| > 0 {
      assert (a + b)[1..] == a[1..] + b;
      SleepsAppend(a[1..], b);
    } else {
      assert a + b == b;
    }
  }

  lemma {:induction false} CountAppend(a: seq<Event>, b: seq<Event>, e: Event)
    ensures Count(a + b, e) == Count(a, e) + Count(b, e)
  {
    if |a| > 0 {
      assert (a + b)[1..] == a[1..] + b;
      CountAppend(a[1..], b, e);
    } else {
      assert a + b == b;
    }
  }

  /** The count of `e` in displays of one, two and three events. */
  lemma Count1(x: Event, e: Event)
    ensures Count([x], e) == (if x == e then 1 else 0)
  {
    assert [x][1..] == [];
  }

  lemma Count2(x: Event, y: Event, e: Event)
    ensures Count([x, y], e) == (if x == e then 1 else 0) + (if y == e then 1 else 0)
  {
    assert [x, y][1..] == [y];
    Count1(y, e);
  }

  lemma Count3(x: Event, y: Event, z: Event, e: Event)
    ensures Count([x, y, z], e) == (if x == e then 1 else 0) + (if y == e then 1 else 0) + (if z == e then 1 else 0)
  {
    assert [x, y, z][1..] == [y, z];
    Count2(y, z, e);
  }

  /** The tallies of a one-event display. */
  lemma Tally1(x: Event)
    ensures Execs([x]) == (if x.Exec? then 1 else 0)
    ensures Sleeps([x]) == (if x.Sleep? then [x.ms] else [])
  {
    assert [x][1..] == [];
  }

  /** The tallies of a two-event display. */
  lemma Tally2(x: Event, y: Event)
    ensures Execs([x, y]) == (if x.Exec? then 1 else 0) + (if y.Exec? then 1 else 0)
    ensures Sleeps([x, y]) == (if x.Sleep? then [x.ms] else []) + (if y.Sleep? then [y.ms] else [])
  {
    assert [x, y][1..] == [y];
    Tally1(y);
  }

  /** The tallies of a three-event display. */
  lemma Tally3(x: Event, y: Event, z: Event)
    ensures Execs([x, y, z]) == (if x.Exec? then 1 else 0) + (if y.Exec? then 1 else 0) + (if z.Exec? then 1 else 0)
    ensures Sleeps([x, y, z]) == (if x.Sleep? then [x.ms] else []) + (if y.Sleep? then [y.ms] else []) + (if z.Sleep? then [z.ms] else [])
  {
    assert [x, y, z][1..] == [y, z];
    Tally2(y, z);
  }

  /** The events of one attempt, up to and including the execution of the
      unit of work; an owner first starts session `n` and a transaction. */
  function Opening(owner: bool, n: nat): seq<Event> {
    if owner then [StartSession(n), StartTransaction(n), Exec(Owned(n))] else [Exec(Outer)]
  }

  /** An opening executes the work once and does not wait. */
  lemma OpeningTally(owner: bool, n: nat)
    ensures Execs(Opening(owner, n)) == 1 && Sleeps(Opening(owner, n)) == []
  {
    if owner {
      Tally3(StartSession(n), StartTransaction(n), Exec(Owned(n)));
    } else {
      Tally1(Exec(Outer));
    }
  }

  /** The events of an owner's attempt `a` that failed and is retried after
      ending its session and waiting `d` milliseconds. */
  function RetriedAttempt(a: nat, d: int): seq<Event> {
    Opening(true, a) + [Abort(a)] + [EndSession(a), Sleep(d)]
  }

  /** The events of an owner's attempt `a` that failed and is retried after
      waiting `d` milliseconds, without ending its session. */
  function LeakedAttempt(a: nat, d: int): seq<Event> {
    Opening(true, a) + [Abort(a)] + [Sleep(d)]
  }

  /** The events of an owner's last attempt `a`: it commits iff `committed`,
      aborts otherwise, and ends its session. */
  function Closed(a: nat, committed: bool): seq<Event> {
    if committed then Opening(true, a) + [Commit(a), EndSession(a)]
    else Opening(true, a) + [Abort(a)] + [EndSession(a)]
  }

  lemma RetriedExecs(a: nat, d: int)
    ensures Execs(RetriedAttempt(a, d)) == 1
  {
    ExecsAppend(Opening(true, a) + [Abort(a)], [EndSession(a), Sleep(d)]);
    ExecsAppend(Opening(true, a), [Abort(a)]);
    OpeningTally(true, a);
    Tally1(Abort(a));
    Tally2(EndSession(a), Sleep(d));
  }

  lemma RetriedSleeps(a: nat, d: int)
    ensures Sleeps(RetriedAttempt(a, d)) == [d]
  {
    SleepsAppend(Opening(true, a) + [Abort(a)], [EndSession(a), Sleep(d)]);
    SleepsAppend(Opening(true, a), [Abort(a)]);
    OpeningTally(true, a);
    Tally1(Abort(a));
    Tally2(EndSession(a), Sleep(d));
  }

  /** A retried attempt starts and ends its own session once, no other. */
  lemma RetriedSessions(a: nat, d: int, n: nat)
    ensures Count(RetriedAttempt(a, d), EndSession(n)) == Count(RetriedAttempt(a, d), StartSession(n)) == if n == a then 1 else 0
  {
    forall e | e == StartSession(n) || e == EndSession(n)
      ensures Count(RetriedAttempt(a, d), e) == if e == StartSession(a) || e == EndSession(a) then 1 else 0
    {
      CountAppend(Opening(true, a) + [Abort(a)], [EndSession(a), Sleep(d)], e);
      CountAppend(Opening(true, a), [Abort(a)], e);
      Count3(StartSession(a), StartTransaction(a), Exec(Owned(a)), e);
      Count1(Abort(a), e);
      Count2(EndSession(a), Sleep(d), e);
    }
  }

  lemma LeakedExecs(a: nat, d: int)
    ensures Execs(LeakedAttempt(a, d)) == 1
  {
    ExecsAppend(Opening(true, a) + [Abort(a)], [Sleep(d)]);
    ExecsAppend(Opening(true, a), [Abort(a)]);
    OpeningTally(true, a);
    Tally1(Abort(a));
    Tally1(Sleep(d));
  }

  lemma LeakedSleeps(a: nat, d: int)
    ensures Sleeps(LeakedAttempt(a, d)) == [d]
  {
    SleepsAppend(Opening(true, a) + [Abort(a)], [Sleep(d)]);
    SleepsAppend(Opening(true, a), [Abort(a)]);
    OpeningTally(true, a);
    Tally1(Abort(a));
    Tally1(Sleep(d));
  }

  /** An attempt retried without ending its session starts its own session
      once and ends none. */
  lemma LeakedSessions(a: nat, d: int, n: nat)
    ensures Count(LeakedAttempt(a, d), StartSession(n)) == (if n == a then 1 else 0)
    ensures Count(LeakedAttempt(a, d), EndSession(n)) == 0
  {
    forall e | e == StartSession(n) || e == EndSession(n)
      ensures Count(LeakedAttempt(a, d), e) == if e == StartSession(a) then 1 else 0
    {
      CountAppend(Opening(true, a) + [Abort(a)], [Sleep(d)], e);
      CountAppend(Opening(true, a), [Abort(a)], e);
      Count3(StartSession(a), StartTransaction(a), Exec(Owned(a)), e);
      Count1(Abort(a), e);
      Count1(Sleep(d), e);
    }
  }

  lemma ClosedExecs(a: nat, committed: bool)
    ensures Execs(Closed(a, committed)) == 1
  {
    OpeningTally(true, a);
    if committed {
      ExecsAppend(Opening(true, a), [Commit(a), EndSession(a)]);
      Tally2(Commit(a), EndSession(a));
    } else {
      ExecsAppend(Opening(true, a) + [Abort(a)], [EndSession(a)]);
      ExecsAppend(Opening(true, a), [Abort(a)]);
      Tally1(Abort(a));
      Tally1(EndSession(a));
    }
  }

  lemma ClosedSleeps(a: nat, committed: bool)
    ensures Sleeps(Closed(a, committed)) == []
  {
    OpeningTally(true, a);
    if committed {
      SleepsAppend(Opening(true, a), [Commit(a), EndSession(a)]);
      Tally2(Commit(a), EndSession(a));
    } else {
      SleepsAppend(Opening(true, a) + [Abort(a)], [EndSession(a)]);
      SleepsAppend(Opening(true, a), [Abort(a)]);
      Tally1(Abort(a));
      Tally1(EndSession(a));
    }
  }

  /** The last attempt starts and ends its own session once, no other. */
  lemma ClosedSessions(a: nat, committed: bool, n: nat)
    ensures Count(Closed(a, committed), EndSession(n)) == Count(Closed(a, committed), StartSession(n)) == if n == a then 1 else 0
  {
    forall e | e == StartSession(n) || e == EndSession(n)
      ensures Count(Closed(a, committed), e) == if e == StartSession(a) || e == EndSession(a) then 1 else 0
    {
      Count3(StartSession(a), StartTransaction(a), Exec(Owned(a)), e);
      if committed {
        CountAppend(Opening(true, a), [Commit(a), EndSession(a)], e);
        Count2(Commit(a), EndSession(a), e);
      } else {
        CountAppend(Opening(true, a) + [Abort(a)], [EndSession(a)], e);
        CountAppend(Opening(true, a), [Abort(a)], e);
        Count1(Abort(a), e);
        Count1(EndSession(a), e);
      }
    }
  }

  /** The whole trace of an owner from attempt `a` on: one retried attempt
      per entry of `delays`, each ending its session and then waiting that
      long, then a last attempt that commits iff `committed`. */
  function Pattern(a: nat, delays: seq<int>, committed: bool): seq<Event>
    decreases |delays|
  {
    if |delays| == 0 then Closed(a, committed)
    else RetriedAttempt(a, delays[0]) + Pattern(a + 1, delays[1..], committed)
  }

  /** As `Pattern`, but a retried attempt waits without ending its session. */
  function LeakyPattern(a: nat, delays: seq<int>, committed: bool): seq<Event>
    decreases |delays|
  {
    if |delays| == 0 then Closed(a, committed)
    else LeakedAttempt(a, delays[0]) + LeakyPattern(a + 1, delays[1..], committed)
  }

  /** A pattern runs the work once per attempt. */
  lemma {:induction false} PatternExecs(a: nat, delays: seq<int>, committed: bool)
    ensures Execs(Pattern(a, delays, committed)) == |delays| + 1
    decreases |delays|
  {
    if |delays| == 0 {
      ClosedExecs(a, committed);
    } else {
      PatternExecs(a + 1, delays[1..], committed);
      RetriedExecs(a, delays[0]);
      ExecsAppend(RetriedAttempt(a, delays[0]), Pattern(a + 1, delays[1..], committed));
    }
  }

  /** A pattern waits exactly its delays, in order. */
  lemma {:induction false} PatternSleeps(a: nat, delays: seq<int>, committed: bool)
    ensures Sleeps(Pattern(a, delays, committed)) == delays
    decreases |delays|
  {
    if |delays| == 0 {
      ClosedSleeps(a, committed);
    } else {
      PatternSleeps(a + 1, delays[1..], committed);
      RetriedSleeps(a, delays[0]);
      SleepsAppend(RetriedAttempt(a, delays[0]), Pattern(a + 1, delays[1..], committed));
      assert [delays[0]] + delays[1..] == delays;
    }
  }

  /** Every attempt of a pattern starts its own session once and ends it
      once; no other session is touched. */
  lemma {:induction false} PatternSessions(a: nat, delays: seq<int>, committed: bool, n: nat)
    ensures var t := Pattern(a, delays, committed);
      Count(t, EndSession(n)) == Count(t, StartSession(n)) == if a <= n <= a + |delays| then 1 else 0
    decreases |delays|
  {
    if |delays| == 0 {
      ClosedSessions(a, committed, n);
    } else {
      var head, rest := RetriedAttempt(a, delays[0]), Pattern(a + 1, delays[1..], committed);
      PatternSessions(a + 1, delays[1..], committed, n);
      RetriedSessions(a, delays[0], n);
      CountAppend(head, rest, StartSession(n));
      CountAppend(head, rest, EndSession(n));
    }
  }

  /** A leaky pattern also runs the work once per attempt. */
  lemma {:induction false} LeakyExecs(a: nat, delays: seq<int>, committed: bool)
    ensures Execs(LeakyPattern(a, delays, committed)) == |delays| + 1
    decreases |delays|
  {
    if |delays| == 0 {
      ClosedExecs(a, committed);
    } else {
      LeakyExecs(a + 1, delays[1..], committed);
      LeakedExecs(a, delays[0]);
      ExecsAppend(LeakedAttempt(a, delays[0]), LeakyPattern(a + 1, delays[1..], committed));
    }
  }

  /** A leaky pattern also waits exactly its delays. */
  lemma {:induction false} LeakySleeps(a: nat, delays: seq<int>, committed: bool)
    ensures Sleeps(LeakyPattern(a, delays, committed)) == delays
    decreases |delays|
  {
    if |delays| == 0 {
      ClosedSleeps(a, committed);
    } else {
      LeakySleeps(a + 1, delays[1..], committed);
      LeakedSleeps(a, delays[0]);
      SleepsAppend(LeakedAttempt(a, delays[0]), LeakyPattern(a + 1, delays[1..], committed));
      assert [delays[0]] + delays[1..] == delays;
    }
  }

  /** In a leaky pattern every attempt starts its own session, but only the
      last attempt's session is ended. */
  lemma {:induction false} LeakySessions(a: nat, delays: seq<int>, committed: bool, n: nat)
    ensures var t := LeakyPattern(a, delays, committed);
      && Count(t, StartSession(n)) == (if a <= n <= a + |delays| then 1 else 0)
      && Count(t, EndSession(n)) == (if n == a + |delays| then 1 else 0)
    decreases |delays|
  {
    if |delays| == 0 {
      ClosedSessions(a, committed, n);
    } else {
      var head, rest := LeakedAttempt(a, delays[0]), LeakyPattern(a + 1, delays[1..], committed);
      LeakySessions(a + 1, delays[1..], committed, n);
      LeakedSessions(a, delays[0], n);
      CountAppend(head, rest, StartSession(n));
      CountAppend(head, rest, EndSession(n));
    }
  }
}

=== FILE: store.dfy ===
/** The document store as the core sees it: a collection maps ids to
    documents carrying a version key `__v`, and `findOneAndUpdate` with a
    filter `{_id, __v?}` is one atomic compare-and-set. Updates are
    interpreted for plain keys and `$set` (assignment), `$inc` and `$push`;
    any other operator is read as changing nothing. */
module Store {
  import opened Wrappers
  import opened Json

  /** The version key Mongoose maintains on every document. */
  const VERSION_KEY: string := "__v"

  /** A stored document: its version and its other fields. */
  datatype Doc = Doc(version: int, fields: seq<Field>)

  type Collection = map<string, Doc>

  /** `findById`: the document, or `null`. */
  function FindById(c: Collection, id: string): Option<Doc> {
    if id in c then Some(c[id]) else None
  }

  /** A number read as a number; anything else as 0. */
  function NumOr0(v: Value): int {
    if v.Num? then v.n else 0
  }

  /** The array items of a value; anything else as no items. */
  function ItemsOf(v: Value): seq<Value> {
    if v.Arr? then v.items else []
  }

  /** A key naming an update operator such as `$inc`. */
  predicate IsOperator(k: string) {
    |k| > 0 && k[0] == '$'
  }

  /** The fields of an update that are plain assignments. */
  function PlainFields(u: seq<Field>): (r: seq<Field>)
    ensures forall i :: 0 <= i < |r| ==> !IsOperator(r[i].key)
    ensures forall k :: !IsOperator(k) ==> Get(r, k) == Get(u, k) && (k in Keys(r) <==> k in Keys(u))
  {
    if |u| == 0 then []
    else if IsOperator(u[0].key) then PlainFields(u[1..])
    else [u[0]] + PlainFields(u[1..])
  }

  /** `$inc` on the non-version fields, in order. */
  function IncFields(fs: seq<Field>, incs: seq<Field>): (r: seq<Field>)
    ensures forall k :: k !in Keys(incs) ==> Get(r, k) == Get(fs, k)
    decreases |incs|
  {
    if |incs| == 0 then fs
    else
      var f := incs[0];
      var next := if f.key != VERSION_KEY && f.val.Num? then Put(fs, f.key, Num(NumOr0(Get(fs, f.key)) + f.val.n)) else fs;
      IncFields(next, incs[1..])
  }

  /** `$push` of one value per key, in order. */
  function PushFields(fs: seq<Field>, pushes: seq<Field>): (r: seq<Field>)
    ensures forall k :: k !in Keys(pushes) ==> Get(r, k) == Get(fs, k)
    decreases |pushes|
  {
    if |pushes| == 0 then fs
    else
      var f := pushes[0];
      PushFields(Put(fs, f.key, Arr(ItemsOf(Get(fs, f.key)) + [f.val])), pushes[1..])
  }

  /** The `$inc` part of an update, `{}` when absent. */
  function Incs(u: seq<Field>): seq<Field> {
    FieldsOf(Get(u, "$inc"))
  }

  /** The `$push` part of an update, `{}` when absent. */
  function Pushes(u: seq<Field>): seq<Field> {
    FieldsOf(Get(u, "$push"))
  }

  /** The `$set` part of an update, `{}` when absent. */
  function Sets(u: seq<Field>): seq<Field> {
    FieldsOf(Get(u, "$set"))
  }

  /** The fields after the assignments of an update: its plain keys, which
      Mongoose casts into `$set`, then the keys of its own `$set`. */
  function Assigned(fs: seq<Field>, u: seq<Field>): seq<Field> {
    Spread(Spread(fs, PlainFields(u)), Sets(u))
  }

  /** The document after the update `u`: the assignments, then `$inc`
      (whose `__v` moves the version), then `$push`. */
  function Apply(d: Doc, u: seq<Field>): Doc {
    Doc(d.version + NumOr0(Get(Incs(u), VERSION_KEY)),
        PushFields(IncFields(Assigned(d.fields, u), Incs(u)), Pushes(u)))
  }

  /** The id a filter selects, when its `_id` is a string. */
  function FilterId(filter: seq<Field>): Option<string> {
    var v := Get(filter, "_id");
    if v.Str? then Some(v.s) else None
  }

  /** The filter's version condition holds: no `__v`, or the document's. */
  predicate VersionMatches(filter: seq<Field>, d: Doc) {
    var v := Get(filter, VERSION_KEY);
    v.Undefined? || v == Num(d.version)
  }

  /** `findOneAndUpdate(filter, update, {new: true})`: when the filter
      selects a document it is replaced by its update in one step and
      returned; otherwise nothing changes and the result is `null`. */
  function FindOneAndUpdate(c: Collection, filter: seq<Field>, u: seq<Field>): (r: (Collection, Option<Doc>))
    ensures r.1.Some? <==>
      FilterId(filter).Some? && FilterId(filter).value in c && VersionMatches(filter, c[FilterId(filter).value])
    ensures r.1.None? ==> r.0 == c
    ensures r.1.Some? ==>
      var id := FilterId(filter).value;
      && r.1.value == Apply(c[id], u)
      && r.0 == c[id := r.1.value]
  {
    match FilterId(filter)
    case None => (c, None)
    case Some(id) =>
      if id in c && VersionMatches(filter, c[id]) then
        var d := Apply(c[id], u);
        (c[id := d], Some(d))
      else (c, None)
  }

  /** An update whose `$inc` is exactly `{__v: 1}` and that pushes nothing
      moves the version by one and assigns its plain keys, in order. */
  lemma ApplyVersioned(d: Doc, u: seq<Field>)
    requires Incs(u) == [Field(VERSION_KEY, Num(1))] && Pushes(u) == []
    ensures Apply(d, u) == Doc(d.version + 1, Assigned(d.fields, u))
  {
    var mid := Assigned(d.fields, u);
    assert IncFields(mid, Incs(u)) == IncFields(mid, []);
  }

  /** Such an update changes exactly its assigned keys, a key of its `$set`
      taking precedence over a plain key (the keys of an object being
      distinct, as in any JavaScript object). */
  lemma ApplyVersionedFields(d: Doc, u: seq<Field>, k: string)
    requires Incs(u) == [Field(VERSION_KEY, Num(1))] && Pushes(u) == []
    requires DistinctKeys(u) && DistinctKeys(Sets(u)) && !IsOperator(k)
    ensures k in Keys(Sets(u)) ==> Get(Apply(d, u).fields, k) == Get(Sets(u), k)
    ensures k !in Keys(Sets(u)) && k in Keys(u) ==> Get(Apply(d, u).fields, k) == Get(u, k)
    ensures k !in Keys(Sets(u)) && k !in Keys(u) ==> Get(Apply(d, u).fields, k) == Get(d.fields, k)
  {
    ApplyVersioned(d, u);
    PlainKeepsDistinct(u);
  }

  lemma {:induction false} PlainKeepsDistinct(u: seq<Field>)
    requires DistinctKeys(u)
    ensures DistinctKeys(PlainFields(u))
  {
    if |u| > 0 {
      PlainKeepsDistinct(u[1..]);
      assert Keys(u) == [u[0].key] + Keys(u[1..]);
      var rest := PlainFields(u[1..]);
      if !IsOperator(u[0].key) {
        assert u[0].key !in Keys(rest);
        assert Keys([u[0]] + rest) == [u[0].key] + Keys(rest);
      }
    }
  }

  /** Assigning an operator key leaves the plain assignments as they were. */
  lemma {:induction false} PlainIgnoresOperator(u: seq<Field>, k: string, v: Value)
    requires IsOperator(k)
    ensures PlainFields(Put(u, k, v)) == PlainFields(u)
  {
    if |u| == 0 {
      assert PlainFields([Field(k, v)]) == PlainFields([Field(k, v)][1..]);
    } else if u[0].key == k {
      assert ([Field(k, v)] + u[1..])[1..] == u[1..];
    } else {
      PlainIgnoresOperator(u[1..], k, v);
      assert ([u[0]] + Put(u[1..], k, v))[1..] == Put(u[1..], k, v);
    }
  }

  /** The first increment, as `IncFields` makes it. */
  function IncOne(fs: seq<Field>, f: Field): seq<Field> {
    if f.key != VERSION_KEY && f.val.Num? then Put(fs, f.key, Num(NumOr0(Get(fs, f.key)) + f.val.n)) else fs
  }

  lemma IncFieldsStep(fs: seq<Field>, incs: seq<Field>)
    requires |incs| > 0
    ensures IncFields(fs, incs) == IncFields(IncOne(fs, incs[0]), incs[1..])
  {
  }

  lemma DistinctTail(fs: seq<Field>)
    requires DistinctKeys(fs) && |fs| > 0
    ensures DistinctKeys(fs[1..])
  {
    var rest := fs[1..];
    forall a, b | 0 <= a < b < |rest| ensures rest[a].key != rest[b].key {
      assert rest[a] == fs[a + 1] && rest[b] == fs[b + 1];
    }
  }

  /** An update made of `$set` alone spreads its object over the fields and
      leaves the version as it is. */
  lemma ApplySetOnly(d: Doc, sets: seq<Field>)
    ensures Apply(d, [Field("$set", Obj(sets))]) == Doc(d.version, Spread(d.fields, sets))
  {
    var u := [Field("$set", Obj(sets))];
    assert u[1..] == [];
    assert Get(u, "$set") == Obj(sets);
    assert Get(u, "$inc") == Undefined by { assert u[0].key != "$inc"; }
    assert Get(u, "$push") == Undefined by { assert u[0].key != "$push"; }
    assert PlainFields(u) == [] by { assert IsOperator("$set"); }
    assert Spread(d.fields, []) == d.fields;
    assert IncFields(Spread(d.fields, sets), []) == Spread(d.fields, sets);
    assert PushFields(Spread(d.fields, sets), []) == Spread(d.fields, sets);
  }

  /** An update made of `$inc` alone increments the fields and moves the
      version by the `__v` increment. */
  lemma ApplyIncOnly(d: Doc, incs: seq<Field>)
    ensures Apply(d, [Field("$inc", Obj(incs))]) == Doc(d.version + NumOr0(Get(incs, VERSION_KEY)), IncFields(d.fields, incs))
  {
    var u := [Field("$inc", Obj(incs))];
    assert Get(u, "$inc") == Obj(incs);
    assert Get(u, "$push") == Undefined by { assert u[0].key != "$push"; assert u[1..] == []; }
    assert Get(u, "$set") == Undefined by { assert u[0].key != "$set"; assert u[1..] == []; }
    assert PlainFields(u) == [] by { assert IsOperator("$inc"); assert u[1..] == []; }
    assert Assigned(d.fields, u) == d.fields;
    assert PushFields(IncFields(d.fields, incs), []) == IncFields(d.fields, incs);
  }

  /** Under a `$inc` of distinct keys, each non-version field named with a
      number is raised by it and a field not named is unchanged. */
  lemma IncOnlyField(d: Doc, incs: seq<Field>, k: string, amount: int)
    requires DistinctKeys(incs) && k != VERSION_KEY
    ensures var fs := Apply(d, [Field("$inc", Obj(incs))]).fields;
      && (k !in Keys(incs) ==> Get(fs, k) == Get(d.fields, k))
      && (Get(incs, k) == Num(amount) ==> Get(fs, k).Num? && Get(fs, k).n == NumOr0(Get(d.fields, k)) + amount)
  {
    ApplyIncOnly(d, incs);
    if Get(incs, k) == Num(amount) {
      IncFieldsNamed(d.fields, incs, k, amount);
    }
  }

  /** The increment of a key named once adds its amount to the field,
      counting a missing or non-numeric field as 0. */
  lemma IncFieldsNamed(fs: seq<Field>, incs: seq<Field>, k: string, amount: int)
    requires DistinctKeys(incs) && k != VERSION_KEY && Get(incs, k) == Num(amount)
    ensures Get(IncFields(fs, incs), k).Num? && Get(IncFields(fs, incs), k).n == NumOr0(Get(fs, k)) + amount
  {
    IncFieldsBy(fs, incs, k, NumOr0(Get(fs, k)), amount);
  }

  /** `IncFieldsNamed` with the field's starting number `base` and the
      increment `amount` named, so that the induction only carries them. */
  lemma {:induction false} IncFieldsBy(fs: seq<Field>, incs: seq<Field>, k: string, base: int, amount: int)
    requires DistinctKeys(incs) && k != VERSION_KEY && k in Keys(incs)
    requires Get(incs, k) == Num(amount) && NumOr0(Get(fs, k)) == base
    ensures Get(IncFields(fs, incs), k).Num? && Get(IncFields(fs, incs), k).n == base + amount
    decreases |incs|
  {
    IncFieldsStep(fs, incs);
    if incs[0].key == k {
      IncHeadBy(fs, incs, k, base, amount);
    } else {
      NamedInTail(incs, k);
      DistinctTail(incs);
      IncOneOther(fs, incs[0], k);
      IncFieldsBy(IncOne(fs, incs[0]), incs[1..], k, base, amount);
    }
  }

  /** With distinct keys, the first increment is the last word on its
      field. */
  lemma IncHeadBy(fs: seq<Field>, incs: seq<Field>, k: string, base: int, amount: int)
    requires DistinctKeys(incs) && |incs| > 0 && incs[0].key == k && k != VERSION_KEY
    requires Get(incs, k) == Num(amount) && NumOr0(Get(fs, k)) == base
    ensures Get(IncFields(fs, incs), k).Num? && Get(IncFields(fs, incs), k).n == base + amount
  {
    IncFieldsStep(fs, incs);
    var rest := incs[1..];
    var ks := Keys(rest);
    forall j | 0 <= j < |ks| ensures ks[j] != k {
      assert rest[j] == incs[j + 1];
    }
    assert Get(IncOne(fs, incs[0]), k).Num? && Get(IncOne(fs, incs[0]), k).n == base + amount;
  }

  /** A key that is not the first is found, with its value, in the tail. */
  lemma NamedInTail(fs: seq<Field>, k: string)
    requires k in Keys(fs) && fs[0].key != k
    ensures k in Keys(fs[1..]) && Get(fs[1..], k) == Get(fs, k)
  {
    assert Keys(fs) == [fs[0].key] + Keys(fs[1..]);
  }

  /** One increment leaves the other fields alone. */
  lemma IncOneOther(fs: seq<Field>, f: Field, k: string)
    requires f.key != k
    ensures Get(IncOne(fs, f), k) == Get(fs, k)
  {
  }

  /** A model the service updates through: its own, or one of its
      discriminators by name. */
  datatype ModelRef = BaseModel | DiscriminatorModel(name: string)

  /** `resolveDiscriminatorModel(entity)` of the common service, and the
      same lookup inlined in the CRUD service's `forceUpdate`: the
      discriminator registered under the entity's discriminator-key value,
      when the model has discriminators and that value is a non-empty
      string naming one; the base model otherwise. */
  function ResolveDiscriminatorModel(discriminators: Option<set<string>>, key: string, entity: Doc): (m: ModelRef)
    ensures m.DiscriminatorModel? <==>
      && discriminators.Some?
      && Get(entity.fields, key).Str? && Get(entity.fields, key).s != ""
      && Get(entity.fields, key).s in discriminators.value
    ensures m.DiscriminatorModel? ==> m.name == Get(entity.fields, key).s
  {
    if discriminators.None? then BaseModel
    else
      var raw := Get(entity.fields, key);
      if raw.Str? && raw.s != "" && raw.s in discriminators.value then DiscriminatorModel(raw.s) else BaseModel
  }
}

=== FILE: strings.dfy ===
/** The handful of JavaScript string operations the core relies on, over
    `string = seq<char>`: `split` on one character, `join`, `trim`,
    ASCII `toLowerCase`, `startsWith` and `replace` of the first occurrence. */
module Strings {
  import opened Wrappers

  /** JavaScript white space and line terminators: the characters removed by
      `String.prototype.trim` and matched by `/\s/`. */
  predicate IsSpace(c: char) {
    var n := c as int;
    n == 0x09 || n == 0x0A || n == 0x0B || n == 0x0C || n == 0x0D || n == 0x20
    || n == 0xA0 || n == 0x1680 || (0x2000 <= n <= 0x200A) || n == 0x2028
    || n == 0x2029 || n == 0x202F || n == 0x205F || n == 0x3000 || n == 0xFEFF
  }

  /** `s.split(sep)` for a one-character separator: the maximal pieces between
      separators, so `n` separators give `n + 1` pieces (empty ones included). */
  function Split(s: string, sep: char): (parts: seq<string>)
    ensures |parts| >= 1
    ensures forall i :: 0 <= i < |parts| ==> sep !in parts[i]
  {
    if |s| == 0 then [""]
    else
      var rest := Split(s[1..], sep);
      if s[0] == sep then [""] + rest
      else [[s[0]] + rest[0]] + rest[1..]
  }

  /** `parts.join(sep)` for a one-character separator and a non-empty array. */
  function Join(parts: seq<string>, sep: char): string
    requires |parts| >= 1
  {
    if |parts| == 1 then parts[0] else parts[0] + [sep] + Join(parts[1..], sep)
  }

  /** A piece without the separator splits to itself. */
  lemma {:induction false} SplitNoSep(s: string, sep: char)
    requires sep !in s
    ensures Split(s, sep) == [s]
  {
    if |s| > 0 {
      assert sep !in s[1..];
      SplitNoSep(s[1..], sep);
      assert [s[0]] + s[1..] == s;
    }
  }

  /** Splitting distributes over a separator placed between two strings. */
  lemma {:induction false} SplitAroundSep(a: string, b: string, sep: char)
    ensures Split(a + [sep] + b, sep) == Split(a, sep) + Split(b, sep)
  {
    if |a| == 0 {
      assert a + [sep] + b == [sep] + b;
      assert ([sep] + b)[1..] == b;
    } else {
      var s := a + [sep] + b;
      assert s[0] == a[0];
      assert s[1..] == a[1..] + [sep] + b;
      SplitAroundSep(a[1..], b, sep);
      var r := Split(a[1..], sep);
      if a[0] == sep {
        assert Split(s, sep) == [""] + (r + Split(b, sep));
      } else {
        var rb := r + Split(b, sep);
        assert rb[0] == r[0];
        assert rb[1..] == r[1..] + Split(b, sep);
        assert Split(s, sep) == [[a[0]] + r[0]] + (r[1..] + Split(b, sep));
        assert Split(a, sep) == [[a[0]] + r[0]] + r[1..];
      }
    }
  }

  /** Joining the pieces of a split gives back the original string. */
  lemma {:induction false} JoinOfSplit(s: string, sep: char)
    ensures Join(Split(s, sep), sep) == s
  {
    if |s| > 0 {
      JoinOfSplit(s[1..], sep);
      var rest := Split(s[1..], sep);
      if s[0] == sep {
        var parts := [""] + rest;
        assert parts[1..] == rest;
        assert Join(parts, sep) == "" + [sep] + Join(rest, sep);
        assert s == [s[0]] + s[1..];
      } else {
        var parts := [[s[0]] + rest[0]] + rest[1..];
        if |rest| == 1 {
          assert parts == [[s[0]] + rest[0]];
          assert s == [s[0]] + s[1..];
        } else {
          assert parts[1..] == rest[1..];
          assert Join(rest, sep) == rest[0] + [sep] + Join(rest[1..], sep);
          assert Join(parts, sep) == ([s[0]] + rest[0]) + [sep] + Join(rest[1..], sep);
          assert s == [s[0]] + s[1..];
        }
      }
    }
  }

  /** Splitting a join of separator-free pieces gives back the pieces. */
  lemma {:induction false} SplitOfJoin(parts: seq<string>, sep: char)
    requires |parts| >= 1
    requires forall i :: 0 <= i < |parts| ==> sep !in parts[i]
    ensures Split(Join(parts, sep), sep) == parts
  {
    if |parts| == 1 {
      SplitNoSep(parts[0], sep);
    } else {
      SplitOfJoin(parts[1..], sep);
      SplitNoSep(parts[0], sep);
      SplitAroundSep(parts[0], Join(parts[1..], sep), sep);
      assert [parts[0]] + parts[1..] == parts;
    }
  }

  /** `s.startsWith(p)`. */
  predicate StartsWith(s: string, p: string) {
    |p| <= |s| && s[..|p|] == p
  }

  /** `pat` occurs in `s` starting at position `j`. */
  predicate OccursAt(s: string, pat: string, j: int) {
    0 <= j && j + |pat| <= |s| && s[j..j + |pat|] == pat
  }

  /** Position of the first occurrence of `pat` in `s` at or after `from`. */
  function IndexOfFrom(s: string, pat: string, from: nat): (r: Option<nat>)
    requires from <= |s|
    ensures r.Some? ==> from <= r.value && OccursAt(s, pat, r.value)
    ensures r.Some? ==> forall j :: from <= j < r.value ==> !OccursAt(s, pat, j)
    ensures r.None? ==> forall j :: from <= j ==> !OccursAt(s, pat, j)
    decreases |s| - from
  {
    if from + |pat| > |s| then None
    else if s[from..from + |pat|] == pat then Some(from)
    else IndexOfFrom(s, pat, from + 1)
  }

  /** `s.indexOf(pat)` as an option. */
  function IndexOf(s: string, pat: string): Option<nat> {
    IndexOfFrom(s, pat, 0)
  }

  /** `s.replace(pat, rep)` for a plain string pattern: only the first
      occurrence is replaced; without an occurrence `s` is returned. */
  function ReplaceFirst(s: string, pat: string, rep: string): (r: string)
    ensures IndexOf(s, pat).None? ==> r == s
    ensures IndexOf(s, pat).Some? ==>
      var i := IndexOf(s, pat).value;
      r == s[..i] + rep + s[i + |pat|..]
  {
    match IndexOf(s, pat)
    case None => s
    case Some(i) => s[..i] + rep + s[i + |pat|..]
  }

  function TrimStart(s: string): (r: string)
    ensures |r| <= |s| && r == s[|s| - |r|..]
    ensures |r| > 0 ==> !IsSpace(r[0])
    ensures forall i :: 0 <= i < |s| - |r| ==> IsSpace(s[i])
  {
    if |s| > 0 && IsSpace(s[0]) then TrimStart(s[1..]) else s
  }

  function TrimEnd(s: string): (r: string)
    ensures |r| <= |s| && r == s[..|r|]
    ensures |r| > 0 ==> !IsSpace(r[|r| - 1])
    ensures forall i :: |r| <= i < |s| ==> IsSpace(s[i])
  {
    if |s| > 0 && IsSpace(s[|s| - 1]) then TrimEnd(s[..|s| - 1]) else s
  }

  /** `s.trim()`: the longest slice of `s` that neither starts nor ends with
      white space. */
  function Trim(s: string): (r: string)
    ensures |r| <= |s|
    ensures |r| > 0 ==> !IsSpace(r[0]) && !IsSpace(r[|r| - 1])
    ensures (forall i :: 0 <= i < |s| ==> !IsSpace(s[i])) ==> r == s
  {
    TrimEnd(TrimStart(s))
  }

  function ToLowerChar(c: char): char {
    if 'A' <= c <= 'Z' then (c as int + 32) as char else c
  }

  /** `s.toLowerCase()` restricted to the ASCII letters. */
  function ToLowerAscii(s: string): (r: string)
    ensures |r| == |s|
    ensures forall i :: 0 <= i < |s| ==> r[i] == ToLowerChar(s[i])
  {
    if |s| == 0 then "" else [ToLowerChar(s[0])] + ToLowerAscii(s[1..])
  }

  /** `parts.join(sep)` for an arbitrary separator string; `[]` joins to "". */
  function JoinWith(parts: seq<string>, sep: string): string {
    if |parts| == 0 then ""
    else if |parts| == 1 then parts[0]
    else parts[0] + sep + JoinWith(parts[1..], sep)
  }

  /** Joining with a one-character string is joining with that character. */
  lemma {:induction false} JoinWithChar(parts: seq<string>, c: char)
    requires |parts| >= 1
    ensures JoinWith(parts, [c]) == Join(parts, c)
  {
    if |parts| > 1 {
      JoinWithChar(parts[1..], c);
    }
  }

  /** `s.split(/\s+/).filter(Boolean)`: the maximal runs of non-space
      characters, in order. */
  function Words(s: string): (ws: seq<string>)
    ensures forall i :: 0 <= i < |ws| ==> |ws[i]| > 0
    ensures forall i, j :: 0 <= i < |ws| && 0 <= j < |ws[i]| ==> !IsSpace(ws[i][j])
  {
    WordsFrom(s, "")
  }

  /** Words of `s`, where `cur` is the non-space run read just before `s`. */
  function WordsFrom(s: string, cur: string): (ws: seq<string>)
    requires forall j :: 0 <= j < |cur| ==> !IsSpace(cur[j])
    ensures forall i :: 0 <= i < |ws| ==> |ws[i]| > 0
    ensures forall i, j :: 0 <= i < |ws| && 0 <= j < |ws[i]| ==> !IsSpace(ws[i][j])
  {
    if |s| == 0 then (if |cur| == 0 then [] else [cur])
    else if IsSpace(s[0]) then (if |cur| == 0 then [] else [cur]) + WordsFrom(s[1..], "")
    else WordsFrom(s[1..], cur + [s[0]])
  }

  function DigitChar(d: nat): char
    requires d < 10
  {
    ('0' as int + d) as char
  }

  /** `String(n)` for a natural number: its decimal digits. */
  function NatToString(n: nat): (r: string)
    ensures |r| > 0
    ensures forall i :: 0 <= i < |r| ==> '0' <= r[i] <= '9'
  {
    if n < 10 then [DigitChar(n)] else NatToString(n / 10) + [DigitChar(n % 10)]
  }
}

=== FILE: users.dfy ===
/** The user directory (src/user/): the stored user document with its
    unique indexes, the Logto profile a user is built from, onboarding,
    lookup by id or email, the current-user view, and the Logto webhook.
    The users collection is a sequence in natural order; the Logto
    management client's reply to the user lookup and the outcome of
    removing a user are passed in. */
module Users {
  import opened Wrappers
  import opened Errors
  import opened QueryBuilder
  import Json
  import Logto

  /** A stored user. `_id` is the Logto id; `isAdmin` is `None` on a
      document stored without the flag. */
  datatype User = User(
    id: string,
    firstName: string,
    lastName: string,
    email: string,
    logtoId: string,
    isAdmin: Option<bool>)

  /** The profile part of a Logto user. */
  datatype Profile = Profile(givenName: Option<string>, familyName: Option<string>)

  /** A user as the Logto management API returns it. */
  datatype LogtoUser = LogtoUser(
    id: string,
    primaryEmail: Option<string>,
    name: Option<string>,
    profile: Option<Profile>)

  // ---------------------------------------------------------------------
  // The collection and its unique indexes

  /** Two users that would share a key of a unique index (`_id`, `email`,
      `logtoId`). */
  predicate Clash(a: User, b: User) {
    a.id == b.id || a.email == b.email || a.logtoId == b.logtoId
  }

  /** Every unique index holds: no two stored users clash. */
  predicate Unique(users: seq<User>) {
    forall i, j :: 0 <= i < j < |users| ==> !Clash(users[i], users[j])
  }

  /** Every stored user was created from Logto: its `_id` is its `logtoId`. */
  predicate Linked(users: seq<User>) {
    forall i :: 0 <= i < |users| ==> users[i].logtoId == users[i].id
  }

  /** The collection's invariant. */
  predicate Valid(users: seq<User>) {
    Unique(users) && Linked(users)
  }

  /** The error the driver raises for a write that breaks a unique index. */
  const DUPLICATE: Failure := MongoServer(DUPLICATE_KEY, [], None)

  /** The first user satisfying `p`, by position. */
  function Find(users: seq<User>, p: User -> bool): (r: Option<nat>)
    ensures r.Some? ==> r.value < |users| && p(users[r.value])
    ensures r.Some? ==> forall j :: 0 <= j < r.value ==> !p(users[j])
    ensures r.None? <==> forall j :: 0 <= j < |users| ==> !p(users[j])
  {
    if |users| == 0 then None
    else if p(users[0]) then Some(0)
    else match Find(users[1..], p)
      case None => None
      case Some(i) => Some(i + 1)
  }

  /** The filters the service queries with, as predicates. */
  function ById(id: string): User -> bool {
    (u: User) => u.id == id
  }

  function ByEmail(email: string): User -> bool {
    (u: User) => u.email == email
  }

  /** `{ $or: [{ _id: x }, { email: x }] }`. */
  function ByIdOrEmail(x: string): User -> bool {
    (u: User) => u.id == x || u.email == x
  }

  function ClashingWith(u: User): User -> bool {
    (v: User) => Clash(v, u)
  }

  /** `findById(id)`. */
  function FindById(users: seq<User>, id: string): Option<nat> {
    Find(users, ById(id))
  }

  /** `findOne({ email })`. */
  function FindByEmail(users: seq<User>, email: string): Option<nat> {
    Find(users, ByEmail(email))
  }

  /** The schema's required paths (`_id`, `firstName`, `lastName`,
      `email`, `logtoId`): Mongoose's required validator refuses an empty
      string. */
  predicate Complete(u: User) {
    u.id != "" && u.firstName != "" && u.lastName != "" && u.email != "" && u.logtoId != ""
  }

  /** The `ValidationError` `create` throws for a missing required path: a
      plain error, not an HTTP exception. */
  const INVALID: Failure := Plain("User validation failed")

  /** `create(doc)`: the document is validated first, then appended, or
      rejected with a duplicate-key error when it clashes with a stored
      user. */
  function Insert(users: seq<User>, u: User): (r: Result<seq<User>, Failure>)
    ensures r.Ok? <==> Complete(u) && forall j :: 0 <= j < |users| ==> !Clash(users[j], u)
    ensures r.Ok? ==> r.value == users + [u]
    ensures !Complete(u) ==> r == Err(INVALID)
    ensures Complete(u) && r.Err? ==> r.error == DUPLICATE
  {
    if !Complete(u) then Err(INVALID)
    else match Find(users, ClashingWith(u))
    case None => Ok(users + [u])
    case Some(_) => Err(DUPLICATE)
  }

  /** `updateOne({ _id: id }, { $set: { firstName, lastName, email, logtoId } })`:
      no match is a no-op, and a write that clashes with another user is
      rejected. */
  function UpdateById(users: seq<User>, id: string, firstName: string, lastName: string,
                      email: string, logtoId: string): (r: Result<seq<User>, Failure>)
    ensures FindById(users, id).None? ==> r == Ok(users)
    ensures r.Err? ==> r.error == DUPLICATE
    ensures r.Ok? ==> |r.value| == |users|
    ensures FindById(users, id).Some? ==>
      var i := FindById(users, id).value;
      r.Err? <==> (exists j :: 0 <= j < |users| && j != i
                     && (users[j].id == users[i].id || users[j].email == email || users[j].logtoId == logtoId))
    ensures FindById(users, id).Some? && r.Ok? ==>
      var i := FindById(users, id).value;
      && r.value[i].id == id && r.value[i].isAdmin == users[i].isAdmin
      && r.value[i].firstName == firstName && r.value[i].lastName == lastName
      && r.value[i].email == email && r.value[i].logtoId == logtoId
      && forall j :: 0 <= j < |users| && j != i ==> r.value[j] == users[j]
  {
    match FindById(users, id)
    case None => Ok(users)
    case Some(i) =>
      var u := users[i].(firstName := firstName, lastName := lastName, email := email, logtoId := logtoId);
      if exists j :: 0 <= j < |users| && j != i && Clash(users[j], u) then Err(DUPLICATE)
      else Ok(users[i := u])
  }

  /** Appending a user that clashes with nobody keeps the invariant. */
  lemma InsertKeepsValid(users: seq<User>, u: User)
    requires Valid(users) && u.logtoId == u.id
    ensures Insert(users, u).Ok? ==> Valid(Insert(users, u).value)
  {
    if Insert(users, u).Ok? {
      var r := users + [u];
      forall i, j | 0 <= i < j < |r|
        ensures !Clash(r[i], r[j])
      {
        if j == |users| {
          assert r[j] == u && r[i] == users[i];
        }
      }
    }
  }

  /** An update that keeps `logtoId` equal to the id keeps the invariant,
      and changes only the matched user. */
  lemma UpdateKeepsValid(users: seq<User>, id: string, firstName: string, lastName: string, email: string)
    requires Valid(users)
    ensures var r := UpdateById(users, id, firstName, lastName, email, id);
      r.Ok? ==> Valid(r.value)
    ensures var r := UpdateById(users, id, firstName, lastName, email, id);
      r.Ok? ==> forall j :: 0 <= j < |users| && users[j].id != id ==> r.value[j] == users[j]
  {
    var r := UpdateById(users, id, firstName, lastName, email, id);
    if r.Ok? && FindById(users, id).Some? {
      var i := FindById(users, id).value;
      var u := users[i].(firstName := firstName, lastName := lastName, email := email, logtoId := id);
      assert r.value == users[i := u];
      forall a, b | 0 <= a < b < |r.value|
        ensures !Clash(r.value[a], r.value[b])
      {
        if a == i {
          assert !Clash(users[b], u);
        } else if b == i {
          assert !Clash(users[a], u);
        }
      }
    }
  }

  // ---------------------------------------------------------------------
  // Names from a Logto profile

  /** `a || b` on an optional string: `a` unless it is missing or empty. */
  function OrElse(a: Option<string>, b: string): string {
    if Given(a) then a.value else b
  }

  function GivenName(u: LogtoUser): Option<string> {
    if u.profile.Some? then u.profile.value.givenName else None
  }

  function FamilyName(u: LogtoUser): Option<string> {
    if u.profile.Some? then u.profile.value.familyName else None
  }

  /** `profile?.givenName || name || ''`: the given name has precedence
      over the display name, and the result is empty only when both are. */
  function FirstNameOf(u: LogtoUser): (r: string)
    ensures r == "" <==> !Given(GivenName(u)) && !Given(u.name)
    ensures Given(GivenName(u)) ==> r == GivenName(u).value
    ensures !Given(GivenName(u)) && Given(u.name) ==> r == u.name.value
  {
    OrElse(GivenName(u), OrElse(u.name, ""))
  }

  /** `profile?.familyName || ''`. */
  function LastNameOf(u: LogtoUser): (r: string)
    ensures r == "" <==> !Given(FamilyName(u))
    ensures Given(FamilyName(u)) ==> r == FamilyName(u).value
  {
    OrElse(FamilyName(u), "")
  }

  /** A Logto user whose profile yields both names the schema requires: a
      given or display name, and a family name. */
  predicate Named(u: LogtoUser) {
    (Given(GivenName(u)) || Given(u.name)) && Given(FamilyName(u))
  }

  // ---------------------------------------------------------------------
  // The Logto lookup

  /** The management API path of one user. */
  const USER_PATH: string := "/api/users/{userId}"

  /** A string property of the JSON body; any other value reads as missing. */
  function Text(v: Json.Value): Option<string> {
    if v.Str? then Some(v.s) else None
  }

  /** The Logto user a JSON body describes. */
  function ReadLogtoUser(v: Json.Value): LogtoUser {
    var p := Json.Member(v, "profile");
    LogtoUser(
      if v.Obj? && Json.Get(v.fields, "id").Str? then Json.Get(v.fields, "id").s else "",
      Text(Json.Member(v, "primaryEmail")),
      Text(Json.Member(v, "name")),
      if p.Obj? then Some(Profile(Text(Json.Member(p, "givenName")), Text(Json.Member(p, "familyName")))) else None)
  }

  /** `logtoUsersService.findOne(id)`: a `GET` of the user through the
      management client, given the client's reply; a falsy body is the
      `undefined` the service tests for. The client's error passes through,
      and the lookup never yields `undefined`: a falsy body is already an
      `InternalServerErrorException`. */
  function FindInLogto(s: Logto.LogtoService, reply: Result<Logto.ApiResponse, Failure>): (r: Result<Option<LogtoUser>, Failure>)
    ensures r.Err? <==> Logto.Request(s, Logto.GET, USER_PATH, reply).1.Err?
    ensures r.Err? ==> r.error == Logto.Request(s, Logto.GET, USER_PATH, reply).1.error
    ensures r.Err? ==> InstanceOf(r.error, InternalServerError) || (reply.Err? && r.error == reply.error)
    ensures r != Ok(None)
  {
    match Logto.Request(s, Logto.GET, USER_PATH, reply).1
    case Err(e) => Err(e)
    case Ok(body) => Ok(if Json.Truthy(body) then Some(ReadLogtoUser(body)) else None)
  }

  // ---------------------------------------------------------------------
  // The user service

  /** `findOne(idOrEmail)`: the first user whose `_id` or email matches,
      or NotFound. */
  function FindOne(users: seq<User>, idOrEmail: string): (r: Result<User, Failure>)
    ensures r.Ok? <==> exists j :: 0 <= j < |users| && (users[j].id == idOrEmail || users[j].email == idOrEmail)
    ensures r.Ok? ==> r.value in users && (r.value.id == idOrEmail || r.value.email == idOrEmail)
    ensures r.Err? ==> r.error == Raise(NotFound, "User not found: " + idOrEmail)
  {
    match Find(users, ByIdOrEmail(idOrEmail))
    case Some(i) => Ok(users[i])
    case None => Err(Raise(NotFound, "User not found: " + idOrEmail))
  }

  /** With the indexes intact, a stored user is found by its own id unless
      another user's email is that id, and by its own email unless another
      user's id is that email. */
  lemma FindOneStored(users: seq<User>, i: int)
    requires Unique(users) && 0 <= i < |users|
    ensures (forall j :: 0 <= j < |users| ==> users[j].email != users[i].id)
      ==> FindOne(users, users[i].id) == Ok(users[i])
    ensures (forall j :: 0 <= j < |users| ==> users[j].id != users[i].email)
      ==> FindOne(users, users[i].email) == Ok(users[i])
  {
    assert ByIdOrEmail(users[i].id)(users[i]) && ByIdOrEmail(users[i].email)(users[i]);
    var byId := Find(users, ByIdOrEmail(users[i].id));
    var byEmail := Find(users, ByIdOrEmail(users[i].email));
    if forall j :: 0 <= j < |users| ==> users[j].email != users[i].id {
      var k := byId.value;
      assert k <= i;
    }
    if forall j :: 0 <= j < |users| ==> users[j].id != users[i].email {
      var k := byEmail.value;
      assert k <= i;
    }
  }

  const ALREADY_ONBOARDED: string := "User is already onboarded"
  const NOT_IN_LOGTO: string := "User not found in Logto"
  const EMAIL_REQUIRED: string := "User must have an email to be onboarded"
  const EMAIL_IN_USE: string := "Email is already in use"

  /** The user onboarding creates from a Logto user. */
  function Onboarded(logtoUserId: string, u: LogtoUser): User
    requires u.primaryEmail.Some?
  {
    User(logtoUserId, FirstNameOf(u), LastNameOf(u), u.primaryEmail.value, logtoUserId, Some(false))
  }

  /** `onboardFromLogto(logtoUserId)` given the outcome of the Logto
      lookup (`undefined` is `Ok(None)`): the new collection and the
      created user or the exception. The checks run in order: the id is
      free (Conflict), the lookup succeeds (its error propagates), the user
      exists in Logto (NotFound), it has an email (BadRequest), the email is
      free (Conflict); then `create` validates the required names and
      writes. */
  function Onboard(users: seq<User>, logtoUserId: string, lookup: Result<Option<LogtoUser>, Failure>): (r: (seq<User>, Result<User, Failure>))
    ensures FindById(users, logtoUserId).Some? ==> r.1 == Err(Raise(Conflict, ALREADY_ONBOARDED))
    ensures FindById(users, logtoUserId).None? && lookup.Err? ==> r.1 == Err(lookup.error)
    ensures FindById(users, logtoUserId).None? && lookup == Ok(None) ==> r.1 == Err(Raise(NotFound, NOT_IN_LOGTO))
    ensures FindById(users, logtoUserId).None? && lookup.Ok? && lookup.value.Some? && !Given(lookup.value.value.primaryEmail)
      ==> r.1 == Err(Raise(BadRequest, EMAIL_REQUIRED))
    ensures FindById(users, logtoUserId).None? && lookup.Ok? && lookup.value.Some? && Given(lookup.value.value.primaryEmail)
      && FindByEmail(users, lookup.value.value.primaryEmail.value).Some?
      ==> r.1 == Err(Raise(Conflict, EMAIL_IN_USE))
    ensures FindById(users, logtoUserId).None? && lookup.Ok? && lookup.value.Some? && Given(lookup.value.value.primaryEmail)
      && FindByEmail(users, lookup.value.value.primaryEmail.value).None?
      && (logtoUserId == "" || !Named(lookup.value.value))
      ==> r.1 == Err(INVALID)
    ensures r.1.Err? ==> r.0 == users
    ensures r.1.Ok? ==>
      && lookup.Ok? && lookup.value.Some? && lookup.value.value.primaryEmail.Some?
      && logtoUserId != "" && Named(lookup.value.value)
      && r.1.value == Onboarded(logtoUserId, lookup.value.value) && r.0 == users + [r.1.value]
  {
    if FindById(users, logtoUserId).Some? then (users, Err(Raise(Conflict, ALREADY_ONBOARDED)))
    else match lookup
    case Err(e) => (users, Err(e))
    case Ok(None) => (users, Err(Raise(NotFound, NOT_IN_LOGTO)))
    case Ok(Some(found)) =>
      if !Given(found.primaryEmail) then (users, Err(Raise(BadRequest, EMAIL_REQUIRED)))
      else if FindByEmail(users, found.primaryEmail.value).Some? then (users, Err(Raise(Conflict, EMAIL_IN_USE)))
      else
        var u := Onboarded(logtoUserId, found);
        match Insert(users, u)
        case Ok(next) => (next, Ok(u))
        case Err(e) => (users, Err(e))
  }

  /** With the lookup made through the management client, the "not found
      in Logto" branch is unreachable: a user Logto does not return is an
      `InternalServerErrorException` from the client, which onboarding
      passes on. Unless the client call itself throws, onboarding never
      fails with a NotFound. */
  lemma OnboardNeverNotFound(users: seq<User>, logtoUserId: string, s: Logto.LogtoService, reply: Result<Logto.ApiResponse, Failure>)
    requires reply.Ok?
    ensures var r := Onboard(users, logtoUserId, FindInLogto(s, reply)).1;
      r.Err? ==> !InstanceOf(r.error, NotFound)
  {
  }

  /** On a valid collection, a Logto user with an email and both names,
      whose id and email are both free, is always onboarded: as a non-admin whose `_id` and
      `logtoId` are the Logto id, and the collection stays valid. */
  lemma OnboardCreates(users: seq<User>, logtoUserId: string, u: LogtoUser)
    requires Valid(users) && Given(u.primaryEmail) && Named(u) && logtoUserId != ""
    requires FindById(users, logtoUserId).None? && FindByEmail(users, u.primaryEmail.value).None?
    ensures var r := Onboard(users, logtoUserId, Ok(Some(u)));
      && r.1.Ok?
      && r.1.value.id == logtoUserId && r.1.value.logtoId == logtoUserId
      && r.1.value.isAdmin == Some(false) && r.1.value.email == u.primaryEmail.value
      && Valid(r.0)
  {
    var n := Onboarded(logtoUserId, u);
    forall j | 0 <= j < |users|
      ensures !Clash(users[j], n)
    {
      assert users[j].id != logtoUserId;
      assert users[j].email != n.email;
      assert users[j].logtoId == users[j].id;
    }
    InsertKeepsValid(users, n);
  }

  /** Onboarding keeps the collection's invariant, whatever the outcome. */
  lemma OnboardKeepsValid(users: seq<User>, logtoUserId: string, lookup: Result<Option<LogtoUser>, Failure>)
    requires Valid(users)
    ensures Valid(Onboard(users, logtoUserId, lookup).0)
  {
    if lookup.Ok? && lookup.value.Some? && lookup.value.value.primaryEmail.Some? {
      InsertKeepsValid(users, Onboarded(logtoUserId, lookup.value.value));
    }
  }

  /** Onboarding the same id a second time is a Conflict and changes
      nothing. */
  lemma OnboardTwice(users: seq<User>, logtoUserId: string, lookup: Result<Option<LogtoUser>, Failure>)
    requires Onboard(users, logtoUserId, lookup).1.Ok?
    ensures var next := Onboard(users, logtoUserId, lookup).0;
      Onboard(next, logtoUserId, lookup) == (next, Err(Raise(Conflict, ALREADY_ONBOARDED)))
  {
    var next := Onboard(users, logtoUserId, lookup).0;
    assert next[|users|].id == logtoUserId;
  }

  /** The view of a user the request carries. */
  datatype CurrentUser = CurrentUser(id: string, username: string, name: string, email: string, isAdmin: bool)

  /** `toCurrentUser(user)`: the email is both username and email, the name
      is first and last name separated by a space, and only a stored `true`
      makes an admin. */
  function ToCurrentUser(u: User): (r: CurrentUser)
    ensures r.id == u.id && r.username == u.email && r.email == u.email
    ensures r.isAdmin <==> u.isAdmin == Some(true)
    ensures |r.name| == |u.firstName| + 1 + |u.lastName| && r.name[|u.firstName|] == ' '
    ensures r.name[..|u.firstName|] == u.firstName && r.name[|u.firstName| + 1..] == u.lastName
  {
    CurrentUser(u.id, u.email, u.firstName + " " + u.lastName, u.email, u.isAdmin == Some(true))
  }

  /** A freshly onboarded user is found by its Logto id (when no email is
      that id), is not an admin, and is named from its Logto profile. */
  lemma OnboardedCurrentUser(users: seq<User>, logtoUserId: string, u: LogtoUser)
    requires Valid(users) && Given(u.primaryEmail) && Named(u) && logtoUserId != ""
    requires FindById(users, logtoUserId).None? && FindByEmail(users, u.primaryEmail.value).None?
    requires u.primaryEmail.value != logtoUserId
    requires forall j :: 0 <= j < |users| ==> users[j].email != logtoUserId
    ensures var next := Onboard(users, logtoUserId, Ok(Some(u))).0;
      && FindOne(next, logtoUserId).Ok?
      && ToCurrentUser(FindOne(next, logtoUserId).value)
         == CurrentUser(logtoUserId, u.primaryEmail.value, FirstNameOf(u) + " " + LastNameOf(u), u.primaryEmail.value, false)
  {
    OnboardCreates(users, logtoUserId, u);
    var next := Onboard(users, logtoUserId, Ok(Some(u))).0;
    assert next[|users|].email != logtoUserId;
    FindOneStored(next, |users|);
  }

  // ---------------------------------------------------------------------
  // The Logto webhook

  /** The user reference of a webhook event. */
  datatype WebhookUser = WebhookUser(id: string)

  /** A Logto webhook payload: the event name and the user reference in
      `data` (user events) or `user` (sign-in events). */
  datatype WebhookPayload = WebhookPayload(event: string, data: Option<WebhookUser>, user: Option<WebhookUser>)

  /** The service calls a webhook makes. */
  datatype Call = OnboardCall(id: string) | RemoveCall(id: string)

  /** What handling a webhook leaves: the collection, the service calls in
      order, and the response (`Ok` is 200). */
  datatype WebhookOutcome = WebhookOutcome(users: seq<User>, calls: seq<Call>, result: Result<(), Failure>)

  const ONBOARD_EVENTS: set<string> := {"User.Created", "PostRegister"}
  const REMOVE_EVENT: string := "User.Deleted"
  const INVALID_USER_ID: string := "Invalid Logto user ID in webhook payload"

  function RefId(w: Option<WebhookUser>): Option<string> {
    if w.Some? then Some(w.value.id) else None
  }

  /** `payload.data?.id || payload.user?.id`, when not empty. */
  function WebhookUserId(p: WebhookPayload): (r: Option<string>)
    ensures r.Some? ==> r.value != ""
    ensures r.Some? <==> Given(RefId(p.data)) || Given(RefId(p.user))
    ensures Given(RefId(p.data)) ==> r == RefId(p.data)
    ensures !Given(RefId(p.data)) && Given(RefId(p.user)) ==> r == RefId(p.user)
  {
    var id := OrElse(RefId(p.data), OrElse(RefId(p.user), ""));
    if id == "" then None else Some(id)
  }

  /** The `catch`: Conflict and NotFound (and their subclasses) end the
      request successfully; any other failure propagates. */
  function Swallow<T>(r: Result<T, Failure>): (s: Result<(), Failure>)
    ensures s.Err? <==> r.Err? && !InstanceOf(r.error, Conflict) && !InstanceOf(r.error, NotFound)
    ensures s.Err? ==> s.error == r.error
  {
    if r.Ok? || InstanceOf(r.error, Conflict) || InstanceOf(r.error, NotFound) then Ok(())
    else Err(r.error)
  }

  /** `handleLogtoWebhook(payload)`, given the management client onboarding
      looks the user up with, its reply, and the outcome of removing a
      user. */
  function HandleWebhook(users: seq<User>, p: WebhookPayload, logto: Logto.LogtoService,
                         reply: Result<Logto.ApiResponse, Failure>, removal: Result<(), Failure>): (r: WebhookOutcome)
    ensures WebhookUserId(p).None? ==> r == WebhookOutcome(users, [], Err(Raise(BadRequest, INVALID_USER_ID)))
    ensures WebhookUserId(p).Some? && p.event in ONBOARD_EVENTS
      ==> r.calls == [OnboardCall(WebhookUserId(p).value)]
          && r.result == Swallow(Onboard(users, WebhookUserId(p).value, FindInLogto(logto, reply)).1)
    ensures WebhookUserId(p).Some? && p.event == REMOVE_EVENT
      ==> r.calls == [RemoveCall(WebhookUserId(p).value)] && r.users == users && r.result == Swallow(removal)
    ensures p.event !in ONBOARD_EVENTS && p.event != REMOVE_EVENT ==> r.calls == [] && r.users == users
    ensures WebhookUserId(p).Some? ==> r.result.Err? ==> !InstanceOf(r.result.error, Conflict) && !InstanceOf(r.result.error, NotFound)
  {
    match WebhookUserId(p)
    case None => WebhookOutcome(users, [], Err(Raise(BadRequest, INVALID_USER_ID)))
    case Some(id) =>
      if p.event in ONBOARD_EVENTS then
        var (next, created) := Onboard(users, id, FindInLogto(logto, reply));
        WebhookOutcome(next, [OnboardCall(id)], Swallow(created))
      else if p.event == REMOVE_EVENT then
        WebhookOutcome(users, [RemoveCall(id)], Swallow(removal))
      else
        WebhookOutcome(users, [], Ok(()))
  }

  /** Onboarding events are safe to deliver twice: the second delivery
      answers as the first did and changes nothing more. */
  lemma WebhookRedelivery(users: seq<User>, p: WebhookPayload, logto: Logto.LogtoService,
                          reply: Result<Logto.ApiResponse, Failure>, removal: Result<(), Failure>)
    requires p.event in ONBOARD_EVENTS
    ensures var first := HandleWebhook(users, p, logto, reply, removal);
      var second := HandleWebhook(first.users, p, logto, reply, removal);
      second == first
  {
    match WebhookUserId(p)
    case None =>
    case Some(id) =>
      if Onboard(users, id, FindInLogto(logto, reply)).1.Ok? {
        OnboardTwice(users, id, FindInLogto(logto, reply));
      }
  }

  /** On a valid collection the response of an onboarding event fails only
      when the Logto lookup fails (an `InternalServerErrorException`, or
      the client's own error), when the Logto user has no email, or when it
      lacks a name the schema requires: the conflicts are swallowed, and a
      creation that passed the checks cannot fail otherwise. */
  lemma WebhookOnboardRejects(users: seq<User>, p: WebhookPayload, logto: Logto.LogtoService,
                              reply: Result<Logto.ApiResponse, Failure>, removal: Result<(), Failure>)
    requires Valid(users) && p.event in ONBOARD_EVENTS && WebhookUserId(p).Some?
    ensures var r := HandleWebhook(users, p, logto, reply, removal);
      r.result.Err? ==>
        || r.result.error == Raise(BadRequest, EMAIL_REQUIRED)
        || r.result.error == INVALID
        || (FindInLogto(logto, reply).Err? && r.result.error == FindInLogto(logto, reply).error)
  {
    var id := WebhookUserId(p).value;
    var lookup := FindInLogto(logto, reply);
    if lookup.Ok? && lookup.value.Some? && Given(lookup.value.value.primaryEmail) {
      var u := lookup.value.value;
      if FindById(users, id).None? && FindByEmail(users, u.primaryEmail.value).None? && Named(u) {
        OnboardCreates(users, id, u);
      }
    }
  }

  /** A user Logto answers for with an empty body fails the webhook: the
      client's `InternalServerErrorException` is not swallowed, and no user
      is created. */
  lemma WebhookMissingInLogto(users: seq<User>, p: WebhookPayload, logto: Logto.LogtoService,
                              response: Logto.ApiResponse, removal: Result<(), Failure>)
    requires p.event in ONBOARD_EVENTS && WebhookUserId(p).Some? && FindById(users, WebhookUserId(p).value).None?
    requires Logto.IsEnabled(logto) && !Json.Truthy(response.data)
    ensures var r := HandleWebhook(users, p, logto, Ok(response), removal);
      r.users == users && r.result == Err(Raise(InternalServerError, Logto.ErrorMessage(response.error)))
  {
  }
}

=== FILE: wrappers.dfy ===
/** Failure-compatible wrappers used throughout the model: `Option` for the
    source's `undefined`/`null`, `Result` for a value or a thrown error. */
module Wrappers {

  datatype Option<+T> = None | Some(value: T) {

    /** The wrapped value, or `default` when absent (the source's `??`). */
    function GetOr(default: T): T {
      match this
      case Some(v) => v
      case None => default
    }
  }

  datatype Result<+T, +E> = Ok(value: T) | Err(error: E) {

    predicate IsFailure() {
      Err?
    }

    function PropagateFailure<U>(): Result<U, E>
      requires Err?
    {
      Err(error)
    }

    function Extract(): T
      requires Ok?
    {
      value
    }
  }
}
